=== FILE: README.md ===
# MGS cross-section tools in Dafny

This project models the arithmetic and list logic of the Minnesota
Geological Survey's ArcGIS cross-section scripts. Most of each script is
geoprocessing and file I/O; the model keeps the part that decides where
things are drawn, which rows are kept, and which errors are raised.

A cross-section is drawn in one of two display systems (module
`Transforms`):

- **Stacked.** Every statewide cross-section line `mn_et_id` gets its own
  horizontal band. A point keeps its map x, and an elevation `z` in feet
  becomes `y = ((z * 0.3048) - 700 * id) * VE + 23100000`.
- **Traditional.** The distance along the line in metres becomes
  `x = (m / 0.3048) / VE`, and y is the elevation itself.

What is modelled:

- **Display-space geometry** (`Builders`, `BorderTools`). This covers
  vertical marker lines, stacked and traditional boxes, and polygons capped
  at a band's top or floor. It also covers the statewide band polygons, the
  project-area rectangle and the bedrock midpoint line.
- **Reference grids** (`ReferenceGrid`). Elevation and UTM-X value lists are
  built with `range` and the remove-while-iterating loop. The module also
  covers the county filter, the text-sorted id list, stacked and
  traditional grid lines, reference polygons, and the general, statewide
  and older statewide tools. The stacked tools draw their UTM-X lines
  over the span as written (`ReferenceGrid.UtmxSpan`). The first finding
  below shows the bands that span can miss; `ReferenceGrid.CorrectedGridLines`
  is the line file with the corrected span.
- **Conversions between systems.** `TraditionalConversion` models
  stacked to traditional, and `TrueXConversion` models true-Y or stacked to
  true X. `Reprojection` copies a feature onto every line or onto chosen
  lines. `SurfaceProfiles` draws profile segments and their end points.
  `XsecFeatures` holds the per-line feature loop these tools share.
- **Well sticks** (`WellSticks`). This covers stick coordinates in both
  systems, `OnLine_DIST`, `pct_dist`, the rules for skipping and matching
  records, the warning lists that compare the three tables, buffer widths
  and output names.
- **Ids** (`CrossSectionIds`). It covers `et_id` labels counted from the
  county's smallest id and zero-padded to two characters, de-duplicated id
  lists, the statewide range 0..660, the id-field check and buffer texts.
- **QC tools.**
  - `AngleChecks`: the line-angle scan around the lowest vertex, the older
    check against the line's ends, the deletion of blank units, and keeping
    the highest point per duplicated id.
  - `UnitLists`: unit-list cleaning, the duplicate check, stratline and
    surficial-geology unit scans, the surface/subsurface partition and the
    per-unit files.
  - `UnitMasks`: the date code, buffer sizes and the back-projection onto
    the map.
- **Shared bookkeeping.** `FieldLists` builds join-field lists, the
  dissolve list, the unique-id source field and output attributes.
  `OutputNames` builds output names.
- **Python semantics the scripts rely on.** `PyLists` covers `range`,
  `list.remove`, the for loop that skips the element after each removal,
  and first-seen de-duplication. `PyStrings` covers `strip`, `split`,
  `replace`, `os.path.basename`, text ordering, and `str()`/`int()` of
  integers. `PyNumbers` covers `int()` of a float, `round(n, -3)`, `min`
  and `max`.
- **Errors** (`Wrappers`). A Python exception (IndexError,
  ZeroDivisionError, ValueError from `int()` or `list.remove`, TypeError on
  `None`) is a `Failure` value. `None` field values are `Option`.

Coordinates are exact reals. Library calls whose results the scripts only
consume are parameters of the model. These are `measureOnLine`, the near
analysis, intersections and the line-end extension.

## Model

| member | source | states |
|---|---|---|
| Transforms.StackedPoint | Scripts/RasterProfiles.py:186-191 | A point drawn in the stacked view keeps its map x, and the inverse transform reads back exactly the elevation it was drawn from |
| Transforms.StackedRoundTrip | Scripts/ProjectDataToAllXsec_Stacked.py:221-225 | Taking a stacked y back to an elevation (`(y-23100000)/(VE*0.3048) + relief*id/0.3048`) undoes the forward transform, for every elevation, id, relief and nonzero VE |
| Transforms.StackedInverseRoundTrip | Scripts/ProjectDataToAllXsec_Stacked.py:221-225 | Drawing the recovered elevation again in the same band gives back the original y |
| Transforms.ReprojectShift | Scripts/ProjectDataToAllXsec_Stacked.py:221-225 | Re-projecting from band `a` to band `b` moves y by `relief*VE*(a-b)`, the same for every elevation |
| Transforms.ReprojectSameBand | Stacked_CrossSections/Scripts/ProjectDataToSelectedXsec_Stacked.py:252-257 | Re-projecting a feature onto its own band leaves it where it was |
| Transforms.ReprojectCompose | Scripts/ProjectDataToAllXsec_Stacked.py:252-254 | Re-projecting a to b and then b to c is the same as re-projecting a to c |
| Transforms.StackedMonotone | Stacked_CrossSections/Scripts/CreateLixpys_StackedXSEC.py:519-520 | With a positive VE, higher ground is drawn strictly higher within a band, in both directions |
| Transforms.BandDeterminesId | Scripts/Project_to_Xsec_View.py:244-245 | Within the 50-2300 ft drawing bands, one stacked y belongs to exactly one id and elevation |
| Transforms.TraditionalRoundTrip | Xsec_CoordinateSystemConversionTools/Scripts/archive/MGS_Convert_Xsec_to_True_X102122.py:192 | Expanding a traditional x by `0.3048*VE` gives back the along-line distance that `(m/0.3048)/VE` compressed |
| Transforms.TrueXRoundTrip | Scripts/RasterProfiles.py:225-227 | Compressing an expanded distance again gives back the traditional x |
| Transforms.TraditionalMonotone | Scripts/PolygonProfileIntersect.py:239-241 | With a positive VE, a point farther along the line is drawn strictly farther right, in both directions |
| Builders.MarkerLines | Scripts/Project_to_Xsec_View.py:247-276 | A point crossing gives one vertical line at its x; a segment crossing gives two, at its first and last vertex x; every line runs from the band floor to the band top |
| Builders.StackedMarkersSeparated | Stacked_CrossSections/Scripts/Border_Intersect_Lines.py:129-153 | Stacked marker lines of line `id` stay inside its 50-2300 ft band: strictly above every feature drawn in a later band and strictly below every feature drawn in an earlier one |
| Builders.TraditionalMarkerDistance | Scripts/Project_to_Xsec_View.py:299-354 | A traditional marker runs from 0 to 2500 at the compressed measure, and expanding its x gives the measured distance back |
| Builders.BoxAxisAligned | Scripts/PolygonBoxes.py:194-202 | Every edge of the four-corner box ring is vertical or horizontal |
| Builders.StackedBox | Scripts/PolygonBoxes.py:184-204 | The stacked box has four corners, x0 on its left edge and xN on its right, axis-aligned edges, and lies inside the 50-2300 ft band of its line |
| Builders.CornerOrderBox | Stacked_CrossSections/Scripts/Polygon_Boxes_Stacked.py:156-173 | Appending the corners as pt1, pt2, pt4, pt3 draws the same ring as the two-system box tool |
| Builders.TraditionalBox | Scripts/PolygonBoxes.py:217-262 | The traditional box's left and right x expand back to the measured distances of the first and last points; its y stays between 50 and 2300 |
| Builders.CapPolygon | Scripts/CheckStratOrderAndLineAngles.py:305-309 | The capped polygon is the profile followed by two vertices at the cap height: above the last vertex, then above the first |
| Builders.CapPolygonsInBand | Stacked_CrossSections/Scripts/Archive/CheckStratOrder.py:182-186 | A profile inside its band gives an above polygon (capped at the band top) and a below polygon (capped at the floor) that also lie inside the band |
| Builders.BandPolygon | Stacked_CrossSections/Scripts/Assign_XS_id_Stacked.py:117-134 | The band polygon of an id is an axis-aligned four-corner ring between the stacked heights of the minimum and maximum elevation |
| Builders.TopLeftRing | Scripts/ProjectDataToAllXsec_Stacked.py:134-143 | The ring runs top-left, top-right, bottom-right, bottom-left, and lies between its bottom and top heights |
| Builders.BandPolygonsOverlap | Scripts/ProjectDataToAllXsec_Stacked.py:134-135 | The 0-2300 ft polygons of neighbouring ids overlap: the top of id `k+1` is 52 units above the bottom of id `k` |
| Builders.BandPolygonsDisjoint | Stacked_CrossSections/Scripts/ProjectDataToSelectedXsec_Stacked.py:155-156 | The 50-2300 ft polygons of different ids do not meet: a later id lies strictly below an earlier one |
| Builders.ProjectArea | Scripts/CreateCrossSectionGDB.py:171-180 | The project-area rectangle is axis-aligned and contains every vertex of the mapping boundary |
| Builders.ProjectAreaTight | Stacked_CrossSections/Scripts/Create_Stacked_Xsec_GDB.py:124-133 | The rectangle is the tightest one: each of its four sides touches a boundary vertex |
| Builders.MidIndex | Scripts/Adjust_Stratlines_up_to_bedrock.py:171-172 | `int(len/2)` is a valid index of the list, and it splits the list into two halves that differ by at most one |
| Builders.MidpointLine | Scripts/Adjust_Stratlines_up_to_bedrock.py:169-178 | The bedrock test line starts at the profile's middle vertex, index `int(len/2)`, and runs straight down to the band floor of its line |
| TraditionalConversion.ToTraditionalPoint | Xsec_CoordinateSystemConversionTools/Scripts/MGS_Convert_Xsec_to_Traditional.py:243-249 | A converted vertex's x is the traditional x of its distance from the line's western end, scaled by the literal's ratio; drawing its y back in the stacked band gives the input y |
| TraditionalConversion.ToTraditionalElevation | Xsec_CoordinateSystemConversionTools/Scripts/MGS_Convert_Xsec_to_Traditional.py:178 | A point drawn in the stacked view at elevation `z` comes back at exactly `z` |
| TraditionalConversion.ToTraditionalOrder | Xsec_CoordinateSystemConversionTools/Scripts/MGS_Convert_Xsec_to_Traditional.py:155-174 | The western end of the line lands at x 0, and with a positive exaggeration west-to-east order is kept in both directions |
| TraditionalConversion.ConvertXslnToTraditional | Xsec_CoordinateSystemConversionTools/Scripts/MGS_Convert_Xsec_to_Traditional.py:198-261 | A line without `mn_et_id` produces nothing. A line raises exactly when its `mn_et_id` text is not an integer, it has no vertices, or, for points, one of its rows has a null geometry or an exaggeration is zero. Every row it writes carries its `et_id` and `mn_et_id` text |
| TraditionalConversion.ConvertToTraditional | Xsec_CoordinateSystemConversionTools/Scripts/MGS_Convert_Xsec_to_Traditional.py:129-339 | The run fails exactly when one of the lines raises, and every row written carries an `mn_et_id` |
| TraditionalConversion.ConvertToTraditionalOutputs | Xsec_CoordinateSystemConversionTools/Scripts/MGS_Convert_Xsec_to_Traditional.py:228-261 | The rows written are exactly the selected, non-null features of the lines with an integer `mn_et_id` whose conversion goes through, each vertex converted with its line's western end and id |
| TraditionalConversion.ConvertToTraditionalZeroVE | Xsec_CoordinateSystemConversionTools/Scripts/MGS_Convert_Xsec_to_Traditional.py:237-261 | With a zero exaggeration the `try` / `except: continue` drops every line or polygon feature that has vertices |
| TraditionalConversion.TraditionalVertex | Xsec_CoordinateSystemConversionTools/Scripts/MGS_Convert_Xsec_to_Traditional.py:243-249 | The vertex conversion raises exactly when one of the two exaggerations is zero, and otherwise is the traditional point of the line's western end and id |
| TraditionalConversion.IdAfterJoin | Xsec_CoordinateSystemConversionTools/Scripts/MGS_Convert_Xsec_to_Traditional.py:76-91 | After the planned join both tables hold `mn_et_id` exactly when the plan is not the error, and the error is planned exactly when neither table has the field |
| TrueXConversion.ParseSystem | Xsec_CoordinateSystemConversionTools/Scripts/archive/MGS_Convert_Xsec_to_True_X102122.py:67-74 | Only "true Y" and "stacked" are accepted, and the accepted system is the one the text names |
| TrueXConversion.TrueYToTrueX | Xsec_CoordinateSystemConversionTools/Scripts/archive/MGS_Convert_Xsec_to_True_X102122.py:192-196 | Compressing the new x's distance from the western end gives back the true-Y x; dividing the new y by `0.3048*outVE` gives back the input y; a zero input exaggeration puts every point at the western end, and a zero output exaggeration puts it at y = 0 |
| TrueXConversion.TrueYToTrueXDistance | Xsec_CoordinateSystemConversionTools/Scripts/archive/MGS_Convert_Xsec_to_True_X102122.py:192-194 | A point at distance `m` along a line, drawn traditionally, goes back to map distance `m` from the western end |
| TrueXConversion.StackedToTrueX | Xsec_CoordinateSystemConversionTools/Scripts/archive/MGS_Convert_Xsec_to_True_X102122.py:197-204 | Stacked input keeps x, and y is the band's offset rescaled by `outVE/inVE` plus `relief*id*outVE` |
| TrueXConversion.StackedToTrueXElevation | Xsec_CoordinateSystemConversionTools/Scripts/archive/MGS_Convert_Xsec_to_True_X102122.py:202-204 | A stacked point at elevation `z` becomes `z*0.3048*outVE` |
| TrueXConversion.TrueXVertex | Xsec_CoordinateSystemConversionTools/Scripts/archive/MGS_Convert_Xsec_to_True_X102122.py:189-204 | The vertex conversion raises exactly in the stacked system with a zero input exaggeration; true-Y input only multiplies |
| TrueXConversion.ConvertXslnToTrueX | Xsec_CoordinateSystemConversionTools/Scripts/archive/MGS_Convert_Xsec_to_True_X102122.py:234-308 | A line raises exactly when, in the stacked system, `int(mn_et_id)` fails, or it has no vertices, or, for points, a row has a null geometry or the stacked input exaggeration is zero. Its rows carry its `et_id`, and its `mn_et_id` only in the stacked system |
| TrueXConversion.ConvertToTrueX | Xsec_CoordinateSystemConversionTools/Scripts/archive/MGS_Convert_Xsec_to_True_X102122.py:137-308 | The run fails exactly when one of the lines raises; output rows carry an `mn_et_id` exactly in the stacked system |
| TrueXConversion.ConvertToTrueXOutputs | Xsec_CoordinateSystemConversionTools/Scripts/archive/MGS_Convert_Xsec_to_True_X102122.py:263-308 | The rows written are exactly the selected, non-null features of every line whose conversion goes through, each vertex converted with its line's western end or band |
| TrueXConversion.ConvertToTrueXZeroVE | Xsec_CoordinateSystemConversionTools/Scripts/archive/MGS_Convert_Xsec_to_True_X102122.py:272-308 | Stacked input with a zero input exaggeration: the `try` / `except: continue` drops every line or polygon feature that has vertices |
| TrueXConversion.ArchiveTrueXPoint | Xsec_CoordinateSystemConversionTools/Scripts/archive/MGS_Convert_Xsec_to_True_X.py:131-135 | Compressing the new x's distance from the western end gives back the input x |
| TrueXConversion.ArchiveXslnToTrueX | Xsec_CoordinateSystemConversionTools/Scripts/archive/MGS_Convert_Xsec_to_True_X.py:94-138 | A line raises exactly when it has no vertices or, for points, a selected row has a null geometry; its rows carry its `et_id` and no `mn_et_id` |
| TrueXConversion.ArchiveConvertToTrueX | Xsec_CoordinateSystemConversionTools/Scripts/archive/MGS_Convert_Xsec_to_True_X.py:91-245 | The run fails exactly when a line has no vertices or a selected point row has a null geometry; output rows carry no `mn_et_id`, and each carries the `et_id` of some cross-section line |
| TrueXConversion.ArchiveIsTrueYConversion | Xsec_CoordinateSystemConversionTools/Scripts/archive/MGS_Convert_Xsec_to_True_X.py:91-245 | The whole older converter is the newer one run on true-Y input with the same exaggeration in and out: same rows, same failures |
| XsecFeatures.MapPoints | Xsec_CoordinateSystemConversionTools/Scripts/MGS_Convert_Xsec_to_Traditional.py:238-252 | The converted geometry has as many vertices as the input, each the conversion of the vertex at the same position |
| XsecFeatures.Converted | Xsec_CoordinateSystemConversionTools/Scripts/MGS_Convert_Xsec_to_Traditional.py:237-261 | A feature's conversion raises exactly when the vertex arithmetic raises and it has vertices; otherwise the row has the line's labels, the feature's `unique_id`, and each vertex converted in place |
| XsecFeatures.ConvertSelected | Xsec_CoordinateSystemConversionTools/Scripts/MGS_Convert_Xsec_to_Traditional.py:159-261 | The point loop fails exactly when a row of the line has a null geometry or its arithmetic raises; the line and polygon loops never fail. At most one row per feature, each with the line's `et_id` and `mn_et_id` |
| XsecFeatures.ConvertLines | Xsec_CoordinateSystemConversionTools/Scripts/MGS_Convert_Xsec_to_Traditional.py:198-261 | The outer cursor fails exactly when some line raises, and otherwise writes exactly the rows of its lines |
| XsecFeatures.ConvertSelectedOutputs | Xsec_CoordinateSystemConversionTools/Scripts/MGS_Convert_Xsec_to_Traditional.py:228-261 | The rows one line writes are exactly its selected, non-null features whose conversion goes through |
| XsecFeatures.ConvertSelectedSkips | Xsec_CoordinateSystemConversionTools/Scripts/MGS_Convert_Xsec_to_Traditional.py:229-261 | A feature of another line, or a line or polygon feature with a null geometry or a conversion that raises, leaves the output unchanged |
| XsecFeatures.MinX | Xsec_CoordinateSystemConversionTools/Scripts/MGS_Convert_Xsec_to_Traditional.py:224 | `min(x_pointlist)` is at most every vertex x and equal to one of them |
| XsecFeatures.CheckStraight | Xsec_CoordinateSystemConversionTools/Scripts/MGS_Convert_Xsec_to_Traditional.py:146-152 | The warning is given exactly when the line has more than two vertices, and the error exactly when its first and last vertex differ in y; so a line that draws neither has every vertex at one y, and a line whose vertices all share one y never draws the error |
| FieldLists.RemoveEach | Scripts/ProjectDataToAllXsec_Stacked.py:307-331 | Over distinct lists, removing every listed name succeeds exactly when each is present (`list.remove` raises otherwise), and leaves exactly the other names, still distinct |
| FieldLists.RemoveEachIfPresent | Scripts/RasterProfiles.py:126-138 | Removing only the names present keeps the list's other names and nothing else |
| FieldLists.JoinFieldList | Scripts/ProjectDataToAllXsec_Stacked.py:307-331 | The join list succeeds exactly when every required field is present, and holds the input's fields minus the required and optional drops |
| FieldLists.ProjectAllJoinFields | Scripts/ProjectDataToAllXsec_Stacked.py:307-331 | The re-projection join list fails exactly when `mn_et_id` or `unique_id` is missing, and otherwise holds every other non-system field |
| FieldLists.BoxJoinFields | Scripts/PolygonBoxes.py:285-312 | The box join list holds exactly the input fields that are neither system fields nor the tool's own fields |
| FieldLists.ProfileJoinFields | Scripts/PolygonProfileIntersect.py:319-343 | The profile join list fails exactly when `unique_id` is missing, and otherwise holds the other non-system fields |
| FieldLists.XsecViewJoinFields | Scripts/Project_to_Xsec_View.py:385-412 | The view join list fails exactly when `unique_id` is missing; `mn_et_id` is dropped only in the stacked view |
| FieldLists.XsecViewJoinKeepsIdWhenTraditional | Scripts/Project_to_Xsec_View.py:385-412 | `mn_et_id` is joined back in the traditional view and not in the stacked view |
| FieldLists.RasterJoinFields | Scripts/RasterProfiles.py:126-138 | The raster join list is the xsln field names minus the id, geometry and join-bookkeeping fields |
| FieldLists.DissolveFieldNamesSound | Scripts/Project_to_Xsec_View.py:160-173 | Every dissolve field is an input field that is not dropped, and the remove-while-iterating loop equals the skip-after-removal reference |
| FieldLists.DissolveSkipsFieldAfterDropped | Scripts/Project_to_Xsec_View.py:160-173 | The field right after a dropped first field is never examined and so never reaches the dissolve list |
| FieldLists.DissolveFieldNamesKeepsAll | Scripts/Project_to_Xsec_View.py:160-173 | With no dropped names in the table, every field is kept in order |
| FieldLists.UniqueIdSource | Scripts/PolygonBoxes.py:127-135 | No source field exactly when the table has none of the candidates; otherwise the first candidate, in the tool's order, that the table has |
| FieldLists.OutputAttribute | Stacked_CrossSections/Scripts/Border_Intersect_Lines.py:101-107 | With no chosen field the output is labelled `source_file` with the input's basename; otherwise with the chosen field and the row's value |
| BorderTools.BorderLines | Stacked_CrossSections/Scripts/Border_Intersect_Lines.py:122-157 | A segment fails exactly when its `mn_et_id` is null or not an integer, or it has no vertices; otherwise two lines, both carrying the segment's ids and attribute, drawn as the marker lines of the segment's band |
| BorderTools.BorderLinesAtEnds | Stacked_CrossSections/Scripts/Border_Intersect_Lines.py:136-150 | The two lines are vertical at the segment's first and last x and lie in the band of the line its `mn_et_id` names |
| BorderTools.BorderTable | Stacked_CrossSections/Scripts/Border_Intersect_Lines.py:118-157 | The tool fails exactly when some segment fails; otherwise its lines are exactly the lines of the segments |
| BorderTools.ExclusionBox | Stacked_CrossSections/Scripts/Tribal_Land_Exclusion.py:120-150 | A segment fails exactly when its `mn_et_id` is null or not an integer, or it has no vertices; otherwise its box is the stacked band box between its first and last x, labelled with its ids and attribute |
| BorderTools.ExclusionTable | Stacked_CrossSections/Scripts/Tribal_Land_Exclusion.py:116-150 | The tool fails exactly when some segment fails; otherwise one box per segment, each inside its line's band |
| CrossSectionIds.IntsOfFields | Scripts/CreateCrossSectionGDB.py:208-212 | The loop fails exactly when some row's id is null or not an integer, and otherwise yields each row's integer in row order |
| CrossSectionIds.MinId | Scripts/CreateCrossSectionGDB.py:215 | `min()` is a member of the list and at most every member |
| CrossSectionIds.EtIdLabel | Scripts/CreateCrossSectionGDB.py:220-228 | The label reads back with `int()` as the id's position counted from 1 at the smallest id, and is at least two characters long; from the smallest id on it is all digits, starts with "0" exactly for positions 1-9, and is exactly two characters up to position 99 |
| CrossSectionIds.EtIdLabels | Scripts/CreateCrossSectionGDB.py:206-229 | The pass fails exactly on an empty table or a bad id; otherwise the smallest id is labelled "01", every label reads back as at least 1, and label differences equal id differences |
| CrossSectionIds.EtIdLabelsWithGap | Scripts/CreateCrossSectionGDB.py:215-228 | Ids m, m+1, m+2, m+4 are labelled "01", "02", "03", "05": a missing line leaves a gap in the labels |
| CrossSectionIds.IdsAsTextReadBack | Scripts/CreateCrossSectionGDB.py:208-212 | Ids written with `str()` read back with `int()` as the same ids in the same order |
| CrossSectionIds.BufferText | Scripts/CreateCrossSectionGDB.py:151 | The buffer text splits into the number's text and the unit word "Miles" |
| CrossSectionIds.StackedBufferText | Stacked_CrossSections/Scripts/Create_Stacked_Xsec_GDB.py:104 | A distance text without spaces splits into itself and "Miles" |
| CrossSectionIds.NoSpaceInInt | Scripts/CreateCrossSectionGDB.py:151 | The text of an integer has no space in it |
| CrossSectionIds.CheckIdField | Stacked_CrossSections/Scripts/Assign_XS_id_Stacked.py:67-79 | The loop notes a `mn_et_id` field exactly when the table has one, and a text one exactly when some `mn_et_id` field has type String |
| CrossSectionIds.IdFieldErrors | Stacked_CrossSections/Scripts/Assign_XS_id_Stacked.py:67-83 | No error exactly when the join is not asked for or a text `mn_et_id` field exists; with no such field both errors are printed |
| CrossSectionIds.XslnIdList | Stacked_CrossSections/Scripts/Assign_XS_id_Stacked.py:105-112 | The id list fails exactly on a bad id; otherwise it is distinct and holds exactly the rows' ids |
| CrossSectionIds.StatewideIds | Stacked_CrossSections/Scripts/Assign_XS_id_Stacked.py:102 | `range(661)`-style lists hold 0 to n-1 in order, distinct |
| CrossSectionIds.AssignIdList | Stacked_CrossSections/Scripts/Assign_XS_id_Stacked.py:100-112 | Without the join the 661 statewide ids in order; with it the xsln id list; distinct either way |
| CrossSectionIds.XslnIdListOfDistinct | Stacked_CrossSections/Scripts/Assign_XS_id_Stacked.py:105-112 | A table whose ids are already distinct gives its ids in row order |
| CrossSectionIds.IdPolygons | Stacked_CrossSections/Scripts/Assign_XS_id_Stacked.py:117-134 | One polygon per id, in id-list order |
| CrossSectionIds.IdPolygonOf | Stacked_CrossSections/Scripts/Assign_XS_id_Stacked.py:119-131 | The polygon's tag reads back as its id, and it spans the state from 0 to 2300 ft in that id's band |
| CrossSectionIds.StatewidePolygonsOverlap | Stacked_CrossSections/Scripts/Assign_XS_id_Stacked.py:87-92 | Consecutive statewide band polygons overlap by 52 display units |
| OutputNames.VeTag | Scripts/PolygonBoxes.py:146 | The exaggeration tag starts with `_`, ends with `x`, and holds no path separator |
| OutputNames.VeTagDeterminesVe | Scripts/PolygonBoxes.py:146 | Equal tags come from equal exaggerations |
| OutputNames.ProjectedToAllName | Scripts/ProjectDataToAllXsec_Stacked.py:194 | Taking the basename after appending the suffix gives the input's basename plus the suffix |
| OutputNames.BoxesName | Scripts/PolygonBoxes.py:143-146 | The box output is the input's basename followed by the separator-free box suffix |
| OutputNames.BoxesSuffix | Scripts/PolygonBoxes.py:143-146 | The box suffix holds no path separator, and carries the exaggeration tag only in the traditional display |
| OutputNames.LineNamesKeptApart | Scripts/Project_to_Xsec_View.py:120-130 | The temporary line of a point run never has the name of a line run's output, nor of the point output |
| OutputNames.LineAndPointDiffer | Scripts/Project_to_Xsec_View.py:130 | A line name with the `_temp3` suffix differs from the point name of the same input |
| OutputNames.TaggedNamesDistinct | Scripts/PolygonProfileIntersect.py:152-156 | Two runs on the same input share an output name only in the same display system and, when traditional, with the same exaggeration |
| OutputNames.RasterList | Scripts/RasterProfiles.py:98 | The `;`-split raster list is non-empty, holds no `;`, and joins back to the parameter |
| OutputNames.RasterListOfJoin | Stacked_CrossSections/Scripts/Profiles_StackedXSEC.py:86 | A list of raster paths without `;` comes back unchanged from its parameter string |
| UnitMasks.TwoDigits | Scripts/Preview_Unit_Masks.py:155-156 | A value below 100 is written as two digits that read back as the value |
| UnitMasks.FourDigits | Scripts/Preview_Unit_Masks.py:155 | A four-digit year is written as four digits |
| UnitMasks.CenturyDigits | Scripts/Preview_Unit_Masks.py:155 | Characters 2 and 3 of the four-digit year are the two-digit year within its century |
| UnitMasks.DateCode | Scripts/Preview_Unit_Masks.py:153-156 | The date code is six digits |
| UnitMasks.DateCodeReadBack | Scripts/Preview_Unit_Masks.py:153-156 | The code gives back the month, the day and the year within its century |
| UnitMasks.DateCodeInjective | Scripts/Preview_Unit_Masks.py:153-156 | Two days share a code only when they agree on month, day and the year within the century |
| UnitMasks.BufferDistances | Scripts/Preview_Unit_Masks.py:304-305 | `int()` of the float tenth is the integer tenth, truncated toward zero for negative spacing; the outer buffer is half the spacing plus the overlap and never smaller than the inner |
| UnitMasks.TruncTenth | Scripts/Preview_Unit_Masks.py:304 | `int(n / 10)` of a non-negative int is the integer tenth |
| UnitMasks.TruncHalfPlus | Scripts/Preview_Unit_Masks.py:305 | `int(n / 2 + k)` of non-negative ints is the integer half plus `k` |
| UnitMasks.OntoLine | Scripts/Preview_Unit_Masks.py:285-296 | Each vertex keeps its x and takes the line's northing, so the result runs east-west |
| UnitMasks.StratOf | Scripts/Preview_Unit_Masks.py:282-285 | The where clause returns exactly the stratlines of that `et_id` |
| UnitMasks.XslnMapLines | Scripts/Preview_Unit_Masks.py:259-300 | A line fails exactly when its `et_id` is not an integer or it has no vertices; otherwise each of its stratlines is drawn back along it with its labels and unit |
| UnitMasks.XslnMapLinesEastWest | Scripts/Preview_Unit_Masks.py:285-296 | Every map line of one cross-section line runs east-west |
| UnitMasks.MapLines | Scripts/Preview_Unit_Masks.py:259-300 | The conversion fails exactly when some line fails, and every map line runs east-west |
| Reprojection.ShiftVertices | Scripts/ProjectDataToAllXsec_Stacked.py:248-258 | Each vertex keeps its x, and its elevation read in the target band equals its elevation read in the source band |
| Reprojection.ShiftVerticesIsTranslation | Scripts/ProjectDataToAllXsec_Stacked.py:252-254 | The move is one vertical translation, `700 * 50` display units per line of difference, for every vertex |
| Reprojection.ShiftVerticesRoundTrip | Scripts/ProjectDataToAllXsec_Stacked.py:252-254 | Moving a feature to another band and back restores it, and moving it onto its own band changes nothing |
| Reprojection.CopiesToAll | Scripts/ProjectDataToAllXsec_Stacked.py:206-302 | A row fails exactly when its `mn_et_id` is not an integer or it is a null point; a null line or polygon yields nothing; otherwise one copy per id, in id order, moved to that band and carrying the id's text and the row's `unique_id` |
| Reprojection.CopiesToAllLabels | Scripts/ProjectDataToAllXsec_Stacked.py:223-227 | Each copy's label reads back as its id, and the copy on the row's own line is the row's geometry unchanged |
| Reprojection.ProjectToAll | Scripts/ProjectDataToAllXsec_Stacked.py:204-302 | The tool fails exactly when some row fails |
| Reprojection.ProjectToAllAppends | Scripts/ProjectDataToAllXsec_Stacked.py:208-227 | One more row appends exactly its own copies after those of the rows before it |
| Reprojection.JoinPolygons | Scripts/ProjectDataToAllXsec_Stacked.py:126-148 | One 0 to 2300 ft band polygon per statewide id, in id order |
| Reprojection.LastMatch | Stacked_CrossSections/Scripts/ProjectDataToSelectedXsec_Stacked.py:110-115 | Nothing exactly when no row has the number; otherwise the `mn_et_id` of the last row that has it |
| Reprojection.Targets | Stacked_CrossSections/Scripts/ProjectDataToSelectedXsec_Stacked.py:116-119 | The target list holds exactly the `mn_et_id`s of rows whose number was asked for |
| Reprojection.SelectTargets | Stacked_CrossSections/Scripts/ProjectDataToSelectedXsec_Stacked.py:104-121 | The loop gathers the last match of the input number, the matches of the output numbers in row order, and each line number once |
| Reprojection.GatheredIs | Stacked_CrossSections/Scripts/ProjectDataToSelectedXsec_Stacked.py:110-121 | The loop's passes from the empty start give the last match, the targets and the distinct numbers |
| Reprojection.SelectStep | Stacked_CrossSections/Scripts/ProjectDataToSelectedXsec_Stacked.py:111-121 | One more row updates each gathered value as one pass of the loop does |
| Reprojection.SelectionErrors | Stacked_CrossSections/Scripts/ProjectDataToSelectedXsec_Stacked.py:123-128 | No error exactly when every asked-for number is in the xsln; each error names an asked-for number that is missing |
| Reprojection.InputBand | Stacked_CrossSections/Scripts/ProjectDataToSelectedXsec_Stacked.py:138-169 | The clip band fails exactly when the input number matched no row (NameError) or its `mn_et_id` is not an integer; otherwise it is that line's band polygon |
| Reprojection.InputBandBounds | Stacked_CrossSections/Scripts/ProjectDataToSelectedXsec_Stacked.py:153-166 | The clip band spans the state and reads back as 2300 ft at its top and 0 ft at its bottom in the input line's band |
| Reprojection.CopiesToSelected | Stacked_CrossSections/Scripts/ProjectDataToSelectedXsec_Stacked.py:236-302 | A row fails exactly on a bad own id, a null point, or (with geometry) a bad target id; otherwise one copy per target, moved to that band and labelled with the target text itself |
| Reprojection.CopiesOnto | Stacked_CrossSections/Scripts/ProjectDataToSelectedXsec_Stacked.py:275-296 | The inner loop fails exactly when some target text is not an integer; otherwise each copy is moved to its target band and labelled with the target's text |
| UnitLists.RemoveAll | Scripts/Preview_Unit_Masks.py:180-181 | After the loop the value is no longer in the list |
| UnitLists.RemoveAllIsWithout | Scripts/Preview_Unit_Masks.py:180-181 | Removing one occurrence at a time until none is left is the list with every occurrence dropped, order kept |
| UnitLists.CleanLine | Scripts/Preview_Unit_Masks.py:171-178 | A cleaned line holds no line break |
| UnitLists.CleanLineIdempotent | Scripts/Preview_Unit_Masks.py:171-178 | Cleaning a cleaned line changes nothing |
| UnitLists.CleanUnitList | Scripts/Preview_Unit_Masks.py:167-181 | The unit list holds exactly the non-blank cleaned lines of the file |
| UnitLists.CleanUnitListIdempotent | Scripts/Preview_Unit_Masks.py:167-181 | Cleaning the cleaned list again changes nothing |
| UnitLists.DuplicateCheckIff | Scripts/Preview_Unit_Masks.py:184-188 | The set is never larger than the list, and `len(set(l)) == len(l)` exactly when the list has no repeats |
| UnitLists.Reverse | Stacked_CrossSections/Scripts/Archive/CheckStratOrder.py:202 | The reversed list has the same length, with position `i` holding the element at `n-1-i` |
| UnitLists.ReverseReverse | Stacked_CrossSections/Scripts/Archive/CheckStratOrder.py:202 | Reversing twice restores the list, and reversing keeps every element as often as before |
| UnitLists.Somes | Scripts/Preview_Unit_Masks.py:195-208 | The present values of an optional list are exactly the values it holds |
| UnitLists.Gather | Scripts/Preview_Unit_Masks.py:195-208 | The gathered units are the distinct present values in first-seen order, and the blank count is the number of rows without one |
| UnitLists.RowUnits | Scripts/Preview_Unit_Masks.py:199-205 | One unit per row, in row order |
| UnitLists.ScanStratUnitsCorrected | Scripts/Preview_Unit_Masks.py:195-213 | The corrected scan gathers each distinct non-blank stripped unit once, in first-seen order. It counts exactly the rows whose unit is null or blank, and rewrites each row with its unit stripped |
| UnitLists.ScanStratUnits | Scripts/Preview_Unit_Masks.py:197-205 | The scan as written fails exactly when some unit is null, and otherwise gives the corrected scan |
| UnitLists.NullUnitCrashes | Scripts/Preview_Unit_Masks.py:199-205 | A single null unit stops the scan as written, while the corrected scan counts it as one line without a unit |
| UnitLists.SgpgUnitList | Scripts/Preview_Unit_Masks.py:219-224 | The sgpg unit list is distinct and holds exactly the units of the rows, null included |
| UnitLists.Lift | Scripts/Preview_Unit_Masks.py:230-232 | Text values lifted to table values keep their order and never include null |
| UnitLists.StratlineWarnings | Scripts/Preview_Unit_Masks.py:227-229 | Warned about: exactly the stratline units the unit list lacks, each once |
| UnitLists.SgpgWarnings | Scripts/Preview_Unit_Masks.py:230-232 | Warned about: exactly the sgpg units the unit list lacks, a null unit always among them |
| UnitLists.SurfaceUnits | Scripts/Preview_Unit_Masks.py:365-368 | The surface units are exactly the unit-list entries the sgpg has |
| UnitLists.SubsurfaceUnits | Scripts/Preview_Unit_Masks.py:418-421 | The subsurface units are exactly the unit-list entries the sgpg lacks |
| UnitLists.UnitsPartition | Scripts/Preview_Unit_Masks.py:365-421 | Together the two lists hold every unit-list entry exactly as often as the unit list, and no unit is in both |
| UnitLists.ErasingPolygons | Scripts/Preview_Unit_Masks.py:394-409 | While surface unit `k` is corrected, the copy holds exactly the sgpg polygons of units not among the first `k+1`, null-unit polygons included |
| UnitLists.ErasingPolygonsBelow | Scripts/Preview_Unit_Masks.py:394-409 | A unit's mask is never erased by its own polygons, and is erased by those of a later surface unit exactly when the sgpg has that unit |
| UnitLists.AboveLines | Stacked_CrossSections/Scripts/Archive/CheckStratOrder.py:202-211 | The working layer when the `k`-th reversed unit is exported holds exactly the lines whose units are not among the last `k+1` of the list |
| UnitLists.AboveLinesAreAbove | Stacked_CrossSections/Scripts/Archive/CheckStratOrder.py:202-211 | The above file of a unit holds lines of exactly the units listed before it, besides units the list does not name |
| AngleChecks.LowestFirst | Scripts/CheckStratOrderAndLineAngles.py:212-219 | The index holds the lowest y, and every earlier vertex is strictly higher: the smallest index of the minimum |
| AngleChecks.LowestLast | Scripts/CheckStratOrderAndLineAngles.py:239 | The index holds the lowest y, and every later vertex is strictly higher: the largest index of the minimum |
| AngleChecks.DirectionOf | Scripts/CheckStratOrderAndLineAngles.py:207-215 | The line is vertical exactly when its ends share an x, and drawn left to right exactly when the first x is smaller |
| AngleChecks.LeftScan | Scripts/CheckStratOrderAndLineAngles.py:219-234 | The scan west of the lowest vertex flags exactly the consecutive pairs before it that turn back against the drawing direction |
| AngleChecks.RightScan | Scripts/CheckStratOrderAndLineAngles.py:239-254 | The scan east of the lowest vertex flags exactly the consecutive pairs from it on that turn back against the drawing direction |
| AngleChecks.AngleFlags | Scripts/CheckStratOrderAndLineAngles.py:207-296 | A line whose ends share an x gets no flags; every consecutive pair that turns back against the drawing direction west of the first lowest vertex or east of the last one is flagged |
| AngleChecks.AngleFlagsSound | Scripts/CheckStratOrderAndLineAngles.py:215-296 | Every flag comes from a consecutive pair that turns back against the line's drawing direction |
| AngleChecks.MonotoneLineHasNoFlags | Scripts/CheckStratOrderAndLineAngles.py:215-296 | A line that never turns back against its direction gets no flags |
| AngleChecks.FlagPoints | Scripts/CheckStratOrderAndLineAngles.py:229-232 | Each flag writes its current point and then its previous point, flag after flag |
| AngleChecks.AngleErrorPoints | Scripts/CheckStratOrderAndLineAngles.py:196-302 | The error points come in pairs, and a line whose ends share an x produces none |
| AngleChecks.LowestStretchUnchecked | Scripts/CheckStratOrderAndLineAngles.py:219-254 | A line that dips to its lowest y twice and turns back in between gets no flag: pairs between the two lowest vertices are never compared |
| AngleChecks.OutsideEnds | Stacked_CrossSections/Scripts/Archive/CheckStratOrder.py:163-175 | The flagged vertices are at most the line's vertices |
| AngleChecks.OutsideEndsIff | Stacked_CrossSections/Scripts/Archive/CheckStratOrder.py:163-175 | A vertex is flagged exactly when the ends differ in x and it lies outside the x range they span, whichever way the line runs |
| AngleChecks.StratOrderErrors | Stacked_CrossSections/Scripts/Archive/CheckStratOrder.py:151-179 | A line whose ends share an x gets no flags, and every flagged point is a vertex of the line |
| AngleChecks.DropBlankUnits | Scripts/Adjust_Stratlines_up_to_bedrock.py:268-274 | The clean-up fails exactly when some unit is null (`strip` of None); otherwise it is the rows whose stripped unit is non-empty, in their order and with their repeats |
| AngleChecks.RepeatsSnoc | Scripts/Adjust_Stratlines_up_to_bedrock.py:281-286 | One more id makes only itself repeat, and only when it was already present |
| AngleChecks.RepeatedIds | Scripts/Adjust_Stratlines_up_to_bedrock.py:279-286 | The duplicate list holds exactly the ids that occur twice, once per extra occurrence |
| AngleChecks.HighestOn | Scripts/Adjust_Stratlines_up_to_bedrock.py:294-301 | `max(y_list)` is the y of some point on the segment and at least every such y |
| AngleChecks.KeepHighestOnKeeps | Scripts/Adjust_Stratlines_up_to_bedrock.py:302-306 | One pass keeps a point exactly when it is on another segment or at the segment's highest y, and the segment keeps its highest point |
| AngleChecks.KeepHighestOnElsewhere | Scripts/Adjust_Stratlines_up_to_bedrock.py:302-306 | A pass for one segment leaves every other segment's points and highest y as they were |
| AngleChecks.KeepHighestIff | Scripts/Adjust_Stratlines_up_to_bedrock.py:291-306 | After the loop a point survives exactly when its segment is not duplicated or it is at its segment's highest y |
| AngleChecks.RepeatedSegmentsPresent | Scripts/Adjust_Stratlines_up_to_bedrock.py:279-301 | Every duplicated id names a segment that has points, so `max` never sees an empty list |
| ReferenceGrid.Within | Scripts/ReferenceGridFiles.py:212-231 | The county filter keeps exactly the values from the lower to the upper bound and drops the rest |
| ReferenceGrid.WithinIncreasing | Scripts/ReferenceGridFiles.py:212-231 | Filtering an increasing list leaves it increasing |
| ReferenceGrid.WithinAll | Scripts/ReferenceGridFiles.py:212-231 | When every value already lies in the bounds, the filter returns the list unchanged |
| ReferenceGrid.RawValues | Scripts/ReferenceGridFiles.py:202-208 | The major list is `range(lo, hi, major)`; the minor list is `range(lo, hi, minor)` after the remove-while-iterating loop; a zero interval raises as `range` does |
| ReferenceGrid.FinerMinorsNotAdjacent | Scripts/ReferenceGridFiles.py:206-208 | With a minor interval finer than the major one, no two neighbouring minor values are both major, so the loop never skips a value it should drop |
| ReferenceGrid.MinorListIsDifference | Scripts/ReferenceGridFiles.py:202-208 | With a finer minor interval the loop's minor list is exactly the minor range without the major values |
| ReferenceGrid.EqualIntervalsLeaveMajors | Scripts/ReferenceGridFiles.py:202-208 | With equal intervals the loop skips values, so some major value stays in the minor list |
| ReferenceGrid.CountyValues | Stacked_CrossSections/Scripts/CreateReferenceGridandPolys_StackedXSEC.py:124-143 | A value is kept exactly when it lies from `min_z - minor` up to `max_z + minor`, for the major and the minor list alike |
| ReferenceGrid.RawValuesShape | Scripts/ReferenceGridFiles.py:202-208 | With positive intervals both raw lists are increasing and every value lies from `lo` up to but excluding `hi` |
| ReferenceGrid.CountyValuesInOrder | Stacked_CrossSections/Scripts/CreateReferenceGridandPolys_StackedXSEC.py:124-143 | The filtered lists stay increasing, so the lines are drawn from low to high |
| ReferenceGrid.SkipRemoveIncreasing | Scripts/ReferenceGridFiles.py:206-208 | What the remove loop leaves of an increasing list is increasing |
| ReferenceGrid.CountyFilterKeepsAll | Scripts/ReferenceGridFiles.py:202-231 | In the general tool the raw lists already lie from `min_z` to `max_z`, so its county filter removes nothing |
| ReferenceGrid.UtmxBounds | Scripts/ReferenceGridFiles.py:147-157 | Both UTM-X bounds are whole thousands within one major interval plus 500 of the truncated extent, and with a major interval above 500 they enclose the extent strictly |
| ReferenceGrid.MaxXTrad | Scripts/ReferenceGridFiles.py:128-144 | The traditional width is non-negative, every line's exaggerated length is below it plus one, and it is at most the exaggerated longest length |
| ReferenceGrid.SortedIds | Scripts/ReferenceGridFiles.py:238-247 | The id list is sorted as text and holds exactly the non-null ids |
| ReferenceGrid.ArchiveSortedIds | Stacked_CrossSections/Scripts/Archive/CreateReferenceGrid_StackedXSEC.py:155-161 | The older tool fails exactly when a null id is read, since `sort` cannot compare it with text; otherwise it gives the same list as the newer tools |
| ReferenceGrid.ParseIds | Stacked_CrossSections/Scripts/CreateReferenceGridandPolys_StackedXSEC.py:172-173 | Fails exactly when some id is not an integer text; otherwise every value is `int()` of the id at the same place |
| ReferenceGrid.ElevationLinesAt | Stacked_CrossSections/Scripts/CreateReferenceGridandPolys_StackedXSEC.py:174-195 | One line per elevation, in list order, each at that elevation in the id's band |
| ReferenceGrid.ElevationLinesAtSound | Stacked_CrossSections/Scripts/CreateReferenceGridandPolys_StackedXSEC.py:181-195 | Every such line is horizontal across the style's x range at the stacked height of its label, and carries the `elevation` tags and its id |
| ReferenceGrid.ElevationLinesOf | Stacked_CrossSections/Scripts/CreateReferenceGridandPolys_StackedXSEC.py:174-220 | Each id gets a major line at every major elevation and a minor line at every minor elevation |
| ReferenceGrid.ElevationLinesOfSound | Stacked_CrossSections/Scripts/CreateReferenceGridandPolys_StackedXSEC.py:174-220 | Every line drawn for one id is a sound elevation line of that id's band |
| ReferenceGrid.StackedElevationLines | Stacked_CrossSections/Scripts/CreateReferenceGridandPolys_StackedXSEC.py:172-220 | Fails exactly when some id does not parse; otherwise every line is a sound elevation line |
| ReferenceGrid.StackedElevationLinesComplete | Stacked_CrossSections/Scripts/CreateReferenceGridandPolys_StackedXSEC.py:172-220 | Every id gets a line at every major and every minor elevation |
| ReferenceGrid.UtmxLinesAt | Stacked_CrossSections/Scripts/CreateReferenceGridandPolys_StackedXSEC.py:226-250 | One vertical line per UTM x value, in order, labelled with that value and the rank, each running from the given top to the given bottom |
| ReferenceGrid.UtmxSpan | Stacked_CrossSections/Scripts/CreateReferenceGridandPolys_StackedXSEC.py:232-237 | Fails exactly when the id list is empty or its first or last id does not parse (`etid_list[0]`, `int()`) |
| ReferenceGrid.UtmxSpanEnds | Stacked_CrossSections/Scripts/CreateReferenceGridandPolys_StackedXSEC.py:232-240 | The span's top reads back as `max_z` in the first id's band and its bottom as `min_z` in the last id's band |
| ReferenceGrid.StackedUtmxLines | Stacked_CrossSections/Scripts/CreateReferenceGridandPolys_StackedXSEC.py:226-279 | Fails exactly when there is a UTM x value but no span; otherwise the major lines come first, then the minor ones, each labelled with its value, all vertical and all spanning the one span |
| ReferenceGrid.RefPolygonOfSound | Stacked_CrossSections/Scripts/CreateReferenceGridandPolys_StackedXSEC.py:297-315 | A reference polygon carries its id and is the rectangle over the x range from `min_z` to `max_z` in that id's band |
| ReferenceGrid.RefPolygons | Stacked_CrossSections/Scripts/CreateReferenceGridandPolys_StackedXSEC.py:297-315 | Fails exactly when some id does not parse; otherwise one sound polygon per id, in order |
| ReferenceGrid.StatewideGrid | Stacked_CrossSections/Scripts/CreateReferenceGridandPolys_StackedXSEC.py:81-315 | One polygon per non-null id, and every elevation line is sound for the statewide style |
| ReferenceGrid.ArchiveStatewideGrid | Stacked_CrossSections/Scripts/Archive/CreateReferenceGrid_StackedXSEC.py:77-273 | A null id stops the older tool, and it writes no polygons |
| ReferenceGrid.StatewideGridFrom | Stacked_CrossSections/Scripts/CreateReferenceGridandPolys_StackedXSEC.py:114-315 | Polygons are drawn for every id exactly when the tool draws them, and every elevation line is sound |
| ReferenceGrid.StackedGridOf | Scripts/ReferenceGridFiles.py:258-400 | Fails exactly when an id does not parse or UTM-X lines are wanted with no id; otherwise every line is a sound elevation or UTM-X line |
| ReferenceGrid.StackedGridLines | Scripts/ReferenceGridFiles.py:258-400 | The line file fails exactly when an id does not parse or UTM-X lines are wanted with no id; its UTM-X lines take the span as written (`UtmxSpan`) |
| ReferenceGrid.StackedGridLinesSound | Scripts/ReferenceGridFiles.py:258-400 | Every line of the file is either a sound elevation line or a sound vertical UTM-X line |
| ReferenceGrid.GeneralStackedGrid | Scripts/ReferenceGridFiles.py:118-566 | The general tool in the stacked system draws one polygon per non-null id, and its elevation lines span the rounded UTM-X bounds |
| ReferenceGrid.TraditionalElevationLines | Scripts/ReferenceGridFiles.py:258-331 | Each major and then each minor elevation gets one horizontal line at y equal to the elevation from x 0 to the width, with no stacked tags |
| ReferenceGrid.MarksAt | Scripts/ReferenceGridFiles.py:425-523 | Each mark belongs to the given line and rank, is vertical from `min_z` to `max_z`, and its x read back as a true distance is a crossing of its UTM x value |
| ReferenceGrid.TraditionalMarks | Scripts/ReferenceGridFiles.py:405-523 | Every mark belongs to some xsln, has the rank of the list its value comes from, and stands at a crossing of that value |
| ReferenceGrid.GeneralTraditionalGrid | Scripts/ReferenceGridFiles.py:124-208 | Fails exactly when the exaggeration or an interval is zero; with positive exaggeration every elevation line is a two-point line ending at a non-negative x |
| ReferenceGrid.UtmxSpanTextOrder | Scripts/ReferenceGridFiles.py:355-358 | As written, ids "9" and "10" sort as "10", "9", and the span then runs upward from band 10's top to band 9's bottom, covering neither band |
| ReferenceGrid.UtmxSpanInverted | Scripts/ReferenceGridFiles.py:355-358 | As written, whenever the text-first id is numerically larger than the text-last one and the elevation range is under one band spacing, the span is upside down: its top lies below its floor |
| ReferenceGrid.TopBelowFloor | Scripts/ReferenceGridFiles.py:357-358 | With positive spacing and exaggeration, and an elevation range under one band spacing, the top of a later band lies below the floor of an earlier one |
| ReferenceGrid.NineTenBands | Scripts/ReferenceGridFiles.py:355-358 | Band 10 lies wholly below band 9 |
| ReferenceGrid.BandHeights | Scripts/ReferenceGridFiles.py:355-358 | One height per id, each the stacked height of `z` in that id's band |
| ReferenceGrid.UtmxSpanCorrected | Scripts/ReferenceGridFiles.py:355-358 | The corrected span is the highest band top and the lowest band bottom over all ids |
| ReferenceGrid.UtmxSpanCorrectedCovers | Scripts/ReferenceGridFiles.py:355-358 | Every elevation from `min_z` to `max_z` in every id's band lies inside the corrected span |
| ReferenceGrid.LargerIdLower | Scripts/ReferenceGridFiles.py:355-358 | A larger id puts the same elevation lower |
| ReferenceGrid.UtmxSpanAgrees | Scripts/ReferenceGridFiles.py:355-358 | When text order agrees with numeric order, the span as written equals the corrected one |
| WellSticks.OnLineDist | Scripts/LixpyDiagrams.py:455-466 | The distance along the original line is the measure on the extended line less the extension, negative exactly for wells before the line's start |
| WellSticks.PctDist | Scripts/LixpyDiagrams.py:538 | `dist / buffer_dist * 200`: raises exactly on a zero buffer distance, and with a positive one the percent is at most 100 exactly when the well is within half the buffer distance |
| PyStrings.IntOfField | Scripts/LixpyDiagrams.py:544 | `int(mn_et_id)` succeeds exactly on a present integer text and gives its value |
| WellSticks.ReadWell | Scripts/LixpyDiagrams.py:529-550 | A matching well point's reading fails exactly on a zero buffer distance, an unparsable `mn_et_id` in the stacked view, or a zero exaggeration in the traditional view; the stacked x is the well's own x in its band, and the traditional x read back as a true distance is the well's `OnLine_DIST` |
| WellSticks.DrawAgrees | Scripts/LixpyDiagrams.py:555-605 | A stick drawn from a successful reading has the 3D line at the well from top to bottom and the 2D line at the reading's x, each end reading back as the record's elevation |
| WellSticks.StickKeepsOrder | Scripts/LixpyDiagrams.py:578-585 | The 2D stick's first end is at least as high as its second exactly when the record's top is at least its bottom |
| WellSticks.StickFor | Scripts/LixpyDiagrams.py:500-553 | A record with a null elevation is skipped; otherwise it fails exactly when a matching well point's reading fails, and is unmatched exactly when no well point has its well id |
| WellSticks.StickForDrawn | Scripts/LixpyDiagrams.py:529-605 | A drawn record has both elevations and its stick is drawn at the last well point with its well id |
| WellSticks.LastMatching | Scripts/LixpyDiagrams.py:529-550 | The last row the where clause returns is the last well point in the table with that well id |
| WellSticks.Collect | Scripts/LixpyDiagrams.py:497-605 | The outputs hold exactly the drawn sticks and the unmatched well ids of the records' outcomes |
| WellSticks.DrawSticks | Scripts/LixpyDiagrams.py:500-605 | The stick loop fails exactly when some record fails |
| WellSticks.NullRecordSkipped | Scripts/LixpyDiagrams.py:507-511 | A record with a null top or bottom changes neither output |
| WellSticks.UnmatchedRecordListed | Scripts/LixpyDiagrams.py:551-553 | A record with both elevations and no matching well point adds only its well id to `nomatch_list` |
| WellSticks.MatchedRecordDrawn | Scripts/LixpyDiagrams.py:529-605 | A record with both elevations and a matching well point adds exactly its stick and no unmatched id |
| WellSticks.UnmatchedIff | Scripts/LixpyDiagrams.py:497-553 | `nomatch_list` holds a well id exactly when no well point has it and some record with both elevations names it |
| WellSticks.SticksSound | Scripts/LixpyDiagrams.py:500-605 | Every stick is drawn for some record with both elevations at the last well point with that record's well id |
| WellSticks.MarkFor | Stacked_CrossSections/Scripts/CreateLixpys_StackedXSEC.py:436-464 | A well point fails exactly when `int(mn_et_id)` or the percent distance raises, is skipped exactly when its elevation is null, and otherwise is marked at its x and its elevation's height in its band with its own attributes |
| WellSticks.WellMarks | Stacked_CrossSections/Scripts/CreateLixpys_StackedXSEC.py:436-464 | The point loop fails exactly when some well point's id or percent distance raises |
| WellSticks.WellMarksIff | Stacked_CrossSections/Scripts/CreateLixpys_StackedXSEC.py:436-464 | A well point is marked exactly when its elevation is present, and every mark marks some well point |
| WellSticks.NullElevationSkipped | Stacked_CrossSections/Scripts/CreateLixpys_StackedXSEC.py:449-451 | A well point with a null elevation adds no mark |
| WellSticks.MissingFrom | Scripts/LixpyDiagrams.py:218-252 | A warning list holds each entry of one list absent from the other exactly once |
| WellSticks.MissingFromOrder | Scripts/LixpyDiagrams.py:218-252 | Warning entries keep the order in which they were first seen |
| WellSticks.CheckTables | Scripts/LixpyDiagrams.py:194-260 | Fails exactly when either table is empty (`[0]` on an empty list); the type warning fires exactly when the first ids differ in kind, and the where clause quotes exactly when the first strat id is text |
| WellSticks.CheckTablesLists | Scripts/LixpyDiagrams.py:218-252 | Each of the four warning lists names exactly the ids of one table that the other lacks |
| WellSticks.HalfWidth | Scripts/LixpyDiagrams.py:653-658 | The buffer half-width is 47.5 in the stacked view; in the traditional view it raises on a zero exaggeration and otherwise exceeds 0.5 by 130 over the exaggeration |
| WellSticks.HalfWidthShrinks | Scripts/LixpyDiagrams.py:656 | A larger exaggeration gives a narrower traditional polygon |
| WellSticks.SticksNamesApart | Scripts/LixpyDiagrams.py:309-312 | Two runs name their 2D output alike only in the same display system, and in the traditional system only with the same exaggeration |
| SurfaceProfiles.StackedVertices | Scripts/RasterProfiles.py:183-191 | Each vertex keeps its map x, and its drawn y reads back as the vertex's elevation in the band of the line |
| SurfaceProfiles.StackedVerticesKeepOrder | Stacked_CrossSections/Scripts/Profiles_StackedXSEC.py:142-150 | Of two vertices, one is drawn lower exactly when its elevation is lower |
| SurfaceProfiles.StackedSegment | Stacked_CrossSections/Scripts/SGPGIntersect_StackedXSEC.py:123-140 | A segment fails exactly when its `mn_et_id` is null or not an integer text and is read (always when read before the vertex loop, only for a segment with vertices when read inside it); otherwise it keeps its `et_id`, its attribute and its `mn_et_id` value as read (a null one included), and draws every vertex in its band |
| SurfaceProfiles.StackedLines | Scripts/PolygonProfileIntersect.py:186-209 | The stacked loop fails exactly when some segment does; otherwise it draws one line per segment, in order |
| SurfaceProfiles.TraditionalVertices | Scripts/RasterProfiles.py:221-231 | Each vertex's drawn x read back as a true distance is its measure along the line, and its y is its elevation |
| SurfaceProfiles.TraditionalVerticesKeepOrder | Scripts/PolygonProfileIntersect.py:231-243 | With a positive exaggeration, a vertex farther along the line is drawn farther right |
| SurfaceProfiles.TraditionalSegment | Scripts/PolygonProfileIntersect.py:227-250 | A segment fails exactly when the exaggeration is zero and it has a vertex to divide; otherwise it keeps its ids and attribute, writes no `mn_et_id` and draws every vertex along the line |
| SurfaceProfiles.OnLine | Scripts/PolygonProfileIntersect.py:225-227 | The where clause returns exactly the segments whose `et_id` is the line's |
| SurfaceProfiles.TraditionalForLine | Scripts/PolygonProfileIntersect.py:225-250 | One line's loop fails exactly when the exaggeration is zero and a segment on it has a vertex; otherwise it draws each of its segments in order |
| SurfaceProfiles.TraditionalLines | Scripts/PolygonProfileIntersect.py:212-250 | The traditional loop fails exactly when the exaggeration is zero and some segment on some line has a vertex; otherwise every drawn line belongs to some cross-section line |
| SurfaceProfiles.TraditionalLinesSound | Scripts/RasterProfiles.py:206-237 | Every traditional line is a segment drawn along the cross-section line whose `et_id` it carries |
| SurfaceProfiles.TraditionalLinesComplete | Scripts/RasterProfiles.py:206-237 | Every segment on a cross-section line is drawn along it |
| SurfaceProfiles.EndPoints | Scripts/PolygonProfileIntersect.py:294-312 | Each line gives two point rows, at its first and its last vertex (no point for an empty line), each with the line's ids and attribute |
| SurfaceProfiles.PointsOf | Stacked_CrossSections/Scripts/SGPGIntersect_StackedXSEC.py:167-180 | Two point rows per line, start then end, in line order |
| SurfaceProfiles.StackedEndPoints | Stacked_CrossSections/Scripts/SGPGIntersect_StackedXSEC.py:123-180 | A stacked segment's two points sit at its first and last vertex's x, read back as those vertices' elevations, and carry the segment's `et_id`, attribute and `mn_et_id` value as read |
| PyLists.Without | Scripts/ReferenceGridFiles.py:206-208 | The reference for removing a list's members: exactly the values of `l` not in `drop` |
| PyLists.Filter | Scripts/Preview_Unit_Masks.py:195-213 | A filter keeps exactly the values the test accepts |
| PyLists.FilterLast | Scripts/LixpyDiagrams.py:529-550 | The last value a filter keeps is the last value of the list the test accepts |
| PyLists.MapAllFilterFails | Scripts/PolygonProfileIntersect.py:225-250 | A loop over the selected rows fails exactly when a selected row fails |
| PyLists.WithoutOrder | Scripts/ReferenceGridFiles.py:206-208 | Removing members keeps the order of the values left |
| PyLists.Concat | Stacked_CrossSections/Scripts/Border_Intersect_Lines.py:123-157 | A value is in the joined output exactly when it is in one of the per-row outputs |
| PyLists.ConcatSnoc | Stacked_CrossSections/Scripts/Border_Intersect_Lines.py:123-157 | One more row appends its output at the end |
| PyLists.RangeFrom | Scripts/ReferenceGridFiles.py:202-203 | `range(start, stop, step)`: the i-th value is `start + i*step`, all values lie on the start side of `stop`, and the next value would pass it |
| PyLists.RangeUpTo | Scripts/CheckStratOrderAndLineAngles.py:215-254 | `range(n)` is 0 up to n-1 |
| PyLists.Range | Scripts/ReferenceGridFiles.py:202-203 | `range` raises exactly on a zero step |
| PyLists.RangeDistinct | Scripts/ReferenceGridFiles.py:202-203 | A range with a positive step is increasing and has no repeats |
| PyLists.IndexOf | Scripts/ReferenceGridFiles.py:206-208 | The first position of a value |
| PyLists.IndexOfAt | Scripts/ReferenceGridFiles.py:206-208 | A position with no earlier occurrence is the first position |
| PyLists.LastIndexOf | Scripts/LixpyDiagrams.py:529-550 | The last position of a value, or -1 exactly when it is absent |
| PyLists.LastIndexOfSnoc | Scripts/LixpyDiagrams.py:529-550 | Appending a value makes it the last occurrence and leaves others' last positions alone |
| PyLists.RemoveFirst | Scripts/ReferenceGridFiles.py:206-208 | `list.remove` takes out the first occurrence and shifts the rest down by one |
| PyLists.RemoveFirstMultiset | Scripts/ReferenceGridFiles.py:206-208 | `list.remove` takes out exactly one copy of the value |
| PyLists.Remove | Scripts/Preview_Unit_Masks.py:394-409 | `list.remove` raises exactly when the value is absent and otherwise removes one copy |
| PyLists.RemoveIfPresent | Scripts/ReferenceGridFiles.py:206-208 | Removing a value behind an `in` test takes one copy when present and changes nothing otherwise |
| PyLists.RemoveFirstDistinct | Scripts/ReferenceGridFiles.py:206-208 | On a list without repeats, `list.remove` leaves exactly the other values, still without repeats |
| PyLists.SkipRemove | Scripts/ReferenceGridFiles.py:206-208 | What the remove-while-iterating loop leaves is a sub-list of the input |
| PyLists.SkipVisit | Scripts/ReferenceGridFiles.py:206-208 | What the loop visits is a sub-list of the input |
| PyLists.RemoveAtDistinct | Scripts/ReferenceGridFiles.py:206-208 | On a list without repeats, removing the value at a position removes that position |
| PyLists.SweepFromSplit | Scripts/ReferenceGridFiles.py:206-208 | The loop from any position leaves the part before it alone and treats the rest like the reference |
| PyLists.SweepMatchesReference | Scripts/ReferenceGridFiles.py:206-208 | The step-by-step loop, with its index sliding past each removed value, leaves and visits exactly what the recursive reference says |
| PyLists.SkipRemoveLeavesDropped | Scripts/ReferenceGridFiles.py:206-208 | When two neighbours are both to go, the loop leaves one of them behind |
| PyLists.SkipRemoveIsWithout | Scripts/ReferenceGridFiles.py:206-208 | When no two neighbours are both to go, the loop removes exactly the values it should |
| PyLists.SweepRemovesAllIff | Scripts/ReferenceGridFiles.py:206-208 | The loop removes every value it should exactly when no two neighbours are both to go |
| PyLists.SkipVisitSound | Scripts/ReferenceGridFiles.py:206-208 | Every value the loop visits is in the list and is one it keeps |
| PyLists.SkipRemoveSound | Scripts/ReferenceGridFiles.py:206-208 | The loop adds nothing and removes only values meant to go |
| PyLists.AppendNew | Scripts/LixpyDiagrams.py:195-216 | The `if x not in out: append` loop keeps what is already there, adds each new value once, and leaves no repeats |
| PyLists.Dedup | Scripts/LixpyDiagrams.py:195-216 | The first-seen list has no repeats and holds exactly the input's values |
| PyLists.AppendNewFresh | Scripts/LixpyDiagrams.py:195-216 | Values that are all new are appended as they are |
| PyLists.DedupOfDistinct | Scripts/LixpyDiagrams.py:195-216 | A list without repeats is its own first-seen list |
| PyLists.AppendNewSnoc | Scripts/LixpyDiagrams.py:195-216 | One more value is appended exactly when it is new |
| PyLists.DedupSnoc | Scripts/LixpyDiagrams.py:195-216 | One more value is appended to the first-seen list exactly when it was not seen before |
| PyLists.AppendNewOrder | Scripts/LixpyDiagrams.py:195-216 | New values appear in the order they were first seen |
| PyLists.WithoutDistinct | Scripts/ReferenceGridFiles.py:206-208 | Removing members of a list without repeats leaves no repeats |
| PyStrings.LeadingSpaces | Scripts/Preview_Unit_Masks.py:199 | The count of whitespace characters at the front, stopping at the first other character |
| PyStrings.TrailingEnd | Scripts/Preview_Unit_Masks.py:199 | The position after the last character that is not whitespace |
| PyStrings.Strip | Scripts/Preview_Unit_Masks.py:199 | `str.strip()` is no longer than its input and neither starts nor ends with whitespace |
| PyStrings.StripIsMiddle | Scripts/Preview_Unit_Masks.py:199 | The stripped text is the middle of the input, with only whitespace cut from either end |
| PyStrings.StripKeepsChars | Scripts/Preview_Unit_Masks.py:199 | Stripping adds no character |
| PyStrings.StripFixedPoint | Scripts/Preview_Unit_Masks.py:199 | A text is its own strip exactly when it is empty or has no whitespace at either end, and stripping twice is stripping once |
| PyStrings.Unstripped | Scripts/Preview_Unit_Masks.py:199 | A text with no whitespace at either end strips to itself |
| PyStrings.ReplaceCharByNothing | Scripts/Preview_Unit_Masks.py:172 | `replace("\n", "")` drops exactly the newlines and keeps the rest in order |
| PyStrings.ReplaceAtEnd | Scripts/CreateCrossSectionGDB.py:107 | Replacing a pattern that occurs only at the end changes only that end |
| PyStrings.ReplaceGdbSuffix | Scripts/CreateCrossSectionGDB.py:107 | The editing database of `name.gdb` is `name_Editing.gdb` when `.gdb` occurs nowhere else |
| PyStrings.Split | Scripts/RasterProfiles.py:98 | `split(";")` gives at least one part and no part holds the separator |
| PyStrings.JoinSplit | Scripts/RasterProfiles.py:98 | Joining the parts again gives back the text |
| PyStrings.SplitAtFirst | Scripts/RasterProfiles.py:98 | The first part ends at the first separator |
| PyStrings.SplitJoin | Stacked_CrossSections/Scripts/Profiles_StackedXSEC.py:86 | Splitting a join of parts free of the separator gives back the parts |
| PyStrings.SplitTwo | Stacked_CrossSections/Scripts/Profiles_StackedXSEC.py:86 | Two raster paths joined by `;` split back into the two |
| PyStrings.LastSep | Scripts/RasterProfiles.py:146 | The position of the last path separator, or -1 when there is none |
| PyStrings.LastSepUnique | Scripts/RasterProfiles.py:146 | Any position that is a separator with none after it is the last separator |
| PyStrings.Basename | Scripts/RasterProfiles.py:146 | `os.path.basename` is a suffix of the path with no separator, preceded by one when it is not the whole path |
| PyStrings.BasenameOfJoin | Scripts/Project_to_Xsec_View.py:122 | The basename of a path joined from a directory and a name without separators is the name |
| PyStrings.BasenameAppend | Scripts/PolygonBoxes.py:144-146 | Appending a suffix without separators before taking the basename appends it to the basename |
| PyStrings.LexLeTotal | Scripts/ReferenceGridFiles.py:247 | Text order compares any two texts |
| PyStrings.LexLeTrans | Scripts/ReferenceGridFiles.py:247 | Text order is transitive |
| PyStrings.LexLeAntisym | Scripts/ReferenceGridFiles.py:247 | Two texts each at most the other are equal |
| PyStrings.Insert | Scripts/ReferenceGridFiles.py:247 | Inserting into a sorted list keeps it sorted and adds exactly that one text |
| PyStrings.SortStrings | Scripts/ReferenceGridFiles.py:247 | `list.sort()` on texts gives a sorted permutation of the list |
| PyStrings.SortedEnds | Scripts/ReferenceGridFiles.py:355-358 | After sorting, the first text is at most and the last at least every text of the list |
| PyStrings.DigitChar | Stacked_CrossSections/Scripts/Assign_XS_id_Stacked.py:100-120 | The digit character of a value below ten |
| PyStrings.NatToString | Stacked_CrossSections/Scripts/Assign_XS_id_Stacked.py:100-120 | `str()` of a natural number is all digits with no leading zero, one digit exactly below ten |
| PyStrings.IntToString | Stacked_CrossSections/Scripts/Assign_XS_id_Stacked.py:100-120 | `str()` of an integer is non-empty and is all digits exactly when the integer is not negative |
| PyStrings.DigitsValueOfNat | Stacked_CrossSections/Scripts/Assign_XS_id_Stacked.py:100-120 | Reading back the digits of a natural number gives the number |
| PyStrings.IntToStringStripped | Stacked_CrossSections/Scripts/Assign_XS_id_Stacked.py:100-120 | `str()` of an integer has no surrounding whitespace |
| PyStrings.ParseIntOfString | Stacked_CrossSections/Scripts/Assign_XS_id_Stacked.py:100-120 | `int(str(n)) == n` for every integer |
| PyStrings.ParseNatural | Stacked_CrossSections/Scripts/Assign_XS_id_Stacked.py:100-120 | `int(str(n)) == n` for a natural number |
| PyStrings.ParseNegative | Stacked_CrossSections/Scripts/Assign_XS_id_Stacked.py:100-120 | `int(str(n)) == n` for a negative number |
| PyStrings.NegativeToString | Stacked_CrossSections/Scripts/Assign_XS_id_Stacked.py:100-120 | `str()` of a negative number is a minus sign and the digits of its size |
| PyStrings.ParseMinus | Stacked_CrossSections/Scripts/Assign_XS_id_Stacked.py:100-120 | `int()` of a minus sign followed by digits is the negated value of the digits |
| PyStrings.IntToStringInjective | Stacked_CrossSections/Scripts/Assign_XS_id_Stacked.py:100-120 | Different integers give different texts |
| PyNumbers.Trunc | Scripts/ReferenceGridFiles.py:144 | `int()` of a float drops the fraction toward zero |
| PyNumbers.TruncHalf | Scripts/Adjust_Stratlines_up_to_bedrock.py:172 | `int(n/2)` of a count is its floor half |
| PyNumbers.RoundThousands | Scripts/ReferenceGridFiles.py:147-157 | `round(x, -3)` is a multiple of 1000 within 500 of x, and on a tie the even thousand |
| PyNumbers.RoundThousandsUnique | Scripts/ReferenceGridFiles.py:147-157 | Only one value meets those conditions |
| PyNumbers.RunningMax | Scripts/ReferenceGridFiles.py:128-144 | The running maximum is at least its start and every value, and is its start or a value |
| PyNumbers.MinOf | Scripts/Adjust_Stratlines_up_to_bedrock.py:294-301 | `min()` is a value of the list and at most every value |
| PyNumbers.MaxOf | Scripts/Adjust_Stratlines_up_to_bedrock.py:294-301 | `max()` is a value of the list and at least every value |
| PyNumbers.MaxOfIsRunningMax | Scripts/ReferenceGridFiles.py:128-144 | `max()` agrees with the running maximum from the first value |
| Wrappers.MapAll | Stacked_CrossSections/Scripts/Border_Intersect_Lines.py:123-157 | A row loop fails exactly when some row raises, with the error of the first row that raises (every earlier row succeeds); otherwise it has one result per row, each that row's |
| Wrappers.MapAllSnoc | Stacked_CrossSections/Scripts/Border_Intersect_Lines.py:123-157 | One more row that succeeds appends its result |
| Wrappers.Present | Scripts/ReferenceGridFiles.py:238-247 | The present values, null rows skipped |
| ReferenceGrid.CorrectedSpan | Scripts/ReferenceGridFiles.py:355-358 | The corrected span fails exactly when the list is empty or an id is not an integer, and otherwise contains every elevation from `min_z` to `max_z` in every id's band |
| ReferenceGrid.CorrectedGridLines | Scripts/ReferenceGridFiles.py:346-400 | The line file with the corrected span fails under exactly the same conditions as the one the scripts write |
| ReferenceGrid.CorrectedGridLinesCover | Scripts/ReferenceGridFiles.py:355-358 | With the corrected span every UTM-X line is vertical and reaches across every id's band, from `min_z` to `max_z` |
| ReferenceGrid.CorrectedGridLinesAgree | Scripts/ReferenceGridFiles.py:355-358 | When the text order of the ids agrees with their numeric order, the scripts' line file is the corrected one |

## Left out

- The arcpy geoprocessing calls, cursors, file and geodatabase I/O, symbology, tool parameters, messages and timing. Only the values they produce or consume are modelled.
- `measureOnLine`, the near analysis, intersections and the trigonometry that extends a line past its ends. These are library computations, so their results are inputs to the model.
- IEEE floating-point rounding. Coordinates are exact reals. The 3.280839895 feet-per-metre literal is kept as written, and its difference from `1/0.3048` is stated.
- Decimal text such as `"12.0"` passed to `float(mn_et_id)`. Ids are parsed as integer text, with an optional sign.
- Multipart features. Only the first part of a geometry is read, as the scripts do with `[0]`.
- The clock. The date used for mask names is an input.
- Rows written before an exception stops a tool. A failing tool is modelled by its error value only.
- Float well ids, and the type coercion of SQL where-clauses. Well ids are integers or text.
- The CWI web download (`GetCWIdata`, `Get_CWI_data`) and bookmark generation. These are network and map-document operations.
- AngleChecks.LowestFirst, AngleChecks.LowestLast, AngleChecks.AngleFlags, AngleChecks.AngleErrorPoints, AngleChecks.StratOrderErrors: require a non-empty vertex list. On an empty line the scripts raise on `min()` or `[0]`, and that error path is not modelled.
- Builders.CapPolygon, Builders.AbovePolygon, Builders.BelowPolygon, Builders.ProjectArea, Builders.MidpointLine: require a non-empty vertex list, for the same reason.
- XsecFeatures.MinX, XsecFeatures.CheckStraight: require a non-empty vertex list, for the same reason.
- Builders.MarkerLines: requires a non-empty segment for a segment crossing. In the stacked branch of `Project_to_Xsec_View.py` an empty intersection segment raises IndexError on `x_list[0]`, and that error path is not modelled; the border tool's own loop does model it (`BorderTools.BorderLines`).
- CrossSectionIds.MinId: requires a non-empty id list. `min()` of an empty list raises, and that case is not modelled.
- Builders.TraditionalBox, Builders.TraditionalMarkerDistance: require a nonzero vertical exaggeration. The ZeroDivisionError of a zero VE is not modelled here.
- ReferenceGrid.MaxXTrad, ReferenceGrid.MarksAt, ReferenceGrid.TraditionalMarks: require a nonzero vertical exaggeration, for the same reason. The zero case is modelled one level up, in `ReferenceGrid.GeneralTraditionalGrid`, which fails with the ZeroDivisionError.
- SurfaceProfiles.TraditionalVertices: requires a nonzero vertical exaggeration, for the same reason.
- TraditionalConversion.ToTraditionalPoint, TraditionalConversion.ToTraditionalElevation, TraditionalConversion.ToTraditionalOrder: require nonzero exaggerations. They describe one vertex; the zero case is modelled in `ConvertToTraditional`, where it raises for points and drops line and polygon features.
- TrueXConversion.StackedToTrueX, TrueXConversion.StackedToTrueXElevation, TrueXConversion.TrueYToTrueXDistance: require a nonzero input exaggeration, for the same reason; the zero case is modelled in `ConvertToTrueX`.
- TraditionalConversion.ConvertToTraditional, TrueXConversion.ConvertToTrueX, TrueXConversion.ArchiveConvertToTrueX: a cross-section line row with a null geometry is not modelled. A line's vertices are a list, while the scripts' `getPart` on a null shape raises AttributeError.
- XsecFeatures.Converted: a feature geometry without vertices converts to an empty geometry. Whether arcpy's `getPart` raises on an empty or zero-area shape is library behaviour and is not modelled.
- UnitMasks.XslnMapLines, UnitMasks.MapLines: a cross-section line's `et_id` is text, so a null `et_id` cannot be expressed. In the script `int(None)` raises TypeError; that row would fail like a non-integer label, and the model does not state that case. The shared line record keeps `et_id` as text because the where clauses of the other tools compare it as text.
- PyStrings.ParseInt: accepts only ASCII digits, with an optional sign and surrounding whitespace. Python's `int()` also accepts underscores between digits (`"1_000"`) and non-ASCII Unicode decimal digits; those texts fail here.

## Findings

| source | as written | input that shows it | evidently intended | confidence | as-written member | corrected member |
|---|---|---|---|---|---|---|
| Scripts/ReferenceGridFiles.py:247, 355-358 (also Stacked_CrossSections/Scripts/CreateReferenceGridandPolys_StackedXSEC.py:167, 232-233) | The `mn_et_id` texts are sorted as text. Then the first entry is taken as the smallest id and the last as the largest. | Ids "9" and "10" sort as "10", "9". The UTM-X lines then run from band 10's top up to band 9's floor, so they cover neither band. | The span should run from the top of the smallest id's band down to the floor of the largest id's band. | not executed | ReferenceGrid.UtmxSpanTextOrder | ReferenceGrid.CorrectedGridLinesCover |
| Scripts/Preview_Unit_Masks.py:199-205 | `row[0].strip()` is called before the `unit is None` test. | A stratline whose unit is null: `None.strip()` raises, so the later None test is never reached. | A null unit is counted as a line without a unit, like a blank one. | not executed | UnitLists.NullUnitCrashes | UnitLists.ScanStratUnitsCorrected |

=== FILE: angles.dfy ===
/** The stratline checks of the stratigraphy QC tools: the line-angle scan
    that flags a stratline folding back on itself around its lowest vertex,
    the older check against the x of the line's two ends, and the bedrock
    adjustment's clean-up of intersection points (blank units dropped, one
    highest point kept per duplicated segment id). */
module AngleChecks {
  import opened Wrappers
  import opened PyLists
  import opened PyStrings
  import opened Transforms

  // ---------------------------------------------------------------------------
  // lowest vertex

  /** The smallest index holding the lowest y (`min(min_index_list)`). */
  function LowestFirst(v: seq<Point>): (k: nat)
    requires |v| > 0
    ensures k < |v|
    ensures forall i :: 0 <= i < |v| ==> v[k].y <= v[i].y
    ensures forall i :: 0 <= i < k ==> v[i].y > v[k].y
  {
    if |v| == 1 then 0
    else
      var n := |v| - 1;
      var k := LowestFirst(v[..n]);
      assert forall i :: 0 <= i < n ==> v[..n][i] == v[i];
      if v[n].y < v[k].y then n else k
  }

  /** The largest index holding the lowest y (`max(min_index_list)`). */
  function LowestLast(v: seq<Point>): (k: nat)
    requires |v| > 0
    ensures k < |v|
    ensures forall i :: 0 <= i < |v| ==> v[k].y <= v[i].y
    ensures forall i :: k < i < |v| ==> v[i].y > v[k].y
  {
    if |v| == 1 then 0
    else
      var n := |v| - 1;
      var k := LowestLast(v[..n]);
      assert forall i :: 0 <= i < n ==> v[..n][i] == v[i];
      if v[n].y <= v[k].y then n else k
  }

  /** Both indices hold the lowest y, and the first comes no later. */
  lemma LowestOrder(v: seq<Point>)
    requires |v| > 0
    ensures LowestFirst(v) <= LowestLast(v)
    ensures v[LowestFirst(v)].y == v[LowestLast(v)].y
  {
  }

  // ---------------------------------------------------------------------------
  // the angle scan

  /** The drawing direction, from the x of the first and last vertex. */
  datatype Direction = LeftToRight | RightToLeft | Vertical

  function DirectionOf(firstX: real, lastX: real): (d: Direction)
    ensures d == Vertical <==> firstX == lastX
    ensures d == LeftToRight <==> firstX < lastX
  {
    if firstX < lastX then LeftToRight
    else if firstX > lastX then RightToLeft
    else Vertical
  }

  /** Vertices `a` then `b`, adjacent in that index order, step against the
      drawing direction: x falls on a line drawn left to right, rises on one
      drawn right to left. A vertical line has no direction to go against. */
  predicate Reversed(d: Direction, a: real, b: real)
  {
    match d
    case LeftToRight => a > b
    case RightToLeft => a < b
    case Vertical => false
  }

  /** A flagged pair, in the order it is appended: the current vertex, then
      the previous one. */
  datatype Flag = Flag(current: Point, previous: Point)

  /** The scan leftwards from index `k`: `i` runs from `k - 1` down to 0 with
      the previous vertex at `i + 1`. The comparisons of the source (current
      x greater than previous x on a left-to-right line, less on a
      right-to-left one) are `Reversed` of the pair `i`, `i + 1`. */
  function LeftScan(v: seq<Point>, k: nat, d: Direction): (r: seq<Flag>)
    requires k < |v|
    ensures forall f :: f in r ==> exists i :: 0 <= i < k && Reversed(d, v[i].x, v[i + 1].x) && f == Flag(v[i], v[i + 1])
    ensures forall i :: 0 <= i < k && Reversed(d, v[i].x, v[i + 1].x) ==> Flag(v[i], v[i + 1]) in r
    decreases k
  {
    if k == 0 then []
    else
      var here := if Reversed(d, v[k - 1].x, v[k].x) then [Flag(v[k - 1], v[k])] else [];
      here + LeftScan(v, k - 1, d)
  }

  /** The scan rightwards from index `k`: `i` runs from `k + 1` to the end
      with the previous vertex at `i - 1`; the source's comparisons (current
      x less than previous x left to right, greater right to left) are
      `Reversed` of the pair `i - 1`, `i`. */
  function RightScan(v: seq<Point>, k: nat, d: Direction): (r: seq<Flag>)
    requires k < |v|
    ensures forall f :: f in r ==> exists i :: k <= i < |v| - 1 && Reversed(d, v[i].x, v[i + 1].x) && f == Flag(v[i + 1], v[i])
    ensures forall i :: k <= i < |v| - 1 && Reversed(d, v[i].x, v[i + 1].x) ==> Flag(v[i + 1], v[i]) in r
    decreases |v| - k
  {
    if k + 1 == |v| then []
    else
      var here := if Reversed(d, v[k].x, v[k + 1].x) then [Flag(v[k + 1], v[k])] else [];
      here + RightScan(v, k + 1, d)
  }

  /** The flags of one stratline: nothing when its ends share an x;
      otherwise the leftward scan from the first lowest vertex, then the
      rightward scan from the last lowest vertex. */
  function AngleFlags(v: seq<Point>): (r: seq<Flag>)
    requires |v| > 0
    ensures DirectionOf(v[0].x, v[|v| - 1].x) == Vertical ==> r == []
    ensures forall i {:trigger Reversed(DirectionOf(v[0].x, v[|v| - 1].x), v[i].x, v[i + 1].x)} ::
              0 <= i < |v| - 1 && Reversed(DirectionOf(v[0].x, v[|v| - 1].x), v[i].x, v[i + 1].x) ==>
              && (i < LowestFirst(v) ==> Flag(v[i], v[i + 1]) in r)
              && (i >= LowestLast(v) ==> Flag(v[i + 1], v[i]) in r)
  {
    var d := DirectionOf(v[0].x, v[|v| - 1].x);
    if d == Vertical then []
    else LeftScan(v, LowestFirst(v), d) + RightScan(v, LowestLast(v), d)
  }

  /** Every flag is a pair of neighbouring vertices that step against the
      drawing direction, on the far side of the lowest stretch: left of the
      first lowest vertex or right of the last. */
  lemma AngleFlagsSound(v: seq<Point>, f: Flag)
    requires |v| > 0 && f in AngleFlags(v)
    ensures exists i :: 0 <= i < |v| - 1 && Reversed(DirectionOf(v[0].x, v[|v| - 1].x), v[i].x, v[i + 1].x)
              && ((i < LowestFirst(v) && f == Flag(v[i], v[i + 1])) || (i >= LowestLast(v) && f == Flag(v[i + 1], v[i])))
  {
    var d := DirectionOf(v[0].x, v[|v| - 1].x);
    var left, right := LeftScan(v, LowestFirst(v), d), RightScan(v, LowestLast(v), d);
    assert f in left || f in right;
  }

  /** A line whose x never steps against its direction (never decreases on
      a left-to-right line, never increases on a right-to-left one) draws no
      flag. */
  lemma MonotoneLineHasNoFlags(v: seq<Point>)
    requires |v| > 0
    requires forall i :: 0 <= i < |v| - 1 ==> !Reversed(DirectionOf(v[0].x, v[|v| - 1].x), v[i].x, v[i + 1].x)
    ensures AngleFlags(v) == []
  {
    if AngleFlags(v) != [] {
      AngleFlagsSound(v, AngleFlags(v)[0]);
    }
  }

  /** The points written to the angle-error file: each flag's two vertices,
      flag after flag. */
  function FlagPoints(flags: seq<Flag>): (r: seq<Point>)
    ensures |r| == 2 * |flags|
    ensures forall p :: 0 <= p < |flags| ==> r[2 * p] == flags[p].current && r[2 * p + 1] == flags[p].previous
  {
    if |flags| == 0 then []
    else
      var rest := FlagPoints(flags[1..]);
      assert forall p :: 1 <= p < |flags| ==> flags[p] == flags[1..][p - 1];
      [flags[0].current, flags[0].previous] + rest
  }

  /** `angle_error_pointlist` of one stratline. Its length is even, and a
      line whose ends share an x produces none. */
  function AngleErrorPoints(v: seq<Point>): (r: seq<Point>)
    requires |v| > 0
    ensures |r| % 2 == 0
    ensures v[0].x == v[|v| - 1].x ==> r == []
  {
    FlagPoints(AngleFlags(v))
  }

  /** Pairs inside the lowest stretch are never compared: a line that dips
      to its lowest y twice and turns back in between draws no flag. */
  lemma LowestStretchUnchecked(v: seq<Point>)
    requires v == [Point(0.0, 5.0), Point(1.0, 0.0), Point(3.0, 2.0), Point(2.0, 2.0), Point(4.0, 0.0), Point(5.0, 5.0)]
    ensures Reversed(LeftToRight, v[2].x, v[3].x) && AngleFlags(v) == []
  {
    assert LowestFirst(v) == 1 && LowestLast(v) == 4;
    assert DirectionOf(v[0].x, v[5].x) == LeftToRight;
    assert LeftScan(v, 0, LeftToRight) == [] && RightScan(v, 5, LeftToRight) == [];
    assert LeftScan(v, 1, LeftToRight) == [] && RightScan(v, 4, LeftToRight) == [];
  }

  // ---------------------------------------------------------------------------
  // the older check: x outside the line's ends

  /** The vertices the older tool flags, in vertex order: on a line drawn
      left to right, those west of the first x or east of the last; on one
      drawn right to left, those east of the first x or west of the last. */
  function OutsideEnds(v: seq<Point>, firstX: real, lastX: real): (r: seq<Point>)
    ensures |r| <= |v|
  {
    if |v| == 0 then []
    else
      var p := v[0];
      var here :=
        if firstX < lastX then (if p.x < firstX then [p] else []) + (if p.x > lastX then [p] else [])
        else if firstX > lastX then (if p.x > firstX then [p] else []) + (if p.x < lastX then [p] else [])
        else [];
      here + OutsideEnds(v[1..], firstX, lastX)
  }

  /** A vertex is flagged exactly when the ends differ in x and the vertex
      lies outside the x range they span, whichever way the line was
      drawn. */
  lemma {:induction false} OutsideEndsIff(v: seq<Point>, firstX: real, lastX: real, p: Point)
    ensures p in OutsideEnds(v, firstX, lastX) <==>
              p in v && firstX != lastX
              && (p.x < (if firstX < lastX then firstX else lastX) || p.x > (if firstX < lastX then lastX else firstX))
    decreases |v|
  {
    if |v| > 0 {
      OutsideEndsIff(v[1..], firstX, lastX, p);
      assert p in v <==> p == v[0] || p in v[1..];
    }
  }

  /** The check as the tool runs it on one stratline. */
  function StratOrderErrors(v: seq<Point>): (r: seq<Point>)
    requires |v| > 0
    ensures v[0].x == v[|v| - 1].x ==> r == []
    ensures forall p :: p in r ==> p in v
  {
    var r := OutsideEnds(v, v[0].x, v[|v| - 1].x);
    assert forall p :: p in r ==> p in v by {
      forall p | p in r ensures p in v {
        OutsideEndsIff(v, v[0].x, v[|v| - 1].x, p);
      }
    }
    assert v[0].x == v[|v| - 1].x ==> r == [] by {
      if v[0].x == v[|v| - 1].x && r != [] {
        OutsideEndsIff(v, v[0].x, v[|v| - 1].x, r[0]);
      }
    }
    r
  }

  // ---------------------------------------------------------------------------
  // bedrock adjustment: intersection points

  /** A row of the clipped stratlines or of the intersection points: its
      unit text (null when unset) and, for points, the id of the bedrock
      segment it lies on and its location. */
  datatype Hit = Hit(unit: Option<string>, segment: int, at: Point)

  /** A row whose unit is present and not blank once stripped. */
  predicate HasUnit(h: Hit) {
    h.unit.Some? && |Strip(h.unit.value)| >= 1
  }

  /** Rows whose unit is blank once stripped are deleted; a null unit makes
      `.strip()` raise. */
  function DropBlankUnits(rows: seq<Hit>): (r: Result<seq<Hit>, string>)
    ensures r.Failure? <==> exists i :: 0 <= i < |rows| && rows[i].unit.None?
    ensures r.Success? ==> forall h :: h in r.value <==> h in rows && |Strip(h.unit.value)| >= 1
    ensures r.Success? ==> |r.value| <= |rows|
    ensures r.Success? ==> r.value == Filter(rows, HasUnit)
  {
    if |rows| == 0 then Success([])
    else
      var h := rows[0];
      assert forall i :: 1 <= i < |rows| ==> rows[i] == rows[1..][i - 1];
      match h.unit
      case None => Failure("'NoneType' object has no attribute 'strip'")
      case Some(u) =>
        match DropBlankUnits(rows[1..])
        case Failure(e) => Failure(e)
        case Success(rest) =>
          assert forall x :: x in rows <==> x == h || x in rows[1..];
          if |Strip(u)| < 1 then Success(rest) else Success([h] + rest)
  }

  /** `x` occurs at two positions of `ids`. */
  predicate Repeats(ids: seq<int>, x: int)
  {
    exists i, j :: 0 <= i < j < |ids| && ids[i] == x && ids[j] == x
  }

  /** One more id repeats only itself, and only when already present. */
  lemma RepeatsSnoc(front: seq<int>, y: int, x: int)
    ensures Repeats(front + [y], x) <==> Repeats(front, x) || (x == y && x in front)
  {
    var ids := front + [y];
    var n := |front|;
    assert forall i :: 0 <= i < n ==> ids[i] == front[i];
    if Repeats(ids, x) {
      var i, j :| 0 <= i < j < |ids| && ids[i] == x && ids[j] == x;
      if j < n { assert Repeats(front, x); } else { assert front[i] == x; }
    }
    if Repeats(front, x) {
      var i, j :| 0 <= i < j < n && front[i] == x && front[j] == x;
      assert ids[i] == x && ids[j] == x;
    }
    if x == y && x in front {
      var i :| 0 <= i < n && front[i] == x;
      assert ids[i] == x && ids[n] == x;
    }
  }

  /** `unique_id_duplicate_list`: each id seen again after its first
      occurrence, once per repeat, in the order the repeats come. */
  function RepeatedIds(ids: seq<int>): (r: seq<int>)
    ensures forall x :: x in r <==> Repeats(ids, x)
    ensures |r| + |Dedup(ids)| == |ids|
    decreases |ids|
  {
    if |ids| == 0 then []
    else
      var n := |ids| - 1;
      var front := ids[..n];
      var y := ids[n];
      var r := RepeatedIds(front);
      assert ids == front + [y];
      assert |Dedup(ids)| == if y in front then |Dedup(front)| else |Dedup(front)| + 1 by {
        DedupSnoc(front, y);
      }
      assert forall x :: Repeats(ids, x) <==> Repeats(front, x) || (x == y && x in front) by {
        forall x ensures Repeats(ids, x) <==> Repeats(front, x) || (x == y && x in front) {
          RepeatsSnoc(front, y, x);
        }
      }
      if y in front then r + [y] else r
  }

  /** The segment ids of the points. */
  function Segments(hits: seq<Hit>): (ids: seq<int>)
    ensures |ids| == |hits|
    ensures forall i :: 0 <= i < |hits| ==> ids[i] == hits[i].segment
  {
    seq(|hits|, i requires 0 <= i < |hits| => hits[i].segment)
  }

  /** Some point lies on the segment. */
  predicate OnSegment(hits: seq<Hit>, num: int)
  {
    exists i :: 0 <= i < |hits| && hits[i].segment == num
  }

  /** `max(y_list)` over the points on one segment. */
  function HighestOn(hits: seq<Hit>, num: int): (top: real)
    requires OnSegment(hits, num)
    ensures exists i :: 0 <= i < |hits| && hits[i].segment == num && hits[i].at.y == top
    ensures forall i :: 0 <= i < |hits| && hits[i].segment == num ==> hits[i].at.y <= top
    decreases |hits|
  {
    var h := hits[0];
    assert forall i :: 1 <= i < |hits| ==> hits[i] == hits[1..][i - 1];
    if !OnSegment(hits[1..], num) then
      assert forall i :: 1 <= i < |hits| ==> hits[i].segment != num;
      h.at.y
    else
      var rest := HighestOn(hits[1..], num);
      if h.segment == num && h.at.y > rest then h.at.y else rest
  }

  /** One pass of the clean-up for segment `num`: the points on it below its
      highest are deleted. */
  function KeepHighestOn(hits: seq<Hit>, num: int): (r: seq<Hit>)
    requires OnSegment(hits, num)
  {
    var top := HighestOn(hits, num);
    Filter(hits, (h: Hit) => h.segment != num || h.at.y >= top)
  }

  /** A pass keeps the highest points of its segment (ties included) and
      every point of the other segments, in order. */
  lemma KeepHighestOnKeeps(hits: seq<Hit>, num: int, h: Hit)
    requires OnSegment(hits, num)
    ensures h in KeepHighestOn(hits, num) <==> h in hits && (h.segment != num || h.at.y == HighestOn(hits, num))
    ensures OnSegment(KeepHighestOn(hits, num), num)
    ensures HighestOn(KeepHighestOn(hits, num), num) == HighestOn(hits, num)
  {
    var top := HighestOn(hits, num);
    var r := KeepHighestOn(hits, num);
    var i :| 0 <= i < |hits| && hits[i].segment == num && hits[i].at.y == top;
    assert hits[i] in r;
    var k :| 0 <= k < |r| && r[k] == hits[i];
    assert OnSegment(r, num);
    var top' := HighestOn(r, num);
    var j :| 0 <= j < |r| && r[j].segment == num && r[j].at.y == top';
    assert r[j] in hits;
    assert top' <= top && top <= top';
    if h in hits && h.segment == num && h.at.y >= top {
      var m :| 0 <= m < |hits| && hits[m] == h;
      assert h.at.y <= top;
    }
  }

  /** A later point keeps its segment's highest point. */
  lemma KeepHighestOnElsewhere(hits: seq<Hit>, num: int, other: int)
    requires OnSegment(hits, num) && OnSegment(hits, other) && other != num
    ensures OnSegment(KeepHighestOn(hits, num), other)
    ensures HighestOn(KeepHighestOn(hits, num), other) == HighestOn(hits, other)
  {
    var r := KeepHighestOn(hits, num);
    var top := HighestOn(hits, other);
    var i :| 0 <= i < |hits| && hits[i].segment == other && hits[i].at.y == top;
    KeepHighestOnKeeps(hits, num, hits[i]);
    var k :| 0 <= k < |r| && r[k] == hits[i];
    assert OnSegment(r, other);
    var top' := HighestOn(r, other);
    var j :| 0 <= j < |r| && r[j].segment == other && r[j].at.y == top';
    KeepHighestOnKeeps(hits, num, r[j]);
    var m :| 0 <= m < |hits| && hits[m] == r[j];
    assert top' <= top && top <= top';
  }

  /** The clean-up loop: one pass per entry of the duplicate list, each on
      the points the passes before it left. */
  function KeepHighest(hits: seq<Hit>, dups: seq<int>): (r: seq<Hit>)
    requires forall k :: 0 <= k < |dups| ==> OnSegment(hits, dups[k])
    decreases |dups|
  {
    if |dups| == 0 then hits
    else
      var once := KeepHighestOn(hits, dups[0]);
      assert forall k :: 1 <= k < |dups| ==> OnSegment(once, dups[k]) by {
        forall k | 1 <= k < |dups| ensures OnSegment(once, dups[k]) {
          if dups[k] == dups[0] {
            KeepHighestOnKeeps(hits, dups[0], hits[0]);
          } else {
            KeepHighestOnElsewhere(hits, dups[0], dups[k]);
          }
        }
      }
      KeepHighest(once, dups[1..])
  }

  /** After the loop, a point remains exactly when its segment is not in
      the duplicate list or it is as high as the highest point first found
      on its segment: ties are all kept, and a segment visited twice is not
      thinned further. */
  lemma {:induction false} KeepHighestIff(hits: seq<Hit>, dups: seq<int>, h: Hit)
    requires forall k :: 0 <= k < |dups| ==> OnSegment(hits, dups[k])
    ensures h in KeepHighest(hits, dups) <==> h in hits && (h.segment !in dups || h.at.y == HighestOn(hits, h.segment))
    decreases |dups|
  {
    if |dups| > 0 {
      var num := dups[0];
      var once := KeepHighestOn(hits, num);
      var rest := dups[1..];
      assert forall k :: 0 <= k < |rest| ==> OnSegment(once, rest[k]) by {
        forall k | 0 <= k < |rest| ensures OnSegment(once, rest[k]) {
          if rest[k] == num {
            KeepHighestOnKeeps(hits, num, hits[0]);
          } else {
            KeepHighestOnElsewhere(hits, num, rest[k]);
          }
        }
      }
      KeepHighestIff(once, rest, h);
      KeepHighestOnKeeps(hits, num, h);
      assert h.segment in dups <==> h.segment == num || h.segment in rest;
      if h.segment in rest && h.segment != num {
        KeepHighestOnElsewhere(hits, num, h.segment);
      }
      if h.segment in rest && h.segment == num {
        KeepHighestOnKeeps(hits, num, h);
      }
    }
  }

  /** The duplicate list of the points' own segment ids names only segments
      that have points, so the loop never takes `max` of an empty list. */
  lemma RepeatedSegmentsPresent(hits: seq<Hit>)
    ensures forall k :: 0 <= k < |RepeatedIds(Segments(hits))| ==> OnSegment(hits, RepeatedIds(Segments(hits))[k])
  {
    var ids := Segments(hits);
    var r := RepeatedIds(ids);
    forall k | 0 <= k < |r| ensures OnSegment(hits, r[k]) {
      assert r[k] in r && Repeats(ids, r[k]);
      var i, j :| 0 <= i < j < |ids| && ids[i] == r[k] && ids[j] == r[k];
      assert hits[i].segment == r[k];
    }
  }
}

=== FILE: borders.dfy ===
/** The two stacked tools that mark where a polygon layer (a county border,
    tribal land) crosses the cross-section lines: one draws a vertical line
    at each end of every intersection segment, the other a box between the
    two ends. Both label their output with the line's ids and one chosen
    attribute. */
module BorderTools {
  import opened Wrappers
  import opened PyLists
  import opened PyStrings
  import opened Transforms
  import opened Builders
  import opened FieldLists

  /** An intersection segment row: the vertex x values of its first part,
      its `et_id`, its `mn_et_id` value (possibly null) and its value of the
      chosen field. */
  datatype Crossed = Crossed(xs: seq<real>, etId: string, mnEtId: Option<string>, rowValue: string)

  /** An output row: its geometry, the line's ids as read and the attribute. */
  datatype Labelled = Labelled(shape: seq<Point>, etId: string, mnEtId: Option<string>, attr: Attribute)

  /** The two border lines of one segment. `int(mn_et_id)` raises on a
      null or non-numeric id, and `x_list[0]` on a segment with no
      vertices. */
  function BorderLines(c: Crossed, chosenField: string, inputPath: string): (r: Result<seq<Labelled>, string>)
    ensures r.Failure? <==> IntOfField(c.mnEtId).Failure? || |c.xs| == 0
    ensures r.Success? ==> |r.value| == 2
    ensures r.Success? ==> forall k :: 0 <= k < |r.value| ==>
              && r.value[k].etId == c.etId && r.value[k].mnEtId == c.mnEtId
              && r.value[k].attr == OutputAttribute(chosenField, inputPath, c.rowValue)
    ensures r.Success? ==> var id := IntOfField(c.mnEtId).value;
              r.value[0].shape == MarkerLines(AlongSegment(c.xs), BandFloor(id), BandTop(id))[0]
              && r.value[1].shape == MarkerLines(AlongSegment(c.xs), BandFloor(id), BandTop(id))[1]
  {
    match IntOfField(c.mnEtId)
    case Failure(e) => Failure(e)
    case Success(id) =>
      if |c.xs| == 0 then Failure("list index out of range")
      else
        var lines := MarkerLines(AlongSegment(c.xs), BandFloor(id), BandTop(id));
        var a := OutputAttribute(chosenField, inputPath, c.rowValue);
        Success([Labelled(lines[0], c.etId, c.mnEtId, a), Labelled(lines[1], c.etId, c.mnEtId, a)])
  }

  /** The two lines stand at the segment's first and last x and span the
      50 to 2300 ft band of the line `mn_et_id` names. */
  lemma BorderLinesAtEnds(c: Crossed, chosenField: string, inputPath: string)
    requires BorderLines(c, chosenField, inputPath).Success?
    ensures var r := BorderLines(c, chosenField, inputPath).value;
            var id := IntOfField(c.mnEtId).value;
            && r[0].shape[0].x == r[0].shape[1].x == c.xs[0]
            && r[1].shape[0].x == r[1].shape[1].x == c.xs[|c.xs| - 1]
            && InBand(r[0].shape, id) && InBand(r[1].shape, id)
  {
    var id := IntOfField(c.mnEtId).value;
    StackedMarkersSeparated(AlongSegment(c.xs), id, id, 50.0);
  }

  /** The border tool over every segment: the lines of each segment, in
      order; the first segment that raises stops the tool. */
  function BorderTable(cs: seq<Crossed>, chosenField: string, inputPath: string): (r: Result<seq<Labelled>, string>)
    ensures r.Failure? <==> exists k :: 0 <= k < |cs| && (IntOfField(cs[k].mnEtId).Failure? || |cs[k].xs| == 0)
    ensures r.Success? ==> forall l :: l in r.value <==>
              exists k :: 0 <= k < |cs| && l in BorderLines(cs[k], chosenField, inputPath).value
  {
    var per := MapAll((c: Crossed) => BorderLines(c, chosenField, inputPath), cs);
    match per
    case Failure(e) => Failure(e)
    case Success(ls) =>
      assert forall k :: 0 <= k < |cs| ==> BorderLines(cs[k], chosenField, inputPath).value == ls[k];
      Success(Concat(ls))
  }

  /** The exclusion box of one segment: the band of its line between the
      segment's first and last x, labelled like the border lines. */
  function ExclusionBox(c: Crossed, chosenField: string, inputPath: string): (r: Result<Labelled, string>)
    ensures r.Failure? <==> IntOfField(c.mnEtId).Failure? || |c.xs| == 0
    ensures r.Success? ==> r.value.etId == c.etId && r.value.mnEtId == c.mnEtId
                           && r.value.attr == OutputAttribute(chosenField, inputPath, c.rowValue)
    ensures r.Success? ==> r.value.shape == StackedBox(c.xs[0], c.xs[|c.xs| - 1], IntOfField(c.mnEtId).value)
  {
    match IntOfField(c.mnEtId)
    case Failure(e) => Failure(e)
    case Success(id) =>
      if |c.xs| == 0 then Failure("list index out of range")
      else
        Success(Labelled(CornerOrderBox(c.xs[0], c.xs[|c.xs| - 1], id), c.etId, c.mnEtId,
                         OutputAttribute(chosenField, inputPath, c.rowValue)))
  }

  /** The exclusion tool over every segment, in order. */
  function ExclusionTable(cs: seq<Crossed>, chosenField: string, inputPath: string): (r: Result<seq<Labelled>, string>)
    ensures r.Failure? <==> exists k :: 0 <= k < |cs| && (IntOfField(cs[k].mnEtId).Failure? || |cs[k].xs| == 0)
    ensures r.Success? ==> |r.value| == |cs|
    ensures r.Success? ==> forall k :: 0 <= k < |cs| ==> InBand(r.value[k].shape, IntOfField(cs[k].mnEtId).value)
  {
    var r := MapAll((c: Crossed) => ExclusionBox(c, chosenField, inputPath), cs);
    assert r.Success? ==> forall k :: 0 <= k < |cs| ==> ExclusionBox(cs[k], chosenField, inputPath) == Success(r.value[k]);
    r
  }
}

=== FILE: builders.dfy ===
/** The geometry the tools draw directly in display space: vertical marker
    lines, boxes, polygons capped at a band's top or floor, statewide band
    polygons, the project-area rectangle and the bedrock midpoint line. */
module Builders {
  import opened Transforms
  import opened PyNumbers
  import opened XsecFeatures

  /** The statewide x extent of every stacked band. */
  const StateMinX: real := 160000.0
  const StateMaxX: real := 775000.0

  /** Floor and top of the 50 to 2300 ft drawing band of line `id`. */
  function BandFloor(id: int): real { StackedY(50.0, id) }
  function BandTop(id: int): real { StackedY(2300.0, id) }

  /** A two-vertex line from `(x, y1)` to `(x, y2)`. */
  function VerticalLine(x: real, y1: real, y2: real): seq<Point>
  {
    [Point(x, y1), Point(x, y2)]
  }

  /** Every vertex of the geometry lies between the heights `lo` and `hi`. */
  predicate WithinHeights(v: seq<Point>, lo: real, hi: real)
  {
    forall i :: 0 <= i < |v| ==> lo <= v[i].y <= hi
  }

  /** Every vertex lies inside the 50 to 2300 ft band of line `id`. */
  predicate InBand(v: seq<Point>, id: int)
  {
    WithinHeights(v, BandFloor(id), BandTop(id))
  }

  /** What an intersection with a cross-section line produced: a point (one
      x) or a segment (its vertex x values). */
  datatype Crossing = AtPoint(x: real) | AlongSegment(xs: seq<real>)

  /** One vertical line at a point crossing; two, at the first and last
      vertex, for a segment crossing. Each runs from `bottom` to `top`. */
  function MarkerLines(c: Crossing, bottom: real, top: real): (r: seq<seq<Point>>)
    requires c.AlongSegment? ==> |c.xs| > 0
    ensures |r| == (if c.AtPoint? then 1 else 2)
    ensures forall i :: 0 <= i < |r| ==> |r[i]| == 2 && r[i][0].x == r[i][1].x
    ensures forall i :: 0 <= i < |r| ==> r[i][0].y == bottom && r[i][1].y == top
    ensures c.AtPoint? ==> r[0][0].x == c.x
    ensures c.AlongSegment? ==> r[0][0].x == c.xs[0] && r[1][0].x == c.xs[|c.xs| - 1]
  {
    match c
    case AtPoint(x) => [VerticalLine(x, bottom, top)]
    case AlongSegment(xs) => [VerticalLine(xs[0], bottom, top), VerticalLine(xs[|xs| - 1], bottom, top)]
  }

  /** Stacked markers of line `id` stay in its band, so they sit strictly
      above everything drawn in a later band and strictly below everything
      drawn in an earlier one. */
  lemma StackedMarkersSeparated(c: Crossing, id: int, other: int, z: real)
    requires c.AlongSegment? ==> |c.xs| > 0
    requires 50.0 <= z <= 2300.0
    ensures forall i :: 0 <= i < |MarkerLines(c, BandFloor(id), BandTop(id))| ==>
      InBand(MarkerLines(c, BandFloor(id), BandTop(id))[i], id)
    ensures forall i, k :: 0 <= i < |MarkerLines(c, BandFloor(id), BandTop(id))| && 0 <= k < 2 ==>
      var y := MarkerLines(c, BandFloor(id), BandTop(id))[i][k].y;
      (other > id ==> StackedY(z, other) < y) && (other < id ==> y < StackedY(z, other))
  {
    StackedMonotone(50.0, 2300.0, id, CountyRelief, StackedVE);
    if other > id {
      BandsDisjoint(50.0, z, id, other);
    } else if other < id {
      BandsDisjoint(z, 2300.0, other, id);
    }
  }

  /** Traditional markers sit at the compressed along-line distance, and
      expanding that x gives the measured distance back. */
  lemma TraditionalMarkerDistance(m: real, ve: real)
    requires ve != 0.0
    ensures var line := MarkerLines(AtPoint(TraditionalX(m, ve)), 0.0, 2500.0)[0];
      TrueXDistance(line[0].x, ve) == m && line[0].y == 0.0 && line[1].y == 2500.0
  {
    TraditionalRoundTrip(m, ve);
  }

  /** A box ring `(x0, bottom), (x0, top), (xN, top), (xN, bottom)`. */
  function Box(x0: real, xN: real, bottom: real, top: real): seq<Point>
  {
    [Point(x0, bottom), Point(x0, top), Point(xN, top), Point(xN, bottom)]
  }

  /** Consecutive vertices of the ring, the last back to the first, share
      an x or a y: every edge is vertical or horizontal. */
  predicate AxisAligned(v: seq<Point>)
  {
    forall i :: 0 <= i < |v| ==>
      var n := if i + 1 < |v| then v[i + 1] else v[0];
      v[i].x == n.x || v[i].y == n.y
  }

  /** Every edge of a box ring is vertical or horizontal. */
  lemma BoxAxisAligned(x0: real, xN: real, bottom: real, top: real)
    ensures AxisAligned(Box(x0, xN, bottom, top))
  {
    var r := Box(x0, xN, bottom, top);
    forall i | 0 <= i < 4
      ensures var n := if i + 1 < |r| then r[i + 1] else r[0]; r[i].x == n.x || r[i].y == n.y
    {
    }
  }

  /** The stacked box of a segment crossing: the band of line `id` between
      the segment's first and last x. */
  function StackedBox(x0: real, xN: real, id: int): (r: seq<Point>)
    ensures |r| == 4 && AxisAligned(r)
    ensures r[0].x == r[1].x == x0 && r[2].x == r[3].x == xN
    ensures InBand(r, id)
  {
    StackedMonotone(50.0, 2300.0, id, CountyRelief, StackedVE);
    BoxAxisAligned(x0, xN, BandFloor(id), BandTop(id));
    Box(x0, xN, BandFloor(id), BandTop(id))
  }

  /** The stacked-only box tools name the corners `pt1 (x0, floor)`,
      `pt2 (x0, top)`, `pt3 (xN, floor)`, `pt4 (xN, top)` and append them
      as pt1, pt2, pt4, pt3: the same ring as the two-system box tool. */
  function CornerOrderBox(x0: real, xN: real, id: int): (r: seq<Point>)
    ensures r == StackedBox(x0, xN, id)
  {
    var pt1, pt2 := Point(x0, BandFloor(id)), Point(x0, BandTop(id));
    var pt3, pt4 := Point(xN, BandFloor(id)), Point(xN, BandTop(id));
    [pt1, pt2, pt4, pt3]
  }

  /** The traditional box: x from the measured distances of the segment's
      first and last points, y from 50 to 2300. */
  function TraditionalBox(m0: real, mN: real, ve: real): (r: seq<Point>)
    requires ve != 0.0
    ensures |r| == 4 && AxisAligned(r)
    ensures TrueXDistance(r[0].x, ve) == m0 && TrueXDistance(r[3].x, ve) == mN
    ensures WithinHeights(r, 50.0, 2300.0)
  {
    TraditionalRoundTrip(m0, ve);
    TraditionalRoundTrip(mN, ve);
    BoxAxisAligned(TraditionalX(m0, ve), TraditionalX(mN, ve), 50.0, 2300.0);
    Box(TraditionalX(m0, ve), TraditionalX(mN, ve), 50.0, 2300.0)
  }

  /** A profile closed with two extra vertices at height `capY`, above its
      last then its first vertex. */
  function CapPolygon(v: seq<Point>, capY: real): (r: seq<Point>)
    requires |v| > 0
    ensures |r| == |v| + 2 && r[..|v|] == v
    ensures r[|v|].x == v[|v| - 1].x && r[|v| + 1].x == v[0].x
    ensures r[|v|].y == capY && r[|v| + 1].y == capY
  {
    v + [Point(v[|v| - 1].x, capY), Point(v[0].x, capY)]
  }

  /** The added edges close the ring with a vertical edge at each end of
      the profile and a horizontal edge between them, and a profile below
      the cap gives a polygon below the cap. */
  lemma CapPolygonCloses(v: seq<Point>, capY: real, lo: real)
    requires |v| > 0
    ensures var r := CapPolygon(v, capY);
      r[|v| - 1].x == r[|v|].x && r[|v|].y == r[|v| + 1].y && r[|v| + 1].x == r[0].x
    ensures WithinHeights(v, lo, capY) && lo <= capY ==> WithinHeights(CapPolygon(v, capY), lo, capY)
  {
  }

  /** The polygon above a stratline or bedrock profile, up to the band top. */
  function AbovePolygon(v: seq<Point>, id: int): seq<Point>
    requires |v| > 0
  {
    CapPolygon(v, BandTop(id))
  }

  /** The polygon below a stratline, down to the band floor. */
  function BelowPolygon(v: seq<Point>, id: int): seq<Point>
    requires |v| > 0
  {
    CapPolygon(v, BandFloor(id))
  }

  /** A profile inside band `id` gives above and below polygons inside it. */
  lemma CapPolygonsInBand(v: seq<Point>, id: int)
    requires |v| > 0 && InBand(v, id)
    ensures InBand(AbovePolygon(v, id), id)
    ensures InBand(BelowPolygon(v, id), id)
  {
    StackedMonotone(50.0, 2300.0, id, CountyRelief, StackedVE);
    CapPolygonCloses(v, BandTop(id), BandFloor(id));
    var r := BelowPolygon(v, id);
    assert forall i :: 0 <= i < |v| ==> r[i] == v[i];
  }

  /** The statewide polygon of line `id`: x 160000 to 775000, y between the
      stacked heights of `minZ` and `maxZ`, ring starting top-left and going
      clockwise. */
  function BandPolygon(id: int, minZ: real, maxZ: real): (r: seq<Point>)
    ensures |r| == 4 && AxisAligned(r)
    ensures minZ <= maxZ ==> WithinHeights(r, StackedY(minZ, id), StackedY(maxZ, id))
  {
    var lo, hi := StackedY(minZ, id), StackedY(maxZ, id);
    StackedMonotone(minZ, maxZ, id, CountyRelief, StackedVE);
    assert minZ <= maxZ ==> lo <= hi;
    TopLeftRing(StateMinX, StateMaxX, lo, hi)
  }

  /** The rectangle ring the band and reference polygons use: top-left,
      top-right, bottom-right, bottom-left. */
  function TopLeftRing(x0: real, xN: real, bottom: real, top: real): (r: seq<Point>)
    ensures |r| == 4 && AxisAligned(r)
    ensures r[0].x == r[3].x == x0 && r[1].x == r[2].x == xN
    ensures r[0].y == r[1].y == top && r[2].y == r[3].y == bottom
    ensures bottom <= top ==> WithinHeights(r, bottom, top)
  {
    var r := [Point(x0, top), Point(xN, top), Point(xN, bottom), Point(x0, bottom)];
    assert AxisAligned(r) by {
      forall i | 0 <= i < 4
        ensures var n := if i + 1 < |r| then r[i + 1] else r[0]; r[i].x == n.x || r[i].y == n.y
      {
      }
    }
    r
  }

  /** The 0 to 2300 ft polygons of neighbouring lines overlap: the top of
      line `k + 1` is 52 units above the bottom of line `k`. */
  lemma BandPolygonsOverlap(k: int)
    ensures BandPolygon(k + 1, 0.0, 2300.0)[0].y - BandPolygon(k, 0.0, 2300.0)[3].y == 52.0
  {
    BandsOverlap(k);
  }

  /** The 50 to 2300 ft polygons of different lines do not meet. */
  lemma BandPolygonsDisjoint(k: int, j: int)
    requires k < j
    ensures BandPolygon(j, 50.0, 2300.0)[0].y < BandPolygon(k, 50.0, 2300.0)[3].y
  {
    BandsDisjoint(50.0, 2300.0, k, j);
  }

  /** The project-area rectangle of the mapping boundary: corners from the
      minimum and maximum vertex x and y. */
  function ProjectArea(v: seq<Point>): (r: seq<Point>)
    requires |v| > 0
    ensures |r| == 4 && AxisAligned(r)
    ensures forall i :: 0 <= i < |v| ==> r[0].x <= v[i].x <= r[2].x && r[0].y <= v[i].y <= r[2].y
  {
    var xs, ys := XList(v), YList(v);
    var xmin, xmax, ymin, ymax := MinOf(xs), MaxOf(xs), MinOf(ys), MaxOf(ys);
    BoxAxisAligned(xmin, xmax, ymin, ymax);
    Box(xmin, xmax, ymin, ymax)
  }

  /** No smaller rectangle holds the boundary: each side touches a vertex. */
  lemma ProjectAreaTight(v: seq<Point>)
    requires |v| > 0
    ensures var r := ProjectArea(v);
      (exists i :: 0 <= i < |v| && v[i].x == r[0].x) && (exists i :: 0 <= i < |v| && v[i].x == r[2].x)
      && (exists i :: 0 <= i < |v| && v[i].y == r[0].y) && (exists i :: 0 <= i < |v| && v[i].y == r[2].y)
  {
    var xs, ys := XList(v), YList(v);
    var a :| 0 <= a < |xs| && xs[a] == MinOf(xs);
    var b :| 0 <= b < |xs| && xs[b] == MaxOf(xs);
    var c :| 0 <= c < |ys| && ys[c] == MinOf(ys);
    var d :| 0 <= d < |ys| && ys[d] == MaxOf(ys);
  }

  /** `int(len(pointlist) / 2)`: the middle vertex index. */
  function MidIndex(n: nat): (i: nat)
    requires n > 0
    ensures i < n
    ensures i == Trunc(n as real / 2.0)
    ensures 2 * i <= n <= 2 * i + 1
  {
    TruncHalf(n);
    n / 2
  }

  /** The bedrock test line: from the profile's middle vertex straight down
      to the band floor of line `id`. */
  function MidpointLine(v: seq<Point>, id: int): (r: seq<Point>)
    requires |v| > 0
    ensures |r| == 2 && r[0] in v && r[0].x == r[1].x && r[1].y == BandFloor(id)
    ensures r[0] == v[MidIndex(|v|)]
  {
    var mid := v[MidIndex(|v|)];
    VerticalLine(mid.x, mid.y, BandFloor(id))
  }
}

=== FILE: features.dfy ===
/** The feature loops the conversion and projection tools share: features are
    read per cross-section line through an `et_id` where clause, rows with a
    null geometry are skipped, and every vertex is converted on its own. */
module XsecFeatures {
  import opened Wrappers
  import opened Transforms
  import opened PyNumbers
  import opened PyLists

  /** The shape type of the input feature class (`desc.shapeType`). */
  datatype ShapeType = PointShape | PolylineShape | PolygonShape

  /** A cross-section line (xsln) row: its vertices, label and the text of
      its statewide `mn_et_id` field, which may be null. */
  datatype Xsln = Xsln(vertices: seq<Point>, etId: string, mnEtId: Option<string>)

  /** An input feature row: its `et_id`, geometry (a point is one vertex) and
      the `unique_id` copied from OBJECTID or FID. */
  datatype Feature = Feature(etId: string, shape: Option<seq<Point>>, oid: Option<int>)

  /** An output row: the converted geometry and the copied attributes. */
  datatype Output = Output(shape: seq<Point>, etId: string, oid: Option<int>, mnEtId: Option<string>)

  /** The geometry with every vertex passed through `f`, in order. */
  function MapPoints(v: seq<Point>, f: Point -> Point): (r: seq<Point>)
    ensures |r| == |v|
    ensures forall i :: 0 <= i < |v| ==> r[i] == f(v[i])
  {
    if |v| == 0 then [] else [f(v[0])] + MapPoints(v[1..], f)
  }

  /** Rows the where clause `et_id = etId` returns and that have a geometry. */
  predicate Selected(etId: string, feat: Feature)
  {
    feat.etId == etId && feat.shape.Some?
  }

  /** The output row a feature with a geometry produces. The vertex
      conversion `conv` is None when its arithmetic raises (a zero divisor),
      and then only a geometry without vertices gets through. */
  function Converted(feat: Feature, etId: string, mnEtId: Option<string>, conv: Option<Point -> Point>): (o: Option<Output>)
    requires feat.shape.Some?
    ensures o.None? <==> conv.None? && |feat.shape.value| > 0
    ensures o.Some? ==> o.value.etId == etId && o.value.oid == feat.oid && o.value.mnEtId == mnEtId
    ensures o.Some? ==> |o.value.shape| == |feat.shape.value|
    ensures o.Some? && conv.Some? ==>
              forall i :: 0 <= i < |feat.shape.value| ==> o.value.shape[i] == conv.value(feat.shape.value[i])
  {
    var v := feat.shape.value;
    match conv
    case Some(f) => Some(Output(MapPoints(v, f), etId, feat.oid, mnEtId))
    case None => if |v| == 0 then Some(Output([], etId, feat.oid, mnEtId)) else None
  }

  /** A row of the point loop that raises: the point loop has no `try`, its
      null check compares the whole row tuple with None and never skips, so
      a null geometry's coordinates (None) raise TypeError, and a zero
      divisor raises ZeroDivisionError. */
  predicate PointRaises(feat: Feature, etId: string, zeroDivisor: bool)
  {
    feat.etId == etId && (feat.shape.None? || (zeroDivisor && |feat.shape.value| > 0))
  }

  /** The inner cursor loop for one xsln. Points: every selected row is
      converted and the first one that raises stops the tool. Lines and
      polygons: a null geometry is skipped, and a feature whose conversion
      raises is dropped by the loop's `try` / `except: continue`. */
  function ConvertSelected(kind: ShapeType, feats: seq<Feature>, etId: string, mnEtId: Option<string>,
                           conv: Option<Point -> Point>): (r: Result<seq<Output>, string>)
    ensures r.Failure? <==> kind == PointShape && exists i :: 0 <= i < |feats| && PointRaises(feats[i], etId, conv.None?)
    ensures r.Success? ==> |r.value| <= |feats|
    ensures r.Success? ==> forall k :: 0 <= k < |r.value| ==> r.value[k].etId == etId && r.value[k].mnEtId == mnEtId
  {
    if |feats| == 0 then Success([])
    else
      var rest := ConvertSelected(kind, feats[1..], etId, mnEtId, conv);
      assert (exists i :: 0 <= i < |feats| && PointRaises(feats[i], etId, conv.None?))
             <==> PointRaises(feats[0], etId, conv.None?)
                  || exists i :: 0 <= i < |feats[1..]| && PointRaises(feats[1..][i], etId, conv.None?)
      by {
        if exists i :: 0 <= i < |feats| && PointRaises(feats[i], etId, conv.None?) {
          var i :| 0 <= i < |feats| && PointRaises(feats[i], etId, conv.None?);
          if i > 0 { assert feats[1..][i - 1] == feats[i]; }
        }
      }
      var feat := feats[0];
      if feat.etId != etId then rest
      else if feat.shape.None? then
        if kind == PointShape then Failure("unsupported operand type(s): 'NoneType'") else rest
      else
        match Converted(feat, etId, mnEtId, conv)
        case None => if kind == PointShape then Failure("division by zero") else rest
        case Some(o) => if rest.Failure? then rest else Success([o] + rest.value)
  }

  /** One step of the inner loop: the first feature's row, if it yields
      one, then the rows of the rest. */
  lemma ConvertSelectedStep(kind: ShapeType, feats: seq<Feature>, etId: string, mnEtId: Option<string>,
                            conv: Option<Point -> Point>)
    requires |feats| > 0 && ConvertSelected(kind, feats, etId, mnEtId, conv).Success?
    ensures ConvertSelected(kind, feats[1..], etId, mnEtId, conv).Success?
    ensures var head := if Selected(etId, feats[0]) then Converted(feats[0], etId, mnEtId, conv) else None;
            ConvertSelected(kind, feats, etId, mnEtId, conv).value
            == (if head.Some? then [head.value] else []) + ConvertSelected(kind, feats[1..], etId, mnEtId, conv).value
  {
  }

  /** Feature `feat`, selected for line `etId`, converts to row `o`. */
  predicate Yields(feat: Feature, etId: string, mnEtId: Option<string>, conv: Option<Point -> Point>, o: Output)
  {
    Selected(etId, feat) && Converted(feat, etId, mnEtId, conv) == Some(o)
  }

  /** The rows one xsln produces are exactly the selected features whose
      conversion goes through. */
  lemma {:induction false} ConvertSelectedOutputs(kind: ShapeType, feats: seq<Feature>, etId: string, mnEtId: Option<string>,
                                                  conv: Option<Point -> Point>, o: Output)
    requires ConvertSelected(kind, feats, etId, mnEtId, conv).Success?
    ensures o in ConvertSelected(kind, feats, etId, mnEtId, conv).value
            <==> exists i :: 0 <= i < |feats| && Yields(feats[i], etId, mnEtId, conv, o)
    decreases |feats|
  {
    if |feats| > 0 {
      var tail := feats[1..];
      ConvertSelectedStep(kind, feats, etId, mnEtId, conv);
      ConvertSelectedOutputs(kind, tail, etId, mnEtId, conv, o);
      assert (exists i :: 0 <= i < |feats| && Yields(feats[i], etId, mnEtId, conv, o))
             <==> Yields(feats[0], etId, mnEtId, conv, o) || exists i :: 0 <= i < |tail| && Yields(tail[i], etId, mnEtId, conv, o)
      by {
        if exists i :: 0 <= i < |feats| && Yields(feats[i], etId, mnEtId, conv, o) {
          var i :| 0 <= i < |feats| && Yields(feats[i], etId, mnEtId, conv, o);
          if i > 0 { assert tail[i - 1] == feats[i]; }
        }
        if exists i :: 0 <= i < |tail| && Yields(tail[i], etId, mnEtId, conv, o) {
          var i :| 0 <= i < |tail| && Yields(tail[i], etId, mnEtId, conv, o);
          assert feats[i + 1] == tail[i];
        }
      }
    }
  }

  /** A row that produces nothing (another line's `et_id`, or a line or
      polygon with a null geometry or a conversion that raises) leaves the
      output unchanged. */
  lemma {:induction false} ConvertSelectedSkips(kind: ShapeType, feats: seq<Feature>, extra: Feature, etId: string,
                                                mnEtId: Option<string>, conv: Option<Point -> Point>)
    requires extra.etId != etId || (kind != PointShape && (extra.shape.None? || Converted(extra, etId, mnEtId, conv).None?))
    ensures ConvertSelected(kind, feats + [extra], etId, mnEtId, conv) == ConvertSelected(kind, feats, etId, mnEtId, conv)
    decreases |feats|
  {
    if |feats| == 0 {
      assert ([] + [extra])[1..] == [];
    } else {
      assert (feats + [extra])[1..] == feats[1..] + [extra];
      assert (feats + [extra])[0] == feats[0];
      ConvertSelectedSkips(kind, feats[1..], extra, etId, mnEtId, conv);
    }
  }

  /** The outer cursor over the xsln rows: each line's rows in turn, the
      first line that raises stopping the tool. */
  function ConvertLines(xs: seq<Xsln>, perLine: Xsln -> Result<seq<Output>, string>): (r: Result<seq<Output>, string>)
    ensures r.Failure? <==> exists j :: 0 <= j < |xs| && perLine(xs[j]).Failure?
    ensures r.Success? ==>
              forall o :: o in r.value <==> exists j :: 0 <= j < |xs| && perLine(xs[j]).Success? && o in perLine(xs[j]).value
  {
    match MapAll(perLine, xs)
    case Failure(e) => Failure(e)
    case Success(per) =>
      var c := Concat(per);
      assert forall o :: o in c <==> exists j :: 0 <= j < |xs| && perLine(xs[j]).Success? && o in perLine(xs[j]).value
      by {
        forall o | o in c ensures exists j :: 0 <= j < |xs| && perLine(xs[j]).Success? && o in perLine(xs[j]).value {
          var j :| 0 <= j < |per| && o in per[j];
          assert perLine(xs[j]) == Success(per[j]);
        }
        forall o, j | 0 <= j < |xs| && perLine(xs[j]).Success? && o in perLine(xs[j]).value ensures o in c {
          assert perLine(xs[j]) == Success(per[j]);
        }
      }
      Success(c)
  }

  /** The x coordinates of a geometry's vertices, in order (`x_list`). */
  function XList(v: seq<Point>): (xs: seq<real>)
    ensures |xs| == |v|
    ensures forall i :: 0 <= i < |v| ==> xs[i] == v[i].x
  {
    if |v| == 0 then [] else [v[0].x] + XList(v[1..])
  }

  /** The y coordinates of a geometry's vertices, in order (`y_list`). */
  function YList(v: seq<Point>): (ys: seq<real>)
    ensures |ys| == |v|
    ensures forall i :: 0 <= i < |v| ==> ys[i] == v[i].y
  {
    if |v| == 0 then [] else [v[0].y] + YList(v[1..])
  }

  /** `min(x_pointlist)`: the westernmost vertex x of a line. */
  function MinX(v: seq<Point>): (m: real)
    requires |v| > 0
    ensures forall i :: 0 <= i < |v| ==> m <= v[i].x
    ensures exists i :: 0 <= i < |v| && v[i].x == m
  {
    var m := MinOf(XList(v));
    assert exists i :: 0 <= i < |v| && XList(v)[i] == m;
    m
  }

  /** The straight east-west check every converter makes of a line: a
      warning when it has more than two vertices, an error when the first
      and last vertex y differ. Both are reported; processing continues. */
  datatype LineCheck = LineCheck(warnMoreThanTwo: bool, errorEndsDiffer: bool)

  /** Every vertex of the line has the same y. */
  predicate EastWest(v: seq<Point>)
  {
    forall i :: 0 <= i < |v| ==> v[i].y == v[0].y
  }

  /** The warning is given exactly for more than two vertices and the error
      exactly when the end vertices differ in y. So a line the check passes
      silently is straight east-west, and an east-west line never draws the
      error (only, beyond two vertices, the warning). */
  function CheckStraight(v: seq<Point>): (c: LineCheck)
    requires |v| > 0
    ensures c.warnMoreThanTwo <==> |v| > 2
    ensures c.errorEndsDiffer <==> v[0].y != v[|v| - 1].y
    ensures !c.warnMoreThanTwo && !c.errorEndsDiffer ==> EastWest(v)
    ensures EastWest(v) ==> !c.errorEndsDiffer
  {
    LineCheck(|v| > 2, v[0].y != v[|v| - 1].y)
  }
}

=== FILE: fields.dfy ===
/** Attribute-field bookkeeping the tools share: the list of fields joined
    back onto a generated output (redundant and system fields taken out),
    the dissolve field list built while removing from the list being
    iterated, the field the `unique_id` is copied from, and the attribute a
    box or border line is labelled with. */
module FieldLists {
  import opened Wrappers
  import opened PyLists
  import opened PyStrings

  // ---------------------------------------------------------------------------
  // removing names from a field list

  /** `for n in names: l.remove(n)`: every name must be present, or
      `list.remove` raises ValueError. */
  function RemoveEach(l: seq<string>, names: seq<string>): (r: Result<seq<string>, string>)
    ensures r.Success? ==> |r.value| == |l| - |names|
    ensures Distinct(l) && Distinct(names) ==> (r.Success? <==> forall n :: n in names ==> n in l)
    ensures Distinct(l) && r.Success? ==> Distinct(r.value) && forall x :: x in r.value <==> x in l && x !in names
    decreases |names|
  {
    if |names| == 0 then Success(l)
    else
      var n := names[0];
      assert forall x :: x in names <==> x == n || x in names[1..] by { assert names == [n] + names[1..]; }
      if n !in l then Failure("list.remove(x): x not in list")
      else
        var l' := RemoveFirst(l, n);
        assert Distinct(l) ==> Distinct(l') && forall x :: x in l' <==> x in l && x != n by { if Distinct(l) { RemoveFirstDistinct(l, n); } }
        assert Distinct(names) ==> n !in names[1..] && Distinct(names[1..]) by {
          if Distinct(names) {
            forall i, j | 0 <= i < j < |names[1..]| ensures names[1..][i] != names[1..][j] {
              assert names[1..][i] == names[i + 1] && names[1..][j] == names[j + 1];
            }
            forall i | 0 <= i < |names[1..]| ensures names[1..][i] != n { assert names[1..][i] == names[i + 1]; }
          }
        }
        RemoveEach(l', names[1..])
  }

  /** `for n in names: if n in l: l.remove(n)`. */
  function RemoveEachIfPresent(l: seq<string>, names: seq<string>): (r: seq<string>)
    ensures |r| <= |l|
    ensures forall x :: x in r ==> x in l
    ensures Distinct(l) ==> Distinct(r) && forall x :: x in r <==> x in l && x !in names
    decreases |names|
  {
    if |names| == 0 then l
    else
      var n := names[0];
      assert forall x :: x in names <==> x == n || x in names[1..] by { assert names == [n] + names[1..]; }
      var l' := RemoveIfPresent(l, n);
      assert forall x :: x in l' ==> x in l by {
        if n in l {
          forall x | x in l' ensures x in l { assert multiset(l')[x] <= multiset(l)[x]; }
        }
      }
      assert Distinct(l) && n in l ==> Distinct(l') && forall x :: x in l' <==> x in l && x != n by { if Distinct(l) && n in l { RemoveFirstDistinct(l, n); } }
      RemoveEachIfPresent(l', names[1..])
  }

  /** A field list minus the names the script removes unconditionally
      (`join_fields.remove(...)`) and then those it removes only when present. */
  function JoinFieldList(fields: seq<string>, required: seq<string>, optional: seq<string>): (r: Result<seq<string>, string>)
    ensures Distinct(fields) && Distinct(required) ==> (r.Success? <==> forall n :: n in required ==> n in fields)
    ensures Distinct(fields) && r.Success? ==>
              Distinct(r.value) && forall x :: x in r.value <==> x in fields && x !in required && x !in optional
  {
    match RemoveEach(fields, required)
    case Failure(e) => Failure(e)
    case Success(l) => Success(RemoveEachIfPresent(l, optional))
  }

  /** The system fields every join list takes out when present. */
  const SystemFields: seq<string> := ["Shape", "OBJECTID", "FID", "Shape_Length", "Shape_Area", "TARGET_FID", "Join_Count"]

  /** The join list of the copy-to-every-line tool: `mn_et_id` and
      `unique_id` must be there; the system fields and `et_id` go if
      present. */
  function ProjectAllJoinFields(fields: seq<string>): (r: Result<seq<string>, string>)
    ensures Distinct(fields) ==> (r.Success? <==> "mn_et_id" in fields && "unique_id" in fields)
    ensures Distinct(fields) && r.Success? ==> forall x :: x in r.value <==>
              x in fields && x !in ["mn_et_id", "unique_id"] && x !in SystemFields && x != "et_id"
  {
    JoinFieldList(fields, ["mn_et_id", "unique_id"], SystemFields + ["et_id"])
  }

  /** The join list of both box tools: everything optional. */
  function BoxJoinFields(fields: seq<string>): (r: seq<string>)
    ensures Distinct(fields) ==> forall x :: x in r <==>
              x in fields && x !in ["mn_et_id", "unique_id"] && x !in SystemFields && x != "et_id"
  {
    RemoveEachIfPresent(fields, ["mn_et_id", "unique_id"] + SystemFields + ["et_id"])
  }

  /** The join list of the profile-intersect tool: `unique_id` must be
      there. */
  function ProfileJoinFields(fields: seq<string>): (r: Result<seq<string>, string>)
    ensures Distinct(fields) ==> (r.Success? <==> "unique_id" in fields)
    ensures Distinct(fields) && r.Success? ==> forall x :: x in r.value <==>
              x in fields && x != "unique_id" && x !in SystemFields && x != "et_id"
  {
    JoinFieldList(fields, ["unique_id"], SystemFields + ["et_id"])
  }

  /** The join list of the project-to-view tool: the line id field goes,
      and `mn_et_id` goes only in the stacked system. */
  function XsecViewJoinFields(fields: seq<string>, xsecIdField: string, stacked: bool): (r: Result<seq<string>, string>)
    ensures Distinct(fields) ==> (r.Success? <==> "unique_id" in fields)
    ensures Distinct(fields) && r.Success? ==> forall x :: x in r.value <==>
              x in fields && x != "unique_id" && x !in SystemFields && x != xsecIdField
              && (stacked ==> x != "mn_et_id")
  {
    JoinFieldList(fields, ["unique_id"], SystemFields + [xsecIdField] + (if stacked then ["mn_et_id"] else []))
  }

  /** So a traditional view keeps the line's `mn_et_id` in its join list
      and a stacked view does not. */
  lemma XsecViewJoinKeepsIdWhenTraditional(fields: seq<string>, xsecIdField: string)
    requires Distinct(fields)
    requires "unique_id" in fields && "mn_et_id" in fields && xsecIdField != "mn_et_id"
    ensures "mn_et_id" in XsecViewJoinFields(fields, xsecIdField, false).value
    ensures "mn_et_id" !in XsecViewJoinFields(fields, xsecIdField, true).value
  {
    assert "mn_et_id" !in SystemFields;
    var traditional := XsecViewJoinFields(fields, xsecIdField, false);
    var stacked := XsecViewJoinFields(fields, xsecIdField, true);
    assert traditional.Success? && stacked.Success?;
  }

  /** The fields the raster-profile tool does not join back from the xsln. */
  function RasterNoJoin(etIdField: string): seq<string>
  {
    [etIdField, "mn_et_id", "OBJECTID", "Shape", "Join_Count", "TARGET_FID", "Shape_Length"]
  }

  /** The raster-profile join list: the xsln field names minus those. */
  function RasterJoinFields(names: seq<string>, etIdField: string): (r: seq<string>)
    ensures Distinct(names) ==> forall x :: x in r <==> x in names && x !in RasterNoJoin(etIdField)
  {
    RemoveEachIfPresent(names, RasterNoJoin(etIdField))
  }

  // ---------------------------------------------------------------------------
  // the dissolve field list of the project-to-view tool

  /** The fields the dissolve is not to group by. */
  const DissolveDropped: seq<string> := ["OBJECTID", "Shape", "FID", "Shape_Length"]

  /** The loop that removes the dropped fields from the list it iterates and
      appends every other field it examines: the appended names. */
  function DissolveFieldNames(names: seq<string>): seq<string>
  {
    SweepFrom(names, 0, DissolveDropped).appended
  }

  /** Every name the loop keeps is an input field that is not dropped, and
      over distinct names the loop is the skip-after-removal reference. */
  lemma DissolveFieldNamesSound(names: seq<string>)
    requires Distinct(names)
    ensures DissolveFieldNames(names) == SkipVisit(names, DissolveDropped)
    ensures forall x :: x in DissolveFieldNames(names) ==> x in names && x !in DissolveDropped
  {
    SweepMatchesReference(names, DissolveDropped);
    SkipVisitSound(names, DissolveDropped);
  }

  /** The field right after a dropped first field is never examined, so it
      is missing from the dissolve list even when it should be kept. */
  lemma {:induction false} DissolveSkipsFieldAfterDropped(names: seq<string>)
    requires Distinct(names) && |names| >= 2
    requires names[0] in DissolveDropped
    ensures names[1] !in DissolveFieldNames(names)
  {
    SweepMatchesReference(names, DissolveDropped);
    SkipVisitSound(names[2..], DissolveDropped);
    assert names[1] !in names[2..] by {
      forall j | 0 <= j < |names[2..]| ensures names[2..][j] != names[1] { assert names[2..][j] == names[j + 2]; }
    }
  }

  /** A field list with none of the dropped names comes back whole. */
  lemma {:induction false} SkipVisitNoneDropped(l: seq<string>, drop: seq<string>)
    requires forall i :: 0 <= i < |l| ==> l[i] !in drop
    ensures SkipVisit(l, drop) == l
    decreases |l|
  {
    if |l| > 0 {
      SkipVisitNoneDropped(l[1..], drop);
      assert l == [l[0]] + l[1..];
    }
  }

  lemma DissolveFieldNamesKeepsAll(names: seq<string>)
    requires Distinct(names)
    requires forall i :: 0 <= i < |names| ==> names[i] !in DissolveDropped
    ensures DissolveFieldNames(names) == names
  {
    SweepMatchesReference(names, DissolveDropped);
    SkipVisitNoneDropped(names, DissolveDropped);
  }

  // ---------------------------------------------------------------------------
  // the unique_id source field

  /** The fields the box tools look for, in order. */
  const BoxIdFields: seq<string> := ["OBJECTID", "objectid", "FID", "fid"]
  /** The fields the re-projection tools look for, in order. */
  const ProjectIdFields: seq<string> := ["OBJECTID", "FID"]

  /** The first candidate the table has; none means the error is printed
      and `unique_id` stays empty. */
  function UniqueIdSource(fields: seq<string>, candidates: seq<string>): (r: Option<string>)
    ensures r.None? <==> forall c :: c in candidates ==> c !in fields
    ensures r.Some? ==> r.value in fields && (exists k :: 0 <= k < |candidates| && candidates[k] == r.value
                                               && forall j :: 0 <= j < k ==> candidates[j] !in fields)
    decreases |candidates|
  {
    if |candidates| == 0 then None
    else if candidates[0] in fields then Some(candidates[0])
    else
      var r := UniqueIdSource(fields, candidates[1..]);
      assert forall c :: c in candidates <==> c == candidates[0] || c in candidates[1..] by {
        assert candidates == [candidates[0]] + candidates[1..];
      }
      if r.Some? then
        var k :| 0 <= k < |candidates[1..]| && candidates[1..][k] == r.value
                 && forall j :: 0 <= j < k ==> candidates[1..][j] !in fields;
        assert candidates[k + 1] == r.value;
        assert forall j :: 0 < j < k + 1 ==> candidates[j] == candidates[1..][j - 1];
        r
      else r
  }

  /** A shapefile (which has `FID` but no `OBJECTID`) gets its id from `FID`
      in the re-projection tools, and a table with both uses `OBJECTID`. */
  lemma UniqueIdSourcePrefersObjectId(fields: seq<string>)
    ensures "OBJECTID" in fields ==> UniqueIdSource(fields, ProjectIdFields) == Some("OBJECTID")
    ensures "OBJECTID" !in fields && "FID" in fields ==> UniqueIdSource(fields, ProjectIdFields) == Some("FID")
  {
  }

  // ---------------------------------------------------------------------------
  // the output attribute of the box and border tools

  /** The attribute an output feature carries: its field name and value. */
  datatype Attribute = Attribute(field: string, value: string)

  /** With no attribute field chosen the output is labelled "source_file"
      with the input's basename; otherwise with the chosen field and the
      row's value of it. */
  function OutputAttribute(chosenField: string, inputPath: string, rowValue: string): (a: Attribute)
    ensures chosenField == "" <==> a.field == "source_file" && a.value == Basename(inputPath) && chosenField != a.field
    ensures chosenField != "" ==> a == Attribute(chosenField, rowValue)
  {
    if chosenField == "" then Attribute("source_file", Basename(inputPath))
    else Attribute(chosenField, rowValue)
  }
}

=== FILE: ids.dfy ===
/** Cross-section ids. Every statewide cross-section line carries a text
    `mn_et_id`; a county project renumbers its lines as `et_id` labels
    counted from the county's smallest id, and the join tools list the ids
    they draw bands for. */
module CrossSectionIds {
  import opened Wrappers
  import opened PyLists
  import opened PyStrings
  import opened Transforms
  import opened Builders

  // ---------------------------------------------------------------------------
  // int() of a text field

  /** The cursor loop `int(row[0])` over every row: the integers in row order,
      or the error of the first row that does not convert. */
  function IntsOfFields(rows: seq<Option<string>>): (r: Result<seq<int>, string>)
    ensures r.Failure? <==> exists i :: 0 <= i < |rows| && IntOfField(rows[i]).Failure?
    ensures r.Success? ==> |r.value| == |rows|
    ensures r.Success? ==> forall i :: 0 <= i < |rows| ==> IntOfField(rows[i]) == Success(r.value[i])
  {
    MapAll(IntOfField, rows)
  }

  // ---------------------------------------------------------------------------
  // et_id labels

  /** `min(mn_id_list)` of a non-empty list. */
  function MinId(l: seq<int>): (m: int)
    requires |l| > 0
    ensures m in l
    ensures forall i :: 0 <= i < |l| ==> m <= l[i]
  {
    if |l| == 1 then l[0]
    else
      var r := MinId(l[1..]);
      assert forall i :: 1 <= i < |l| ==> l[i] == l[1..][i - 1];
      if l[0] <= r then l[0] else r
  }

  /** The `et_id` label of statewide id `mn` in a county whose smallest id is
      `minId`: `str(mn - (minId - 1))`, with a "0" in front when that text is
      a single character. Read back with `int()` it is the line's position
      counted from 1 at the smallest id, and it is never shorter than two
      characters. From the smallest id on it is all digits, with a leading
      "0" exactly for the first nine lines, and two characters up to line
      99. */
  function EtIdLabel(mn: int, minId: int): (s: string)
    ensures ParseInt(s) == Success(mn - minId + 1)
    ensures |s| >= 2
    ensures mn >= minId ==> AllDigits(s) && (s[0] == '0' <==> mn - minId + 1 < 10)
    ensures minId <= mn < minId + 99 ==> |s| == 2
  {
    PaddedInt(mn - minId + 1)
  }

  /** `str(n)`, with a "0" in front when that is a single character. */
  function PaddedInt(n: int): (s: string)
    ensures ParseInt(s) == Success(n) && |s| >= 2
    ensures n >= 0 ==> AllDigits(s) && (s[0] == '0' <==> n < 10)
    ensures 0 <= n < 100 ==> |s| == 2
  {
    PaddedReadsBack(n);
    assert n >= 0 ==> IntToString(n) == NatToString(n);
    ZeroPadded(IntToString(n))
  }

  /** Text with a "0" in front when it is a single character. */
  function ZeroPadded(t: string): string
  {
    if |t| == 1 then "0" + t else t
  }

  /** `str(n)` padded to two characters still reads back as `n`. */
  lemma PaddedReadsBack(n: int)
    ensures ParseInt(ZeroPadded(IntToString(n))) == Success(n)
    ensures |ZeroPadded(IntToString(n))| >= 2
  {
    var t := IntToString(n);
    if |t| == 1 {
      assert n >= 0 && t == NatToString(n);
      PaddedDigit(n);
    } else {
      ParseIntOfString(n);
    }
  }

  /** A single digit with a "0" in front still reads as that digit. */
  lemma PaddedDigit(n: int)
    requires 0 <= n < 10
    ensures ParseInt("0" + IntToString(n)) == Success(n)
  {
    var d := DigitChar(n);
    assert IntToString(n) == [d];
    var s := ['0', d];
    assert "0" + IntToString(n) == s;
    assert !IsSpace('0') && !IsSpace(d);
    StripFixedPoint(s);
    assert AllDigits(s);
    assert s[..1] == ['0'] && ['0'][..0] == [];
    assert DigitsValue(['0']) == 0;
  }

  /** Different ids get different labels, and the label order is the id
      order: the relabelling keeps the gaps between ids. */
  lemma EtIdLabelOrder(a: int, b: int, minId: int)
    ensures EtIdLabel(a, minId) == EtIdLabel(b, minId) <==> a == b
    ensures a < b <==> ParseInt(EtIdLabel(a, minId)).value < ParseInt(EtIdLabel(b, minId)).value
    ensures ParseInt(EtIdLabel(b, minId)).value - ParseInt(EtIdLabel(a, minId)).value == b - a
  {
  }

  /** The `et_id` pass of the geodatabase builders: every xsln row's
      `mn_et_id` converted with `int()`, the minimum found, and each row
      labelled. A null or non-integer id, or an empty table (`min()` of an
      empty list), stops the run. */
  function EtIdLabels(rows: seq<Option<string>>): (r: Result<seq<string>, string>)
    ensures r.Failure? <==> |rows| == 0 || exists i :: 0 <= i < |rows| && IntOfField(rows[i]).Failure?
    ensures r.Success? ==> |r.value| == |rows|
    ensures r.Success? ==> exists i :: 0 <= i < |rows| && r.value[i] == "01"
    ensures r.Success? ==> forall i :: 0 <= i < |rows| ==> ParseInt(r.value[i]).Success? && ParseInt(r.value[i]).value >= 1
    ensures r.Success? ==> forall i, j :: 0 <= i < |rows| && 0 <= j < |rows| ==>
              ParseInt(r.value[j]).value - ParseInt(r.value[i]).value
              == IntOfField(rows[j]).value - IntOfField(rows[i]).value
  {
    match IntsOfFields(rows)
    case Failure(e) => Failure(e)
    case Success(ids) =>
      if |ids| == 0 then Failure("min() arg is an empty sequence")
      else
        var m := MinId(ids);
        var labels := Relabel(ids, m);
        var k :| 0 <= k < |ids| && ids[k] == m;
        EtIdLabelOfMin(m);
        assert labels[k] == "01";
        forall i, j | 0 <= i < |rows| && 0 <= j < |rows|
          ensures ParseInt(labels[j]).value - ParseInt(labels[i]).value
                  == IntOfField(rows[j]).value - IntOfField(rows[i]).value
        {
          assert labels[j] == EtIdLabel(ids[j], m) && labels[i] == EtIdLabel(ids[i], m);
        }
        forall i | 0 <= i < |rows| ensures ParseInt(labels[i]).Success? && ParseInt(labels[i]).value >= 1 {
          assert labels[i] == EtIdLabel(ids[i], m);
        }
        Success(labels)
  }

  /** The smallest id is labelled "01". */
  lemma EtIdLabelOfMin(m: int)
    ensures EtIdLabel(m, m) == "01"
  {
    assert IntToString(1) == NatToString(1) == [DigitChar(1)];
  }

  /** Every id of the list labelled against the same minimum. */
  function Relabel(ids: seq<int>, m: int): (labels: seq<string>)
    ensures |labels| == |ids|
    ensures forall i :: 0 <= i < |ids| ==> labels[i] == EtIdLabel(ids[i], m)
  {
    if |ids| == 0 then []
    else
      var rest := Relabel(ids[1..], m);
      assert forall i :: 0 < i < |ids| ==> ids[i] == ids[1..][i - 1];
      [EtIdLabel(ids[0], m)] + rest
  }

  /** Lines `m`, `m + 1`, `m + 2` and `m + 4` (5, 6, 7 and 9, say) are
      labelled "01", "02", "03" and "05": the missing line leaves a gap. */
  lemma EtIdLabelsWithGap(ids: seq<int>, m: int)
    requires ids == [m, m + 1, m + 2, m + 4]
    ensures EtIdLabels(IdsAsText(ids)) == Success(["01", "02", "03", "05"])
  {
    assert MinId(ids) == m by {
      assert ids[0] == m;
      MinIdIs(ids, m);
    }
    assert Relabel(ids, m) == ["01", "02", "03", "05"] by {
      GapExampleLabels(ids, m);
    }
    EtIdLabelsOfText(ids);
  }

  /** A member no larger than any other is the minimum. */
  lemma MinIdIs(ids: seq<int>, m: int)
    requires m in ids && forall i :: 0 <= i < |ids| ==> m <= ids[i]
    ensures MinId(ids) == m
  {
  }

  /** Ids written as text are labelled against their own minimum. */
  lemma EtIdLabelsOfText(ids: seq<int>)
    requires |ids| > 0
    ensures EtIdLabels(IdsAsText(ids)) == Success(Relabel(ids, MinId(ids)))
  {
    IdsAsTextReadBack(ids);
  }

  /** Ids stored as text fields, `str(id)` each. */
  function IdsAsText(ids: seq<int>): (rows: seq<Option<string>>)
    ensures |rows| == |ids| && forall i :: 0 <= i < |ids| ==> rows[i] == Some(IntToString(ids[i]))
  {
    seq(|ids|, i requires 0 <= i < |ids| => Some(IntToString(ids[i])))
  }

  /** Ids written as text read back as the same ids, in the same order. */
  lemma IdsAsTextReadBack(ids: seq<int>)
    ensures IntsOfFields(IdsAsText(ids)) == Success(ids)
  {
    var rows := IdsAsText(ids);
    forall i | 0 <= i < |ids| ensures IntOfField(rows[i]) == Success(ids[i]) {
      ParseIntOfString(ids[i]);
    }
    var r := IntsOfFields(rows);
    assert r.Success?;
    assert r.value == ids;
  }

  lemma GapExampleLabels(ids: seq<int>, m: int)
    requires ids == [m, m + 1, m + 2, m + 4]
    ensures Relabel(ids, m) == ["01", "02", "03", "05"]
  {
    RelabelDigit(ids, m, 0, 1);
    RelabelDigit(ids, m, 1, 2);
    RelabelDigit(ids, m, 2, 3);
    RelabelDigit(ids, m, 3, 5);
    assert DigitChar(1) == '1' && DigitChar(2) == '2' && DigitChar(3) == '3' && DigitChar(5) == '5';
    FourElements(Relabel(ids, m), "01", "02", "03", "05");
  }

  lemma RelabelDigit(ids: seq<int>, m: int, i: nat, d: nat)
    requires i < |ids| && 1 <= d <= 9 && ids[i] - m + 1 == d
    ensures |Relabel(ids, m)| == |ids|
    ensures Relabel(ids, m)[i] == ['0', DigitChar(d)]
  {
    PaddedLabel(ids[i], m, d);
  }

  lemma FourElements<T>(s: seq<T>, a: T, b: T, c: T, d: T)
    requires |s| == 4 && s[0] == a && s[1] == b && s[2] == c && s[3] == d
    ensures s == [a, b, c, d]
  {
  }

  /** A line at most nine places above the minimum gets "0" and one digit. */
  lemma PaddedLabel(mn: int, minId: int, d: nat)
    requires 1 <= d <= 9 && mn - minId + 1 == d
    ensures EtIdLabel(mn, minId) == ['0', DigitChar(d)]
  {
    DigitText(d);
  }

  /** `str(d)` of a digit is that digit's character, and `int()` reads it back. */
  lemma DigitText(d: nat)
    requires d < 10
    ensures IntToString(d) == [DigitChar(d)]
    ensures ParseInt([DigitChar(d)]) == Success(d)
  {
    ParseIntOfString(d);
  }

  // ---------------------------------------------------------------------------
  // buffer distance text

  /** The buffer distance of the two-system builder: `str(n) + " Miles"`
      for the integer parameter `n`. */
  function BufferText(miles: int): (s: string)
    ensures Split(s, ' ') == [IntToString(miles), Miles]
  {
    NoSpaceInInt(miles);
    UnitText(IntToString(miles))
  }

  /** The buffer distance of the stacked builder, whose parameter is already
      text: `str(text + " Miles")`. */
  function StackedBufferText(miles: string): (s: string)
    ensures ' ' !in miles ==> Split(s, ' ') == [miles, Miles]
  {
    UnitText(miles)
  }

  /** The unit word of both builders' buffer distances. */
  const Miles: string := "Miles"

  /** A distance followed by a space and the unit word; a distance with no
      space in it is the first word and the unit the second. */
  function UnitText(d: string): (s: string)
    ensures ' ' !in d ==> Split(s, ' ') == [d, Miles]
  {
    assert ' ' !in d ==> Split(d + [' '] + Miles, ' ') == [d, Miles] by {
      if ' ' !in d {
        assert ' ' !in Miles;
        SplitTwo(d, Miles, ' ');
      }
    }
    d + [' '] + Miles
  }

  /** The two builders write the same distance text for the same number. */
  lemma BufferTextsAgree(miles: int)
    ensures StackedBufferText(IntToString(miles)) == BufferText(miles)
  {
  }

  /** `str(n)` has no space in it. */
  lemma NoSpaceInInt(n: int)
    ensures ' ' !in IntToString(n)
  {
    var s := IntToString(n);
    if n >= 0 {
      assert forall i :: 0 <= i < |s| ==> IsDigit(s[i]);
    } else {
      assert s == "-" + NatToString(-n);
      assert forall i :: 1 <= i < |s| ==> s[i] == NatToString(-n)[i - 1];
    }
  }

  // ---------------------------------------------------------------------------
  // the mn_et_id field check of the id-join tool

  /** A field of an attribute table: its name and type name. */
  datatype FieldInfo = FieldInfo(name: string, fieldType: string)

  /** What the field loop found: a field named `mn_et_id`, and one of type
      String. */
  datatype FieldCheck = FieldCheck(found: bool, isText: bool)

  predicate IsIdField(f: FieldInfo) { f.name == "mn_et_id" }

  /** The loop over the xsln fields: it notes a `mn_et_id` field, and stops
      at the first one of type String. */
  function CheckIdField(fields: seq<FieldInfo>): (c: FieldCheck)
    ensures c.found <==> exists i :: 0 <= i < |fields| && IsIdField(fields[i])
    ensures c.isText <==> exists i :: 0 <= i < |fields| && IsIdField(fields[i]) && fields[i].fieldType == "String"
  {
    if |fields| == 0 then FieldCheck(false, false)
    else
      var f := fields[0];
      assert forall i :: 1 <= i < |fields| ==> fields[i] == fields[1..][i - 1];
      if IsIdField(f) && f.fieldType == "String" then FieldCheck(true, true)
      else
        var rest := CheckIdField(fields[1..]);
        if IsIdField(f) then FieldCheck(true, rest.isText) else rest
  }

  const MissingIdField: string := "!!ERROR!! mn_et_id field does not exist in xsln file. Tool will be unable to join id field."
  const IdFieldNotText: string := "!!ERROR!! mn_et_id field is not text data type. Join will not work correctly"

  /** The error messages the check prints when the user asks for the
      `et_id` join; none when the join is not asked for. */
  function IdFieldErrors(joinEtId: bool, fields: seq<FieldInfo>): (errs: seq<string>)
    ensures |errs| <= 2
    ensures |errs| == 0 <==> !joinEtId || exists i :: 0 <= i < |fields| && IsIdField(fields[i]) && fields[i].fieldType == "String"
    ensures joinEtId && (forall i :: 0 <= i < |fields| ==> !IsIdField(fields[i])) ==> errs == [MissingIdField, IdFieldNotText]
  {
    if !joinEtId then []
    else
      var c := CheckIdField(fields);
      (if !c.found then [MissingIdField] else []) + (if !c.isText then [IdFieldNotText] else [])
  }

  // ---------------------------------------------------------------------------
  // id lists and band polygons

  /** Number of statewide cross-section ids, 0 to 660. */
  const StatewideIdCount: nat := 661

  /** The distinct ids of the xsln rows, in the order first seen
      (`if mn_et_id not in id_list: id_list.append(mn_et_id)`). */
  function XslnIdList(rows: seq<Option<string>>): (r: Result<seq<int>, string>)
    ensures r.Failure? <==> exists i :: 0 <= i < |rows| && IntOfField(rows[i]).Failure?
    ensures r.Success? ==> Distinct(r.value) && |r.value| <= |rows|
    ensures r.Success? ==> forall x :: x in r.value <==> exists i :: 0 <= i < |rows| && IntOfField(rows[i]) == Success(x)
  {
    match IntsOfFields(rows)
    case Failure(e) => Failure(e)
    case Success(ids) =>
      assert forall x :: x in ids <==> exists i :: 0 <= i < |rows| && IntOfField(rows[i]) == Success(x) by {
        forall x ensures x in ids <==> exists i :: 0 <= i < |rows| && IntOfField(rows[i]) == Success(x) {
          if x in ids { var i :| 0 <= i < |ids| && ids[i] == x; }
        }
      }
      Success(Dedup(ids))
  }

  /** `range(n)`, the statewide ids when `n` is the id count. */
  function StatewideIds(n: nat): (r: seq<int>)
    ensures r == RangeFrom(0, n, 1)
    ensures |r| == n && forall i :: 0 <= i < n ==> r[i] == i
    ensures Distinct(r)
  {
    RangeUpTo(n);
    RangeDistinct(0, n, 1);
    seq(n, i requires 0 <= i < n => i)
  }

  /** The id list of the id-join tool: all statewide ids, or the xsln's ids
      when the user joins `et_id` from an xsln. */
  function AssignIdList(joinEtId: bool, rows: seq<Option<string>>): (r: Result<seq<int>, string>)
    ensures !joinEtId ==> r.Success? && |r.value| == StatewideIdCount && forall i :: 0 <= i < |r.value| ==> r.value[i] == i
    ensures joinEtId ==> r == XslnIdList(rows)
    ensures r.Success? ==> Distinct(r.value)
  {
    if joinEtId then XslnIdList(rows)
    else
      Success(StatewideIds(StatewideIdCount))
  }

  /** The xsln id list of a table whose ids are already distinct is the
      table's ids in row order. */
  lemma XslnIdListOfDistinct(rows: seq<Option<string>>)
    requires IntsOfFields(rows).Success? && Distinct(IntsOfFields(rows).value)
    ensures XslnIdList(rows) == IntsOfFields(rows)
  {
    DedupOfDistinct(IntsOfFields(rows).value);
  }

  /** A band polygon with its id written as text. */
  datatype IdPolygon = IdPolygon(shape: seq<Point>, mnEtId: string)

  /** One 0 to 2300 ft band polygon per id, tagged with `str(id)`, as the
      join tools build them before the spatial join. */
  function IdPolygons(ids: seq<int>): (r: seq<IdPolygon>)
    ensures |r| == |ids|
    ensures forall k :: 0 <= k < |ids| ==> r[k] == IdPolygonOf(ids[k])
  {
    seq(|ids|, k requires 0 <= k < |ids| => IdPolygonOf(ids[k]))
  }

  /** The band polygon of one id: its tag reads back as the id, and it
      spans the state from 0 to 2300 ft in that id's band. */
  function IdPolygonOf(id: int): (p: IdPolygon)
    ensures ParseInt(p.mnEtId) == Success(id)
    ensures |p.shape| == 4 && AxisAligned(p.shape)
    ensures p.shape[0].x == StateMinX && p.shape[1].x == StateMaxX
    ensures FromStacked(p.shape[0].y, id, CountyRelief, StackedVE) == 2300.0
    ensures FromStacked(p.shape[3].y, id, CountyRelief, StackedVE) == 0.0
  {
    ParseIntOfString(id);
    StackedRoundTrip(2300.0, id, CountyRelief, StackedVE);
    StackedRoundTrip(0.0, id, CountyRelief, StackedVE);
    IdPolygon(BandPolygon(id, 0.0, 2300.0), IntToString(id))
  }

  /** The polygons of consecutive statewide ids overlap by 52 display units,
      so a feature near a band edge can fall in two polygons. */
  lemma StatewidePolygonsOverlap(k: nat)
    requires k + 1 < StatewideIdCount
    ensures var ps := IdPolygons(AssignIdList(false, []).value);
      ps[k + 1].shape[0].y - ps[k].shape[3].y == 52.0
  {
    var ids := StatewideIds(StatewideIdCount);
    assert AssignIdList(false, []).value == ids;
    var ps := IdPolygons(ids);
    assert ps[k].shape == BandPolygon(k, 0.0, 2300.0);
    assert ps[k + 1].shape == BandPolygon(k + 1, 0.0, 2300.0);
    BandPolygonsOverlap(k);
  }
}

=== FILE: lixpy.dfy ===
/** The well-stick ("lixpy") tools.  Every stratigraphy record of a well
    becomes a stick from its top to its bottom elevation: in 3D at the
    well's true position, and in 2D on the cross-section view at the well
    point that matches the record.  Before drawing, the tools compare the
    three input tables and warn about ids found in one but not in the
    other; the stacked tool can also mark each well on the view; the sticks
    are buffered into polygons of a fixed half-width.

    The near analysis, the merge of the per-line well tables and the
    measure along the extended line are library calls: their results arrive
    here as fields of a `WellPoint`. */
module WellSticks {
  import opened Wrappers
  import opened PyLists
  import opened Transforms
  import opened PyStrings
  import opened OutputNames

  // ---------------------------------------------------------------------------
  // rows

  /** A well id as the id field holds it: a number or a text. */
  datatype WellId = Number(n: int) | Text(s: string)

  /** A stratigraphy record: object id, well id, and top and bottom
      elevations in feet, either of which may be null. */
  datatype StratRecord = StratRecord(oid: int, wellId: WellId, top: Option<real>, bot: Option<real>)

  /** A row of the merged well-point table after the near analysis: the
      well's map position, its distance to the line (`NEAR_DIST`), its
      distance along the line (`OnLine_DIST`), its surface elevation and the
      text `mn_et_id` of its line. */
  datatype WellPoint = WellPoint(wellId: WellId, etId: string, x: real, y: real, nearDist: real,
                                 onLineDist: real, elevation: Option<real>, mnEtId: Option<string>)

  // ---------------------------------------------------------------------------
  // per-well arithmetic

  /** `OnLine_DIST`: the measure along the line extended by `buffer_dist` at
      each end, less `buffer_dist`, so that the original start is 0. */
  function OnLineDist(measure: real, bufferDist: int): (d: real)
    ensures d < 0.0 <==> measure < bufferDist as real
    ensures d + bufferDist as real == measure
  {
    measure - bufferDist as real
  }

  /** `pct_dist = dist / spread * 200`; a zero spread raises
      ZeroDivisionError. */
  function PctDist(dist: real, spread: int): (r: Result<real, string>)
    ensures r.Failure? <==> spread == 0
    ensures r.Success? ==> r.value * (spread as real) == dist * 200.0
    ensures r.Success? && spread > 0 ==> (r.value <= 100.0 <==> 2.0 * dist <= spread as real)
  {
    if spread == 0 then Failure("division by zero")
    else
      var s := spread as real;
      var p := dist / s * 200.0;
      assert p * s == dist * 200.0;
      assert s > 0.0 ==> (p <= 100.0 <==> 2.0 * dist <= s) by {
        if s > 0.0 {
          assert p <= 100.0 <==> p * s <= 100.0 * s;
        }
      }
      Success(p)
  }

  /** What one matching well point sets in the cursor loop: the 2D x, the
      band of the stacked display (none in the traditional one) and the
      percent distance. */
  datatype Reading = Reading(well: WellPoint, x2d: real, band: Option<int>, pct: real)

  /** One pass of the loop over the matching well points.  The percent
      distance comes first; then the stacked display reads the band from
      `mn_et_id`, and the traditional one divides the distance along the
      line by the exaggeration. */
  function ReadWell(w: WellPoint, sys: DisplaySystem, ve: int, spread: int): (r: Result<Reading, string>)
    ensures r.Failure? <==> spread == 0 || (sys == StackedView && IntOfField(w.mnEtId).Failure?) ||
                            (sys == TraditionalView && ve == 0)
    ensures r.Success? ==> r.value.well == w && PctDist(w.nearDist, spread) == Success(r.value.pct)
    ensures r.Success? && sys == StackedView ==> r.value.x2d == w.x && r.value.band == Some(IntOfField(w.mnEtId).value)
    ensures r.Success? && sys == TraditionalView ==> r.value.band.None? && TrueXDistance(r.value.x2d, ve as real) == w.onLineDist
  {
    match PctDist(w.nearDist, spread)
    case Failure(e) => Failure(e)
    case Success(pct) =>
      match sys
      case StackedView =>
        (match IntOfField(w.mnEtId)
         case Failure(e) => Failure(e)
         case Success(k) => Success(Reading(w, w.x, Some(k), pct)))
      case TraditionalView =>
        if ve == 0 then Failure("division by zero")
        else
          TraditionalRoundTrip(w.onLineDist, ve as real);
          Success(Reading(w, TraditionalX(w.onLineDist, ve as real), None, pct))
  }

  // ---------------------------------------------------------------------------
  // one stick

  /** The rows written for one record: the 3D line and the 2D line, with
      the attributes both files carry. */
  datatype Stick = Stick(line3d: seq<Point3>, line2d: seq<Point>, oid: int, wellId: WellId, etId: string,
                         x: real, y: real, zTop: real, zBot: real, distance: real, pct: real,
                         mnEtId: Option<string>)

  /** The display y of an elevation: the stacked formula in a band, the
      elevation itself in the traditional display. */
  function StickY(z: real, band: Option<int>): real
  {
    match band
    case Some(k) => StackedY(z, k)
    case None => z
  }

  /** The stick of a record with both elevations, from the reading of the
      last matching well point. */
  function Draw(rec: StratRecord, rd: Reading): Stick
    requires rec.top.Some? && rec.bot.Some?
  {
    var w := rd.well;
    var top, bot := rec.top.value, rec.bot.value;
    Stick([Point3(w.x, w.y, top), Point3(w.x, w.y, bot)],
          [Point(rd.x2d, StickY(top, rd.band)), Point(rd.x2d, StickY(bot, rd.band))],
          rec.oid, rec.wellId, w.etId, w.x, w.y, top, bot, w.nearDist, rd.pct,
          if rd.band.Some? then w.mnEtId else None)
  }

  /** `s` is the stick of record `rec` drawn at well point `w`: the 3D line
      stands at the well's true position from the top to the bottom
      elevation; the 2D line is vertical, at the well's x with the top and
      bottom read back through the stacked inverse in the stacked display,
      and at the compressed along-line distance with the true elevations in
      the traditional one. */
  predicate DrawnFrom(s: Stick, rec: StratRecord, w: WellPoint, sys: DisplaySystem, ve: int, spread: int)
    requires rec.top.Some? && rec.bot.Some?
  {
    var top, bot := rec.top.value, rec.bot.value;
    && s.oid == rec.oid && s.wellId == rec.wellId && s.etId == w.etId
    && s.line3d == [Point3(w.x, w.y, top), Point3(w.x, w.y, bot)]
    && s.x == w.x && s.y == w.y && s.zTop == top && s.zBot == bot
    && s.distance == w.nearDist && PctDist(w.nearDist, spread) == Success(s.pct)
    && |s.line2d| == 2 && s.line2d[0].x == s.line2d[1].x
    && (sys == StackedView ==>
          && s.line2d[0].x == w.x && s.mnEtId == w.mnEtId && IntOfField(w.mnEtId).Success?
          && FromStacked(s.line2d[0].y, IntOfField(w.mnEtId).value, CountyRelief, StackedVE) == top
          && FromStacked(s.line2d[1].y, IntOfField(w.mnEtId).value, CountyRelief, StackedVE) == bot)
    && (sys == TraditionalView ==>
          && s.mnEtId.None? && ve != 0
          && TrueXDistance(s.line2d[0].x, ve as real) == w.onLineDist
          && s.line2d[0].y == top && s.line2d[1].y == bot)
  }

  /** A successful reading draws the stick `DrawnFrom` describes. */
  lemma DrawAgrees(rec: StratRecord, w: WellPoint, rd: Reading, sys: DisplaySystem, ve: int, spread: int)
    requires rec.top.Some? && rec.bot.Some?
    requires ReadWell(w, sys, ve, spread) == Success(rd)
    ensures DrawnFrom(Draw(rec, rd), rec, w, sys, ve, spread)
  {
    if sys == StackedView {
      var k := rd.band.value;
      StackedRoundTrip(rec.top.value, k, CountyRelief, StackedVE);
      StackedRoundTrip(rec.bot.value, k, CountyRelief, StackedVE);
    }
  }

  /** The 2D stick keeps the record's order: its top end is at least as
      high as its bottom end exactly when the top elevation is at least the
      bottom one. */
  lemma StickKeepsOrder(rec: StratRecord, rd: Reading, sys: DisplaySystem, ve: int, spread: int)
    requires rec.top.Some? && rec.bot.Some?
    requires ReadWell(rd.well, sys, ve, spread) == Success(rd)
    ensures rec.top.value >= rec.bot.value <==> Draw(rec, rd).line2d[0].y >= Draw(rec, rd).line2d[1].y
  {
    if sys == StackedView {
      StackedMonotone(rec.bot.value, rec.top.value, rd.band.value, CountyRelief, StackedVE);
      StackedMonotone(rec.top.value, rec.bot.value, rd.band.value, CountyRelief, StackedVE);
    }
  }

  /** Well point `wells[i]` has well id `id` and no later one does. */
  predicate LastWellWith(wells: seq<WellPoint>, id: WellId, i: int) {
    0 <= i < |wells| && wells[i].wellId == id && forall j :: i < j < |wells| ==> wells[j].wellId != id
  }

  /** Some well point has well id `id`. */
  predicate HasMatch(wells: seq<WellPoint>, id: WellId) {
    exists w :: w in wells && w.wellId == id
  }

  /** The well points the where clause `<id field> = <well id>` returns, in
      table order. */
  function Matching(wells: seq<WellPoint>, id: WellId): (m: seq<WellPoint>)
  {
    Filter(wells, (w: WellPoint) => w.wellId == id)
  }

  /** What the loop does with one record. */
  datatype Outcome = Skipped | Unmatched(wellId: WellId) | Drawn(stick: Stick)

  /** One strat record: skipped when either elevation is null; otherwise
      every matching well point is read (any of them may raise), the last
      one read supplies the stick, and a record with no matching point goes
      to `nomatch_list`. */
  function StickFor(rec: StratRecord, wells: seq<WellPoint>, sys: DisplaySystem, ve: int, spread: int): (r: Result<Outcome, string>)
    ensures rec.top.None? || rec.bot.None? ==> r == Success(Skipped)
    ensures r.Failure? <==> (rec.top.Some? && rec.bot.Some? &&
      exists w :: w in wells && w.wellId == rec.wellId && ReadWell(w, sys, ve, spread).Failure?)
    ensures r.Success? && rec.top.Some? && rec.bot.Some? ==> (r.value.Unmatched? <==> !HasMatch(wells, rec.wellId))
    ensures r.Success? ==> r.value.Skipped? ==> rec.top.None? || rec.bot.None?
    ensures r.Success? ==> r.value.Unmatched? ==> r.value.wellId == rec.wellId
  {
    if rec.top.None? || rec.bot.None? then Success(Skipped)
    else
      var m := Matching(wells, rec.wellId);
      var f := (w: WellPoint) => ReadWell(w, sys, ve, spread);
      MapAllFilterFails(f, wells, (w: WellPoint) => w.wellId == rec.wellId);
      match MapAll(f, m)
      case Failure(e) => Failure(e)
      case Success(rs) =>
        if |rs| == 0 then
          assert !HasMatch(wells, rec.wellId) by { assert |m| == 0; }
          Success(Unmatched(rec.wellId))
        else
          assert m[0] in m;
          Success(Drawn(Draw(rec, rs[|rs| - 1])))
  }

  /** A drawn record has both elevations, and its stick is drawn at the
      last well point that matches it. */
  lemma StickForDrawn(rec: StratRecord, wells: seq<WellPoint>, sys: DisplaySystem, ve: int, spread: int)
    requires StickFor(rec, wells, sys, ve, spread).Success?
    requires StickFor(rec, wells, sys, ve, spread).value.Drawn?
    ensures rec.top.Some? && rec.bot.Some?
    ensures exists i :: (LastWellWith(wells, rec.wellId, i) &&
      DrawnFrom(StickFor(rec, wells, sys, ve, spread).value.stick, rec, wells[i], sys, ve, spread))
  {
    var m := Matching(wells, rec.wellId);
    var f := (w: WellPoint) => ReadWell(w, sys, ve, spread);
    var rs := MapAll(f, m).value;
    assert |rs| > 0 && StickFor(rec, wells, sys, ve, spread).value.stick == Draw(rec, rs[|rs| - 1]);
    assert f(m[|m| - 1]) == Success(rs[|rs| - 1]);
    LastReadingDraws(rec, wells, sys, ve, spread, rs[|rs| - 1]);
  }

  /** The reading of the last matching well point draws the stick of a
      well point that is the last one in the table with the record's well
      id. */
  lemma LastReadingDraws(rec: StratRecord, wells: seq<WellPoint>, sys: DisplaySystem, ve: int, spread: int,
                         rd: Reading)
    requires rec.top.Some? && rec.bot.Some?
    requires |Matching(wells, rec.wellId)| > 0
    requires ReadWell(Matching(wells, rec.wellId)[|Matching(wells, rec.wellId)| - 1], sys, ve, spread) == Success(rd)
    ensures exists i :: LastWellWith(wells, rec.wellId, i) && DrawnFrom(Draw(rec, rd), rec, wells[i], sys, ve, spread)
  {
    LastMatching(wells, rec.wellId);
    var m := Matching(wells, rec.wellId);
    var i :| LastWellWith(wells, rec.wellId, i) && m[|m| - 1] == wells[i];
    DrawAgrees(rec, wells[i], rd, sys, ve, spread);
  }

  /** The last well point the where clause returns is the last one in the
      table with that well id. */
  lemma LastMatching(wells: seq<WellPoint>, id: WellId)
    requires |Matching(wells, id)| > 0
    ensures exists i :: LastWellWith(wells, id, i) && Matching(wells, id)[|Matching(wells, id)| - 1] == wells[i]
  {
    var keep := (w: WellPoint) => w.wellId == id;
    FilterLast(wells, keep);
    var i :| LastKept(wells, keep, i) && Matching(wells, id)[|Matching(wells, id)| - 1] == wells[i];
    assert LastWellWith(wells, id, i);
  }

  // ---------------------------------------------------------------------------
  // the whole strat table

  /** The two output files (one row per drawn record in each) and the ids
      collected in `nomatch_list`. */
  datatype Drawing = Drawing(sticks: seq<Stick>, unmatched: seq<WellId>)

  /** The outcomes of the records in table order, gathered into the outputs. */
  function Collect(outs: seq<Outcome>): (d: Drawing)
    ensures forall s :: s in d.sticks <==> Drawn(s) in outs
    ensures forall id :: id in d.unmatched <==> Unmatched(id) in outs
    ensures |d.sticks| + |d.unmatched| <= |outs|
  {
    if |outs| == 0 then Drawing([], [])
    else
      var front := outs[..|outs| - 1];
      var o := outs[|outs| - 1];
      assert forall x :: x in outs <==> x in front || x == o by { assert outs == front + [o]; }
      var d := Collect(front);
      match o
      case Skipped => d
      case Unmatched(id) => Drawing(d.sticks, d.unmatched + [id])
      case Drawn(s) => Drawing(d.sticks + [s], d.unmatched)
  }

  /** The polyline loop over the strat table: the first record whose
      matching well points raise stops the tool. */
  function DrawSticks(recs: seq<StratRecord>, wells: seq<WellPoint>, sys: DisplaySystem, ve: int, spread: int): (r: Result<Drawing, string>)
    ensures r.Failure? <==> exists k :: 0 <= k < |recs| && StickFor(recs[k], wells, sys, ve, spread).Failure?
  {
    match MapAll((rec: StratRecord) => StickFor(rec, wells, sys, ve, spread), recs)
    case Failure(e) => Failure(e)
    case Success(outs) => Success(Collect(outs))
  }

  /** A record with a null elevation adds nothing to either output. */
  lemma NullRecordSkipped(recs: seq<StratRecord>, rec: StratRecord, wells: seq<WellPoint>, sys: DisplaySystem, ve: int, spread: int)
    requires DrawSticks(recs, wells, sys, ve, spread).Success?
    requires rec.top.None? || rec.bot.None?
    ensures DrawSticks(recs + [rec], wells, sys, ve, spread) == DrawSticks(recs, wells, sys, ve, spread)
  {
    var f := (r: StratRecord) => StickFor(r, wells, sys, ve, spread);
    MapAllSnoc(f, recs, rec);
    var outs := MapAll(f, recs).value;
    assert (outs + [Skipped])[..|outs|] == outs;
  }

  /** A record with both elevations and no matching well point only adds
      its well id to `nomatch_list`. */
  lemma UnmatchedRecordListed(recs: seq<StratRecord>, rec: StratRecord, wells: seq<WellPoint>, sys: DisplaySystem, ve: int, spread: int)
    requires DrawSticks(recs, wells, sys, ve, spread).Success?
    requires rec.top.Some? && rec.bot.Some?
    requires !HasMatch(wells, rec.wellId)
    ensures var d := DrawSticks(recs, wells, sys, ve, spread).value;
      DrawSticks(recs + [rec], wells, sys, ve, spread) == Success(Drawing(d.sticks, d.unmatched + [rec.wellId]))
  {
    var f := (r: StratRecord) => StickFor(r, wells, sys, ve, spread);
    MapAllSnoc(f, recs, rec);
    var outs := MapAll(f, recs).value;
    assert (outs + [Unmatched(rec.wellId)])[..|outs|] == outs;
  }

  /** A record with both elevations and a matching well point whose reads
      all succeed adds its stick (drawn at the last matching point, by
      `StickForDrawn`) and leaves `nomatch_list` alone. */
  lemma MatchedRecordDrawn(recs: seq<StratRecord>, rec: StratRecord, wells: seq<WellPoint>, sys: DisplaySystem, ve: int, spread: int)
    requires DrawSticks(recs, wells, sys, ve, spread).Success?
    requires StickFor(rec, wells, sys, ve, spread).Success?
    requires rec.top.Some? && rec.bot.Some? && HasMatch(wells, rec.wellId)
    ensures StickFor(rec, wells, sys, ve, spread).value.Drawn?
    ensures var d := DrawSticks(recs, wells, sys, ve, spread).value;
      DrawSticks(recs + [rec], wells, sys, ve, spread) ==
        Success(Drawing(d.sticks + [StickFor(rec, wells, sys, ve, spread).value.stick], d.unmatched))
  {
    var f := (r: StratRecord) => StickFor(r, wells, sys, ve, spread);
    var o := f(rec).value;
    MapAllSnoc(f, recs, rec);
    var outs := MapAll(f, recs).value;
    assert (outs + [o])[..|outs|] == outs;
  }

  /** `nomatch_list` holds exactly the well ids of records with both
      elevations and no matching well point. */
  lemma UnmatchedIff(recs: seq<StratRecord>, wells: seq<WellPoint>, sys: DisplaySystem, ve: int, spread: int, id: WellId)
    requires DrawSticks(recs, wells, sys, ve, spread).Success?
    ensures id in DrawSticks(recs, wells, sys, ve, spread).value.unmatched <==>
      !HasMatch(wells, id) && exists k :: 0 <= k < |recs| && recs[k].wellId == id && recs[k].top.Some? && recs[k].bot.Some?
  {
    var f := (r: StratRecord) => StickFor(r, wells, sys, ve, spread);
    var outs := MapAll(f, recs).value;
    assert DrawSticks(recs, wells, sys, ve, spread).value.unmatched == Collect(outs).unmatched;
    if id in Collect(outs).unmatched {
      var k :| 0 <= k < |outs| && outs[k] == Unmatched(id);
      assert StickFor(recs[k], wells, sys, ve, spread) == Success(Unmatched(id)) by {
        assert f(recs[k]) == Success(outs[k]);
      }
      StickForUnmatched(recs[k], wells, sys, ve, spread, id);
    }
    if !HasMatch(wells, id) && exists k :: 0 <= k < |recs| && recs[k].wellId == id && recs[k].top.Some? && recs[k].bot.Some? {
      var k :| 0 <= k < |recs| && recs[k].wellId == id && recs[k].top.Some? && recs[k].bot.Some?;
      assert f(recs[k]) == Success(outs[k]);
      assert outs[k] in outs;
    }
  }

  /** A record left unmatched has both elevations, and no well point has
      its id. */
  lemma StickForUnmatched(rec: StratRecord, wells: seq<WellPoint>, sys: DisplaySystem, ve: int, spread: int, id: WellId)
    requires StickFor(rec, wells, sys, ve, spread) == Success(Unmatched(id))
    ensures rec.wellId == id && rec.top.Some? && rec.bot.Some? && !HasMatch(wells, id)
  {
  }

  /** Every stick is drawn for a record with both elevations, at the last
      well point that matches it. */
  lemma SticksSound(recs: seq<StratRecord>, wells: seq<WellPoint>, sys: DisplaySystem, ve: int, spread: int, s: Stick)
    requires DrawSticks(recs, wells, sys, ve, spread).Success?
    requires s in DrawSticks(recs, wells, sys, ve, spread).value.sticks
    ensures exists k, i :: (0 <= k < |recs| && recs[k].top.Some? && recs[k].bot.Some? &&
      LastWellWith(wells, recs[k].wellId, i) && DrawnFrom(s, recs[k], wells[i], sys, ve, spread))
  {
    var f := (r: StratRecord) => StickFor(r, wells, sys, ve, spread);
    var outs := MapAll(f, recs).value;
    var k :| 0 <= k < |outs| && outs[k] == Drawn(s);
    assert f(recs[k]) == Success(outs[k]);
    StickForDrawn(recs[k], wells, sys, ve, spread);
  }

  // ---------------------------------------------------------------------------
  // the stacked tool's 2D well points

  /** A well marked on the stacked view, with the attributes of its row. */
  datatype WellMark = WellMark(at: Point, wellId: WellId, etId: string, x: real, y: real, distance: real,
                               elevation: real, pct: real, mnEtId: string)

  /** `m` marks well point `w`: at the well's x, at the height whose
      stacked inverse in the well's band is its elevation. */
  predicate MarkedAt(m: WellMark, w: WellPoint, spread: int) {
    && w.elevation.Some? && IntOfField(w.mnEtId).Success?
    && m.at.x == w.x && FromStacked(m.at.y, IntOfField(w.mnEtId).value, CountyRelief, StackedVE) == w.elevation.value
    && m.wellId == w.wellId && m.etId == w.etId && m.x == w.x && m.y == w.y && m.distance == w.nearDist
    && m.elevation == w.elevation.value && Some(m.mnEtId) == w.mnEtId
    && PctDist(w.nearDist, spread) == Success(m.pct)
  }

  /** One well point: `int(mn_et_id)` and the percent distance are computed
      before the null-elevation check, so they can raise for a well that is
      then skipped. */
  function MarkFor(w: WellPoint, spread: int): (r: Result<Option<WellMark>, string>)
    ensures r.Failure? <==> IntOfField(w.mnEtId).Failure? || spread == 0
    ensures r.Success? ==> (r.value.None? <==> w.elevation.None?)
    ensures r.Success? && r.value.Some? ==> MarkedAt(r.value.value, w, spread)
  {
    match IntOfField(w.mnEtId)
    case Failure(e) => Failure(e)
    case Success(k) =>
      match PctDist(w.nearDist, spread)
      case Failure(e) => Failure(e)
      case Success(pct) =>
        if w.elevation.None? then Success(None)
        else
          var z := w.elevation.value;
          Success(Some(WellMark(StackedPoint(w.x, z, k), w.wellId, w.etId, w.x, w.y, w.nearDist, z, pct, w.mnEtId.value)))
  }

  /** The point loop over the merged well table. */
  function WellMarks(wells: seq<WellPoint>, spread: int): (r: Result<seq<WellMark>, string>)
    ensures r.Failure? <==> exists i :: 0 <= i < |wells| && (IntOfField(wells[i].mnEtId).Failure? || spread == 0)
  {
    match MapAll((w: WellPoint) => MarkFor(w, spread), wells)
    case Failure(e) => Failure(e)
    case Success(opts) => Success(Present(opts))
  }

  /** Every mark stands at a well point with an elevation, and every such
      well point is marked. */
  lemma WellMarksIff(wells: seq<WellPoint>, spread: int, i: int)
    requires WellMarks(wells, spread).Success? && 0 <= i < |wells|
    ensures wells[i].elevation.Some? <==> exists m :: m in WellMarks(wells, spread).value && MarkedAt(m, wells[i], spread)
    ensures forall m :: m in WellMarks(wells, spread).value ==> exists j :: 0 <= j < |wells| && MarkedAt(m, wells[j], spread)
  {
    var f := (w: WellPoint) => MarkFor(w, spread);
    var opts := MapAll(f, wells).value;
    assert f(wells[i]) == Success(opts[i]);
    if wells[i].elevation.Some? {
      assert opts[i] in opts;
      assert opts[i].value in Present(opts);
    }
    forall m | m in Present(opts) ensures exists j :: 0 <= j < |wells| && MarkedAt(m, wells[j], spread) {
      var j :| 0 <= j < |opts| && opts[j] == Some(m);
      assert f(wells[j]) == Success(opts[j]);
    }
  }

  /** A well point with a null elevation is skipped: it adds no mark. */
  lemma NullElevationSkipped(wells: seq<WellPoint>, w: WellPoint, spread: int)
    requires WellMarks(wells, spread).Success?
    requires IntOfField(w.mnEtId).Success? && spread != 0 && w.elevation.None?
    ensures WellMarks(wells + [w], spread) == WellMarks(wells, spread)
  {
    var f := (x: WellPoint) => MarkFor(x, spread);
    MapAllSnoc(f, wells, w);
    PresentSnocNone(MapAll(f, wells).value);
  }

  /** A missing value at the end adds nothing. */
  lemma {:induction false} PresentSnocNone<T(!new)>(l: seq<Option<T>>)
    ensures Present(l + [None]) == Present(l)
    decreases |l|
  {
    if |l| == 0 {
      var none: seq<Option<T>> := [None];
      assert l + [None] == none && none[1..] == [];
    } else {
      assert (l + [None])[1..] == l[1..] + [None];
      PresentSnocNone(l[1..]);
    }
  }

  // ---------------------------------------------------------------------------
  // table comparison

  /** A row of the original well-point table. */
  datatype WellRow = WellRow(wellId: WellId, etId: string)

  /** The elements of `a` absent from `b`, each once, in the order they are
      first seen in `a` (the warning lists, built from the deduplicated
      lists). */
  function MissingFrom<T(==,!new)>(a: seq<T>, b: seq<T>): (r: seq<T>)
    ensures Distinct(r)
    ensures forall x :: x in r <==> x in a && x !in b
  {
    WithoutDistinct(Dedup(a), Dedup(b));
    Without(Dedup(a), Dedup(b))
  }

  /** The warning lists follow first-seen order: of two entries, the one
      listed first occurs first in `a`. */
  lemma MissingFromOrder<T(!new)>(a: seq<T>, b: seq<T>, i: nat, j: nat)
    requires i < j < |MissingFrom(a, b)|
    ensures MissingFrom(a, b)[i] in a && MissingFrom(a, b)[j] in a
    ensures IndexOf(a, MissingFrom(a, b)[i]) < IndexOf(a, MissingFrom(a, b)[j])
  {
    var d := Dedup(a);
    WithoutOrder(d, Dedup(b), i, j);
    var p, q :| 0 <= p < q < |d| && d[p] == MissingFrom(a, b)[i] && d[q] == MissingFrom(a, b)[j];
    AppendNewOrder([], a, p, q);
  }

  /** The id columns. */
  function RowWellIds(rows: seq<WellRow>): (ids: seq<WellId>)
    ensures |ids| == |rows| && forall i :: 0 <= i < |rows| ==> ids[i] == rows[i].wellId
  {
    seq(|rows|, i requires 0 <= i < |rows| => rows[i].wellId)
  }

  function RowEtIds(rows: seq<WellRow>): (ids: seq<string>)
    ensures |ids| == |rows| && forall i :: 0 <= i < |rows| ==> ids[i] == rows[i].etId
  {
    seq(|rows|, i requires 0 <= i < |rows| => rows[i].etId)
  }

  /** The four warning lists and the two type tests on the first ids. */
  datatype TableCheck = TableCheck(stratOnly: seq<WellId>, wellsOnly: seq<WellId>, etIdsOffLines: seq<string>,
                                   linesWithoutWells: seq<string>, typesDiffer: bool, numericIds: bool)

  /** The comparison of the strat ids, the well rows and the line `et_id`s.
      `strat_wellid_list[0]` and `wwpt_wellid_list[0]` raise IndexError on
      an empty table; a well id is numeric unless it is text. */
  function CheckTables(strat: seq<WellId>, wells: seq<WellRow>, lines: seq<string>): (r: Result<TableCheck, string>)
    ensures r.Failure? <==> |strat| == 0 || |wells| == 0
    ensures r.Success? ==> (r.value.typesDiffer <==> strat[0].Text? != wells[0].wellId.Text?)
    ensures r.Success? ==> (r.value.numericIds <==> strat[0].Number?)
  {
    if |strat| == 0 || |wells| == 0 then Failure("list index out of range")
    else
      var wellIds, etIds := RowWellIds(wells), RowEtIds(wells);
      Success(TableCheck(MissingFrom(strat, wellIds), MissingFrom(wellIds, strat),
                         MissingFrom(etIds, lines), MissingFrom(lines, etIds),
                         strat[0].Text? != wells[0].wellId.Text?, !strat[0].Text?))
  }

  /** Each warning list names exactly the ids of one table that the other
      lacks. */
  lemma CheckTablesLists(strat: seq<WellId>, wells: seq<WellRow>, lines: seq<string>, id: WellId, e: string)
    requires CheckTables(strat, wells, lines).Success?
    ensures var c := CheckTables(strat, wells, lines).value;
      && (id in c.stratOnly <==> id in strat && forall w :: w in wells ==> w.wellId != id)
      && (id in c.wellsOnly <==> id !in strat && exists w :: w in wells && w.wellId == id)
      && (e in c.etIdsOffLines <==> e !in lines && exists w :: w in wells && w.etId == e)
      && (e in c.linesWithoutWells <==> e in lines && forall w :: w in wells ==> w.etId != e)
  {
    var wellIds, etIds := RowWellIds(wells), RowEtIds(wells);
    assert id in wellIds <==> exists w :: w in wells && w.wellId == id by {
      if id in wellIds { var i :| 0 <= i < |wells| && wellIds[i] == id; assert wells[i] in wells; }
      if exists w :: w in wells && w.wellId == id {
        var w :| w in wells && w.wellId == id;
        var i :| 0 <= i < |wells| && wells[i] == w;
        assert wellIds[i] == id;
      }
    }
    assert e in etIds <==> exists w :: w in wells && w.etId == e by {
      if e in etIds { var i :| 0 <= i < |wells| && etIds[i] == e; assert wells[i] in wells; }
      if exists w :: w in wells && w.etId == e {
        var w :| w in wells && w.etId == e;
        var i :| 0 <= i < |wells| && wells[i] == w;
        assert etIds[i] == e;
      }
    }
  }

  // ---------------------------------------------------------------------------
  // polygons, names and joined fields

  /** Half-width of the buffer that turns a 2D stick into a polygon: in the
      traditional display `130/VE + 0.5`, narrower as the exaggeration
      grows; in the stacked display the exaggeration is fixed at 50. */
  function HalfWidth(sys: DisplaySystem, ve: int): (r: Result<real, string>)
    ensures sys == StackedView ==> r == Success(47.5)
    ensures sys == TraditionalView ==> (r.Failure? <==> ve == 0)
    ensures sys == TraditionalView && ve > 0 ==> r.Success? && r.value > 0.5 && (r.value - 0.5) * (ve as real) == 130.0
  {
    if sys == StackedView then Success(StackedVE * 0.15 + 40.0)
    else if ve == 0 then Failure("division by zero")
    else Success(130.0 / (ve as real) + 0.5)
  }

  /** A larger exaggeration gives a narrower traditional polygon. */
  lemma HalfWidthShrinks(a: int, b: int)
    requires 0 < a < b
    ensures HalfWidth(TraditionalView, b).value < HalfWidth(TraditionalView, a).value
  {
    var wa, wb := HalfWidth(TraditionalView, a).value - 0.5, HalfWidth(TraditionalView, b).value - 0.5;
    assert wa * (a as real) == wb * (b as real);
    assert wb * (a as real) < wb * (b as real);
  }

  const LineStem: string := "lixpys_2d_line"
  const PolygonStem: string := "lixpys_2d_poly"

  /** The 2D line and polygon outputs: the exaggeration tag only in the
      traditional display. */
  function SticksName(stem: string, sys: DisplaySystem, ve: int): string
  {
    stem + (if sys == TraditionalView then VeTag(ve) else "")
  }

  /** Runs that write the same 2D output are in the same display system,
      and in the traditional one at the same exaggeration. */
  lemma SticksNamesApart(stem: string, s1: DisplaySystem, ve1: int, s2: DisplaySystem, ve2: int)
    requires SticksName(stem, s1, ve1) == SticksName(stem, s2, ve2)
    ensures s1 == s2 && (s1 == TraditionalView ==> ve1 == ve2)
  {
    TaggedNamesDistinct(stem, s1, ve1, s2, ve2);
  }
}

=== FILE: masks.dfy ===
/** The unit-mask preview tool outside its unit-list handling: the date code
    in the output name, the two buffer distances, and the stratlines drawn
    back onto the map along their cross-section lines. */
module UnitMasks {
  import opened Wrappers
  import opened PyLists
  import opened PyStrings
  import opened PyNumbers
  import opened Transforms
  import opened XsecFeatures

  // ---------------------------------------------------------------------------
  // date code

  /** A value below 100 as two decimal digits, zero-padded (`%m`, `%d`). */
  function TwoDigits(v: nat): (s: string)
    requires v < 100
    ensures |s| == 2 && AllDigits(s)
    ensures DigitsValue(s) == v
  {
    var s := [DigitChar(v / 10), DigitChar(v % 10)];
    assert DigitsValue(s[..1]) == v / 10 by {
      assert s[..1][..0] == [];
    }
    assert v == v / 10 * 10 + v % 10;
    s
  }

  /** A four-digit year as `%Y` writes it. */
  function FourDigits(year: nat): (s: string)
    requires 1000 <= year <= 9999
    ensures |s| == 4 && AllDigits(s)
  {
    [DigitChar(year / 1000), DigitChar(year / 100 % 10), DigitChar(year / 10 % 10), DigitChar(year % 10)]
  }

  /** `strftime('%Y')[2:4]` is the year within its century. */
  lemma CenturyDigits(year: nat)
    requires 1000 <= year <= 9999
    ensures FourDigits(year)[2..4] == TwoDigits(year % 100)
  {
    var c := year % 100;
    assert year / 10 % 10 == c / 10 && year % 10 == c % 10 by {
      var h := year / 100;
      assert year == 100 * h + c;
    }
  }

  /** The date code appended to the draft file name, `MMDDYY`. */
  function DateCode(month: nat, day: nat, year: nat): (c: string)
    requires 1 <= month <= 12 && 1 <= day <= 31 && 1000 <= year <= 9999
    ensures |c| == 6 && AllDigits(c)
  {
    TwoDigits(month) + TwoDigits(day) + FourDigits(year)[2..4]
  }

  /** The code gives back the month, the day and the year within its
      century, each from its own two digits. */
  lemma DateCodeReadBack(month: nat, day: nat, year: nat)
    requires 1 <= month <= 12 && 1 <= day <= 31 && 1000 <= year <= 9999
    ensures DigitsValue(DateCode(month, day, year)[..2]) == month
    ensures DigitsValue(DateCode(month, day, year)[2..4]) == day
    ensures DigitsValue(DateCode(month, day, year)[4..]) == year % 100
  {
    var c := DateCode(month, day, year);
    CenturyDigits(year);
    assert c[..2] == TwoDigits(month);
    assert c[2..4] == TwoDigits(day);
    assert c[4..] == TwoDigits(year % 100);
  }

  /** Two days share a code only when they agree on month, day and the year
      within its century. */
  lemma DateCodeInjective(m1: nat, d1: nat, y1: nat, m2: nat, d2: nat, y2: nat)
    requires 1 <= m1 <= 12 && 1 <= d1 <= 31 && 1000 <= y1 <= 9999
    requires 1 <= m2 <= 12 && 1 <= d2 <= 31 && 1000 <= y2 <= 9999
    requires DateCode(m1, d1, y1) == DateCode(m2, d2, y2)
    ensures m1 == m2 && d1 == d2 && y1 % 100 == y2 % 100
  {
    DateCodeReadBack(m1, d1, y1);
    DateCodeReadBack(m2, d2, y2);
  }

  // ---------------------------------------------------------------------------
  // buffer distances

  /** The two buffer distances in metres: a tenth of the line spacing, and
      half the spacing plus the overlap, each through `int()` of a float. */
  datatype Buffers = Buffers(inner: int, outer: int)

  function BufferDistances(spacing: int, overlap: int): (b: Buffers)
    ensures spacing >= 0 ==> b.inner == spacing / 10
    ensures spacing < 0 ==> b.inner == -((-spacing) / 10)
    ensures spacing >= 0 && overlap >= 0 ==> b.outer == spacing / 2 + overlap
    ensures spacing >= 0 && overlap >= 0 ==> 0 <= b.inner <= b.outer
  {
    var b := Buffers(Trunc(spacing as real / 10.0), Trunc(spacing as real / 2.0 + overlap as real));
    assert spacing >= 0 ==> b.inner == spacing / 10 by {
      if spacing >= 0 { TruncTenth(spacing); }
    }
    assert spacing < 0 ==> b.inner == -((-spacing) / 10) by {
      if spacing < 0 {
        TruncTenth(-spacing);
        TruncProperties(spacing as real / 10.0, 0);
        assert -(spacing as real / 10.0) == (-spacing) as real / 10.0;
      }
    }
    assert spacing >= 0 && overlap >= 0 ==> b.outer == spacing / 2 + overlap by {
      if spacing >= 0 && overlap >= 0 { TruncHalfPlus(spacing, overlap); }
    }
    b
  }

  /** `int(n / 10)` for a non-negative int `n` is the integer tenth of `n`. */
  lemma TruncTenth(n: nat)
    ensures Trunc(n as real / 10.0) == n / 10
  {
    var q, r := n / 10, n % 10;
    assert n == 10 * q + r;
    assert n as real / 10.0 == q as real + r as real / 10.0;
  }

  /** `int(n / 2 + k)` for non-negative ints is the integer half plus `k`. */
  lemma TruncHalfPlus(n: nat, k: nat)
    ensures Trunc(n as real / 2.0 + k as real) == n / 2 + k
  {
    var h := n / 2;
    assert n == 2 * h || n == 2 * h + 1;
  }

  /** With the tool's defaults, 1000 m spacing and 10 m overlap, the buffers
      are 100 m and 510 m. */
  lemma DefaultBuffers()
    ensures BufferDistances(1000, 10) == Buffers(100, 510)
  {
  }

  // ---------------------------------------------------------------------------
  // stratlines back on the map

  /** A stratline drawn on the cross-section view: the `et_id` of its line,
      its unit and the vertices of its first part. */
  datatype StratLine = StratLine(etId: string, unit: Option<string>, vertices: seq<Point>)

  /** A stratline drawn back on the map along its cross-section line. */
  datatype MapLine = MapLine(shape: seq<Point>, etId: string, unit: Option<string>, mnEtId: Option<string>)

  /** Vertices moved onto the map: x kept (it is the easting in both views),
      y set to the line's northing. */
  function OntoLine(v: seq<Point>, y: real): (r: seq<Point>)
    ensures |r| == |v|
    ensures forall i :: 0 <= i < |v| ==> r[i].x == v[i].x && r[i].y == y
    ensures EastWest(r)
  {
    MapPoints(v, (p: Point) => Point(p.x, y))
  }

  /** A map point on an east-west line, drawn on the stacked view at any
      elevation and moved back onto the line, is where it started. */
  lemma OntoLineUndoesStacking(q: seq<Point>, zs: seq<real>, id: int, y: real)
    requires |zs| == |q|
    requires forall i :: 0 <= i < |q| ==> q[i].y == y
    ensures OntoLine(seq(|q|, (i: int) requires 0 <= i < |q| => StackedPoint(q[i].x, zs[i], id)), y) == q
  {
  }

  /** The stratlines the where clause `et_id = '<etid>'` returns, in table
      order. */
  function StratOf(etId: string, strat: seq<StratLine>): (r: seq<StratLine>)
    ensures |r| <= |strat|
    ensures forall s :: s in r <==> s in strat && s.etId == etId
  {
    if |strat| == 0 then []
    else
      var rest := StratOf(etId, strat[1..]);
      assert forall s :: s in strat <==> s == strat[0] || s in strat[1..];
      if strat[0].etId == etId then [strat[0]] + rest else rest
  }

  /** The map lines one cross-section line produces. `int(etid)` raises on
      a label that is not an integer, and a line with no vertices raises
      on `pointlist[0]`; a line whose ends differ in y is reported and
      still used, every vertex taking the first vertex's y. */
  function XslnMapLines(x: Xsln, strat: seq<StratLine>): (r: Result<seq<MapLine>, string>)
    ensures r.Failure? <==> ParseInt(x.etId).Failure? || |x.vertices| == 0
    ensures r.Success? ==> |r.value| == |StratOf(x.etId, strat)|
    ensures r.Success? ==> forall k :: 0 <= k < |r.value| ==> DrawnBack(r.value[k], StratOf(x.etId, strat)[k], x)
  {
    match ParseInt(x.etId)
    case Failure(e) => Failure(e)
    case Success(_) =>
      if |x.vertices| == 0 then Failure("list index out of range")
      else
        var y := x.vertices[0].y;
        var sel := StratOf(x.etId, strat);
        Success(seq(|sel|, k requires 0 <= k < |sel| => MapLine(OntoLine(sel[k].vertices, y), x.etId, sel[k].unit, x.mnEtId)))
  }

  /** `o` is stratline `s` drawn back along line `x`: the line's labels, the
      stratline's unit, the stratline's eastings, the line's first northing. */
  predicate DrawnBack(o: MapLine, s: StratLine, x: Xsln)
    requires |x.vertices| > 0
  {
    && o.etId == x.etId && o.mnEtId == x.mnEtId && o.unit == s.unit
    && |o.shape| == |s.vertices| && EastWest(o.shape)
    && forall i :: 0 <= i < |o.shape| ==> o.shape[i].x == s.vertices[i].x && o.shape[i].y == x.vertices[0].y
  }

  /** Every map line of one cross-section line runs east-west. */
  lemma XslnMapLinesEastWest(x: Xsln, strat: seq<StratLine>, o: MapLine)
    requires XslnMapLines(x, strat).Success? && o in XslnMapLines(x, strat).value
    ensures EastWest(o.shape)
  {
    var r := XslnMapLines(x, strat).value;
    var k :| 0 <= k < |r| && r[k] == o;
    assert DrawnBack(r[k], StratOf(x.etId, strat)[k], x);
  }

  /** The whole conversion, line by line: the first line that raises stops
      the tool. */
  function MapLines(xslns: seq<Xsln>, strat: seq<StratLine>): (r: Result<seq<MapLine>, string>)
    ensures r.Failure? <==> exists i :: 0 <= i < |xslns| && (ParseInt(xslns[i].etId).Failure? || |xslns[i].vertices| == 0)
    ensures r.Success? ==> forall o :: o in r.value ==> EastWest(o.shape)
  {
    match MapAll((x: Xsln) => XslnMapLines(x, strat), xslns)
    case Failure(e) => Failure(e)
    case Success(per) =>
      var r := Concat(per);
      assert forall o :: o in r ==> EastWest(o.shape) by {
        forall o | o in r ensures EastWest(o.shape) {
          var i :| 0 <= i < |per| && o in per[i];
          assert XslnMapLines(xslns[i], strat) == Success(per[i]);
          XslnMapLinesEastWest(xslns[i], strat, o);
        }
      }
      Success(r)
  }
}

=== FILE: names.dfy ===
/** The names the tools give their outputs: the input's basename with a
    suffix, and in the traditional display the vertical exaggeration as
    "_<VE>x". */
module OutputNames {
  import opened PyStrings

  /** The display system a tool draws in. */
  datatype DisplaySystem = StackedView | TraditionalView

  /** The vertical-exaggeration tag a traditional output carries. */
  function VeTag(ve: int): (t: string)
    ensures |t| >= 3 && t[0] == '_' && t[|t| - 1] == 'x'
    ensures forall i :: 0 <= i < |t| ==> !IsPathSep(t[i])
  {
    var t := "_" + IntToString(ve) + "x";
    assert forall i :: 1 <= i < |t| - 1 ==> t[i] == IntToString(ve)[i - 1];
    t
  }

  /** `str(ve)` is back between the tag's underscore and its `x`. */
  lemma VeTagDeterminesVe(a: int, b: int)
    requires VeTag(a) == VeTag(b)
    ensures a == b
  {
    var ta := VeTag(a);
    assert ta[1..|ta| - 1] == IntToString(a);
    assert VeTag(b)[1..|VeTag(b)| - 1] == IntToString(b);
    IntToStringInjective(a, b);
  }

  /** A separator-free suffix. */
  predicate NoSeparator(s: string) {
    forall i :: 0 <= i < |s| ==> !IsPathSep(s[i])
  }

  /** Suffix of the copy-to-every-line output. */
  const ProjectedToAll: string := "_projected_to_all"

  /** `os.path.basename(in_fc + "_projected_to_all")`. */
  function ProjectedToAllName(inFc: string): (name: string)
    ensures name == Basename(inFc) + ProjectedToAll
  {
    BasenameAppend(inFc, ProjectedToAll);
    Basename(inFc + ProjectedToAll)
  }

  /** The copy-to-selected output: the input basename, "_", the input line
      number. */
  function SelectedName(inFc: string, inputNum: string): string
  {
    Basename(inFc) + "_" + inputNum
  }

  /** The box tools: `basename(polys + "_boxes_2d")`, with the tag in the
      traditional display. */
  function BoxesName(polys: string, sys: DisplaySystem, ve: int): (name: string)
    ensures name == Basename(polys) + BoxesSuffix(sys, ve)
  {
    BasenameAppend(polys, BoxesSuffix(sys, ve));
    Basename(polys + BoxesSuffix(sys, ve))
  }

  /** "_boxes_2d", tagged in the traditional display. */
  function BoxesSuffix(sys: DisplaySystem, ve: int): (s: string)
    ensures NoSeparator(s)
    ensures sys == StackedView ==> s == "_boxes_2d"
    ensures sys == TraditionalView ==> s == "_boxes_2d" + VeTag(ve)
  {
    if sys == StackedView then "_boxes_2d"
    else
      NoSeparatorAppend("_boxes_2d", VeTag(ve));
      "_boxes_2d" + VeTag(ve)
  }

  lemma NoSeparatorAppend(a: string, b: string)
    requires NoSeparator(a) && NoSeparator(b)
    ensures NoSeparator(a + b)
  {
  }

  /** The line output of the project-to-view tool; "_temp3" is added when
      the final output is points, so a line output of the same input is
      not overwritten. */
  function LineName(fc: string, sys: DisplaySystem, ve: int, pointOutput: bool): (name: string)
    ensures var base := Basename(fc) + "_line_2d" + (if sys == TraditionalView then VeTag(ve) else "");
            name == (if pointOutput then base + "_temp3" else base)
  {
    var base := Basename(fc) + "_line_2d" + (if sys == TraditionalView then VeTag(ve) else "");
    if pointOutput then base + "_temp3" else base
  }

  /** The point output of the project-to-view tool. */
  function PointName(fc: string, sys: DisplaySystem, ve: int): string
  {
    Basename(fc) + "_point_2d" + (if sys == TraditionalView then VeTag(ve) else "")
  }

  /** The temporary line of a point run never has the point output's name,
      nor the name of a line run. */
  lemma LineNamesKeptApart(fc: string, sys: DisplaySystem, ve: int)
    ensures LineName(fc, sys, ve, true) != LineName(fc, sys, ve, false)
    ensures LineName(fc, sys, ve, true) != PointName(fc, sys, ve)
  {
    var tag := if sys == TraditionalView then VeTag(ve) else "";
    LineAndPointDiffer(Basename(fc), tag);
  }

  lemma LineAndPointDiffer(b: string, tag: string)
    ensures b + "_line_2d" + tag + "_temp3" != b + "_point_2d" + tag
  {
    var s := "_line_2d" + tag + "_temp3";
    var t := "_point_2d" + tag;
    assert s[1] == 'l' && t[1] == 'p';
    assert b + "_line_2d" + tag + "_temp3" == b + s;
    assert b + "_point_2d" + tag == b + t;
    DifferentTails(b, s, t, 1);
  }

  /** Strings with a common head differ when their tails differ at some
      position. */
  lemma DifferentTails(head: string, s: string, t: string, k: nat)
    requires k < |s| && k < |t| && s[k] != t[k]
    ensures head + s != head + t
  {
    assert (head + s)[|head| + k] == s[k];
    assert (head + t)[|head| + k] == t[k];
  }

  /** The 2D profiles of one raster. */
  function ProfilesName(raster: string, sys: DisplaySystem, ve: int): string
  {
    Basename(raster) + "_profiles2d" + (if sys == TraditionalView then VeTag(ve) else "")
  }

  /** The intersect tool's line and point outputs. */
  function IntersectLinesName(polys: string, sys: DisplaySystem, ve: int): string
  {
    Basename(polys) + "_intersect_lines" + (if sys == TraditionalView then VeTag(ve) else "")
  }

  function IntersectPointsName(polys: string, sys: DisplaySystem, ve: int): string
  {
    Basename(polys) + "_intersect_points" + (if sys == TraditionalView then VeTag(ve) else "")
  }

  /** Two runs of a tool on the same input write the same output only when
      they are in the same display system with, in the traditional one, the
      same exaggeration. */
  lemma {:induction false} TaggedNamesDistinct(stem: string, s1: DisplaySystem, ve1: int, s2: DisplaySystem, ve2: int)
    requires stem + (if s1 == TraditionalView then VeTag(ve1) else "") == stem + (if s2 == TraditionalView then VeTag(ve2) else "")
    ensures s1 == s2
    ensures s1 == TraditionalView ==> ve1 == ve2
  {
    var n := stem + (if s1 == TraditionalView then VeTag(ve1) else "");
    var m := stem + (if s2 == TraditionalView then VeTag(ve2) else "");
    if s1 == TraditionalView && s2 == TraditionalView {
      assert n[|stem|..] == VeTag(ve1) && m[|stem|..] == VeTag(ve2);
      VeTagDeterminesVe(ve1, ve2);
    }
  }

  /** The `;`-separated raster parameter as the list of rasters. */
  function RasterList(input: string): (r: seq<string>)
    ensures |r| >= 1
    ensures forall i :: 0 <= i < |r| ==> ';' !in r[i]
    ensures Join(r, ';') == input
  {
    JoinSplit(input, ';');
    Split(input, ';')
  }

  /** A list of raster paths without `;` comes back from its parameter
      string. */
  lemma RasterListOfJoin(rasters: seq<string>)
    requires |rasters| >= 1
    requires forall i :: 0 <= i < |rasters| ==> ';' !in rasters[i]
    ensures RasterList(Join(rasters, ';')) == rasters
  {
    SplitJoin(rasters, ';');
  }
}

=== FILE: profiles.dfy ===
/** The surface-profile converters. A 3D profile segment is a raster profile
    along a cross-section line, or its intersection with a polygon layer or
    the surficial-geology polygons. Each segment is drawn vertex by vertex in
    the stacked or the traditional view, and every drawn line then yields two
    point rows, at its first and its last vertex. */
module SurfaceProfiles {
  import opened Wrappers
  import opened PyLists
  import opened PyStrings
  import opened Transforms
  import opened XsecFeatures

  /** A 3D profile segment row: the vertices of its first part, its `et_id`,
      the attribute the tool carries along (`unique_id`, the unit, or nothing
      for raster profiles) and its `mn_et_id` value, which may be null. */
  datatype Segment<A> = Segment(vertices: seq<Point3>, etId: string, attr: A, mnEtId: Option<string>)

  /** A drawn 2D line row. The stacked view writes the `mn_et_id` value it
      read, null included; the traditional view writes none. */
  datatype Line2d<A> = Line2d(shape: seq<Point>, etId: string, attr: A, mnEtId: Option<string>)

  /** Where a stacked converter turns `mn_et_id` into a number: once before
      the vertex loop (the polygon-intersect and surficial-geology tools), or
      inside the loop, once per vertex (the raster profile tools), so that a
      segment without vertices never reads it. */
  datatype ParseAt = BeforeVertices | PerVertex

  // ---------------------------------------------------------------------------
  // stacked view

  /** The vertices of a segment drawn in the stacked band of line `id`. */
  function StackedVertices(v: seq<Point3>, id: int): (r: seq<Point>)
    ensures |r| == |v|
    ensures forall i :: 0 <= i < |v| ==> r[i].x == v[i].x && FromStacked(r[i].y, id, CountyRelief, StackedVE) == v[i].z
  {
    if |v| == 0 then [] else [StackedPoint(v[0].x, v[0].z, id)] + StackedVertices(v[1..], id)
  }

  /** Within a segment, higher ground is drawn higher, so the vertices keep
      their vertical order. */
  lemma StackedVerticesKeepOrder(v: seq<Point3>, id: int, i: nat, j: nat)
    requires i < |v| && j < |v|
    ensures v[i].z < v[j].z <==> StackedVertices(v, id)[i].y < StackedVertices(v, id)[j].y
  {
    var r := StackedVertices(v, id);
    StackedInverseRoundTrip(r[i].y, id, CountyRelief, StackedVE);
    StackedInverseRoundTrip(r[j].y, id, CountyRelief, StackedVE);
    StackedMonotone(v[i].z, v[j].z, id, CountyRelief, StackedVE);
  }

  /** One segment in the stacked view. `float()`/`int()` of a null or
      non-numeric `mn_et_id` raises; with the per-vertex parse a segment
      with no vertices is still written, with an empty shape and the
      `mn_et_id` value as read, even a null one. */
  function StackedSegment<A>(s: Segment<A>, at: ParseAt): (r: Result<Line2d<A>, string>)
    ensures r.Failure? <==> IntOfField(s.mnEtId).Failure? && (at.BeforeVertices? || |s.vertices| > 0)
    ensures r.Success? ==> r.value.etId == s.etId && r.value.attr == s.attr && r.value.mnEtId == s.mnEtId
    ensures r.Success? ==> |r.value.shape| == |s.vertices|
    ensures r.Success? && IntOfField(s.mnEtId).Success? ==> r.value.shape == StackedVertices(s.vertices, IntOfField(s.mnEtId).value)
  {
    match IntOfField(s.mnEtId)
    case Success(id) => Success(Line2d(StackedVertices(s.vertices, id), s.etId, s.attr, s.mnEtId))
    case Failure(e) =>
      if at.PerVertex? && |s.vertices| == 0 then Success(Line2d([], s.etId, s.attr, s.mnEtId))
      else Failure(e)
  }

  /** The stacked cursor loop over every segment of the table, in order; the
      first segment that raises stops the tool. */
  function StackedLines<A(==)>(segs: seq<Segment<A>>, at: ParseAt): (r: Result<seq<Line2d<A>>, string>)
    ensures r.Failure? <==> exists k :: (0 <= k < |segs| && IntOfField(segs[k].mnEtId).Failure?
                                         && (at.BeforeVertices? || |segs[k].vertices| > 0))
    ensures r.Success? ==> |r.value| == |segs|
    ensures r.Success? ==> forall k :: 0 <= k < |segs| ==> StackedSegment(segs[k], at) == Success(r.value[k])
  {
    MapAll((s: Segment<A>) => StackedSegment(s, at), segs)
  }

  // ---------------------------------------------------------------------------
  // traditional view

  /** The vertices of a segment in the traditional view of one line: x is the
      compressed distance along the line, y the true elevation. `measure`
      stands for `measureOnLine` on the line's geometry. */
  function TraditionalVertices(v: seq<Point3>, measure: Point -> real, ve: real): (r: seq<Point>)
    requires ve != 0.0
    ensures |r| == |v|
    ensures forall i :: 0 <= i < |v| ==> TrueXDistance(r[i].x, ve) == measure(Point(v[i].x, v[i].y)) && r[i].y == v[i].z
  {
    if |v| == 0 then []
    else
      TraditionalRoundTrip(measure(Point(v[0].x, v[0].y)), ve);
      [Point(TraditionalX(measure(Point(v[0].x, v[0].y)), ve), v[0].z)] + TraditionalVertices(v[1..], measure, ve)
  }

  /** With a positive exaggeration, a vertex farther along the line is drawn
      farther right. */
  lemma TraditionalVerticesKeepOrder(v: seq<Point3>, measure: Point -> real, ve: real, i: nat, j: nat)
    requires ve > 0.0 && i < |v| && j < |v|
    ensures measure(Point(v[i].x, v[i].y)) < measure(Point(v[j].x, v[j].y))
            <==> TraditionalVertices(v, measure, ve)[i].x < TraditionalVertices(v, measure, ve)[j].x
  {
    var r := TraditionalVertices(v, measure, ve);
    TrueXRoundTrip(r[i].x, ve);
    TrueXRoundTrip(r[j].x, ve);
    TraditionalMonotone(measure(Point(v[i].x, v[i].y)), measure(Point(v[j].x, v[j].y)), ve);
  }

  /** One segment in the traditional view of line `x`. The division by the
      exaggeration raises on a zero exaggeration, but only once a vertex is
      read. */
  function TraditionalSegment<A>(s: Segment<A>, x: Xsln, measure: (seq<Point>, Point) -> real, ve: int): (r: Result<Line2d<A>, string>)
    ensures r.Failure? <==> ve == 0 && |s.vertices| > 0
    ensures r.Success? ==> r.value.etId == s.etId && r.value.attr == s.attr && r.value.mnEtId.None?
    ensures r.Success? ==> |r.value.shape| == |s.vertices|
    ensures r.Success? && ve != 0 ==> r.value.shape == TraditionalVertices(s.vertices, p => measure(x.vertices, p), ve as real)
  {
    if |s.vertices| == 0 then Success(Line2d([], s.etId, s.attr, None))
    else if ve == 0 then Failure("float division by zero")
    else Success(Line2d(TraditionalVertices(s.vertices, p => measure(x.vertices, p), ve as real), s.etId, s.attr, None))
  }

  /** The segments the where clause `et_id = '<line>'` returns for line `x`. */
  function OnLine<A(!new)>(x: Xsln, segs: seq<Segment<A>>): (r: seq<Segment<A>>)
    ensures forall s :: s in r <==> s in segs && s.etId == x.etId
  {
    Filter(segs, (s: Segment<A>) => s.etId == x.etId)
  }

  /** The inner loop for one cross-section line. */
  function TraditionalForLine<A(==,!new)>(x: Xsln, segs: seq<Segment<A>>, measure: (seq<Point>, Point) -> real, ve: int): (r: Result<seq<Line2d<A>>, string>)
    ensures r.Failure? <==> ve == 0 && exists s :: s in segs && s.etId == x.etId && |s.vertices| > 0
    ensures r.Success? ==> |r.value| == |OnLine(x, segs)|
    ensures r.Success? ==> forall k :: 0 <= k < |r.value| ==> TraditionalSegment(OnLine(x, segs)[k], x, measure, ve) == Success(r.value[k])
  {
    var f := (s: Segment<A>) => TraditionalSegment(s, x, measure, ve);
    MapAllFilterFails(f, segs, (s: Segment<A>) => s.etId == x.etId);
    MapAll(f, OnLine(x, segs))
  }

  /** The traditional loop: for every cross-section line in order, every
      segment on it. A segment whose `et_id` names no line is never drawn,
      and one line listed twice draws its segments twice. */
  function TraditionalLines<A(==,!new)>(xslns: seq<Xsln>, segs: seq<Segment<A>>, measure: (seq<Point>, Point) -> real, ve: int): (r: Result<seq<Line2d<A>>, string>)
    ensures r.Failure? <==> ve == 0 && exists i, s :: (0 <= i < |xslns| && s in segs
                                                      && s.etId == xslns[i].etId && |s.vertices| > 0)
    ensures r.Success? ==> forall l :: l in r.value ==> exists i :: (0 <= i < |xslns|
                                                                    && l in TraditionalForLine(xslns[i], segs, measure, ve).value)
  {
    match MapAll((x: Xsln) => TraditionalForLine(x, segs, measure, ve), xslns)
    case Failure(e) => Failure(e)
    case Success(per) =>
      assert forall i :: 0 <= i < |xslns| ==> TraditionalForLine(xslns[i], segs, measure, ve) == Success(per[i]);
      Success(Concat(per))
  }

  /** Every traditional line is a segment drawn along a cross-section line
      with the segment's own `et_id`. */
  lemma TraditionalLinesSound<A(!new)>(xslns: seq<Xsln>, segs: seq<Segment<A>>, measure: (seq<Point>, Point) -> real, ve: int, l: Line2d<A>)
    requires TraditionalLines(xslns, segs, measure, ve).Success?
    requires l in TraditionalLines(xslns, segs, measure, ve).value
    ensures exists i, s :: (0 <= i < |xslns| && s in segs && s.etId == xslns[i].etId
                            && TraditionalSegment(s, xslns[i], measure, ve) == Success(l))
  {
    var i :| 0 <= i < |xslns| && l in TraditionalForLine(xslns[i], segs, measure, ve).value;
    var per := TraditionalForLine(xslns[i], segs, measure, ve).value;
    var k :| 0 <= k < |per| && per[k] == l;
    var s := OnLine(xslns[i], segs)[k];
    assert s in OnLine(xslns[i], segs);
    assert TraditionalSegment(s, xslns[i], measure, ve) == Success(l);
  }

  /** And every segment on a cross-section line is drawn along it. */
  lemma TraditionalLinesComplete<A(!new)>(xslns: seq<Xsln>, segs: seq<Segment<A>>, measure: (seq<Point>, Point) -> real, ve: int, i: nat, s: Segment<A>)
    requires TraditionalLines(xslns, segs, measure, ve).Success?
    requires i < |xslns| && s in segs && s.etId == xslns[i].etId
    ensures TraditionalSegment(s, xslns[i], measure, ve).Success?
    ensures TraditionalSegment(s, xslns[i], measure, ve).value in TraditionalLines(xslns, segs, measure, ve).value
  {
    var on := OnLine(xslns[i], segs);
    assert s in on;
    var k :| 0 <= k < |on| && on[k] == s;
    var per := MapAll((x: Xsln) => TraditionalForLine(x, segs, measure, ve), xslns).value;
    assert TraditionalForLine(xslns[i], segs, measure, ve) == Success(per[i]);
    assert per[i][k] in per[i];
  }

  // ---------------------------------------------------------------------------
  // end points

  /** A point row: `firstPoint` or `lastPoint` of a drawn line (none for an
      empty geometry) with the line's attributes. */
  datatype EndPoint<A> = EndPoint(at: Option<Point>, etId: string, attr: A, mnEtId: Option<string>)

  /** The two point rows one drawn line yields: its start, then its end. */
  function EndPoints<A>(l: Line2d<A>): (r: seq<EndPoint<A>>)
    ensures |r| == 2
    ensures |l.shape| > 0 ==> r[0].at == Some(l.shape[0]) && r[1].at == Some(l.shape[|l.shape| - 1])
    ensures |l.shape| == 0 ==> r[0].at.None? && r[1].at.None?
    ensures forall k :: 0 <= k < 2 ==> r[k].etId == l.etId && r[k].attr == l.attr && r[k].mnEtId == l.mnEtId
  {
    if |l.shape| == 0 then [EndPoint(None, l.etId, l.attr, l.mnEtId), EndPoint(None, l.etId, l.attr, l.mnEtId)]
    else [EndPoint(Some(l.shape[0]), l.etId, l.attr, l.mnEtId), EndPoint(Some(l.shape[|l.shape| - 1]), l.etId, l.attr, l.mnEtId)]
  }

  /** The point loop over every drawn line: two rows per line, in line order. */
  function PointsOf<A>(ls: seq<Line2d<A>>): (r: seq<EndPoint<A>>)
    ensures |r| == 2 * |ls|
    ensures forall k :: 0 <= k < |ls| ==> r[2 * k] == EndPoints(ls[k])[0] && r[2 * k + 1] == EndPoints(ls[k])[1]
  {
    if |ls| == 0 then [] else EndPoints(ls[0]) + PointsOf(ls[1..])
  }

  /** A stacked segment's two points are its first and last vertex drawn in
      the band its `mn_et_id` names, with its labels copied unchanged. */
  lemma StackedEndPoints<A>(segs: seq<Segment<A>>, at: ParseAt, k: nat)
    requires StackedLines(segs, at).Success? && k < |segs| && |segs[k].vertices| > 0
    ensures IntOfField(segs[k].mnEtId).Success?
    ensures var pts := PointsOf(StackedLines(segs, at).value);
            var v := segs[k].vertices;
            var id := IntOfField(segs[k].mnEtId).value;
            && pts[2 * k].at.Some? && pts[2 * k].at.value.x == v[0].x
            && FromStacked(pts[2 * k].at.value.y, id, CountyRelief, StackedVE) == v[0].z
            && pts[2 * k + 1].at.Some? && pts[2 * k + 1].at.value.x == v[|v| - 1].x
            && FromStacked(pts[2 * k + 1].at.value.y, id, CountyRelief, StackedVE) == v[|v| - 1].z
            && pts[2 * k].etId == pts[2 * k + 1].etId == segs[k].etId
            && pts[2 * k].attr == pts[2 * k + 1].attr == segs[k].attr
            && pts[2 * k].mnEtId == pts[2 * k + 1].mnEtId == segs[k].mnEtId
  {
    var ls := StackedLines(segs, at).value;
    assert StackedSegment(segs[k], at) == Success(ls[k]);
  }

  /** A traditional segment's two points sit at the compressed distances of
      its first and last vertex along the line, at their true elevations. */
  lemma TraditionalEndPoints<A>(s: Segment<A>, x: Xsln, measure: (seq<Point>, Point) -> real, ve: int)
    requires TraditionalSegment(s, x, measure, ve).Success? && |s.vertices| > 0
    ensures var pts := EndPoints(TraditionalSegment(s, x, measure, ve).value);
            var v := s.vertices;
            && pts[0].at.Some? && TrueXDistance(pts[0].at.value.x, ve as real) == measure(x.vertices, Point(v[0].x, v[0].y))
            && pts[0].at.value.y == v[0].z
            && pts[1].at.Some? && TrueXDistance(pts[1].at.value.x, ve as real) == measure(x.vertices, Point(v[|v| - 1].x, v[|v| - 1].y))
            && pts[1].at.value.y == v[|v| - 1].z
  {
  }
}

=== FILE: pylists.dfy ===
/** Python list semantics the scripts rely on: `range`, `list.remove`,
    first-seen de-duplication, order-preserving difference, and the
    remove-while-iterating loop whose iterator skips the element that follows
    each removed one. */
module PyLists {
  import opened Wrappers

  /** No value occurs twice. */
  predicate Distinct<T(==,!new)>(l: seq<T>) {
    forall i, j :: 0 <= i < j < |l| ==> l[i] != l[j]
  }

  /** The elements of `l` that are not in `drop`, in their order in `l`
      (the list a correct "remove every member of drop" loop would leave). */
  function Without<T(==,!new)>(l: seq<T>, drop: seq<T>): (r: seq<T>)
    ensures forall x :: x in r <==> x in l && x !in drop
    ensures |r| <= |l|
  {
    if |l| == 0 then []
    else if l[0] in drop then Without(l[1..], drop)
    else [l[0]] + Without(l[1..], drop)
  }

  /** `l` with the elements that satisfy `keep` only, in their order. */
  function Filter<T(!new)>(l: seq<T>, keep: T -> bool): (r: seq<T>)
    ensures |r| <= |l|
    ensures forall x :: x in r <==> x in l && keep(x)
  {
    if |l| == 0 then []
    else if keep(l[0]) then [l[0]] + Filter(l[1..], keep)
    else Filter(l[1..], keep)
  }

  /** `l[i]` satisfies `keep` and nothing after it does. */
  predicate LastKept<T(!new)>(l: seq<T>, keep: T -> bool, i: int) {
    0 <= i < |l| && keep(l[i]) && forall j :: i < j < |l| ==> !keep(l[j])
  }

  /** The last element a filter keeps is the last element of `l` that
      satisfies `keep`. */
  lemma {:induction false} FilterLast<T(!new)>(l: seq<T>, keep: T -> bool)
    requires |Filter(l, keep)| > 0
    ensures exists i :: LastKept(l, keep, i) && Filter(l, keep)[|Filter(l, keep)| - 1] == l[i]
    decreases |l|
  {
    var r := Filter(l, keep);
    var t := Filter(l[1..], keep);
    if |t| > 0 {
      FilterLast(l[1..], keep);
      var i :| LastKept(l[1..], keep, i) && t[|t| - 1] == l[1..][i];
      assert r[|r| - 1] == t[|t| - 1] by {
        if keep(l[0]) { assert r == [l[0]] + t; } else { assert r == t; }
      }
      forall j | i + 1 < j < |l| ensures !keep(l[j]) {
        assert l[j] == l[1..][j - 1];
      }
      assert LastKept(l, keep, i + 1);
    } else {
      assert keep(l[0]) && r == [l[0]];
      forall j | 0 < j < |l| ensures !keep(l[j]) {
        assert l[j] in l[1..];
      }
      assert LastKept(l, keep, 0);
    }
  }

  /** A raising step applied to the elements a filter keeps fails exactly
      when it fails on some kept element of `l`. */
  lemma MapAllFilterFails<A(!new), B, E>(f: A -> Result<B, E>, l: seq<A>, keep: A -> bool)
    ensures MapAll(f, Filter(l, keep)).Failure? <==> exists x :: x in l && keep(x) && f(x).Failure?
  {
    var m := Filter(l, keep);
    if MapAll(f, m).Failure? {
      var i :| 0 <= i < |m| && f(m[i]).Failure?;
      assert m[i] in m;
    }
    if exists x :: x in l && keep(x) && f(x).Failure? {
      var x :| x in l && keep(x) && f(x).Failure?;
      assert x in m;
      var i :| 0 <= i < |m| && m[i] == x;
      assert f(m[i]).Failure?;
    }
  }

  /** `Without` keeps the order of `l`: two of its elements come from two
      positions of `l` in the same order. */
  lemma {:induction false} WithoutOrder<T(!new)>(l: seq<T>, drop: seq<T>, i: nat, j: nat)
    requires i < j < |Without(l, drop)|
    ensures exists p, q :: 0 <= p < q < |l| && l[p] == Without(l, drop)[i] && l[q] == Without(l, drop)[j]
    decreases |l|
  {
    var r := Without(l, drop);
    var t := Without(l[1..], drop);
    if l[0] in drop {
      WithoutOrder(l[1..], drop, i, j);
      var p, q :| 0 <= p < q < |l[1..]| && l[1..][p] == t[i] && l[1..][q] == t[j];
      assert l[p + 1] == r[i] && l[q + 1] == r[j];
    } else if i == 0 {
      assert r[j] == t[j - 1] && t[j - 1] in l[1..];
      var q :| 0 <= q < |l[1..]| && l[1..][q] == r[j];
      assert l[0] == r[0] && l[q + 1] == r[j];
    } else {
      WithoutOrder(l[1..], drop, i - 1, j - 1);
      var p, q :| 0 <= p < q < |l[1..]| && l[1..][p] == t[i - 1] && l[1..][q] == t[j - 1];
      assert l[p + 1] == r[i] && l[q + 1] == r[j];
    }
  }

  /** The lists joined end to end (the rows a loop of loops appends). */
  function Concat<T(!new)>(ls: seq<seq<T>>): (r: seq<T>)
    ensures forall x :: x in r <==> exists i :: 0 <= i < |ls| && x in ls[i]
  {
    if |ls| == 0 then []
    else
      var rest := Concat(ls[1..]);
      assert forall x :: (exists i :: 0 <= i < |ls| && x in ls[i]) <==> x in ls[0] || x in rest by {
        forall x | x in rest ensures exists i :: 0 <= i < |ls| && x in ls[i] {
          var j :| 0 <= j < |ls[1..]| && x in ls[1..][j];
          assert x in ls[j + 1];
        }
        forall x, i | 0 < i < |ls| && x in ls[i] ensures x in rest {
          assert x in ls[1..][i - 1];
        }
      }
      ls[0] + rest
  }

  /** One more list at the end adds its elements at the end. */
  lemma {:induction false} ConcatSnoc<T(!new)>(ls: seq<seq<T>>, x: seq<T>)
    ensures Concat(ls + [x]) == Concat(ls) + x
  {
    if |ls| == 0 {
      assert ls + [x] == [x];
      assert [x][1..] == [];
    } else {
      var lx := ls + [x];
      assert lx[0] == ls[0] && lx[1..] == ls[1..] + [x];
      ConcatSnoc(ls[1..], x);
    }
  }

  // ---------------------------------------------------------------------------
  // range

  /** The values of `range(start, stop, step)` for a non-zero step: the
      numbers `start + i*step` strictly before `stop`, and no more. */
  function RangeFrom(start: int, stop: int, step: int): (r: seq<int>)
    requires step != 0
    ensures forall i :: 0 <= i < |r| ==> r[i] == start + i * step
    ensures step > 0 ==> (forall i :: 0 <= i < |r| ==> start <= r[i] < stop) && start + |r| * step >= stop
    ensures step < 0 ==> (forall i :: 0 <= i < |r| ==> stop < r[i] <= start) && start + |r| * step <= stop
    decreases if step > 0 then stop - start else start - stop
  {
    if (step > 0 && start < stop) || (step < 0 && start > stop) then
      var rest := RangeFrom(start + step, stop, step);
      var r := [start] + rest;
      forall i | 0 < i < |r| ensures r[i] == start + i * step {
        assert r[i] == rest[i - 1] == start + step + (i - 1) * step;
        MulPred(i, step);
      }
      MulPred(|r|, step);
      r
    else []
  }

  lemma MulPred(i: int, step: int)
    ensures step + (i - 1) * step == i * step
  {
  }

  /** `range(n)` holds `0` to `n - 1`, each at its own index. */
  lemma RangeUpTo(n: nat)
    ensures RangeFrom(0, n, 1) == seq(n, i requires 0 <= i < n => i)
  {
    var r := RangeFrom(0, n, 1);
    if |r| > 0 { assert r[|r| - 1] < n; }
  }

  /** Python's `range(start, stop, step)`: a step of zero raises ValueError. */
  function Range(start: int, stop: int, step: int): (r: Result<seq<int>, string>)
    ensures r.Failure? <==> step == 0
    ensures r.Success? ==> r.value == RangeFrom(start, stop, step)
  {
    if step == 0 then Failure("range() arg 3 must not be zero")
    else Success(RangeFrom(start, stop, step))
  }

  /** Strictly increasing. */
  predicate Increasing(l: seq<int>)
  {
    forall i, j :: 0 <= i < j < |l| ==> l[i] < l[j]
  }

  /** A positive-step range is strictly increasing, so it has no repeated value. */
  lemma RangeDistinct(start: int, stop: int, step: int)
    requires step > 0
    ensures Increasing(RangeFrom(start, stop, step))
    ensures Distinct(RangeFrom(start, stop, step))
  {
    var r := RangeFrom(start, stop, step);
    forall i, j | 0 <= i < j < |r| ensures r[i] < r[j] {
      MulStrictMono(i, j, step);
    }
  }

  lemma MulStrictMono(i: int, j: int, step: int)
    requires i < j && step > 0
    ensures i * step < j * step
  {
  }

  // ---------------------------------------------------------------------------
  // list.remove

  /** Index of the first occurrence of `v`. */
  function IndexOf<T(==,!new)>(l: seq<T>, v: T): (k: nat)
    requires v in l
    ensures k < |l| && l[k] == v
    ensures v !in l[..k]
  {
    if l[0] == v then 0 else 1 + IndexOf(l[1..], v)
  }

  /** The first occurrence is the index holding `v` with no `v` before it. */
  lemma IndexOfAt<T(!new)>(l: seq<T>, v: T, k: nat)
    requires k < |l| && l[k] == v
    requires forall j :: 0 <= j < k ==> l[j] != v
    ensures IndexOf(l, v) == k
  {
    var m := IndexOf(l, v);
    assert forall j :: 0 <= j < m ==> l[..m][j] == l[j];
  }

  /** Index of the last occurrence of `v`, or -1 when there is none. */
  function LastIndexOf<T(==,!new)>(l: seq<T>, v: T): (k: int)
    ensures -1 <= k < |l|
    ensures k < 0 <==> v !in l
    ensures k >= 0 ==> l[k] == v && forall j :: k < j < |l| ==> l[j] != v
  {
    if |l| == 0 then -1
    else if l[|l| - 1] == v then |l| - 1
    else
      var front := l[..|l| - 1];
      assert forall j :: 0 <= j < |front| ==> front[j] == l[j];
      assert v in l <==> v in front;
      LastIndexOf(front, v)
  }

  /** One more element at the end is the last occurrence when it is `v`,
      and changes nothing otherwise. */
  lemma LastIndexOfSnoc<T(!new)>(l: seq<T>, x: T, v: T)
    ensures LastIndexOf(l + [x], v) == if x == v then |l| else LastIndexOf(l, v)
  {
    assert (l + [x])[..|l|] == l;
  }

  /** `l` without the first occurrence of `v`, which must be present. */
  function RemoveFirst<T(==,!new)>(l: seq<T>, v: T): (r: seq<T>)
    requires v in l
    ensures |r| == |l| - 1
    ensures r[..IndexOf(l, v)] == l[..IndexOf(l, v)]
    ensures r[IndexOf(l, v)..] == l[IndexOf(l, v) + 1..]
  {
    var k := IndexOf(l, v);
    l[..k] + l[k + 1..]
  }

  /** Removing the first occurrence takes exactly one `v` out of the list. */
  lemma RemoveFirstMultiset<T(!new)>(l: seq<T>, v: T)
    requires v in l
    ensures multiset(RemoveFirst(l, v)) == multiset(l) - multiset{v}
  {
    var k := IndexOf(l, v);
    assert l == l[..k] + [v] + l[k + 1..];
    assert RemoveFirst(l, v) == l[..k] + l[k + 1..];
  }

  /** Python's `list.remove(v)`: removes the first occurrence, and raises
      ValueError when `v` is absent. */
  function Remove<T(==,!new)>(l: seq<T>, v: T): (r: Result<seq<T>, string>)
    ensures r.Success? <==> v in l
    ensures r.Success? ==> |r.value| == |l| - 1 && multiset(r.value) == multiset(l) - multiset{v}
  {
    if v in l then
      RemoveFirstMultiset(l, v);
      Success(RemoveFirst(l, v))
    else Failure("list.remove(x): x not in list")
  }

  /** The statement `if v in l: l.remove(v)`. */
  function RemoveIfPresent<T(==,!new)>(l: seq<T>, v: T): (r: seq<T>)
    ensures v in l ==> multiset(r) == multiset(l) - multiset{v} && |r| == |l| - 1
    ensures v !in l ==> r == l
  {
    if v in l then
      RemoveFirstMultiset(l, v);
      RemoveFirst(l, v)
    else l
  }

  /** In a list without repeats, removing one value keeps every other value. */
  lemma RemoveFirstDistinct<T(!new)>(l: seq<T>, v: T)
    requires v in l && Distinct(l)
    ensures Distinct(RemoveFirst(l, v))
    ensures forall x :: x in RemoveFirst(l, v) <==> x in l && x != v
  {
    var k := IndexOf(l, v);
    var r := RemoveFirst(l, v);
    assert r == l[..k] + l[k + 1..];
    forall i | 0 <= i < |r| ensures r[i] == l[Skip(i, k)] {
    }
    forall i, j | 0 <= i < j < |r| ensures r[i] != r[j] {
      assert r[i] == l[Skip(i, k)] && r[j] == l[Skip(j, k)];
    }
    forall x ensures x in r <==> x in l && x != v {
      if x in l && x != v {
        var i :| 0 <= i < |l| && l[i] == x;
        if i < k { assert r[i] == x; } else { assert r[i - 1] == x; }
      }
    }
  }

  /** Index `i` of a list with the element at `k` removed, as an index of
      the original list. */
  function Skip(i: nat, k: nat): nat
  {
    if i < k then i else i + 1
  }

  // ---------------------------------------------------------------------------
  // for x in l: if x in drop: l.remove(x)   (and the field-list variant that
  // appends the examined survivors to a second list)

  /** What the loop leaves behind: the list itself, and the elements it
      examined and did not remove, in the order examined. */
  datatype Sweep<T> = Sweep(remaining: seq<T>, appended: seq<T>)

  /** The loop from iterator position `i` on. Python's list iterator reads
      `l[i]` and then moves to `i + 1`; removing an element shifts the rest
      left, so the element after a removed one is never examined. */
  function SweepFrom<T(==,!new)>(l: seq<T>, i: nat, drop: seq<T>): (s: Sweep<T>)
    decreases |l| - i
  {
    if i >= |l| then Sweep(l, [])
    else if l[i] in drop then SweepFrom(RemoveFirst(l, l[i]), i + 1, drop)
    else
      var s := SweepFrom(l, i + 1, drop);
      Sweep(s.remaining, [l[i]] + s.appended)
  }

  /** Reference for the list the loop leaves: after a removed element the next
      one is kept unexamined. */
  function SkipRemove<T(==,!new)>(l: seq<T>, drop: seq<T>): (r: seq<T>)
    ensures |r| <= |l|
  {
    if |l| == 0 then []
    else if l[0] in drop then (if |l| == 1 then [] else [l[1]] + SkipRemove(l[2..], drop))
    else [l[0]] + SkipRemove(l[1..], drop)
  }

  /** Reference for the elements the loop examines and keeps. */
  function SkipVisit<T(==,!new)>(l: seq<T>, drop: seq<T>): (r: seq<T>)
    ensures |r| <= |l|
  {
    if |l| == 0 then []
    else if l[0] in drop then (if |l| == 1 then [] else SkipVisit(l[2..], drop))
    else [l[0]] + SkipVisit(l[1..], drop)
  }

  /** In a list without repeats the first occurrence of `l[i]` is at `i`. */
  lemma RemoveAtDistinct<T(!new)>(l: seq<T>, i: nat)
    requires Distinct(l) && i < |l|
    ensures RemoveFirst(l, l[i]) == l[..i] + l[i + 1..]
    ensures Distinct(RemoveFirst(l, l[i]))
  {
    var k := IndexOf(l, l[i]);
    assert l[k] == l[i];
    assert k == i;
    RemoveFirstDistinct(l, l[i]);
  }

  /** From position `i` of a list without repeats, the loop keeps the prefix
      it has passed and behaves as the references on the rest. */
  lemma {:induction false} SweepFromSplit<T(!new)>(l: seq<T>, i: nat, drop: seq<T>)
    requires Distinct(l) && i <= |l|
    ensures SweepFrom(l, i, drop) == Sweep(l[..i] + SkipRemove(l[i..], drop), SkipVisit(l[i..], drop))
    decreases |l| - i, 1
  {
    if i == |l| {
      assert l[..i] == l;
      assert l[i..] == [];
    } else if l[i] in drop {
      SweepDroppedStep(l, i, drop);
    } else {
      SweepKeptStep(l, i, drop);
    }
  }

  /** One step of the loop on a member of `drop`: it is removed, and the next
      element slides into the position the iterator moves past. */
  lemma {:induction false} SweepDroppedStep<T(!new)>(l: seq<T>, i: nat, drop: seq<T>)
    requires Distinct(l) && i < |l| && l[i] in drop
    ensures SweepFrom(l, i, drop) == Sweep(l[..i] + SkipRemove(l[i..], drop), SkipVisit(l[i..], drop))
    decreases |l| - i, 0
  {
    var l' := RemoveFirst(l, l[i]);
    assert SweepFrom(l, i, drop) == SweepFrom(l', i + 1, drop);
    RemoveAtDistinct(l, i);
    if i + 1 < |l| {
      SweepFromSplit(l', i + 1, drop);
      SkipAfterDropped(l, i, drop);
    } else {
      assert SweepFrom(l', i + 1, drop) == Sweep(l', []);
      assert l[i..] == [l[i]];
    }
  }

  /** The references on a suffix that starts with a member of `drop`, in terms
      of the list with that member removed. */
  lemma SkipAfterDropped<T(!new)>(l: seq<T>, i: nat, drop: seq<T>)
    requires i + 1 < |l| && l[i] in drop
    ensures (l[..i] + l[i + 1..])[..i + 1] + SkipRemove((l[..i] + l[i + 1..])[i + 1..], drop)
         == l[..i] + SkipRemove(l[i..], drop)
    ensures SkipVisit((l[..i] + l[i + 1..])[i + 1..], drop) == SkipVisit(l[i..], drop)
  {
    var l' := l[..i] + l[i + 1..];
    var t := l[i..];
    assert t[0] == l[i];
    assert l'[..i + 1] == l[..i] + [t[1]];
    assert l'[i + 1..] == t[2..];
    assert SkipRemove(t, drop) == [t[1]] + SkipRemove(t[2..], drop);
    assert l[..i] + [t[1]] + SkipRemove(t[2..], drop) == l[..i] + ([t[1]] + SkipRemove(t[2..], drop));
  }

  /** One step of the loop on an element it keeps: it is appended and the
      iterator moves on. */
  lemma {:induction false} SweepKeptStep<T(!new)>(l: seq<T>, i: nat, drop: seq<T>)
    requires Distinct(l) && i < |l| && l[i] !in drop
    ensures SweepFrom(l, i, drop) == Sweep(l[..i] + SkipRemove(l[i..], drop), SkipVisit(l[i..], drop))
    decreases |l| - i, 0
  {
    SweepFromSplit(l, i + 1, drop);
    var t := l[i..];
    assert t[0] == l[i];
    assert t[1..] == l[i + 1..];
    assert SkipRemove(t, drop) == [l[i]] + SkipRemove(l[i + 1..], drop);
    assert SkipVisit(t, drop) == [l[i]] + SkipVisit(l[i + 1..], drop);
    assert l[..i + 1] == l[..i] + [l[i]];
    assert l[..i] + [l[i]] + SkipRemove(l[i + 1..], drop) == l[..i] + ([l[i]] + SkipRemove(l[i + 1..], drop));
  }

  /** The whole loop over a list without repeats (such as a positive-step
      range) matches the references. */
  lemma SweepMatchesReference<T(!new)>(l: seq<T>, drop: seq<T>)
    requires Distinct(l)
    ensures SweepFrom(l, 0, drop).remaining == SkipRemove(l, drop)
    ensures SweepFrom(l, 0, drop).appended == SkipVisit(l, drop)
  {
    SweepFromSplit(l, 0, drop);
    assert l[0..] == l;
  }

  /** No two neighbours are both to be removed. */
  predicate NoAdjacentDropped<T(==,!new)>(l: seq<T>, drop: seq<T>) {
    forall i :: 0 <= i < |l| - 1 ==> !(l[i] in drop && l[i + 1] in drop)
  }

  /** When two neighbours are both to be removed, the loop leaves one of the
      values that should have gone. */
  lemma {:induction false} SkipRemoveLeavesDropped<T(!new)>(l: seq<T>, drop: seq<T>)
    requires !NoAdjacentDropped(l, drop)
    ensures exists x :: x in SkipRemove(l, drop) && x in drop
    decreases |l|
  {
    var i :| 0 <= i < |l| - 1 && l[i] in drop && l[i + 1] in drop;
    if l[0] in drop {
      if l[1] in drop {
        assert l[1] in SkipRemove(l, drop);
      } else {
        assert i >= 2;
        assert l[2..][i - 2] == l[i] && l[2..][i - 1] == l[i + 1];
        SkipRemoveLeavesDropped(l[2..], drop);
        var x :| x in SkipRemove(l[2..], drop) && x in drop;
        assert x in SkipRemove(l, drop);
      }
    } else {
      assert i >= 1;
      assert l[1..][i - 1] == l[i] && l[1..][i] == l[i + 1];
      SkipRemoveLeavesDropped(l[1..], drop);
      var x :| x in SkipRemove(l[1..], drop) && x in drop;
      assert x in SkipRemove(l, drop);
    }
  }

  /** Without two neighbours both to be removed, the skipping loop removes
      exactly what it should. */
  lemma {:induction false} SkipRemoveIsWithout<T(!new)>(l: seq<T>, drop: seq<T>)
    requires NoAdjacentDropped(l, drop)
    ensures SkipRemove(l, drop) == Without(l, drop)
    decreases |l|
  {
    if |l| == 0 {
    } else if l[0] in drop {
      if |l| > 1 {
        assert l[1] !in drop;
        assert NoAdjacentDropped(l[2..], drop) by {
          forall i | 0 <= i < |l[2..]| - 1 ensures !(l[2..][i] in drop && l[2..][i + 1] in drop) {
            assert l[2..][i] == l[i + 2] && l[2..][i + 1] == l[i + 3];
          }
        }
        SkipRemoveIsWithout(l[2..], drop);
        assert l[1..][1..] == l[2..];
        assert Without(l[1..], drop) == [l[1]] + Without(l[2..], drop);
      }
    } else {
      assert NoAdjacentDropped(l[1..], drop) by {
        forall i | 0 <= i < |l[1..]| - 1 ensures !(l[1..][i] in drop && l[1..][i + 1] in drop) {
          assert l[1..][i] == l[i + 1] && l[1..][i + 1] == l[i + 2];
        }
      }
      SkipRemoveIsWithout(l[1..], drop);
    }
  }

  /** The remove-while-iterating loop over a list without repeats removes every
      member of `drop` exactly when no two neighbours are both members. */
  lemma SweepRemovesAllIff<T(!new)>(l: seq<T>, drop: seq<T>)
    requires Distinct(l)
    ensures SweepFrom(l, 0, drop).remaining == Without(l, drop) <==> NoAdjacentDropped(l, drop)
  {
    SweepMatchesReference(l, drop);
    if NoAdjacentDropped(l, drop) {
      SkipRemoveIsWithout(l, drop);
    } else {
      SkipRemoveLeavesDropped(l, drop);
      var x :| x in SkipRemove(l, drop) && x in drop;
      assert x !in Without(l, drop);
    }
  }

  /** What the loop appends is a choice of kept elements: none of them is in
      `drop`, and each comes from `l`. */
  lemma {:induction false} SkipVisitSound<T(!new)>(l: seq<T>, drop: seq<T>)
    ensures forall x :: x in SkipVisit(l, drop) ==> x in l && x !in drop
    decreases |l|
  {
    if |l| == 0 {
    } else if l[0] in drop {
      if |l| > 1 {
        SkipVisitSound(l[2..], drop);
        forall x | x in SkipVisit(l[2..], drop) ensures x in l { var j :| 0 <= j < |l[2..]| && l[2..][j] == x; assert l[j + 2] == x; }
      }
    } else {
      SkipVisitSound(l[1..], drop);
      forall x | x in SkipVisit(l[1..], drop) ensures x in l { var j :| 0 <= j < |l[1..]| && l[1..][j] == x; assert l[j + 1] == x; }
    }
  }

  /** The list the loop leaves holds only elements of the original, and
      everything it dropped was in `drop`. */
  lemma {:induction false} SkipRemoveSound<T(!new)>(l: seq<T>, drop: seq<T>)
    ensures forall x :: x in SkipRemove(l, drop) ==> x in l
    ensures forall x :: x in l && x !in SkipRemove(l, drop) ==> x in drop
    decreases |l|
  {
    if |l| == 0 {
    } else if l[0] in drop {
      if |l| > 1 {
        SkipRemoveSound(l[2..], drop);
        assert l == [l[0], l[1]] + l[2..];
      }
    } else {
      SkipRemoveSound(l[1..], drop);
      assert l == [l[0]] + l[1..];
    }
  }

  // ---------------------------------------------------------------------------
  // if x not in out: out.append(x)

  /** Appends each element of `l` to `out` unless `out` already holds it. */
  function AppendNew<T(==,!new)>(out: seq<T>, l: seq<T>): (r: seq<T>)
    requires Distinct(out)
    ensures Distinct(r)
    ensures forall x :: x in r <==> x in out || x in l
    ensures |out| <= |r| <= |out| + |l|
    ensures r[..|out|] == out
    decreases |l|
  {
    if |l| == 0 then out
    else if l[0] in out then AppendNew(out, l[1..])
    else
      var out' := out + [l[0]];
      assert Distinct(out') by {
        forall i, j | 0 <= i < j < |out'| ensures out'[i] != out'[j] {
          if j == |out| { assert out'[i] in out; }
        }
      }
      var r := AppendNew(out', l[1..]);
      assert r[..|out|] == r[..|out'|][..|out|];
      r
  }

  /** The distinct elements of `l` in the order they are first seen. */
  function Dedup<T(==,!new)>(l: seq<T>): (r: seq<T>)
    ensures Distinct(r)
    ensures forall x :: x in r <==> x in l
    ensures |r| <= |l|
  {
    AppendNew([], l)
  }

  /** De-duplication leaves a list without repeats unchanged. */
  lemma {:induction false} AppendNewFresh<T(!new)>(out: seq<T>, l: seq<T>)
    requires Distinct(out) && Distinct(out + l)
    ensures AppendNew(out, l) == out + l
    decreases |l|
  {
    if |l| > 0 {
      assert l[0] !in out by {
        forall i | 0 <= i < |out| ensures out[i] != l[0] {
          assert (out + l)[i] == out[i] && (out + l)[|out|] == l[0];
        }
      }
      var out' := out + [l[0]];
      assert out' + l[1..] == out + l;
      assert Distinct(out') by {
        forall i, j | 0 <= i < j < |out'| ensures out'[i] != out'[j] {
          assert out'[i] == (out + l)[i] && out'[j] == (out + l)[j];
        }
      }
      AppendNewFresh(out', l[1..]);
    }
  }

  /** De-duplicating a list that has no repeats returns it unchanged. */
  lemma DedupOfDistinct<T(!new)>(l: seq<T>)
    requires Distinct(l)
    ensures Dedup(l) == l
  {
    assert [] + l == l;
    AppendNewFresh([], l);
  }

  /** The cursor loop one row at a time: a value is appended only when it
      was not seen before. */
  lemma {:induction false} AppendNewSnoc<T(!new)>(out: seq<T>, l: seq<T>, x: T)
    requires Distinct(out)
    ensures AppendNew(out, l + [x]) == (if x in AppendNew(out, l) then AppendNew(out, l) else AppendNew(out, l) + [x])
    decreases |l|
  {
    if |l| == 0 {
      assert l + [x] == [x];
      assert [x][1..] == [];
    } else {
      assert (l + [x])[1..] == l[1..] + [x];
      if l[0] in out {
        AppendNewSnoc(out, l[1..], x);
      } else {
        var out' := out + [l[0]];
        assert Distinct(out') by {
          forall i, j | 0 <= i < j < |out'| ensures out'[i] != out'[j] {
            if j == |out| { assert out'[i] in out; }
          }
        }
        AppendNewSnoc(out', l[1..], x);
      }
    }
  }

  lemma DedupSnoc<T(!new)>(l: seq<T>, x: T)
    ensures Dedup(l + [x]) == (if x in l then Dedup(l) else Dedup(l) + [x])
  {
    AppendNewSnoc([], l, x);
  }

  /** The first-seen order: an element precedes another in the result exactly
      when its first occurrence in `l` comes first. */
  lemma {:induction false} AppendNewOrder<T(!new)>(out: seq<T>, l: seq<T>, i: nat, j: nat)
    requires Distinct(out)
    requires i < j < |AppendNew(out, l)|
    ensures var r := AppendNew(out, l);
      r[i] in out || (r[j] !in out && IndexOf(l, r[i]) < IndexOf(l, r[j]))
    decreases |l|
  {
    var r := AppendNew(out, l);
    if |l| == 0 {
    } else if l[0] in out {
      AppendNewOrder(out, l[1..], i, j);
      var ri, rj := r[i], r[j];
      if ri !in out {
        assert IndexOf(l, ri) == 1 + IndexOf(l[1..], ri);
        assert IndexOf(l, rj) == 1 + IndexOf(l[1..], rj);
      }
    } else {
      var out' := out + [l[0]];
      assert Distinct(out') by {
        forall a, b | 0 <= a < b < |out'| ensures out'[a] != out'[b] {
          if b == |out| { assert out'[a] in out; }
        }
      }
      AppendNewOrder(out', l[1..], i, j);
      var ri, rj := r[i], r[j];
      if ri !in out {
        assert r[..|out'|] == out';
        if ri == l[0] {
          assert IndexOf(l, ri) == 0;
          assert rj != l[0] by { assert Distinct(r); }
          assert IndexOf(l, rj) == 1 + IndexOf(l[1..], rj);
        } else {
          assert ri !in out';
          assert rj !in out';
          assert IndexOf(l, ri) == 1 + IndexOf(l[1..], ri);
          assert IndexOf(l, rj) == 1 + IndexOf(l[1..], rj);
        }
      }
    }
  }

  /** `[x for x in a if x not in b]` over a list without repeats (the QC
      warning lists) has no repeats either. */
  lemma {:induction false} WithoutDistinct<T(!new)>(a: seq<T>, b: seq<T>)
    requires Distinct(a)
    ensures Distinct(Without(a, b))
    decreases |a|
  {
    if |a| > 0 {
      assert Distinct(a[1..]) by {
        forall i, j | 0 <= i < j < |a[1..]| ensures a[1..][i] != a[1..][j] {
          assert a[1..][i] == a[i + 1] && a[1..][j] == a[j + 1];
        }
      }
      WithoutDistinct(a[1..], b);
      if a[0] !in b {
        var r := [a[0]] + Without(a[1..], b);
        forall i, j | 0 <= i < j < |r| ensures r[i] != r[j] {
          if i == 0 {
            assert r[j] in Without(a[1..], b);
            assert a[0] !in a[1..] by {
              forall k | 0 <= k < |a[1..]| ensures a[1..][k] != a[0] { assert a[1..][k] == a[k + 1]; }
            }
          } else {
            assert r[i] == Without(a[1..], b)[i - 1] && r[j] == Without(a[1..], b)[j - 1];
          }
        }
      }
    }
  }
}

=== FILE: pynumbers.dfy ===
/** Python numeric conversions the scripts apply to coordinates and
    parameters: `int()` of a float, `round(n, -3)` of an int, and the
    running-maximum loop. */
module PyNumbers {

  /** Python's `int(x)` of a float: truncation toward zero. */
  function Trunc(x: real): (t: int)
    ensures x >= 0.0 ==> t as real <= x < t as real + 1.0
    ensures x < 0.0 ==> t as real - 1.0 < x <= t as real
  {
    if x >= 0.0 then x.Floor else -((-x).Floor)
  }

  /** Truncation is symmetric about zero, unlike the floor that Dafny's
      `.Floor` computes, and leaves whole numbers alone. */
  lemma TruncProperties(x: real, n: int)
    ensures Trunc(-x) == -Trunc(x)
    ensures Trunc(n as real) == n
    ensures x < 0.0 && x != x.Floor as real ==> Trunc(x) == x.Floor + 1
  {
  }

  /** `int(n / 2)` for a non-negative int `n` is the integer half of `n`. */
  lemma TruncHalf(n: nat)
    ensures Trunc(n as real / 2.0) == n / 2
  {
    var h := n / 2;
    assert n == 2 * h || n == 2 * h + 1;
  }

  /** Python's `round(x, -3)` for an int: the nearest multiple of 1000, ties
      going to the multiple whose thousands count is even. */
  function RoundThousands(x: int): (r: int)
    ensures r % 1000 == 0
    ensures -500 <= x - r <= 500
    ensures (x - r == 500 || x - r == -500) ==> (r / 1000) % 2 == 0
  {
    var q := x / 1000;
    var rem := x % 1000;
    if rem > 500 || (rem == 500 && q % 2 == 1) then (q + 1) * 1000 else q * 1000
  }

  /** Only one multiple of 1000 meets the rounding rule, so `RoundThousands`
      is the unique correctly rounded value. */
  lemma RoundThousandsUnique(x: int, m: int)
    requires m % 1000 == 0
    requires -500 <= x - m <= 500
    requires (x - m == 500 || x - m == -500) ==> (m / 1000) % 2 == 0
    ensures m == RoundThousands(x)
  {
    var r := RoundThousands(x);
    var i, j := r / 1000, m / 1000;
    assert r == i * 1000 && m == j * 1000;
    assert -1 <= j - i <= 1;
    assert (i + 1) % 2 != i % 2 && (i - 1) % 2 != i % 2;
  }

  /** `m = start; for v in l: if v > m: m = v`. */
  function RunningMax(start: real, l: seq<real>): (m: real)
    ensures m >= start
    ensures forall i :: 0 <= i < |l| ==> l[i] <= m
    ensures m == start || m in l
    decreases |l|
  {
    if |l| == 0 then start
    else
      var next := if l[0] > start then l[0] else start;
      var m := RunningMax(next, l[1..]);
      assert forall x :: x in l[1..] ==> x in l;
      m
  }

  /** The running maximum from 0 is the largest value when one is positive. */
  lemma RunningMaxFromZero(l: seq<real>, k: nat)
    requires k < |l| && l[k] > 0.0
    requires forall i :: 0 <= i < |l| ==> l[i] <= l[k]
    ensures RunningMax(0.0, l) == l[k]
  {
  }

  /** Python's `min` of a non-empty list. */
  function MinOf(l: seq<real>): (m: real)
    requires |l| > 0
    ensures forall i :: 0 <= i < |l| ==> m <= l[i]
    ensures m in l
  {
    if |l| == 1 then l[0]
    else
      var m := MinOf(l[1..]);
      assert forall x :: x in l[1..] ==> x in l;
      if l[0] <= m then l[0] else m
  }

  /** Python's `max` of a non-empty list. */
  function MaxOf(l: seq<real>): (m: real)
    requires |l| > 0
    ensures forall i :: 0 <= i < |l| ==> l[i] <= m
    ensures m in l
  {
    if |l| == 1 then l[0]
    else
      var m := MaxOf(l[1..]);
      assert forall x :: x in l[1..] ==> x in l;
      if l[0] >= m then l[0] else m
  }

  /** `max(l)` is the running maximum of the rest started at the first element. */
  lemma {:induction false} MaxOfIsRunningMax(l: seq<real>)
    requires |l| > 0
    ensures MaxOf(l) == RunningMax(l[0], l[1..])
  {
    var m := RunningMax(l[0], l[1..]);
    assert m == l[0] || m in l[1..];
    assert forall x :: x in l[1..] ==> x in l;
    assert m in l;
    var i :| 0 <= i < |l| && l[i] == m;
    var j :| 0 <= j < |l| && l[j] == MaxOf(l);
    assert l[j] <= m by {
      if j > 0 { assert l[1..][j - 1] == l[j]; }
    }
  }
}

=== FILE: pystrings.dfy ===
/** Python string semantics the scripts rely on: `str.strip()`, `str.split`,
    `str.replace`, `os.path.basename`/`join`, code-point ordering of `str`
    values (what `sorted` uses), and `str()`/`int()` of integers. */
module PyStrings {
  import opened Wrappers
  import opened PyLists

  /** The characters `str.strip()` removes (Python's `str.isspace`). */
  predicate IsSpace(c: char) {
    c == ' ' || ('\t' <= c <= '\r') || ('\U{1C}' <= c <= '\U{1F}')
    || c == '\U{85}' || c == '\U{A0}' || c == '\U{1680}' || ('\U{2000}' <= c <= '\U{200A}')
    || c == '\U{2028}' || c == '\U{2029}' || c == '\U{202F}' || c == '\U{205F}' || c == '\U{3000}'
  }

  // ---------------------------------------------------------------------------
  // strip

  /** Number of whitespace characters at the front of `s`. */
  function LeadingSpaces(s: string): (n: nat)
    ensures n <= |s|
    ensures forall i :: 0 <= i < n ==> IsSpace(s[i])
    ensures n < |s| ==> !IsSpace(s[n])
    decreases |s|
  {
    if |s| > 0 && IsSpace(s[0]) then
      var n := 1 + LeadingSpaces(s[1..]);
      assert forall i :: 0 < i < |s| ==> s[i] == s[1..][i - 1];
      n
    else 0
  }

  /** End of `s` without its trailing whitespace. */
  function TrailingEnd(s: string): (n: nat)
    ensures n <= |s|
    ensures forall i :: n <= i < |s| ==> IsSpace(s[i])
    ensures n > 0 ==> !IsSpace(s[n - 1])
    decreases |s|
  {
    if |s| > 0 && IsSpace(s[|s| - 1]) then
      var n := TrailingEnd(s[..|s| - 1]);
      assert forall i :: 0 <= i < |s| - 1 ==> s[i] == s[..|s| - 1][i];
      n
    else |s|
  }

  /** Python's `s.strip()`: the part of `s` between its leading and its
      trailing whitespace. */
  function Strip(s: string): (r: string)
    ensures |r| <= |s|
    ensures |r| > 0 ==> !IsSpace(r[0]) && !IsSpace(r[|r| - 1])
  {
    var a := LeadingSpaces(s);
    if a == |s| then ""
    else
      var b := TrailingEnd(s);
      assert !IsSpace(s[a]);
      s[a..b]
  }

  /** What `strip` removes is whitespace, on both sides, and what it keeps
      is the contiguous middle of `s`. */
  lemma StripIsMiddle(s: string)
    ensures LeadingSpaces(s) + |Strip(s)| <= |s|
    ensures Strip(s) == s[LeadingSpaces(s)..LeadingSpaces(s) + |Strip(s)|]
    ensures forall i :: 0 <= i < LeadingSpaces(s) ==> IsSpace(s[i])
    ensures forall i :: LeadingSpaces(s) + |Strip(s)| <= i < |s| ==> IsSpace(s[i])
  {
    var a := LeadingSpaces(s);
    if a < |s| {
      assert !IsSpace(s[a]);
    }
  }

  /** Every character `strip` keeps was in the string. */
  lemma StripKeepsChars(s: string, c: char)
    requires c in Strip(s)
    ensures c in s
  {
    StripIsMiddle(s);
    var a := LeadingSpaces(s);
    var i :| 0 <= i < |Strip(s)| && Strip(s)[i] == c;
    assert s[a + i] == c;
  }

  /** A string is its own strip exactly when it neither starts nor ends
      with whitespace, so stripping twice changes nothing. */
  lemma StripFixedPoint(s: string)
    ensures Strip(s) == s <==> (|s| == 0 || (!IsSpace(s[0]) && !IsSpace(s[|s| - 1])))
    ensures Strip(Strip(s)) == Strip(s)
  {
    if |s| > 0 && !IsSpace(s[0]) && !IsSpace(s[|s| - 1]) {
      Unstripped(s);
    }
    var r := Strip(s);
    if |r| > 0 {
      Unstripped(r);
    }
  }

  lemma Unstripped(s: string)
    requires |s| > 0 && !IsSpace(s[0]) && !IsSpace(s[|s| - 1])
    ensures Strip(s) == s
  {
    var a := LeadingSpaces(s);
    var b := TrailingEnd(s);
    assert a == 0;
    assert b == |s|;
  }

  // ---------------------------------------------------------------------------
  // replace

  /** Python's `s.replace(pat, rep)`: every non-overlapping occurrence of
      `pat`, found left to right, becomes `rep`. */
  function ReplaceAll(s: string, pat: string, rep: string): (r: string)
    requires |pat| > 0
    decreases |s|
  {
    if |s| < |pat| then s
    else if s[..|pat|] == pat then rep + ReplaceAll(s[|pat|..], pat, rep)
    else [s[0]] + ReplaceAll(s[1..], pat, rep)
  }

  /** Replacing a single character by nothing deletes exactly that character
      and keeps the others in order. */
  lemma {:induction false} ReplaceCharByNothing(s: string, c: char)
    ensures ReplaceAll(s, [c], "") == Filter(s, x => x != c)
    ensures c !in ReplaceAll(s, [c], "")
    decreases |s|
  {
    if |s| > 0 {
      ReplaceCharByNothing(s[1..], c);
      assert s[..1] == [s[0]];
      assert s[1..] == s[|[c]|..];
    }
  }

  /** `pat` occurs in `s` starting at index `i`. */
  predicate OccursAt(s: string, pat: string, i: nat) {
    i + |pat| <= |s| && s[i..i + |pat|] == pat
  }

  /** Replacing in a string that ends in `pat`, with no other occurrence
      starting before it, replaces only that last one. */
  lemma {:induction false} ReplaceAtEnd(stem: string, pat: string, rep: string)
    requires |pat| > 0
    requires forall i: nat :: i < |stem| ==> !OccursAt(stem + pat, pat, i)
    ensures ReplaceAll(stem + pat, pat, rep) == stem + rep
    decreases |stem|
  {
    var s := stem + pat;
    if |stem| == 0 {
      assert s == pat;
      assert s[..|pat|] == pat;
      assert s[|pat|..] == [];
    } else {
      assert !OccursAt(s, pat, 0);
      assert s[1..] == stem[1..] + pat;
      forall i: nat | i < |stem[1..]| ensures !OccursAt(stem[1..] + pat, pat, i) {
        assert !OccursAt(s, pat, i + 1);
        assert (stem[1..] + pat)[i..i + |pat|] == s[i + 1..i + 1 + |pat|];
      }
      ReplaceAtEnd(stem[1..], pat, rep);
      assert [s[0]] + (stem[1..] + rep) == stem + rep;
    }
  }

  /** `name.replace(".gdb", "_Editing.gdb")` on a geodatabase name whose stem
      has no ".gdb" in it renames only the extension. */
  lemma ReplaceGdbSuffix(stem: string)
    requires forall i: nat :: !OccursAt(stem, ".gdb", i)
    ensures ReplaceAll(stem + ".gdb", ".gdb", "_Editing.gdb") == stem + "_Editing.gdb"
  {
    var s := stem + ".gdb";
    forall i: nat | i < |stem| ensures !OccursAt(s, ".gdb", i) {
      if i + 4 <= |stem| {
        assert !OccursAt(stem, ".gdb", i);
        assert s[i..i + 4] == stem[i..i + 4];
      } else {
        var j := |stem| - i;
        assert s[|stem|] == '.';
        assert ".gdb"[j] != '.';
      }
    }
    ReplaceAtEnd(stem, ".gdb", "_Editing.gdb");
  }

  // ---------------------------------------------------------------------------
  // split and join

  /** Python's `s.split(sep)` for a one-character separator: the pieces
      between separators, empty pieces included. */
  function Split(s: string, sep: char): (r: seq<string>)
    ensures |r| >= 1
    ensures forall i :: 0 <= i < |r| ==> sep !in r[i]
    decreases |s|
  {
    if sep !in s then [s]
    else
      var k := IndexOf(s, sep);
      [s[..k]] + Split(s[k + 1..], sep)
  }

  /** `sep.join(parts)`. */
  function Join(parts: seq<string>, sep: char): string
  {
    if |parts| == 0 then ""
    else if |parts| == 1 then parts[0]
    else parts[0] + [sep] + Join(parts[1..], sep)
  }

  /** Joining the pieces of a split gives back the original string. */
  lemma {:induction false} JoinSplit(s: string, sep: char)
    ensures Join(Split(s, sep), sep) == s
    decreases |s|
  {
    if sep in s {
      var k := IndexOf(s, sep);
      JoinSplit(s[k + 1..], sep);
      var rest := Split(s[k + 1..], sep);
      assert Split(s, sep)[1..] == rest;
      assert s == s[..k] + [sep] + s[k + 1..];
    }
  }

  /** A string whose first separator is at `k` splits there. */
  lemma SplitAtFirst(s: string, sep: char, k: nat)
    requires k < |s| && s[k] == sep
    requires forall j :: 0 <= j < k ==> s[j] != sep
    ensures Split(s, sep) == [s[..k]] + Split(s[k + 1..], sep)
  {
    IndexOfAt(s, sep, k);
  }

  /** Splitting a join of separator-free pieces gives back the pieces. */
  lemma {:induction false} SplitJoin(parts: seq<string>, sep: char)
    requires |parts| >= 1
    requires forall i :: 0 <= i < |parts| ==> sep !in parts[i]
    ensures Split(Join(parts, sep), sep) == parts
    decreases |parts|
  {
    if |parts| > 1 {
      var s := Join(parts, sep);
      var tail := Join(parts[1..], sep);
      var k := |parts[0]|;
      assert s == parts[0] + [sep] + tail;
      assert s[..k] == parts[0];
      assert s[k + 1..] == tail;
      SplitAtFirst(s, sep, k);
      SplitJoin(parts[1..], sep);
      assert parts == [parts[0]] + parts[1..];
    }
  }

  /** Two separator-free words joined by one separator split back into them. */
  lemma SplitTwo(a: string, b: string, sep: char)
    requires sep !in a && sep !in b
    ensures Split(a + [sep] + b, sep) == [a, b]
  {
    var s := a + [sep] + b;
    var k := |a|;
    assert s[..k] == a && s[k + 1..] == b;
    SplitAtFirst(s, sep, k);
  }

  // ---------------------------------------------------------------------------
  // paths

  /** Directory separators of a Windows path, as `ntpath` reads them. */
  predicate IsPathSep(c: char) {
    c == '\\' || c == '/'
  }

  /** Index of the last separator of `p`, or -1 when it has none. */
  function LastSep(p: string): (k: int)
    ensures -1 <= k < |p|
    ensures k >= 0 ==> IsPathSep(p[k])
    ensures forall j :: k < j < |p| ==> !IsPathSep(p[j])
    decreases |p|
  {
    if |p| == 0 then -1
    else if IsPathSep(p[|p| - 1]) then |p| - 1
    else
      var k := LastSep(p[..|p| - 1]);
      assert forall j :: k < j < |p| - 1 ==> p[j] == p[..|p| - 1][j];
      k
  }

  /** The last separator is the only index with a separator (or -1) and
      none after it. */
  lemma LastSepUnique(p: string, k: int)
    requires -1 <= k < |p|
    requires k >= 0 ==> IsPathSep(p[k])
    requires forall j :: k < j < |p| ==> !IsPathSep(p[j])
    ensures LastSep(p) == k
  {
    var m := LastSep(p);
    if k >= 0 { assert IsPathSep(p[k]); }
    if m >= 0 { assert IsPathSep(p[m]); }
  }

  /** `os.path.basename(p)`: the longest separator-free suffix of `p`. */
  function Basename(p: string): (r: string)
    ensures |r| <= |p| && r == p[|p| - |r|..]
    ensures forall i :: 0 <= i < |r| ==> !IsPathSep(r[i])
    ensures |r| < |p| ==> IsPathSep(p[|p| - |r| - 1])
  {
    p[LastSep(p) + 1..]
  }

  /** `os.path.join(d, name)` on Windows for a directory that does not end
      in a separator. */
  function PathJoin(d: string, name: string): string {
    d + "\\" + name
  }

  /** The basename of a path built with `PathJoin` is the name it was built
      from, when the name has no separator. */
  lemma BasenameOfJoin(d: string, name: string)
    requires forall i :: 0 <= i < |name| ==> !IsPathSep(name[i])
    ensures Basename(PathJoin(d, name)) == name
  {
    var p := PathJoin(d, name);
    assert forall j :: |d| < j < |p| ==> p[j] == name[j - |d| - 1];
    LastSepUnique(p, |d|);
    assert p[|d| + 1..] == name;
  }

  /** `os.path.basename(p + suffix)` is the basename of `p` with the suffix
      on it, when the suffix has no separator. */
  lemma BasenameAppend(p: string, suffix: string)
    requires forall i :: 0 <= i < |suffix| ==> !IsPathSep(suffix[i])
    ensures Basename(p + suffix) == Basename(p) + suffix
  {
    var q := p + suffix;
    var k := LastSep(p);
    assert forall j :: |p| <= j < |q| ==> q[j] == suffix[j - |p|];
    LastSepUnique(q, k);
    assert q[k + 1..] == p[k + 1..] + suffix;
  }

  // ---------------------------------------------------------------------------
  // ordering of str values

  /** `a <= b` for Python strings: code-point lexicographic order. */
  predicate LexLe(a: string, b: string)
    decreases |a|
  {
    |a| == 0 || (|b| > 0 && (a[0] < b[0] || (a[0] == b[0] && LexLe(a[1..], b[1..]))))
  }

  lemma {:induction false} LexLeTotal(a: string, b: string)
    ensures LexLe(a, b) || LexLe(b, a)
    decreases |a|
  {
    if |a| > 0 && |b| > 0 && a[0] == b[0] { LexLeTotal(a[1..], b[1..]); }
  }

  lemma {:induction false} LexLeTrans(a: string, b: string, c: string)
    requires LexLe(a, b) && LexLe(b, c)
    ensures LexLe(a, c)
    decreases |a|
  {
    if |a| > 0 && a[0] == b[0] && b[0] == c[0] { LexLeTrans(a[1..], b[1..], c[1..]); }
  }

  lemma {:induction false} LexLeAntisym(a: string, b: string)
    requires LexLe(a, b) && LexLe(b, a)
    ensures a == b
    decreases |a|
  {
    if |a| > 0 {
      LexLeAntisym(a[1..], b[1..]);
      assert a == [a[0]] + a[1..] && b == [b[0]] + b[1..];
    }
  }

  /** Ascending in Python's string order. */
  predicate SortedLex(l: seq<string>) {
    forall i, j :: 0 <= i < j < |l| ==> LexLe(l[i], l[j])
  }

  /** Places `x` into a sorted list. */
  function Insert(x: string, l: seq<string>): (r: seq<string>)
    requires SortedLex(l)
    ensures |r| == |l| + 1
    ensures forall y :: y in r <==> y == x || y in l
    ensures SortedLex(r)
    ensures multiset(r) == multiset(l) + multiset{x}
  {
    if |l| == 0 then [x]
    else if LexLe(x, l[0]) then
      var r := [x] + l;
      forall i, j | 0 <= i < j < |r| ensures LexLe(r[i], r[j]) {
        if i == 0 && j > 1 { LexLeTrans(x, l[0], l[j - 1]); }
      }
      r
    else
      LexLeTotal(x, l[0]);
      var rest := Insert(x, l[1..]);
      var r := [l[0]] + rest;
      assert l == [l[0]] + l[1..];
      forall i, j | 0 <= i < j < |r| ensures LexLe(r[i], r[j]) {
        if i == 0 {
          var y := r[j];
          assert y in rest;
          if y != x {
            var k :| 0 <= k < |l[1..]| && l[1..][k] == y;
            assert l[k + 1] == y;
          }
        }
      }
      r
  }

  /** Python's `sorted(l)` for a list of strings. */
  function SortStrings(l: seq<string>): (r: seq<string>)
    ensures SortedLex(r)
    ensures multiset(r) == multiset(l)
    ensures |r| == |l|
  {
    if |l| == 0 then []
    else
      assert l == [l[0]] + l[1..];
      Insert(l[0], SortStrings(l[1..]))
  }

  /** The first element of a sorted list is the minimum, the last the maximum. */
  lemma SortedEnds(l: seq<string>)
    requires |l| > 0
    ensures forall x :: x in l ==> LexLe(SortStrings(l)[0], x) && LexLe(x, SortStrings(l)[|l| - 1])
  {
    var r := SortStrings(l);
    forall x | x in l ensures LexLe(r[0], x) && LexLe(x, r[|l| - 1]) {
      assert x in multiset(r);
      var k :| 0 <= k < |r| && r[k] == x;
      if k > 0 { assert LexLe(r[0], r[k]); } else { LexLeTotal(x, x); }
      if k < |r| - 1 { assert LexLe(r[k], r[|r| - 1]); } else { LexLeTotal(x, x); }
    }
  }

  // ---------------------------------------------------------------------------
  // str() and int() of integers

  predicate IsDigit(c: char) {
    '0' <= c <= '9'
  }

  predicate AllDigits(s: string) {
    forall i :: 0 <= i < |s| ==> IsDigit(s[i])
  }

  function DigitChar(d: nat): (c: char)
    requires d < 10
    ensures IsDigit(c) && (c as int) - ('0' as int) == d
  {
    ((('0' as int) + d) as char)
  }

  /** The decimal digits of `n`, without leading zeros. */
  function NatToString(n: nat): (r: string)
    ensures |r| >= 1 && AllDigits(r)
    ensures |r| == 1 <==> n < 10
    ensures |r| > 1 ==> r[0] != '0'
    ensures n < 100 ==> |r| <= 2
    decreases n
  {
    if n < 10 then [DigitChar(n)]
    else
      var h := NatToString(n / 10);
      var r := h + [DigitChar(n % 10)];
      assert r[0] == h[0];
      assert |h| == 1 ==> h[0] == DigitChar(n / 10);
      r
  }

  /** Python's `str(n)` of an integer. */
  function IntToString(n: int): (r: string)
    ensures |r| >= 1
    ensures n >= 0 <==> AllDigits(r)
  {
    if n < 0 then
      var r := "-" + NatToString(-n);
      assert !IsDigit(r[0]);
      r
    else NatToString(n)
  }

  /** The value of a string of decimal digits. */
  function DigitsValue(s: string): nat
    requires AllDigits(s)
    decreases |s|
  {
    if |s| == 0 then 0
    else
      assert IsDigit(s[|s| - 1]);
      var d: nat := (s[|s| - 1] as int) - ('0' as int);
      DigitsValue(s[..|s| - 1]) * 10 + d
  }

  /** Python's `int(s)` of a text value: whitespace around an optional sign
      and at least one decimal digit; anything else raises ValueError. */
  function ParseInt(s: string): (r: Result<int, string>)
  {
    var t := Strip(s);
    if |t| > 0 && (t[0] == '-' || t[0] == '+') then
      if |t| > 1 && AllDigits(t[1..]) then
        var v: int := DigitsValue(t[1..]);
        Success(if t[0] == '-' then -v else v)
      else Failure("invalid literal for int()")
    else if |t| > 0 && AllDigits(t) then Success(DigitsValue(t))
    else Failure("invalid literal for int()")
  }

  /** Python's `int(v)` of a text attribute that may be null: `int(None)`
      raises TypeError, text that is not an integer raises ValueError. */
  function IntOfField(v: Option<string>): (r: Result<int, string>)
    ensures r.Success? <==> v.Some? && ParseInt(v.value).Success?
    ensures r.Success? ==> r.value == ParseInt(v.value).value
  {
    match v
    case None => Failure("int() argument must be a string or a number, not 'NoneType'")
    case Some(s) => ParseInt(s)
  }

  lemma {:induction false} DigitsValueOfNat(n: nat)
    ensures DigitsValue(NatToString(n)) == n
    decreases n
  {
    if n >= 10 {
      DigitsValueOfNat(n / 10);
      var h := NatToString(n / 10);
      var s := h + [DigitChar(n % 10)];
      assert s[..|s| - 1] == h;
    }
  }

  /** `str(n)` neither starts nor ends with whitespace. */
  lemma IntToStringStripped(n: int)
    ensures Strip(IntToString(n)) == IntToString(n)
  {
    var s := IntToString(n);
    assert IsDigit(s[|s| - 1]);
    assert !IsSpace(s[0]) && !IsSpace(s[|s| - 1]);
    StripFixedPoint(s);
  }

  /** `int(str(n)) == n`. */
  lemma ParseIntOfString(n: int)
    ensures ParseInt(IntToString(n)) == Success(n)
  {
    IntToStringStripped(n);
    if n < 0 {
      ParseNegative(-n);
    } else {
      ParseNatural(n);
    }
  }

  lemma ParseNatural(n: nat)
    ensures ParseInt(IntToString(n)) == Success(n)
  {
    var s := IntToString(n);
    IntToStringStripped(n);
    DigitsValueOfNat(n);
    assert s == NatToString(n);
    assert IsDigit(s[0]);
  }

  lemma ParseNegative(n: nat)
    requires n > 0
    ensures ParseInt(IntToString(-(n as int))) == Success(-(n as int))
  {
    NegativeToString(n);
    DigitsValueOfNat(n);
    ParseMinus(NatToString(n), n);
  }

  lemma NegativeToString(n: nat)
    requires n > 0
    ensures IntToString(-(n as int)) == "-" + NatToString(n)
  {
    var m: int := -(n as int);
    assert m < 0 && -m == n;
  }

  /** `int("-" + d)` for a non-empty string of digits `d` of value `v`. */
  lemma ParseMinus(d: string, v: nat)
    requires |d| > 0 && AllDigits(d) && DigitsValue(d) == v
    ensures ParseInt("-" + d) == Success(-(v as int))
  {
    var s := "-" + d;
    assert s[1..] == d;
    assert IsDigit(s[|s| - 1]);
    Unstripped(s);
  }

  /** `str(n)` determines `n`: different integers print differently. */
  lemma IntToStringInjective(m: int, n: int)
    requires IntToString(m) == IntToString(n)
    ensures m == n
  {
    ParseIntOfString(m);
    ParseIntOfString(n);
  }
}

=== FILE: refgrid.dfy ===
/** The reference grids drawn behind the cross-sections: horizontal elevation
    lines, vertical UTM-X lines, and one reference polygon per line. Three
    tools build them:
      - the general grid tool, stacked or traditional, over the x extent of
        the cross-section line (xsln) file;
      - the statewide stacked tool, over the statewide extent, keeping only
        elevations near the county's range;
      - the older statewide tool, which starts its elevations at 0 and does
        not skip null ids. */
module ReferenceGrid {
  import opened Wrappers
  import opened PyLists
  import opened PyNumbers
  import opened PyStrings
  import opened Transforms
  import opened Builders

  // ---------------------------------------------------------------------------
  // value lists

  /** The elevation filter loop: values below `lo` or above `hi` are
      skipped, the rest appended in order. */
  function Within(l: seq<int>, lo: int, hi: int): (r: seq<int>)
    ensures |r| <= |l|
    ensures forall x :: x in r <==> x in l && lo <= x <= hi
  {
    if |l| == 0 then []
    else if l[0] < lo || l[0] > hi then Within(l[1..], lo, hi)
    else [l[0]] + Within(l[1..], lo, hi)
  }

  /** The filter keeps the order of an increasing list. */
  lemma {:induction false} WithinIncreasing(l: seq<int>, lo: int, hi: int)
    requires Increasing(l)
    ensures Increasing(Within(l, lo, hi))
    decreases |l|
  {
    if |l| > 0 {
      assert Increasing(l[1..]) by {
        forall i, j | 0 <= i < j < |l[1..]| ensures l[1..][i] < l[1..][j] {
          assert l[1..][i] == l[i + 1] && l[1..][j] == l[j + 1];
        }
      }
      WithinIncreasing(l[1..], lo, hi);
      var rest := Within(l[1..], lo, hi);
      forall x | x in rest ensures l[0] < x {
        var k :| 0 <= k < |l[1..]| && l[1..][k] == x;
        assert l[k + 1] == x;
      }
      if lo <= l[0] <= hi {
        var r := [l[0]] + rest;
        forall i, j | 0 <= i < j < |r| ensures r[i] < r[j] {
          assert r[j] == rest[j - 1] && rest[j - 1] in rest;
          if i > 0 { assert r[i] == rest[i - 1]; }
        }
      }
    }
  }

  /** When every value is already within the bounds the filter keeps all. */
  lemma {:induction false} WithinAll(l: seq<int>, lo: int, hi: int)
    requires forall i :: 0 <= i < |l| ==> lo <= l[i] <= hi
    ensures Within(l, lo, hi) == l
    decreases |l|
  {
    if |l| > 0 {
      assert forall i :: 0 <= i < |l[1..]| ==> lo <= l[1..][i] <= hi by {
        forall i | 0 <= i < |l[1..]| ensures lo <= l[1..][i] <= hi { assert l[1..][i] == l[i + 1]; }
      }
      WithinAll(l[1..], lo, hi);
      assert l == [l[0]] + l[1..];
    }
  }

  /** The major and minor values of one axis. */
  datatype GridValues = GridValues(major: seq<int>, minor: seq<int>)

  /** `list(range(lo, hi, interval))` for both intervals, then the loop that
      removes each major value from the minor list while iterating over it.
      A zero interval makes `range` raise. */
  function RawValues(lo: int, hi: int, majorStep: int, minorStep: int): (r: Result<GridValues, string>)
    ensures r.Failure? <==> majorStep == 0 || minorStep == 0
    ensures r.Success? ==> r.value.major == RangeFrom(lo, hi, majorStep)
    ensures r.Success? && minorStep > 0 ==>
              r.value.minor == SkipRemove(RangeFrom(lo, hi, minorStep), r.value.major)
  {
    match Range(lo, hi, majorStep)
    case Failure(e) => Failure(e)
    case Success(major) =>
      match Range(lo, hi, minorStep)
      case Failure(e) => Failure(e)
      case Success(minorRaw) =>
        var minor := SweepFrom(minorRaw, 0, major).remaining;
        assert minorStep > 0 ==> minor == SkipRemove(minorRaw, major) by {
          if minorStep > 0 {
            RangeDistinct(lo, hi, minorStep);
            SweepMatchesReference(minorRaw, major);
          }
        }
        Success(GridValues(major, minor))
  }

  /** No multiple of `big` equals a smaller positive `small`. */
  lemma NoMultipleBetween(k: int, big: int, small: int)
    requires 0 < small < big
    ensures k * big != small
  {
    if k >= 1 {
      assert k * big == (k - 1) * big + big;
      assert (k - 1) * big >= 0;
    } else {
      assert k * big == -((-k) * big);
      assert (-k) * big >= 0;
    }
  }

  /** With a minor interval finer than the major one, two neighbouring minor
      values are never both major values. */
  lemma FinerMinorsNotAdjacent(lo: int, hi: int, majorStep: int, minorStep: int)
    requires 0 < minorStep < majorStep
    ensures NoAdjacentDropped(RangeFrom(lo, hi, minorStep), RangeFrom(lo, hi, majorStep))
  {
    var l, drop := RangeFrom(lo, hi, minorStep), RangeFrom(lo, hi, majorStep);
    forall i | 0 <= i < |l| - 1 ensures !(l[i] in drop && l[i + 1] in drop) {
      if l[i] in drop && l[i + 1] in drop {
        var a :| 0 <= a < |drop| && drop[a] == l[i];
        var b :| 0 <= b < |drop| && drop[b] == l[i + 1];
        assert l[i + 1] - l[i] == minorStep;
        assert (b - a) * majorStep == minorStep;
        NoMultipleBetween(b - a, majorStep, minorStep);
      }
    }
  }

  /** So with a finer minor interval the loop removes every major value and
      nothing else: the minor list is exactly the minors that are not majors. */
  lemma MinorListIsDifference(lo: int, hi: int, majorStep: int, minorStep: int)
    requires 0 < minorStep < majorStep
    ensures RawValues(lo, hi, majorStep, minorStep).Success?
    ensures RawValues(lo, hi, majorStep, minorStep).value.minor
            == Without(RangeFrom(lo, hi, minorStep), RangeFrom(lo, hi, majorStep))
  {
    var l, drop := RangeFrom(lo, hi, minorStep), RangeFrom(lo, hi, majorStep);
    FinerMinorsNotAdjacent(lo, hi, majorStep, minorStep);
    SkipRemoveIsWithout(l, drop);
  }

  /** With equal intervals every minor value is also major, and the loop
      leaves every second one behind: once there are two values, a major
      value survives in the minor list. */
  lemma EqualIntervalsLeaveMajors(lo: int, hi: int, step: int)
    requires step > 0 && lo + step < hi
    ensures exists x :: x in RawValues(lo, hi, step, step).value.minor && x in RawValues(lo, hi, step, step).value.major
  {
    var l := RangeFrom(lo, hi, step);
    var raw := RawValues(lo, hi, step, step).value;
    assert raw.major == l && raw.minor == SkipRemove(l, l);
    assert |l| >= 2 by {
      assert lo + |l| * step >= hi > lo + step;
      assert (|l| - 1) * step > 0;
    }
    assert l[0] in l && l[1] in l;
    assert !NoAdjacentDropped(l, l);
    SkipRemoveLeavesDropped(l, l);
  }

  /** The county filter of the statewide tools: values below
      `minZ - minorStep` or above `maxZ + minorStep` are dropped. */
  function CountyValues(raw: GridValues, minZ: int, maxZ: int, minorStep: int): (r: GridValues)
    ensures forall x :: x in r.major <==> x in raw.major && minZ - minorStep <= x <= maxZ + minorStep
    ensures forall x :: x in r.minor <==> x in raw.minor && minZ - minorStep <= x <= maxZ + minorStep
  {
    GridValues(Within(raw.major, minZ - minorStep, maxZ + minorStep),
               Within(raw.minor, minZ - minorStep, maxZ + minorStep))
  }

  /** The raw lists of an axis with positive intervals are increasing and
      lie from `lo` up to, but not including, `hi`. */
  lemma RawValuesShape(lo: int, hi: int, majorStep: int, minorStep: int)
    requires majorStep > 0 && minorStep > 0
    ensures RawValues(lo, hi, majorStep, minorStep).Success?
    ensures var raw := RawValues(lo, hi, majorStep, minorStep).value;
            Increasing(raw.major) && Increasing(raw.minor)
    ensures var raw := RawValues(lo, hi, majorStep, minorStep).value;
            forall x :: x in raw.major || x in raw.minor ==> lo <= x < hi
  {
    var raw := RawValues(lo, hi, majorStep, minorStep).value;
    var l := RangeFrom(lo, hi, minorStep);
    RangeDistinct(lo, hi, majorStep);
    RangeDistinct(lo, hi, minorStep);
    SkipRemoveIncreasing(l, raw.major);
    SkipRemoveSound(l, raw.major);
    forall x | x in raw.major || x in raw.minor ensures lo <= x < hi {
      if x in raw.major {
        var i :| 0 <= i < |raw.major| && raw.major[i] == x;
      } else {
        assert x in l;
        var i :| 0 <= i < |l| && l[i] == x;
      }
    }
  }

  /** The filter keeps increasing lists increasing, so the kept values
      stay in order. */
  lemma CountyValuesInOrder(raw: GridValues, minZ: int, maxZ: int, minorStep: int)
    requires Increasing(raw.major) && Increasing(raw.minor)
    ensures Increasing(CountyValues(raw, minZ, maxZ, minorStep).major)
    ensures Increasing(CountyValues(raw, minZ, maxZ, minorStep).minor)
  {
    WithinIncreasing(raw.major, minZ - minorStep, maxZ + minorStep);
    WithinIncreasing(raw.minor, minZ - minorStep, maxZ + minorStep);
  }

  /** The loop's leftover of an increasing list is increasing. */
  lemma {:induction false} SkipRemoveIncreasing(l: seq<int>, drop: seq<int>)
    requires Increasing(l)
    ensures Increasing(SkipRemove(l, drop))
    decreases |l|
  {
    if |l| > 0 {
      var k := if l[0] in drop then 2 else 1;
      if k <= |l| {
        var t := l[k..];
        IncreasingTail(l, k);
        SkipRemoveIncreasing(t, drop);
        var rest := SkipRemove(t, drop);
        assert forall x :: x in rest ==> l[k - 1] < x by {
          SkipRemoveSound(t, drop);
          forall x | x in rest ensures l[k - 1] < x {
            var m :| 0 <= m < |t| && t[m] == x;
            assert l[m + k] == x;
          }
        }
        IncreasingCons(l[k - 1], rest);
        assert SkipRemove(l, drop) == [l[k - 1]] + rest;
      }
    }
  }

  lemma IncreasingTail(l: seq<int>, k: nat)
    requires Increasing(l) && k <= |l|
    ensures Increasing(l[k..])
  {
    var t := l[k..];
    forall i, j | 0 <= i < j < |t| ensures t[i] < t[j] {
      assert t[i] == l[i + k] && t[j] == l[j + k];
    }
  }

  lemma IncreasingCons(head: int, rest: seq<int>)
    requires Increasing(rest)
    requires forall x :: x in rest ==> head < x
    ensures Increasing([head] + rest)
  {
    var r := [head] + rest;
    forall i, j | 0 <= i < j < |r| ensures r[i] < r[j] {
      assert r[j] == rest[j - 1] && rest[j - 1] in rest;
      if i > 0 { assert r[i] == rest[i - 1]; }
    }
  }

  /** When every value already lies from `minZ` up to `maxZ` (as in the
      general tool, whose raw lists run between exactly those bounds), the
      filter to `minZ - minor .. maxZ + minor` keeps every value. */
  lemma CountyFilterKeepsAll(raw: GridValues, minZ: int, maxZ: int, minorStep: int)
    requires minorStep >= 0
    requires forall x :: x in raw.major || x in raw.minor ==> minZ <= x < maxZ
    ensures CountyValues(raw, minZ, maxZ, minorStep) == raw
  {
    var lo, hi := minZ - minorStep, maxZ + minorStep;
    assert forall i :: 0 <= i < |raw.major| ==> lo <= raw.major[i] <= hi by {
      forall i | 0 <= i < |raw.major| ensures lo <= raw.major[i] <= hi { assert raw.major[i] in raw.major; }
    }
    assert forall i :: 0 <= i < |raw.minor| ==> lo <= raw.minor[i] <= hi by {
      forall i | 0 <= i < |raw.minor| ensures lo <= raw.minor[i] <= hi { assert raw.minor[i] in raw.minor; }
    }
    WithinAll(raw.major, lo, hi);
    WithinAll(raw.minor, lo, hi);
  }

  // ---------------------------------------------------------------------------
  // extents of the general tool

  /** The general tool's UTM-X extent: the xsln extent truncated with
      `int()`, widened by one major interval on each side and rounded to the
      nearest thousand with `round(x, -3)`. */
  function UtmxBounds(xMin: real, xMax: real, majorStep: int): (b: (int, int))
    ensures b.0 % 1000 == 0 && b.1 % 1000 == 0
    ensures Trunc(xMin) - majorStep - 500 <= b.0 && b.1 <= Trunc(xMax) + majorStep + 500
    ensures majorStep > 500 ==> (b.0 as real) < xMin && xMax < (b.1 as real)
  {
    (RoundThousands(Trunc(xMin) - majorStep), RoundThousands(Trunc(xMax) + majorStep))
  }

  /** `int((max_length / 0.3048) / VE)`, the traditional grid's width, with
      `max_length` the running maximum of the line lengths from 0. */
  function MaxXTrad(lengths: seq<real>, ve: int): (m: int)
    requires ve != 0
    ensures ve > 0 ==> m >= 0
    ensures ve > 0 ==> forall i :: 0 <= i < |lengths| ==> TraditionalX(lengths[i], ve as real) < (m + 1) as real
    ensures ve > 0 ==> forall i :: 0 <= i < |lengths| ==> lengths[i] >= 0.0 ==> m as real <= TraditionalX(RunningMax(0.0, lengths), ve as real)
  {
    var longest := RunningMax(0.0, lengths);
    var w := TraditionalX(longest, ve as real);
    assert ve > 0 ==> forall i :: 0 <= i < |lengths| ==> TraditionalX(lengths[i], ve as real) <= w by {
      if ve > 0 {
        forall i | 0 <= i < |lengths| ensures TraditionalX(lengths[i], ve as real) <= w {
          TraditionalMonotone(longest, lengths[i], ve as real);
        }
      }
    }
    assert ve > 0 ==> w >= 0.0 by {
      if ve > 0 { TraditionalMonotone(longest, 0.0, ve as real); }
    }
    Trunc(w)
  }

  // ---------------------------------------------------------------------------
  // the id list

  /** The id list of the newer tools: nulls skipped, then `sort()` on the
      `mn_et_id` text values. */
  function SortedIds(raw: seq<Option<string>>): (r: seq<string>)
    ensures SortedLex(r)
    ensures multiset(r) == multiset(Present(raw))
    ensures forall x :: x in r <==> Some(x) in raw
  {
    var r := SortStrings(Present(raw));
    assert forall x :: x in r <==> x in Present(raw) by {
      forall x ensures x in r <==> x in Present(raw) {
        assert x in r <==> x in multiset(r);
        assert x in Present(raw) <==> x in multiset(Present(raw));
      }
    }
    r
  }

  /** The older tool sorts without skipping nulls; a null among text values
      cannot be ordered, and a lone null fails in `int()`, so any null
      ends the run. */
  function ArchiveSortedIds(raw: seq<Option<string>>): (r: Result<seq<string>, string>)
    ensures r.Failure? <==> None in raw
    ensures r.Success? ==> r.value == SortedIds(raw)
  {
    if None in raw then Failure("'<' not supported between instances of 'NoneType' and 'str'")
    else Success(SortedIds(raw))
  }

  /** `int()` of every id, in list order; the first text that is not an
      integer raises. */
  function ParseIds(ids: seq<string>): (r: Result<seq<int>, string>)
    ensures r.Failure? <==> exists i :: 0 <= i < |ids| && ParseInt(ids[i]).Failure?
    ensures r.Success? ==> |r.value| == |ids| && forall i :: 0 <= i < |ids| ==> ParseInt(ids[i]) == Success(r.value[i])
  {
    MapAll(ParseInt, ids)
  }

  // ---------------------------------------------------------------------------
  // grid lines

  const Major: string := "major"
  const Minor: string := "minor"

  /** The attributes a stacked grid line carries besides its label and rank. */
  datatype GridTags = GridTags(lineType: string, typeRank: string, mnEtId: Option<string>)

  /** One grid line: geometry, `label` (the elevation or the UTM x), `rank`,
      and the stacked attributes (the traditional grid has none). */
  datatype GridLine = GridLine(shape: seq<Point>, labelValue: int, rank: string, tags: Option<GridTags>)

  /** How a tool draws its stacked elevation lines: their x range, the band
      spacing and exaggeration, and what it puts between "elevation" and
      the rank in `type_rank`. */
  datatype StackedStyle = StackedStyle(x0: real, x1: real, relief: real, ve: real, elevationSep: string)

  /** The general tool: fixed relief 700 and exaggeration 50 over the rounded
      UTM-X extent, and `type_rank` "elevation" + rank with no separator. */
  function GeneralStyle(utmx: (int, int)): StackedStyle
  {
    StackedStyle(utmx.0 as real, utmx.1 as real, CountyRelief, StackedVE, "")
  }

  /** The statewide tools: parameters for relief and exaggeration over the
      statewide extent, and `type_rank` "elevation_" + rank. */
  function StatewideStyle(relief: real, ve: real): StackedStyle
  {
    StackedStyle(StateMinX, StateMaxX, relief, ve, "_")
  }

  /** A horizontal stacked elevation line at `ele` in the band of `id`. */
  function ElevationLine(st: StackedStyle, ele: int, rank: string, id: string, idv: int): GridLine
  {
    var y := ToStacked(ele as real, idv, st.relief, st.ve);
    GridLine([Point(st.x0, y), Point(st.x1, y)], ele, rank,
             Some(GridTags("elevation", "elevation" + st.elevationSep + rank, Some(id))))
  }

  /** What every stacked elevation line satisfies: it is horizontal across
      the style's x range, tagged with the id of its band, and with a nonzero
      exaggeration the stacked inverse of its height in that band is its
      label. */
  predicate ElevationLineSound(st: StackedStyle, line: GridLine)
  {
    && |line.shape| == 2
    && line.shape[0] == Point(st.x0, line.shape[0].y) && line.shape[1] == Point(st.x1, line.shape[0].y)
    && line.tags.Some? && line.tags.value.lineType == "elevation" && line.tags.value.mnEtId.Some?
    && line.tags.value.typeRank == "elevation" + st.elevationSep + line.rank
    && ParseInt(line.tags.value.mnEtId.value).Success?
    && (st.ve != 0.0 ==>
          FromStacked(line.shape[0].y, ParseInt(line.tags.value.mnEtId.value).value, st.relief, st.ve) == line.labelValue as real)
  }

  /** A line of the elevation kind. */
  predicate IsElevation(line: GridLine)
  {
    line.tags.Some? && line.tags.value.lineType == "elevation"
  }

  /** The lines of one id and rank, one per value, in order. */
  function ElevationLinesAt(st: StackedStyle, eles: seq<int>, rank: string, id: string, idv: int): (r: seq<GridLine>)
    ensures |r| == |eles|
    ensures forall k :: 0 <= k < |r| ==> r[k] == ElevationLine(st, eles[k], rank, id, idv)
  {
    if |eles| == 0 then [] else [ElevationLine(st, eles[0], rank, id, idv)] + ElevationLinesAt(st, eles[1..], rank, id, idv)
  }

  /** Every line of one id is sound when the id parses. */
  lemma ElevationLinesAtSound(st: StackedStyle, eles: seq<int>, rank: string, id: string, idv: int)
    requires ParseInt(id) == Success(idv)
    ensures forall k :: 0 <= k < |eles| ==> ElevationLineSound(st, ElevationLinesAt(st, eles, rank, id, idv)[k])
  {
    forall k | 0 <= k < |eles| ensures ElevationLineSound(st, ElevationLinesAt(st, eles, rank, id, idv)[k]) {
      if st.ve != 0.0 { StackedRoundTrip(eles[k] as real, idv, st.relief, st.ve); }
    }
  }

  /** The lines of one id: its major lines, then its minor lines. */
  function ElevationLinesOf(st: StackedStyle, vals: GridValues, id: string, idv: int): (r: seq<GridLine>)
    ensures forall e :: e in vals.major ==> ElevationLine(st, e, Major, id, idv) in r
    ensures forall e :: e in vals.minor ==> ElevationLine(st, e, Minor, id, idv) in r
  {
    var majors := ElevationLinesAt(st, vals.major, Major, id, idv);
    var minors := ElevationLinesAt(st, vals.minor, Minor, id, idv);
    assert forall e :: e in vals.major ==> ElevationLine(st, e, Major, id, idv) in majors by {
      forall e | e in vals.major ensures ElevationLine(st, e, Major, id, idv) in majors {
        var k :| 0 <= k < |vals.major| && vals.major[k] == e;
        assert majors[k] == ElevationLine(st, e, Major, id, idv);
      }
    }
    assert forall e :: e in vals.minor ==> ElevationLine(st, e, Minor, id, idv) in minors by {
      forall e | e in vals.minor ensures ElevationLine(st, e, Minor, id, idv) in minors {
        var k :| 0 <= k < |vals.minor| && vals.minor[k] == e;
        assert minors[k] == ElevationLine(st, e, Minor, id, idv);
      }
    }
    majors + minors
  }

  /** Every line of one id is sound when the id parses. */
  lemma ElevationLinesOfSound(st: StackedStyle, vals: GridValues, id: string, idv: int, line: GridLine)
    requires ParseInt(id) == Success(idv)
    requires line in ElevationLinesOf(st, vals, id, idv)
    ensures ElevationLineSound(st, line)
  {
    var majors := ElevationLinesAt(st, vals.major, Major, id, idv);
    var minors := ElevationLinesAt(st, vals.minor, Minor, id, idv);
    if line in majors {
      var k :| 0 <= k < |majors| && majors[k] == line;
      ElevationLinesAtSound(st, vals.major, Major, id, idv);
    } else {
      assert line in minors;
      var k :| 0 <= k < |minors| && minors[k] == line;
      ElevationLinesAtSound(st, vals.minor, Minor, id, idv);
    }
  }

  /** The elevation loop: for each id in list order `int(id)`, then its major
      lines, then its minor lines. */
  function StackedElevationLines(st: StackedStyle, vals: GridValues, ids: seq<string>): (r: Result<seq<GridLine>, string>)
    ensures r.Failure? <==> exists i :: 0 <= i < |ids| && ParseInt(ids[i]).Failure?
    ensures r.Success? ==> forall k :: 0 <= k < |r.value| ==> ElevationLineSound(st, r.value[k])
  {
    match ParseIds(ids)
    case Failure(e) => Failure(e)
    case Success(vs) =>
      var per := seq(|ids|, i requires 0 <= i < |ids| => ElevationLinesOf(st, vals, ids[i], vs[i]));
      var r := Concat(per);
      assert forall k :: 0 <= k < |r| ==> ElevationLineSound(st, r[k]) by {
        forall k | 0 <= k < |r| ensures ElevationLineSound(st, r[k]) {
          assert r[k] in r;
          var i :| 0 <= i < |per| && r[k] in per[i];
          ElevationLinesOfSound(st, vals, ids[i], vs[i], r[k]);
        }
      }
      Success(r)
  }

  /** Conversely, every id gets a line at every major and every minor value. */
  lemma StackedElevationLinesComplete(st: StackedStyle, vals: GridValues, ids: seq<string>, i: nat)
    requires StackedElevationLines(st, vals, ids).Success?
    requires i < |ids|
    ensures ParseInt(ids[i]).Success?
    ensures forall e :: e in vals.major ==>
              ElevationLine(st, e, Major, ids[i], ParseInt(ids[i]).value) in StackedElevationLines(st, vals, ids).value
    ensures forall e :: e in vals.minor ==>
              ElevationLine(st, e, Minor, ids[i], ParseInt(ids[i]).value) in StackedElevationLines(st, vals, ids).value
  {
    var vs := ParseIds(ids).value;
    var per := seq(|ids|, j requires 0 <= j < |ids| => ElevationLinesOf(st, vals, ids[j], vs[j]));
    assert StackedElevationLines(st, vals, ids).value == Concat(per);
    assert ParseInt(ids[i]) == Success(vs[i]);
    var mine := per[i];
    assert forall line :: line in mine ==> line in Concat(per);
  }

  /** A vertical UTM-X line at `x` from `top` down to `bottom`, labelled `x`. */
  function UtmxLine(x: int, rank: string, top: real, bottom: real): GridLine
  {
    GridLine(VerticalLine(x as real, top, bottom), x, rank, Some(GridTags("utmx", "utmx_" + rank, None)))
  }

  /** What every UTM-X line satisfies: it is vertical at its label's x and
      tagged with its rank. */
  predicate UtmxLineSound(line: GridLine)
  {
    && |line.shape| == 2 && line.shape[0].x == line.shape[1].x == line.labelValue as real
    && line.tags == Some(GridTags("utmx", "utmx_" + line.rank, None))
  }

  /** The UTM-X lines of one rank, one per value, in order. */
  function UtmxLinesAt(xs: seq<int>, rank: string, top: real, bottom: real): (r: seq<GridLine>)
    ensures |r| == |xs|
    ensures forall k :: 0 <= k < |r| ==> UtmxLineSound(r[k]) && r[k].rank == rank && r[k].labelValue == xs[k]
    ensures forall k :: 0 <= k < |r| ==> |r[k].shape| == 2 && r[k].shape[0].y == top && r[k].shape[1].y == bottom
  {
    if |xs| == 0 then [] else [UtmxLine(xs[0], rank, top, bottom)] + UtmxLinesAt(xs[1..], rank, top, bottom)
  }

  /** The vertical extent the scripts give every UTM-X line: from `maxZ` in
      the band of the first id of the sorted list down to `minZ` in the band
      of the last. An empty list raises IndexError. */
  function UtmxSpan(st: StackedStyle, ids: seq<string>, minZ: real, maxZ: real): (r: Result<(real, real), string>)
    ensures r.Failure? <==> |ids| == 0 || ParseInt(ids[0]).Failure? || ParseInt(ids[|ids| - 1]).Failure?
  {
    if |ids| == 0 then Failure("list index out of range")
    else
      match ParseInt(ids[0])
      case Failure(e) => Failure(e)
      case Success(first) =>
        match ParseInt(ids[|ids| - 1])
        case Failure(e) => Failure(e)
        case Success(last) =>
          Success((ToStacked(maxZ, first, st.relief, st.ve), ToStacked(minZ, last, st.relief, st.ve)))
  }

  /** The span runs from `maxZ` in the band of the first id down to `minZ`
      in the band of the last. */
  lemma UtmxSpanEnds(st: StackedStyle, ids: seq<string>, minZ: real, maxZ: real)
    requires UtmxSpan(st, ids, minZ, maxZ).Success? && st.ve != 0.0
    ensures FromStacked(UtmxSpan(st, ids, minZ, maxZ).value.0, ParseInt(ids[0]).value, st.relief, st.ve) == maxZ
    ensures FromStacked(UtmxSpan(st, ids, minZ, maxZ).value.1, ParseInt(ids[|ids| - 1]).value, st.relief, st.ve) == minZ
  {
    StackedRoundTrip(maxZ, ParseInt(ids[0]).value, st.relief, st.ve);
    StackedRoundTrip(minZ, ParseInt(ids[|ids| - 1]).value, st.relief, st.ve);
  }

  /** The UTM-X loops: major lines then minor lines, all over one span. The
      span (`UtmxSpan`) is computed inside the loop body, so it matters only
      when there are UTM-X values: with none, an empty id list does no harm. */
  function StackedUtmxLines(utm: GridValues, span: Result<(real, real), string>): (r: Result<seq<GridLine>, string>)
    ensures r.Failure? <==> |utm.major| + |utm.minor| > 0 && span.Failure?
    ensures r.Success? ==> |r.value| == |utm.major| + |utm.minor|
    ensures r.Success? ==> forall k :: 0 <= k < |r.value| ==> UtmxLineSound(r.value[k])
    ensures r.Success? ==> forall k :: 0 <= k < |utm.major| ==> r.value[k].rank == Major && r.value[k].labelValue == utm.major[k]
    ensures r.Success? ==> forall k :: 0 <= k < |utm.minor| ==>
              r.value[|utm.major| + k].rank == Minor && r.value[|utm.major| + k].labelValue == utm.minor[k]
    ensures r.Success? && |r.value| > 0 ==> span.Success? && forall k :: 0 <= k < |r.value| ==>
              |r.value[k].shape| == 2 && r.value[k].shape[0].y == span.value.0 && r.value[k].shape[1].y == span.value.1
  {
    if |utm.major| + |utm.minor| == 0 then Success([])
    else
      match span
      case Failure(e) => Failure(e)
      case Success(ends) =>
        var majors := UtmxLinesAt(utm.major, Major, ends.0, ends.1);
        var minors := UtmxLinesAt(utm.minor, Minor, ends.0, ends.1);
        assert forall k :: 0 <= k < |minors| ==> (majors + minors)[|majors| + k] == minors[k];
        assert forall k :: |majors| <= k < |majors| + |minors| ==> (majors + minors)[k] == minors[k - |majors|];
        Success(majors + minors)
  }

  // ---------------------------------------------------------------------------
  // reference polygons

  /** One reference polygon and the `mn_et_id` text it carries. */
  datatype RefPolygon = RefPolygon(shape: seq<Point>, mnEtId: string)

  /** The rectangle of one id: the style's x range, from `minZ` to `maxZ` in
      that id's band. */
  function RefPolygonOf(st: StackedStyle, id: string, idv: int, minZ: real, maxZ: real): RefPolygon
  {
    RefPolygon(TopLeftRing(st.x0, st.x1, ToStacked(minZ, idv, st.relief, st.ve), ToStacked(maxZ, idv, st.relief, st.ve)), id)
  }

  /** What every reference polygon satisfies: it carries its id, is the
      axis-aligned rectangle over the style's x range, and (with a nonzero
      exaggeration) its top and bottom read back as `maxZ` and `minZ` in
      the band of its id. */
  predicate RefPolygonSound(st: StackedStyle, p: RefPolygon, id: string, idv: int, minZ: real, maxZ: real)
  {
    && p.mnEtId == id
    && |p.shape| == 4 && AxisAligned(p.shape)
    && p.shape[0].x == st.x0 && p.shape[1].x == st.x1
    && (st.ve != 0.0 ==>
          FromStacked(p.shape[0].y, idv, st.relief, st.ve) == maxZ
          && FromStacked(p.shape[3].y, idv, st.relief, st.ve) == minZ)
  }

  lemma RefPolygonOfSound(st: StackedStyle, id: string, idv: int, minZ: real, maxZ: real)
    ensures RefPolygonSound(st, RefPolygonOf(st, id, idv, minZ, maxZ), id, idv, minZ, maxZ)
  {
    if st.ve != 0.0 {
      StackedRoundTrip(maxZ, idv, st.relief, st.ve);
      StackedRoundTrip(minZ, idv, st.relief, st.ve);
    }
  }

  /** One polygon per id, in list order. */
  function RefPolygons(st: StackedStyle, ids: seq<string>, minZ: real, maxZ: real): (r: Result<seq<RefPolygon>, string>)
    ensures r.Failure? <==> exists i :: 0 <= i < |ids| && ParseInt(ids[i]).Failure?
    ensures r.Success? ==> |r.value| == |ids|
    ensures r.Success? ==> forall k :: 0 <= k < |ids| ==>
              ParseInt(ids[k]).Success? && RefPolygonSound(st, r.value[k], ids[k], ParseInt(ids[k]).value, minZ, maxZ)
  {
    match ParseIds(ids)
    case Failure(e) => Failure(e)
    case Success(vs) =>
      var r := seq(|ids|, k requires 0 <= k < |ids| => RefPolygonOf(st, ids[k], vs[k], minZ, maxZ));
      assert forall k :: 0 <= k < |ids| ==> RefPolygonSound(st, r[k], ids[k], vs[k], minZ, maxZ) by {
        forall k | 0 <= k < |ids| ensures RefPolygonSound(st, r[k], ids[k], vs[k], minZ, maxZ) {
          RefPolygonOfSound(st, ids[k], vs[k], minZ, maxZ);
        }
      }
      Success(r)
  }

  // ---------------------------------------------------------------------------
  // the three tools

  /** What a stacked grid tool writes: the line file and the polygon file. */
  datatype Grid = Grid(lines: seq<GridLine>, polygons: seq<RefPolygon>)

  /** The parameters of the statewide tools. */
  datatype StatewideParams = StatewideParams(
    ve: real, majorVert: int, minorVert: int, majorHoriz: int, minorHoriz: int,
    minZ: int, maxZ: int, relief: real)

  /** The elevation floor of the statewide raw lists: 50 ft in the newer
      tool, 0 ft in the older one. */
  const StateMinZ: int := 50
  const ArchiveStateMinZ: int := 0
  const StateMaxZ: int := 2300

  /** The statewide stacked tool, given the `mn_et_id` values of the xsln
      file: lines for every id at the county-filtered statewide elevations,
      UTM-X lines over the whole state, then one polygon per id. */
  function StatewideGrid(p: StatewideParams, rawIds: seq<Option<string>>): (r: Result<Grid, string>)
    ensures r.Success? ==> |r.value.polygons| == |SortedIds(rawIds)|
    ensures r.Success? ==> forall k :: 0 <= k < |r.value.lines| && IsElevation(r.value.lines[k]) ==>
              ElevationLineSound(StatewideStyle(p.relief, p.ve), r.value.lines[k])
  {
    StatewideGridFrom(StateMinZ, p, SortedIds(rawIds), true)
  }

  /** The older statewide tool: raw elevations from 0 ft, nulls not skipped,
      and no polygon file. */
  function ArchiveStatewideGrid(p: StatewideParams, rawIds: seq<Option<string>>): (r: Result<Grid, string>)
    ensures None in rawIds ==> r.Failure?
    ensures r.Success? ==> r.value.polygons == []
  {
    match ArchiveSortedIds(rawIds)
    case Failure(e) => Failure(e)
    case Success(ids) => StatewideGridFrom(ArchiveStateMinZ, p, ids, false)
  }

  /** The statewide tools from the elevation floor of their raw lists and
      the sorted id list on. */
  function StatewideGridFrom(stateMinZ: int, p: StatewideParams, ids: seq<string>, withPolygons: bool): (r: Result<Grid, string>)
    ensures r.Success? ==> |r.value.polygons| == (if withPolygons then |ids| else 0)
    ensures r.Success? ==> forall k :: 0 <= k < |r.value.lines| && IsElevation(r.value.lines[k]) ==>
              ElevationLineSound(StatewideStyle(p.relief, p.ve), r.value.lines[k])
  {
    match RawValues(stateMinZ, StateMaxZ, p.majorVert, p.minorVert)
    case Failure(e) => Failure(e)
    case Success(rawEle) =>
      match RawValues(StateMinX.Floor, StateMaxX.Floor, p.majorHoriz, p.minorHoriz)
      case Failure(e) => Failure(e)
      case Success(utm) =>
        StackedGridOf(StatewideStyle(p.relief, p.ve), CountyValues(rawEle, p.minZ, p.maxZ, p.minorVert), utm, ids,
                      p.minZ as real, p.maxZ as real, withPolygons)
  }

  /** A stacked grid from its value lists and sorted ids: the elevation
      lines, then the UTM-X lines, then (when the tool writes them) the
      polygons. It fails exactly when an id is not an integer, or when there
      are UTM-X values to draw but no id to take their span from. */
  function StackedGridOf(st: StackedStyle, ele: GridValues, utm: GridValues, ids: seq<string>,
                         minZ: real, maxZ: real, withPolygons: bool): (r: Result<Grid, string>)
    ensures r.Failure? <==> (exists i :: 0 <= i < |ids| && ParseInt(ids[i]).Failure?)
                            || (|ids| == 0 && |utm.major| + |utm.minor| > 0)
    ensures r.Success? ==> |r.value.polygons| == (if withPolygons then |ids| else 0)
    ensures r.Success? ==> forall k :: 0 <= k < |r.value.lines| && IsElevation(r.value.lines[k]) ==>
              ElevationLineSound(st, r.value.lines[k])
    ensures r.Success? ==> forall k :: 0 <= k < |r.value.lines| && !IsElevation(r.value.lines[k]) ==>
              UtmxLineSound(r.value.lines[k])
  {
    match StackedGridLines(st, ele, utm, ids, minZ, maxZ)
    case Failure(e) => Failure(e)
    case Success(lines) =>
      StackedGridLinesSound(st, ele, utm, ids, minZ, maxZ);
      var polys := if withPolygons then RefPolygons(st, ids, minZ, maxZ) else Success([]);
      assert polys.Success? && |polys.value| == (if withPolygons then |ids| else 0);
      Success(Grid(lines, polys.value))
  }

  /** The line file of a stacked grid over a given UTM-X span: the
      elevation lines, then the UTM-X lines. */
  function GridLinesOver(st: StackedStyle, ele: GridValues, utm: GridValues, ids: seq<string>,
                         span: Result<(real, real), string>): (r: Result<seq<GridLine>, string>)
    ensures r.Failure? <==> StackedElevationLines(st, ele, ids).Failure? || StackedUtmxLines(utm, span).Failure?
    ensures r.Success? ==> r.value == StackedElevationLines(st, ele, ids).value + StackedUtmxLines(utm, span).value
  {
    match StackedElevationLines(st, ele, ids)
    case Failure(e) => Failure(e)
    case Success(eleLines) =>
      match StackedUtmxLines(utm, span)
      case Failure(e) => Failure(e)
      case Success(utmLines) => Success(eleLines + utmLines)
  }

  /** The line file the stacked tools write: the UTM-X lines take the span
      the scripts compute from the first and last id of the text-sorted list
      (`UtmxSpan`; `UtmxSpanTextOrder` shows the bands it can miss). */
  function StackedGridLines(st: StackedStyle, ele: GridValues, utm: GridValues, ids: seq<string>,
                            minZ: real, maxZ: real): (r: Result<seq<GridLine>, string>)
    ensures r.Failure? <==> (exists i :: 0 <= i < |ids| && ParseInt(ids[i]).Failure?)
                            || (|ids| == 0 && |utm.major| + |utm.minor| > 0)
  {
    assert (forall i :: 0 <= i < |ids| ==> ParseInt(ids[i]).Success?) && |ids| > 0 ==> UtmxSpan(st, ids, minZ, maxZ).Success? by {
      if |ids| > 0 && forall i :: 0 <= i < |ids| ==> ParseInt(ids[i]).Success? {
        assert ParseInt(ids[0]).Success? && ParseInt(ids[|ids| - 1]).Success?;
      }
    }
    GridLinesOver(st, ele, utm, ids, UtmxSpan(st, ids, minZ, maxZ))
  }

  /** Every line of the file is a sound elevation line or a sound UTM-X
      line. */
  lemma StackedGridLinesSound(st: StackedStyle, ele: GridValues, utm: GridValues, ids: seq<string>,
                              minZ: real, maxZ: real)
    requires StackedGridLines(st, ele, utm, ids, minZ, maxZ).Success?
    ensures var lines := StackedGridLines(st, ele, utm, ids, minZ, maxZ).value;
            forall k :: 0 <= k < |lines| ==>
              (IsElevation(lines[k]) ==> ElevationLineSound(st, lines[k]))
              && (!IsElevation(lines[k]) ==> UtmxLineSound(lines[k]))
  {
    var eleLines := StackedElevationLines(st, ele, ids).value;
    var utmLines := StackedUtmxLines(utm, UtmxSpan(st, ids, minZ, maxZ)).value;
    var lines := eleLines + utmLines;
    assert StackedGridLines(st, ele, utm, ids, minZ, maxZ).value == lines;
    forall k | 0 <= k < |lines|
      ensures (IsElevation(lines[k]) ==> ElevationLineSound(st, lines[k])) && (!IsElevation(lines[k]) ==> UtmxLineSound(lines[k]))
    {
      if k < |eleLines| {
        assert lines[k] == eleLines[k] && ElevationLineSound(st, eleLines[k]);
      } else {
        assert lines[k] == utmLines[k - |eleLines|] && UtmxLineSound(utmLines[k - |eleLines|]);
      }
    }
  }

  /** The general tool in the stacked system, given the xsln x extent and
      its `mn_et_id` values. The polygons take their x range from the
      variables the elevation loop last set, so with ids but no elevation
      values the polygon loop meets an unset name. */
  function GeneralStackedGrid(xMin: real, xMax: real, majorVert: int, minorVert: int, majorHoriz: int, minorHoriz: int,
                              minZ: int, maxZ: int, rawIds: seq<Option<string>>): (r: Result<Grid, string>)
    ensures r.Success? ==> |r.value.polygons| == |SortedIds(rawIds)|
    ensures r.Success? ==> forall k :: 0 <= k < |r.value.lines| && IsElevation(r.value.lines[k]) ==>
              ElevationLineSound(GeneralStyle(UtmxBounds(xMin, xMax, majorHoriz)), r.value.lines[k])
  {
    var bounds := UtmxBounds(xMin, xMax, majorHoriz);
    var ids := SortedIds(rawIds);
    match RawValues(minZ, maxZ, majorVert, minorVert)
    case Failure(e) => Failure(e)
    case Success(rawEle) =>
      var ele := CountyValues(rawEle, minZ, maxZ, minorVert);
      match RawValues(bounds.0, bounds.1, majorHoriz, minorHoriz)
      case Failure(e) => Failure(e)
      case Success(utm) =>
        match StackedGridOf(GeneralStyle(bounds), ele, utm, ids, minZ as real, maxZ as real, true)
        case Failure(e) => Failure(e)
        case Success(g) =>
          if |ids| > 0 && |ele.major| + |ele.minor| == 0 then Failure("name 'min_x' is not defined")
          else Success(g)
  }

  /** A traditional elevation line: y is the elevation itself, x from 0 to
      the grid width. */
  function TraditionalElevationLine(ele: int, rank: string, width: int): GridLine
  {
    GridLine([Point(0.0, ele as real), Point(width as real, ele as real)], ele, rank, None)
  }

  /** The general tool in the traditional system: the id list is just
      `["01"]`, so one set of lines, majors then minors. */
  function TraditionalElevationLines(vals: GridValues, width: int): (r: seq<GridLine>)
    ensures |r| == |vals.major| + |vals.minor|
    ensures forall k :: 0 <= k < |r| ==>
              r[k].shape == [Point(0.0, r[k].labelValue as real), Point(width as real, r[k].labelValue as real)] && r[k].tags.None?
    ensures forall k :: 0 <= k < |vals.major| ==> r[k].labelValue == vals.major[k] && r[k].rank == Major
    ensures forall k :: 0 <= k < |vals.minor| ==> r[|vals.major| + k].labelValue == vals.minor[k] && r[|vals.major| + k].rank == Minor
  {
    var majors := seq(|vals.major|, k requires 0 <= k < |vals.major| => TraditionalElevationLine(vals.major[k], Major, width));
    var minors := seq(|vals.minor|, k requires 0 <= k < |vals.minor| => TraditionalElevationLine(vals.minor[k], Minor, width));
    majors + minors
  }

  /** A traditional UTM-X line: the x coordinate reference for one crossing
      of a UTM x value with one xsln, labelled with that value and the
      line's id. */
  datatype XMark = XMark(shape: seq<Point>, labelValue: int, rank: string, xsec: string)

  /** For one xsln and one rank: for each UTM x value, one vertical line per
      crossing, at the traditional x of the crossing's distance along the
      line, from `minZ` to `maxZ`. No crossing means no line. */
  function MarksAt(xsec: string, xs: seq<int>, rank: string, crossings: (string, int) -> seq<real>,
                   minZ: real, maxZ: real, ve: real): (r: seq<XMark>)
    requires ve != 0.0
    ensures forall k :: 0 <= k < |r| ==>
              && r[k].xsec == xsec && r[k].rank == rank && r[k].labelValue in xs
              && |r[k].shape| == 2 && r[k].shape == VerticalLine(r[k].shape[0].x, minZ, maxZ)
              && TrueXDistance(r[k].shape[0].x, ve) in crossings(xsec, r[k].labelValue)
  {
    if |xs| == 0 then []
    else
      var ms := crossings(xsec, xs[0]);
      var here := seq(|ms|, k requires 0 <= k < |ms| => XMark(VerticalLine(TraditionalX(ms[k], ve), minZ, maxZ), xs[0], rank, xsec));
      assert forall k :: 0 <= k < |here| ==> TrueXDistance(here[k].shape[0].x, ve) == ms[k] by {
        forall k | 0 <= k < |here| ensures TrueXDistance(here[k].shape[0].x, ve) == ms[k] {
          TraditionalRoundTrip(ms[k], ve);
        }
      }
      here + MarksAt(xsec, xs[1..], rank, crossings, minZ, maxZ, ve)
  }

  /** The traditional x coordinate reference file: for each xsln, the major
      marks, then the minor marks. */
  function TraditionalMarks(lines: seq<string>, utm: GridValues, crossings: (string, int) -> seq<real>,
                            minZ: real, maxZ: real, ve: real): (r: seq<XMark>)
    requires ve != 0.0
    ensures forall k :: 0 <= k < |r| ==>
              && r[k].xsec in lines
              && (r[k].rank == Major || r[k].rank == Minor)
              && (r[k].rank == Major ==> r[k].labelValue in utm.major)
              && (r[k].rank == Minor ==> r[k].labelValue in utm.minor)
              && |r[k].shape| == 2 && r[k].shape == VerticalLine(r[k].shape[0].x, minZ, maxZ)
              && TrueXDistance(r[k].shape[0].x, ve) in crossings(r[k].xsec, r[k].labelValue)
  {
    if |lines| == 0 then []
    else
      MarksAt(lines[0], utm.major, Major, crossings, minZ, maxZ, ve)
      + MarksAt(lines[0], utm.minor, Minor, crossings, minZ, maxZ, ve)
      + TraditionalMarks(lines[1..], utm, crossings, minZ, maxZ, ve)
  }

  /** The general tool in the traditional system: lines from the raw
      elevation lists over the traditional width, and the x coordinate marks
      over the rounded UTM-X extent. The width divides by the exaggeration
      before any list is built, so a zero exaggeration raises first. */
  function GeneralTraditionalGrid(lengths: seq<real>, xMin: real, xMax: real, ve: int,
                                  majorVert: int, minorVert: int, majorHoriz: int, minorHoriz: int,
                                  minZ: int, maxZ: int, lines: seq<string>, crossings: (string, int) -> seq<real>)
    : (r: Result<(seq<GridLine>, seq<XMark>), string>)
    ensures r.Failure? <==> ve == 0 || majorVert == 0 || minorVert == 0 || majorHoriz == 0 || minorHoriz == 0
    ensures r.Success? && ve > 0 ==> forall k :: 0 <= k < |r.value.0| ==> |r.value.0[k].shape| == 2 && r.value.0[k].shape[1].x >= 0.0
  {
    var bounds := UtmxBounds(xMin, xMax, majorHoriz);
    if ve == 0 then Failure("float division by zero")
    else
      match RawValues(minZ, maxZ, majorVert, minorVert)
      case Failure(e) => Failure(e)
      case Success(rawEle) =>
        var ele := CountyValues(rawEle, minZ, maxZ, minorVert);
        match RawValues(bounds.0, bounds.1, majorHoriz, minorHoriz)
        case Failure(e) => Failure(e)
        case Success(utm) =>
          Success((TraditionalElevationLines(ele, MaxXTrad(lengths, ve)),
                   TraditionalMarks(lines, utm, crossings, minZ as real, maxZ as real, ve as real)))
  }

  // ---------------------------------------------------------------------------
  // the UTM-X span and the text order of the ids

  /** `type_rank` of the general tool's elevation lines has no separator,
      unlike its UTM-X lines and every line of the statewide tools. */
  lemma TypeRankSeparators()
    ensures "elevation" + GeneralStyle((0, 0)).elevationSep + Major == "elevationmajor"
    ensures "elevation" + StatewideStyle(0.0, 0.0).elevationSep + Major == "elevation_major"
    ensures "elevation" + GeneralStyle((0, 0)).elevationSep + Major != "elevation" + StatewideStyle(0.0, 0.0).elevationSep + Major
  {
  }

  /** As written, the span comes from the ends of the text-sorted list. The
      `mn_et_id` values are unpadded, so ids 9 and 10 sort as "10", "9": the
      span runs from the top of band 10 up to the floor of band 9, the gap
      between the two bands, and misses both. */
  lemma UtmxSpanTextOrder()
    ensures SortedIds([Some("9"), Some("10")]) == ["10", "9"]
    ensures var span := UtmxSpan(GeneralStyle((0, 0)), ["10", "9"], 50.0, 2300.0);
            && span.Success?
            && span.value.0 == StackedY(2300.0, 10) && span.value.1 == StackedY(50.0, 9)
            && span.value.0 < span.value.1
            && forall z :: 50.0 <= z <= 2300.0 ==> StackedY(z, 10) <= span.value.0 && span.value.1 <= StackedY(z, 9)
  {
    NineTenSorted();
    var st := GeneralStyle((0, 0));
    assert UtmxSpan(st, ["10", "9"], 50.0, 2300.0) == Success((StackedY(2300.0, 10), StackedY(50.0, 9))) by {
      TenAndNineParse();
      SpanOfParsed(st, ["10", "9"], 10, 9, 50.0, 2300.0);
    }
    NineTenBands();
  }

  /** As written, whenever the text-first id is numerically larger than
      the text-last one and the elevation range is less than one band
      spacing, the span is upside down: its top lies below its floor. */
  lemma UtmxSpanInverted(st: StackedStyle, ids: seq<string>, first: int, last: int, minZ: real, maxZ: real)
    requires |ids| > 0 && ParseInt(ids[0]) == Success(first) && ParseInt(ids[|ids| - 1]) == Success(last)
    requires last < first && st.relief > 0.0 && st.ve > 0.0
    requires minZ <= maxZ && (maxZ - minZ) * FootInMetres < st.relief
    ensures UtmxSpan(st, ids, minZ, maxZ).Success?
    ensures UtmxSpan(st, ids, minZ, maxZ).value.0 < UtmxSpan(st, ids, minZ, maxZ).value.1
  {
    SpanOfParsed(st, ids, first, last, minZ, maxZ);
    TopBelowFloor(st.relief, st.ve, first, last, minZ, maxZ);
  }

  /** The top of a later band lies below the floor of an earlier one when
      the elevation range is less than one band spacing. */
  lemma TopBelowFloor(relief: real, ve: real, first: int, last: int, minZ: real, maxZ: real)
    requires last < first && relief > 0.0 && ve > 0.0
    requires minZ <= maxZ && (maxZ - minZ) * FootInMetres < relief
    ensures ToStacked(maxZ, first, relief, ve) < ToStacked(minZ, last, relief, ve)
  {
    var gap := (first - last) as real;
    assert relief * gap - relief == relief * (gap - 1.0);
    assert gap - 1.0 >= 0.0 && relief * (gap - 1.0) >= 0.0 by { NonNegProduct(relief, gap - 1.0); }
    var d := ((minZ * FootInMetres) - relief * (last as real)) - ((maxZ * FootInMetres) - relief * (first as real));
    assert d == relief * gap - (maxZ - minZ) * FootInMetres;
    assert ToStacked(minZ, last, relief, ve) - ToStacked(maxZ, first, relief, ve) == d * ve;
  }

  /** A product of two non-negative reals is non-negative. */
  lemma NonNegProduct(a: real, b: real)
    requires a >= 0.0 && b >= 0.0
    ensures a * b >= 0.0
  {
  }

  /** Band 10 lies wholly below band 9, with a gap between them. */
  lemma NineTenBands()
    ensures StackedY(2300.0, 10) < StackedY(50.0, 9)
    ensures forall z :: 50.0 <= z <= 2300.0 ==> StackedY(z, 10) <= StackedY(2300.0, 10) && StackedY(50.0, 9) <= StackedY(z, 9)
  {
    forall z | 50.0 <= z <= 2300.0 ensures StackedY(z, 10) <= StackedY(2300.0, 10) && StackedY(50.0, 9) <= StackedY(z, 9) {
      StackedMonotone(z, 2300.0, 10, CountyRelief, StackedVE);
      StackedMonotone(50.0, z, 9, CountyRelief, StackedVE);
    }
  }

  lemma TenAndNineParse()
    ensures ParseInt("10") == Success(10) && ParseInt("9") == Success(9)
  {
    ParseIntOfString(10);
    ParseIntOfString(9);
    assert IntToString(10) == "10" && IntToString(9) == "9";
  }

  /** The span of a list whose end ids read as `first` and `last`. */
  lemma SpanOfParsed(st: StackedStyle, ids: seq<string>, first: int, last: int, minZ: real, maxZ: real)
    requires |ids| > 0 && ParseInt(ids[0]) == Success(first) && ParseInt(ids[|ids| - 1]) == Success(last)
    ensures UtmxSpan(st, ids, minZ, maxZ) == Success((ToStacked(maxZ, first, st.relief, st.ve), ToStacked(minZ, last, st.relief, st.ve)))
  {
  }

  /** Text order puts "10" before "9". */
  lemma NineTenSorted()
    ensures SortedIds([Some("9"), Some("10")]) == ["10", "9"]
  {
    NineTenPresent();
    NineTenInsert();
  }

  /** Both ids of the example are present. */
  lemma NineTenPresent()
    ensures Present([Some("9"), Some("10")]) == ["9", "10"]
  {
    assert [Some("9"), Some("10")][1..] == [Some("10")];
    assert Present([Some("10")]) == ["10"];
  }

  /** Insertion puts "9" after "10". */
  lemma NineTenInsert()
    ensures SortStrings(["9", "10"]) == ["10", "9"]
  {
    assert LexLe("10", "9");
    assert !LexLe("9", "10");
    assert SortStrings(["10"]) == ["10"];
    assert SortStrings(["9", "10"]) == Insert("9", SortStrings(["10"]));
    assert Insert("9", ["10"]) == ["10"] + Insert("9", []);
  }

  /** The heights of `z` in the bands of the given ids, in order. */
  function BandHeights(st: StackedStyle, idvs: seq<int>, z: real): (hs: seq<real>)
    ensures |hs| == |idvs|
    ensures forall i :: 0 <= i < |idvs| ==> hs[i] == ToStacked(z, idvs[i], st.relief, st.ve)
  {
    seq(|idvs|, i requires 0 <= i < |idvs| => ToStacked(z, idvs[i], st.relief, st.ve))
  }

  /** The evident intent: the UTM-X lines run from the highest band top to
      the lowest band floor among the ids, so they cross every band. */
  function UtmxSpanCorrected(st: StackedStyle, idvs: seq<int>, minZ: real, maxZ: real): (span: (real, real))
    requires |idvs| > 0
    ensures forall i :: 0 <= i < |idvs| ==>
              span.1 <= ToStacked(minZ, idvs[i], st.relief, st.ve) && ToStacked(maxZ, idvs[i], st.relief, st.ve) <= span.0
    ensures (exists i :: 0 <= i < |idvs| && ToStacked(maxZ, idvs[i], st.relief, st.ve) == span.0)
            && (exists i :: 0 <= i < |idvs| && ToStacked(minZ, idvs[i], st.relief, st.ve) == span.1)
  {
    var tops, floors := BandHeights(st, idvs, maxZ), BandHeights(st, idvs, minZ);
    var span := (MaxOf(tops), MinOf(floors));
    assert exists i :: 0 <= i < |idvs| && tops[i] == span.0;
    assert exists i :: 0 <= i < |idvs| && floors[i] == span.1;
    span
  }

  /** The corrected span covers every band: each point from `minZ` to
      `maxZ` in the band of any id lies within it. */
  lemma UtmxSpanCorrectedCovers(st: StackedStyle, idvs: seq<int>, minZ: real, maxZ: real, i: nat, z: real)
    requires |idvs| > 0 && i < |idvs|
    requires st.ve > 0.0 && minZ <= z <= maxZ
    ensures var span := UtmxSpanCorrected(st, idvs, minZ, maxZ);
            span.1 <= ToStacked(z, idvs[i], st.relief, st.ve) <= span.0
  {
    StackedMonotone(minZ, z, idvs[i], st.relief, st.ve);
    StackedMonotone(z, maxZ, idvs[i], st.relief, st.ve);
  }

  /** Later bands lie lower: with non-negative spacing and exaggeration a
      larger id never draws the same elevation higher. */
  lemma LargerIdLower(z: real, a: int, b: int, relief: real, ve: real)
    requires a <= b && relief >= 0.0 && ve >= 0.0
    ensures ToStacked(z, b, relief, ve) <= ToStacked(z, a, relief, ve)
  {
    assert ToStacked(z, a, relief, ve) - ToStacked(z, b, relief, ve) == relief * ((b - a) as real) * ve;
    assert relief * ((b - a) as real) >= 0.0;
  }

  /** When the text order happens to agree with the numeric order (for
      instance when every id has the same number of digits) the scripts'
      span is the corrected one. */
  lemma UtmxSpanAgrees(st: StackedStyle, ids: seq<string>, idvs: seq<int>, minZ: real, maxZ: real)
    requires |ids| > 0 && |idvs| == |ids|
    requires forall i :: 0 <= i < |ids| ==> ParseInt(ids[i]) == Success(idvs[i])
    requires forall i, j :: 0 <= i <= j < |idvs| ==> idvs[i] <= idvs[j]
    requires st.relief >= 0.0 && st.ve >= 0.0
    ensures UtmxSpan(st, ids, minZ, maxZ) == Success(UtmxSpanCorrected(st, idvs, minZ, maxZ))
  {
    var span := UtmxSpanCorrected(st, idvs, minZ, maxZ);
    var n := |idvs| - 1;
    var top := ToStacked(maxZ, idvs[0], st.relief, st.ve);
    var floor := ToStacked(minZ, idvs[n], st.relief, st.ve);
    assert span.0 == top by {
      var j :| 0 <= j < |idvs| && ToStacked(maxZ, idvs[j], st.relief, st.ve) == span.0;
      LargerIdLower(maxZ, idvs[0], idvs[j], st.relief, st.ve);
    }
    assert span.1 == floor by {
      var j :| 0 <= j < |idvs| && ToStacked(minZ, idvs[j], st.relief, st.ve) == span.1;
      LargerIdLower(minZ, idvs[j], idvs[n], st.relief, st.ve);
    }
    assert UtmxSpan(st, ids, minZ, maxZ) == Success((top, floor)) by {
      assert ParseInt(ids[0]) == Success(idvs[0]);
      assert ParseInt(ids[n]) == Success(idvs[n]);
    }
  }

  /** The corrected span of a text id list: every id read with `int()`,
      then the highest band top and the lowest band floor among them. Like
      the scripts it fails on an empty list or an id that is not an integer;
      unlike them it covers every band whatever the text order. */
  function CorrectedSpan(st: StackedStyle, ids: seq<string>, minZ: real, maxZ: real): (r: Result<(real, real), string>)
    ensures r.Failure? <==> |ids| == 0 || exists i :: 0 <= i < |ids| && ParseInt(ids[i]).Failure?
    ensures r.Success? && st.ve > 0.0 ==> forall i, z :: 0 <= i < |ids| && minZ <= z <= maxZ ==>
              r.value.1 <= ToStacked(z, ParseInt(ids[i]).value, st.relief, st.ve) <= r.value.0
  {
    if |ids| == 0 then Failure("list index out of range")
    else
      match ParseIds(ids)
      case Failure(e) => Failure(e)
      case Success(idvs) =>
        var span := UtmxSpanCorrected(st, idvs, minZ, maxZ);
        assert st.ve > 0.0 ==> forall i, z :: 0 <= i < |ids| && minZ <= z <= maxZ ==>
                 span.1 <= ToStacked(z, ParseInt(ids[i]).value, st.relief, st.ve) <= span.0 by {
          if st.ve > 0.0 {
            forall i, z | 0 <= i < |ids| && minZ <= z <= maxZ
              ensures span.1 <= ToStacked(z, ParseInt(ids[i]).value, st.relief, st.ve) <= span.0
            {
              UtmxSpanCorrectedCovers(st, idvs, minZ, maxZ, i, z);
            }
          }
        }
        Success(span)
  }

  /** The line file with the corrected span: the elevation lines, then
      UTM-X lines from the highest band top to the lowest band floor. It
      fails under the same conditions as the scripts' file. */
  function CorrectedGridLines(st: StackedStyle, ele: GridValues, utm: GridValues, ids: seq<string>,
                              minZ: real, maxZ: real): (r: Result<seq<GridLine>, string>)
    ensures r.Failure? <==> (exists i :: 0 <= i < |ids| && ParseInt(ids[i]).Failure?)
                            || (|ids| == 0 && |utm.major| + |utm.minor| > 0)
  {
    GridLinesOver(st, ele, utm, ids, CorrectedSpan(st, ids, minZ, maxZ))
  }

  /** With the corrected span, every UTM-X line reaches across every band:
      each elevation from `minZ` to `maxZ` of every id lies between its two
      ends. */
  lemma CorrectedGridLinesCover(st: StackedStyle, ele: GridValues, utm: GridValues, ids: seq<string>,
                                minZ: real, maxZ: real, k: nat, i: nat, z: real)
    requires CorrectedGridLines(st, ele, utm, ids, minZ, maxZ).Success?
    requires |StackedElevationLines(st, ele, ids).value| <= k < |CorrectedGridLines(st, ele, utm, ids, minZ, maxZ).value|
    requires i < |ids| && minZ <= z <= maxZ && st.ve > 0.0
    ensures ParseInt(ids[i]).Success?
    ensures var line := CorrectedGridLines(st, ele, utm, ids, minZ, maxZ).value[k];
            && UtmxLineSound(line)
            && line.shape[1].y <= ToStacked(z, ParseInt(ids[i]).value, st.relief, st.ve) <= line.shape[0].y
  {
    var span := CorrectedSpan(st, ids, minZ, maxZ);
    GridLinesOverUtmx(st, ele, utm, ids, span, k);
    assert span.value.1 <= ToStacked(z, ParseInt(ids[i]).value, st.relief, st.ve) <= span.value.0;
  }

  /** A line past the elevation lines is a sound UTM-X line whose ends are
      the span's. */
  lemma GridLinesOverUtmx(st: StackedStyle, ele: GridValues, utm: GridValues, ids: seq<string>,
                          span: Result<(real, real), string>, k: nat)
    requires GridLinesOver(st, ele, utm, ids, span).Success?
    requires |StackedElevationLines(st, ele, ids).value| <= k < |GridLinesOver(st, ele, utm, ids, span).value|
    ensures span.Success?
    ensures var line := GridLinesOver(st, ele, utm, ids, span).value[k];
            UtmxLineSound(line) && line.shape[0].y == span.value.0 && line.shape[1].y == span.value.1
  {
    var eleLines := StackedElevationLines(st, ele, ids).value;
    var utm' := StackedUtmxLines(utm, span).value;
    var j := k - |eleLines|;
    assert (eleLines + utm')[k] == utm'[j];
  }

  /** When the text order of the ids agrees with their numeric order, the
      scripts' line file is the corrected one. */
  lemma CorrectedGridLinesAgree(st: StackedStyle, ele: GridValues, utm: GridValues, ids: seq<string>, idvs: seq<int>,
                                minZ: real, maxZ: real)
    requires |ids| > 0 && |idvs| == |ids|
    requires forall i :: 0 <= i < |ids| ==> ParseInt(ids[i]) == Success(idvs[i])
    requires forall i, j :: 0 <= i <= j < |idvs| ==> idvs[i] <= idvs[j]
    requires st.relief >= 0.0 && st.ve >= 0.0
    ensures StackedGridLines(st, ele, utm, ids, minZ, maxZ) == CorrectedGridLines(st, ele, utm, ids, minZ, maxZ)
  {
    UtmxSpanAgrees(st, ids, idvs, minZ, maxZ);
    ParseIdsAre(ids, idvs);
    assert CorrectedSpan(st, ids, minZ, maxZ) == UtmxSpan(st, ids, minZ, maxZ);
  }

  /** Ids that each parse to the matching number parse together to the
      list of those numbers. */
  lemma ParseIdsAre(ids: seq<string>, idvs: seq<int>)
    requires |idvs| == |ids|
    requires forall i :: 0 <= i < |ids| ==> ParseInt(ids[i]) == Success(idvs[i])
    ensures ParseIds(ids) == Success(idvs)
  {
    var parsed := ParseIds(ids);
    assert parsed.Success?;
    forall i | 0 <= i < |ids| ensures parsed.value[i] == idvs[i] {
      assert ParseInt(ids[i]) == Success(parsed.value[i]);
    }
    assert parsed.value == idvs;
  }
}

=== FILE: reproject.dfy ===
/** The two re-projection tools of the stacked display: a feature drawn on
    one cross-section is copied onto every other line (or onto chosen
    lines) at the same true elevation. The copy keeps each vertex x; y is
    read back as an elevation in the feature's own band and drawn again in
    the target band. */
module Reprojection {
  import opened Wrappers
  import opened PyLists
  import opened PyStrings
  import opened Transforms
  import opened Builders
  import opened CrossSectionIds
  import opened XsecFeatures

  /** A spatially joined input row: its geometry (first part; a point is
      one vertex), the `mn_et_id` text of the band it fell in, and the
      `unique_id`. */
  datatype Row = Row(shape: Option<seq<Point>>, mnEtId: Option<string>, oid: Option<int>)

  /** An output row: the re-drawn geometry, the target line's `mn_et_id`
      text and the copied `unique_id`. */
  datatype Copy = Copy(shape: seq<Point>, mnEtId: string, oid: Option<int>)

  /** Every vertex moved from band `source` to band `target`. */
  function ShiftVertices(v: seq<Point>, source: int, target: int): (r: seq<Point>)
    ensures |r| == |v|
    ensures forall i :: 0 <= i < |v| ==> r[i].x == v[i].x
    ensures forall i :: 0 <= i < |v| ==>
              FromStacked(r[i].y, target, CountyRelief, StackedVE) == FromStacked(v[i].y, source, CountyRelief, StackedVE)
    decreases |v|
  {
    if |v| == 0 then []
    else
      var y := Reproject(v[0].y, source, target, CountyRelief, StackedVE);
      StackedRoundTrip(FromStacked(v[0].y, source, CountyRelief, StackedVE), target, CountyRelief, StackedVE);
      [Point(v[0].x, y)] + ShiftVertices(v[1..], source, target)
  }

  /** The shift is the same for every vertex: `700 * 50` display units per
      line of difference. */
  lemma {:induction false} ShiftVerticesIsTranslation(v: seq<Point>, source: int, target: int)
    ensures forall i :: 0 <= i < |v| ==>
              ShiftVertices(v, source, target)[i].y == v[i].y + CountyRelief * StackedVE * ((source - target) as real)
    decreases |v|
  {
    if |v| > 0 {
      ReprojectShift(v[0].y, source, target, CountyRelief, StackedVE);
      ShiftVerticesIsTranslation(v[1..], source, target);
      var r := ShiftVertices(v, source, target);
      assert forall i :: 1 <= i < |v| ==> r[i] == ShiftVertices(v[1..], source, target)[i - 1];
    }
  }

  /** Copying a feature back to where it came from restores it, and copying
      onto its own band leaves it unchanged. */
  lemma ShiftVerticesRoundTrip(v: seq<Point>, source: int, target: int)
    ensures ShiftVertices(ShiftVertices(v, source, target), target, source) == v
    ensures ShiftVertices(v, source, source) == v
  {
    var w := ShiftVertices(v, source, target);
    var back := ShiftVertices(w, target, source);
    var same := ShiftVertices(v, source, source);
    ShiftVerticesIsTranslation(v, source, target);
    ShiftVerticesIsTranslation(w, target, source);
    ShiftVerticesIsTranslation(v, source, source);
    assert forall i :: 0 <= i < |v| ==> back[i] == v[i];
    assert forall i :: 0 <= i < |v| ==> same[i] == v[i];
  }

  // ---------------------------------------------------------------------------
  // copying onto every line

  /** The copies of one row onto every id of the list. `int(mn_et_id)` runs
      first, so a row outside every band stops the tool even when its
      geometry is null; a null point then fails in the arithmetic, while a
      null line or polygon is skipped. */
  function CopiesToAll(kind: ShapeType, row: Row, ids: seq<int>): (r: Result<seq<Copy>, string>)
    ensures r.Failure? <==> IntOfField(row.mnEtId).Failure? || (kind == PointShape && row.shape.None?)
    ensures r.Success? && row.shape.None? ==> r.value == []
    ensures r.Success? && row.shape.Some? ==>
              |r.value| == |ids| &&
              forall k :: 0 <= k < |ids| ==>
                r.value[k] == Copy(ShiftVertices(row.shape.value, IntOfField(row.mnEtId).value, ids[k]), IntToString(ids[k]), row.oid)
  {
    match IntOfField(row.mnEtId)
    case Failure(e) => Failure(e)
    case Success(source) =>
      match row.shape
      case None =>
        if kind == PointShape then Failure("unsupported operand type(s) for -: 'NoneType' and 'int'")
        else Success([])
      case Some(v) =>
        Success(seq(|ids|, k requires 0 <= k < |ids| => Copy(ShiftVertices(v, source, ids[k]), IntToString(ids[k]), row.oid)))
  }

  /** Each copy is labelled with a text that reads back as its line id, and
      the copy on the row's own line sits exactly where the row was. */
  lemma CopiesToAllLabels(kind: ShapeType, row: Row, ids: seq<int>, k: nat)
    requires CopiesToAll(kind, row, ids).Success? && row.shape.Some? && k < |ids|
    ensures ParseInt(CopiesToAll(kind, row, ids).value[k].mnEtId) == Success(ids[k])
    ensures ids[k] == IntOfField(row.mnEtId).value ==> CopiesToAll(kind, row, ids).value[k].shape == row.shape.value
  {
    ParseIntOfString(ids[k]);
    ShiftVerticesRoundTrip(row.shape.value, ids[k], ids[k]);
  }

  /** The whole copy loop: the rows in order, each row's copies in id order;
      the first row that fails stops the tool. */
  function ProjectToAll(kind: ShapeType, rows: seq<Row>, ids: seq<int>): (r: Result<seq<Copy>, string>)
    ensures r.Failure? <==> exists i :: 0 <= i < |rows| && CopiesToAll(kind, rows[i], ids).Failure?
  {
    match MapAll((row: Row) => CopiesToAll(kind, row, ids), rows)
    case Failure(e) => Failure(e)
    case Success(per) => Success(Concat(per))
  }

  /** A row that copies contributes its copies right after the copies of
      the rows before it. */
  lemma ProjectToAllAppends(kind: ShapeType, rows: seq<Row>, extra: Row, ids: seq<int>)
    requires ProjectToAll(kind, rows, ids).Success? && CopiesToAll(kind, extra, ids).Success?
    ensures ProjectToAll(kind, rows + [extra], ids)
         == Success(ProjectToAll(kind, rows, ids).value + CopiesToAll(kind, extra, ids).value)
  {
    var f := (row: Row) => CopiesToAll(kind, row, ids);
    var per := MapAll(f, rows).value;
    MapAllSnoc(f, rows, extra);
    ConcatSnoc(per, CopiesToAll(kind, extra, ids).value);
  }

  /** The polygons the tool joins `mn_et_id` from: one per statewide id,
      0 to 2300 ft, in id order. */
  function JoinPolygons(): (r: seq<seq<Point>>)
    ensures |r| == StatewideIdCount
    ensures forall id :: 0 <= id < |r| ==> r[id] == BandPolygon(id, 0.0, 2300.0)
  {
    seq(StatewideIdCount, id requires 0 <= id < StatewideIdCount => BandPolygon(id, 0.0, 2300.0))
  }

  // ---------------------------------------------------------------------------
  // copying onto chosen lines

  /** An xsln row as the selection loop reads it: the line number field and
      the `mn_et_id` text. */
  datatype XslnRow = XslnRow(etId: string, mnEtId: Option<string>)

  /** What the selection loop gathers: the `mn_et_id` of the input line (the
      last row with that number; absent when there is none), those of the
      output lines in xsln order, and every line number once. */
  datatype Selection = Selection(input: Option<Option<string>>, targets: seq<Option<string>>, known: seq<string>)

  /** Row `i` is the last row whose number is `num`. */
  predicate LastWith(lines: seq<XslnRow>, num: string, i: int)
  {
    0 <= i < |lines| && lines[i].etId == num && forall j :: i < j < |lines| ==> lines[j].etId != num
  }

  /** The `mn_et_id` of the last row whose number is `num` (a later row with
      the same number overwrites an earlier one); absent when no row has
      that number. */
  function LastMatch(lines: seq<XslnRow>, num: string): (m: Option<Option<string>>)
    ensures m.None? <==> forall i :: 0 <= i < |lines| ==> lines[i].etId != num
    ensures m.Some? ==> exists i :: LastWith(lines, num, i) && lines[i].mnEtId == m.value
  {
    var keys := EtIds(lines);
    var k := LastIndexOf(keys, num);
    if k < 0 then
      assert forall i :: 0 <= i < |lines| ==> lines[i].etId != num by {
        forall i | 0 <= i < |lines| ensures lines[i].etId != num {
          assert keys[i] in keys;
        }
      }
      None
    else
      assert LastWith(lines, num, k);
      Some(lines[k].mnEtId)
  }

  /** The `mn_et_id`s of the rows whose number is among `nums`, in row
      order, repeats kept. */
  function Targets(lines: seq<XslnRow>, nums: seq<string>): (t: seq<Option<string>>)
    ensures |t| <= |lines|
    ensures forall x :: x in t <==> exists i :: 0 <= i < |lines| && lines[i].etId in nums && lines[i].mnEtId == x
    decreases |lines|
  {
    if |lines| == 0 then []
    else
      var n := |lines| - 1;
      var front := Targets(lines[..n], nums);
      assert forall i :: 0 <= i < n ==> lines[..n][i] == lines[i];
      if lines[n].etId in nums then front + [lines[n].mnEtId] else front
  }

  /** The line numbers of the rows. */
  function EtIds(lines: seq<XslnRow>): (ids: seq<string>)
    ensures |ids| == |lines|
    ensures forall i :: 0 <= i < |lines| ==> ids[i] == lines[i].etId
  {
    seq(|lines|, i requires 0 <= i < |lines| => lines[i].etId)
  }

  /** The selection loop over the xsln rows, as the tool runs it. */
  method SelectTargets(lines: seq<XslnRow>, inputNum: string, outputNums: seq<string>) returns (s: Selection)
    ensures s.input == LastMatch(lines, inputNum)
    ensures s.targets == Targets(lines, outputNums)
    ensures s.known == Dedup(EtIds(lines))
  {
    var input: Option<Option<string>> := None;
    var targets: seq<Option<string>> := [];
    var known: seq<string> := [];
    var i := 0;
    while i < |lines|
      invariant 0 <= i <= |lines|
      invariant Selection(input, targets, known) == Gathered(lines[..i], inputNum, outputNums)
    {
      var line := lines[i];
      assert lines[..i + 1][..i] == lines[..i];
      if line.etId == inputNum {
        input := Some(line.mnEtId);
      }
      if line.etId in outputNums {
        targets := targets + [line.mnEtId];
      }
      if line.etId !in known {
        known := known + [line.etId];
      }
      i := i + 1;
    }
    assert lines[..i] == lines;
    GatheredIs(lines, inputNum, outputNums);
    s := Selection(input, targets, known);
  }

  /** One pass of the selection loop. */
  function SelectOne(s: Selection, line: XslnRow, inputNum: string, outputNums: seq<string>): Selection
  {
    Selection(if line.etId == inputNum then Some(line.mnEtId) else s.input,
              if line.etId in outputNums then s.targets + [line.mnEtId] else s.targets,
              if line.etId in s.known then s.known else s.known + [line.etId])
  }

  /** The passes of the selection loop over `lines`, from the empty start. */
  function Gathered(lines: seq<XslnRow>, inputNum: string, outputNums: seq<string>): Selection
    decreases |lines|
  {
    if |lines| == 0 then Selection(None, [], [])
    else SelectOne(Gathered(lines[..|lines| - 1], inputNum, outputNums), lines[|lines| - 1], inputNum, outputNums)
  }

  /** The loop gathers the last match of the input number, the matches of
      the output numbers and the distinct line numbers. */
  lemma {:induction false} GatheredIs(lines: seq<XslnRow>, inputNum: string, outputNums: seq<string>)
    ensures Gathered(lines, inputNum, outputNums)
         == Selection(LastMatch(lines, inputNum), Targets(lines, outputNums), Dedup(EtIds(lines)))
    decreases |lines|
  {
    if |lines| > 0 {
      var n := |lines| - 1;
      GatheredIs(lines[..n], inputNum, outputNums);
      SelectStep(lines, n, inputNum, outputNums);
      assert lines[..n + 1] == lines;
    } else {
      assert EtIds(lines) == [];
    }
  }

  /** One more row updates each gathered value the way one pass of the
      loop does. */
  lemma SelectStep(lines: seq<XslnRow>, i: nat, inputNum: string, outputNums: seq<string>)
    requires i < |lines|
    ensures LastMatch(lines[..i + 1], inputNum)
         == if lines[i].etId == inputNum then Some(lines[i].mnEtId) else LastMatch(lines[..i], inputNum)
    ensures Targets(lines[..i + 1], outputNums)
         == if lines[i].etId in outputNums then Targets(lines[..i], outputNums) + [lines[i].mnEtId]
            else Targets(lines[..i], outputNums)
    ensures Dedup(EtIds(lines[..i + 1]))
         == if lines[i].etId in Dedup(EtIds(lines[..i])) then Dedup(EtIds(lines[..i]))
            else Dedup(EtIds(lines[..i])) + [lines[i].etId]
  {
    var front, keys := lines[..i], EtIds(lines[..i]);
    assert lines[..i + 1][..i] == front;
    assert EtIds(lines[..i + 1]) == keys + [lines[i].etId];
    LastIndexOfSnoc(keys, lines[i].etId, inputNum);
    DedupSnoc(keys, lines[i].etId);
  }

  /** The numbers reported as missing from the xsln: the input number
      first, then each missing output number. They are only printed. */
  function SelectionErrors(inputNum: string, outputNums: seq<string>, known: seq<string>): (errs: seq<string>)
    ensures |errs| == 0 <==> inputNum in known && forall n :: n in outputNums ==> n in known
    ensures forall e :: e in errs ==> e !in known && (e == inputNum || e in outputNums)
  {
    var missing := Without(outputNums, known);
    assert |missing| == 0 <==> forall n :: n in outputNums ==> n in known by {
      if |missing| > 0 { assert missing[0] in missing; }
    }
    (if inputNum in known then [] else [inputNum]) + missing
  }

  /** The clip polygon of the input line: its 0 to 2300 ft band across the
      state. No row with the input number leaves `in_mn_et_id` unset, and
      the tool stops with a NameError. */
  function InputBand(sel: Selection): (r: Result<seq<Point>, string>)
    ensures r.Failure? <==> sel.input.None? || IntOfField(sel.input.value).Failure?
    ensures r.Success? ==> r.value == BandPolygon(IntOfField(sel.input.value).value, 0.0, 2300.0)
  {
    match sel.input
    case None => Failure("name 'in_mn_et_id' is not defined")
    case Some(v) =>
      match IntOfField(v)
      case Failure(e) => Failure(e)
      case Success(id) => Success(BandPolygon(id, 0.0, 2300.0))
  }

  /** The input band is the statewide rectangle whose top and bottom are
      the stacked heights of 2300 ft and 0 ft. */
  lemma InputBandBounds(sel: Selection)
    requires InputBand(sel).Success?
    ensures var r := InputBand(sel).value; var id := IntOfField(sel.input.value).value;
            |r| == 4 && r[0].x == r[3].x == StateMinX && r[1].x == r[2].x == StateMaxX
            && FromStacked(r[0].y, id, CountyRelief, StackedVE) == 2300.0
            && FromStacked(r[3].y, id, CountyRelief, StackedVE) == 0.0
  {
    var id := IntOfField(sel.input.value).value;
    StackedRoundTrip(2300.0, id, CountyRelief, StackedVE);
    StackedRoundTrip(0.0, id, CountyRelief, StackedVE);
  }

  /** The copies of one clipped row onto the chosen lines. Each target text
      goes through `int()` and is written back unchanged as the copy's
      `mn_et_id`. */
  function CopiesToSelected(kind: ShapeType, row: Row, targets: seq<Option<string>>): (r: Result<seq<Copy>, string>)
    ensures r.Failure? <==>
              || IntOfField(row.mnEtId).Failure?
              || (kind == PointShape && row.shape.None?)
              || (row.shape.Some? && exists k :: 0 <= k < |targets| && IntOfField(targets[k]).Failure?)
    ensures r.Success? && row.shape.None? ==> r.value == []
    ensures r.Success? && row.shape.Some? ==>
              |r.value| == |targets| &&
              forall k :: 0 <= k < |targets| ==>
                targets[k].Some? && IntOfField(targets[k]).Success? &&
                r.value[k] == Copy(ShiftVertices(row.shape.value, IntOfField(row.mnEtId).value, IntOfField(targets[k]).value),
                                   targets[k].value, row.oid)
  {
    match IntOfField(row.mnEtId)
    case Failure(e) => Failure(e)
    case Success(source) =>
      match row.shape
      case None =>
        if kind == PointShape then Failure("unsupported operand type(s) for -: 'NoneType' and 'int'")
        else Success([])
      case Some(v) => CopiesOnto(v, source, targets, row.oid)
  }

  /** The inner loop over the target texts: `int()` of each, then the copy
      labelled with the text itself. */
  function CopiesOnto(v: seq<Point>, source: int, targets: seq<Option<string>>, oid: Option<int>): (r: Result<seq<Copy>, string>)
    ensures r.Failure? <==> exists k :: 0 <= k < |targets| && IntOfField(targets[k]).Failure?
    ensures r.Success? ==>
              |r.value| == |targets| &&
              forall k :: 0 <= k < |targets| ==>
                targets[k].Some? && IntOfField(targets[k]).Success? &&
                r.value[k] == Copy(ShiftVertices(v, source, IntOfField(targets[k]).value), targets[k].value, oid)
  {
    match IntsOfFields(targets)
    case Failure(e) => Failure(e)
    case Success(ids) =>
      assert forall k :: 0 <= k < |targets| ==> targets[k].Some? by {
        forall k | 0 <= k < |targets| ensures targets[k].Some? {
          assert IntOfField(targets[k]) == Success(ids[k]);
        }
      }
      Success(seq(|targets|, k requires 0 <= k < |targets| => Copy(ShiftVertices(v, source, ids[k]), targets[k].value, oid)))
  }

  /** Copying onto chosen lines agrees with copying onto all of them: for
      well-formed target texts the copies are those onto the parsed ids,
      labelled with the texts the user picked instead of `str(id)`. */
  lemma SelectedAgreesWithAll(kind: ShapeType, row: Row, targets: seq<Option<string>>, ids: seq<int>)
    requires |ids| == |targets|
    requires forall k :: 0 <= k < |targets| ==> IntOfField(targets[k]) == Success(ids[k])
    requires row.shape.Some?
    ensures CopiesToSelected(kind, row, targets).Success? <==> CopiesToAll(kind, row, ids).Success?
    ensures CopiesToSelected(kind, row, targets).Success? ==>
              forall k :: 0 <= k < |ids| ==>
                CopiesToSelected(kind, row, targets).value[k].shape == CopiesToAll(kind, row, ids).value[k].shape
  {
  }
}

=== FILE: traditional.dfy ===
/** The stacked-to-traditional converter: every feature drawn in the stacked
    system along a cross-section line is redrawn in the traditional view of
    that line, x measured from the line's western end and y the elevation. */
module TraditionalConversion {
  import opened Wrappers
  import opened PyStrings
  import opened Transforms
  import opened XsecFeatures

  /** The feet-per-metre literal the converter multiplies by. */
  const FeetPerMetre: real := 3.280839895
  /** How far the literal is from the exact `1 / 0.3048`: their ratio. */
  const FootRatio: real := FeetPerMetre * FootInMetres

  /** The literal is not the exact conversion factor: it is short by about
      four parts in a million million. */
  lemma FeetPerMetreInexact()
    ensures FeetPerMetre != 1.0 / FootInMetres
    ensures 0.99999999999 < FootRatio < 1.0
  {
  }

  /** One converted vertex. Its x is the traditional x of the distance from
      the western end, scaled by the literal's ratio, and its y is the
      elevation the stacked y encodes in band `id`. */
  function ToTraditionalPoint(p: Point, minX: real, id: int, inVE: real, outVE: real): (q: Point)
    requires inVE != 0.0 && outVE != 0.0
    ensures q.x == TraditionalX(p.x - minX, outVE) * FootRatio
    ensures ToStacked(q.y, id, CountyRelief, inVE) == p.y
  {
    var d := p.x - minX;
    assert d / outVE * FeetPerMetre == (d / FootInMetres) / outVE * (FeetPerMetre * FootInMetres);
    StackedInverseRoundTrip(p.y, id, CountyRelief, inVE);
    Point(d / outVE * FeetPerMetre, FromStacked(p.y, id, CountyRelief, inVE))
  }

  /** A point drawn in the stacked system at elevation `z` comes back at
      exactly `z`. */
  lemma ToTraditionalElevation(x: real, z: real, minX: real, id: int, inVE: real, outVE: real)
    requires inVE != 0.0 && outVE != 0.0
    ensures ToTraditionalPoint(Point(x, ToStacked(z, id, CountyRelief, inVE)), minX, id, inVE, outVE).y == z
  {
    StackedRoundTrip(z, id, CountyRelief, inVE);
  }

  /** The western end of the line lands at x 0, and with a positive
      exaggeration west-to-east order is kept. */
  lemma ToTraditionalOrder(p1: Point, p2: Point, minX: real, id: int, inVE: real, outVE: real)
    requires inVE != 0.0 && outVE > 0.0
    ensures p1.x == minX ==> ToTraditionalPoint(p1, minX, id, inVE, outVE).x == 0.0
    ensures p1.x < p2.x <==> ToTraditionalPoint(p1, minX, id, inVE, outVE).x < ToTraditionalPoint(p2, minX, id, inVE, outVE).x
  {
    TraditionalMonotone(p1.x - minX, p2.x - minX, outVE);
    var t1, t2 := TraditionalX(p1.x - minX, outVE), TraditionalX(p2.x - minX, outVE);
    assert t2 * FootRatio - t1 * FootRatio == (t2 - t1) * FootRatio;
  }

  /** A line the converter draws features against: its `mn_et_id` text is
      an integer and it has vertices to take the western end from. */
  predicate Convertible(x: Xsln)
  {
    x.mnEtId.Some? && ParseInt(x.mnEtId.value).Success? && |x.vertices| > 0
  }

  /** The vertex conversion used for every feature of line `x`; None when an
      exaggeration is zero, since every vertex then divides by zero. */
  function TraditionalVertex(x: Xsln, inVE: real, outVE: real): (conv: Option<Point -> Point>)
    requires Convertible(x)
    ensures conv.None? <==> inVE == 0.0 || outVE == 0.0
    ensures conv.Some? ==> forall p :: conv.value(p)
                                       == ToTraditionalPoint(p, MinX(x.vertices), ParseInt(x.mnEtId.value).value, inVE, outVE)
  {
    if inVE == 0.0 || outVE == 0.0 then None
    else
      var minX, id := MinX(x.vertices), ParseInt(x.mnEtId.value).value;
      Some(p => ToTraditionalPoint(p, minX, id, inVE, outVE))
  }

  /** When converting the features of one line raises: its `mn_et_id` text
      is not an integer (ValueError), it has no vertices (IndexError on the
      first one), or, for points, one of its rows has a null geometry or an
      exaggeration is zero. A line without `mn_et_id` never raises. */
  predicate TraditionalLineRaises(kind: ShapeType, x: Xsln, feats: seq<Feature>, inVE: real, outVE: real)
  {
    && x.mnEtId.Some?
    && (|| ParseInt(x.mnEtId.value).Failure?
        || |x.vertices| == 0
        || (kind == PointShape && exists i :: 0 <= i < |feats| && PointRaises(feats[i], x.etId, inVE == 0.0 || outVE == 0.0)))
  }

  /** The features along one line. A line without `mn_et_id` is skipped. */
  function ConvertXslnToTraditional(kind: ShapeType, x: Xsln, feats: seq<Feature>, inVE: real, outVE: real)
    : (r: Result<seq<Output>, string>)
    ensures x.mnEtId.None? ==> r == Success([])
    ensures r.Failure? <==> TraditionalLineRaises(kind, x, feats, inVE, outVE)
    ensures r.Success? ==> forall k :: 0 <= k < |r.value| ==> r.value[k].etId == x.etId && r.value[k].mnEtId == x.mnEtId
  {
    match x.mnEtId
    case None => Success([])
    case Some(text) =>
      match ParseInt(text)
      case Failure(e) => Failure(e)
      case Success(_) =>
        if |x.vertices| == 0 then Failure("list index out of range")
        else ConvertSelected(kind, feats, x.etId, x.mnEtId, TraditionalVertex(x, inVE, outVE))
  }

  /** The whole conversion: the outer cursor over lines, the inner over
      features. It raises exactly when one of the lines does, and every row
      it writes carries an `mn_et_id`. */
  function ConvertToTraditional(kind: ShapeType, xs: seq<Xsln>, feats: seq<Feature>, inVE: real, outVE: real)
    : (r: Result<seq<Output>, string>)
    ensures r.Failure? <==> exists j :: 0 <= j < |xs| && TraditionalLineRaises(kind, xs[j], feats, inVE, outVE)
    ensures r.Success? ==> forall o :: o in r.value ==> o.mnEtId.Some?
  {
    var perLine := (x: Xsln) => ConvertXslnToTraditional(kind, x, feats, inVE, outVE);
    var r := ConvertLines(xs, perLine);
    assert r.Success? ==> forall o :: o in r.value ==> o.mnEtId.Some? by {
      if r.Success? {
        forall o | o in r.value ensures o.mnEtId.Some? {
          var j :| 0 <= j < |xs| && perLine(xs[j]).Success? && o in perLine(xs[j]).value;
        }
      }
    }
    r
  }

  /** The rows written are exactly the selected features of the lines with
      an integer `mn_et_id`, each converted vertex by vertex with its line's
      western end and id, whose conversion goes through. */
  lemma ConvertToTraditionalOutputs(kind: ShapeType, xs: seq<Xsln>, feats: seq<Feature>, inVE: real, outVE: real, o: Output)
    requires ConvertToTraditional(kind, xs, feats, inVE, outVE).Success?
    ensures o in ConvertToTraditional(kind, xs, feats, inVE, outVE).value
            <==> exists j, i :: (&& 0 <= j < |xs| && 0 <= i < |feats| && Convertible(xs[j]) && Selected(xs[j].etId, feats[i])
                                 && Converted(feats[i], xs[j].etId, xs[j].mnEtId, TraditionalVertex(xs[j], inVE, outVE)) == Some(o))
  {
    var perLine := (x: Xsln) => ConvertXslnToTraditional(kind, x, feats, inVE, outVE);
    forall j | 0 <= j < |xs|
      ensures perLine(xs[j]).Success?
      ensures o in perLine(xs[j]).value
              <==> Convertible(xs[j]) && exists i :: (&& 0 <= i < |feats| && Selected(xs[j].etId, feats[i])
                                                      && Converted(feats[i], xs[j].etId, xs[j].mnEtId, TraditionalVertex(xs[j], inVE, outVE)) == Some(o))
    {
      if Convertible(xs[j]) {
        ConvertSelectedOutputs(kind, feats, xs[j].etId, xs[j].mnEtId, TraditionalVertex(xs[j], inVE, outVE), o);
      }
    }
  }

  /** With a zero exaggeration, every line or polygon feature that has
      vertices is dropped by the loop's `try` / `except: continue`; only
      empty geometries come through. */
  lemma ConvertToTraditionalZeroVE(kind: ShapeType, xs: seq<Xsln>, feats: seq<Feature>, inVE: real, outVE: real, o: Output)
    requires kind != PointShape && (inVE == 0.0 || outVE == 0.0)
    requires ConvertToTraditional(kind, xs, feats, inVE, outVE).Success?
    requires o in ConvertToTraditional(kind, xs, feats, inVE, outVE).value
    ensures o.shape == []
  {
    ConvertToTraditionalOutputs(kind, xs, feats, inVE, outVE, o);
  }

  /** What the `mn_et_id` check decides before converting. */
  datatype IdJoin = BothHaveId | JoinIdIntoInput | JoinIdIntoXsln | NoIdError

  /** Join `mn_et_id` from whichever table has it; only when neither does is
      an error reported. */
  function PlanIdJoin(xslnHasId: bool, inputHasId: bool): IdJoin
  {
    if xslnHasId && inputHasId then BothHaveId
    else if xslnHasId then JoinIdIntoInput
    else if inputHasId then JoinIdIntoXsln
    else NoIdError
  }

  /** Which tables hold `mn_et_id` once the planned join has run. */
  function IdAfterJoin(xslnHasId: bool, inputHasId: bool): (after: (bool, bool))
    ensures after.0 && after.1 <==> PlanIdJoin(xslnHasId, inputHasId) != NoIdError
    ensures PlanIdJoin(xslnHasId, inputHasId) == NoIdError <==> !xslnHasId && !inputHasId
  {
    match PlanIdJoin(xslnHasId, inputHasId)
    case BothHaveId => (true, true)
    case JoinIdIntoInput => (xslnHasId, true)
    case JoinIdIntoXsln => (true, inputHasId)
    case NoIdError => (false, false)
  }
}

=== FILE: transforms.dfy ===
/** The two display coordinate systems every cross-section tool draws in.

    Stacked: each cross-section line `id` gets its own horizontal band.  A
    point keeps its map x, and its elevation z (feet) becomes
    `y = ((z * 0.3048) - relief * id) * VE + 23100000`.

    Traditional: the along-line distance m (metres) becomes
    `x = (m / 0.3048) / VE`, and y is the true elevation. */
module Transforms {

  /** Metres in one foot. */
  const FootInMetres: real := 0.3048
  /** False northing that lifts every stacked band above the state. */
  const StackOffset: real := 23100000.0
  /** Default band spacing (`county_relief`) in metres. */
  const CountyRelief: real := 700.0
  /** Default vertical exaggeration of the stacked system. */
  const StackedVE: real := 50.0

  /** A 2D display or map coordinate. */
  datatype Point = Point(x: real, y: real)

  /** A 3D map vertex: easting, northing and elevation in feet. */
  datatype Point3 = Point3(x: real, y: real, z: real)

  /** Stacked display y of elevation `z` in the band of line `id`. */
  function ToStacked(z: real, id: int, relief: real, ve: real): real
  {
    ((z * FootInMetres) - relief * (id as real)) * ve + StackOffset
  }

  /** The stacked inverse: the elevation whose display y in band `id` is `y`. */
  function FromStacked(y: real, id: int, relief: real, ve: real): real
    requires ve != 0.0
  {
    (y - StackOffset) / (ve * FootInMetres) + relief * (id as real) / FootInMetres
  }

  /** The stacked transform with the statewide defaults, relief 700 and VE 50. */
  function StackedY(z: real, id: int): real
  {
    ToStacked(z, id, CountyRelief, StackedVE)
  }

  /** A map point moved into the stacked display: x kept, y from elevation. */
  function StackedPoint(x: real, z: real, id: int): (p: Point)
    ensures p.x == x
    ensures FromStacked(p.y, id, CountyRelief, StackedVE) == z
  {
    StackedRoundTrip(z, id, CountyRelief, StackedVE);
    Point(x, StackedY(z, id))
  }

  /** Re-projection: read y as an elevation in band `source`, draw it in band `target`. */
  function Reproject(y: real, source: int, target: int, relief: real, ve: real): real
    requires ve != 0.0
  {
    ToStacked(FromStacked(y, source, relief, ve), target, relief, ve)
  }

  /** Traditional display x of an along-line distance `m` in metres. */
  function TraditionalX(m: real, ve: real): real
    requires ve != 0.0
  {
    (m / FootInMetres) / ve
  }

  /** The true-X expansion `x * 0.3048 * VE` that the conversion tools apply. */
  function TrueXDistance(x: real, ve: real): real
  {
    x * FootInMetres * ve
  }

  /** `a * ve / (ve * k)` cancels to `a / k`. */
  lemma CancelFactor(a: real, ve: real, k: real)
    requires ve != 0.0 && k != 0.0
    ensures (a * ve) / (ve * k) == a / k
  {
    calc {
      (a * ve) / (ve * k);
      ((a / k) * (ve * k)) / (ve * k);
      a / k;
    }
  }

  /** The inverse undoes the forward transform for every elevation. */
  lemma StackedRoundTrip(z: real, id: int, relief: real, ve: real)
    requires ve != 0.0
    ensures FromStacked(ToStacked(z, id, relief, ve), id, relief, ve) == z
  {
    var a := (z * FootInMetres) - relief * (id as real);
    CancelFactor(a, ve, FootInMetres);
    assert (ToStacked(z, id, relief, ve) - StackOffset) / (ve * FootInMetres) == a / FootInMetres;
  }

  /** The forward transform undoes the inverse for every display y. */
  lemma StackedInverseRoundTrip(y: real, id: int, relief: real, ve: real)
    requires ve != 0.0
    ensures ToStacked(FromStacked(y, id, relief, ve), id, relief, ve) == y
  {
    var d := (y - StackOffset) / (ve * FootInMetres);
    assert d * (ve * FootInMetres) == y - StackOffset;
    var z := FromStacked(y, id, relief, ve);
    assert z * FootInMetres == d * FootInMetres + relief * (id as real);
    assert (z * FootInMetres - relief * (id as real)) * ve == d * FootInMetres * ve;
  }

  /** Re-projecting from band `source` to band `target` shifts y by
      `relief * VE * (source - target)`, whatever the elevation. */
  lemma ReprojectShift(y: real, source: int, target: int, relief: real, ve: real)
    requires ve != 0.0
    ensures Reproject(y, source, target, relief, ve) == y + relief * ve * ((source - target) as real)
  {
    var z := FromStacked(y, source, relief, ve);
    StackedInverseRoundTrip(y, source, relief, ve);
    assert ToStacked(z, target, relief, ve) - ToStacked(z, source, relief, ve)
        == relief * ve * ((source - target) as real);
  }

  /** Re-projecting a feature onto its own band leaves it where it was. */
  lemma ReprojectSameBand(y: real, id: int, relief: real, ve: real)
    requires ve != 0.0
    ensures Reproject(y, id, id, relief, ve) == y
  {
    ReprojectShift(y, id, id, relief, ve);
  }

  /** Two re-projections compose into one. */
  lemma ReprojectCompose(y: real, a: int, b: int, c: int, relief: real, ve: real)
    requires ve != 0.0
    ensures Reproject(Reproject(y, a, b, relief, ve), b, c, relief, ve) == Reproject(y, a, c, relief, ve)
  {
    ReprojectShift(y, a, b, relief, ve);
    ReprojectShift(Reproject(y, a, b, relief, ve), b, c, relief, ve);
    ReprojectShift(y, a, c, relief, ve);
  }

  /** With a positive exaggeration, higher ground is drawn higher in a band. */
  lemma StackedMonotone(z1: real, z2: real, id: int, relief: real, ve: real)
    requires ve > 0.0
    ensures z1 < z2 <==> ToStacked(z1, id, relief, ve) < ToStacked(z2, id, relief, ve)
  {
    var d := ToStacked(z2, id, relief, ve) - ToStacked(z1, id, relief, ve);
    assert d == (z2 - z1) * (FootInMetres * ve);
    assert FootInMetres * ve > 0.0;
  }

  /** The 50 to 2300 ft bands of different lines are disjoint: every point of
      a later band lies strictly below every point of an earlier one. */
  lemma BandsDisjoint(z1: real, z2: real, k: int, j: int)
    requires 50.0 <= z1 <= 2300.0 && 50.0 <= z2 <= 2300.0
    requires k < j
    ensures StackedY(z2, j) < StackedY(z1, k)
  {
  }

  /** So the 50 to 2300 ft band a stacked y falls in names its line. */
  lemma BandDeterminesId(z1: real, z2: real, k: int, j: int)
    requires 50.0 <= z1 <= 2300.0 && 50.0 <= z2 <= 2300.0
    requires StackedY(z1, k) == StackedY(z2, j)
    ensures k == j && z1 == z2
  {
    if k < j {
      BandsDisjoint(z1, z2, k, j);
    } else if j < k {
      BandsDisjoint(z2, z1, j, k);
    }
    StackedRoundTrip(z1, k, CountyRelief, StackedVE);
    StackedRoundTrip(z2, j, CountyRelief, StackedVE);
  }

  /** The 0 to 2300 ft bands are 701.04 m tall before exaggeration, more
      than the 700 m spacing, so the top of band `k + 1` sits 52 display
      units above the bottom of band `k`. */
  lemma BandsOverlap(k: int)
    ensures StackedY(2300.0, k + 1) - StackedY(0.0, k) == 52.0
    ensures StackedY(0.0, k + 1) < StackedY(0.0, k) < StackedY(2300.0, k + 1)
  {
  }

  /** The true-X expansion undoes the traditional compression. */
  lemma TraditionalRoundTrip(m: real, ve: real)
    requires ve != 0.0
    ensures TrueXDistance(TraditionalX(m, ve), ve) == m
  {
    var t := TraditionalX(m, ve);
    assert t * ve == m / FootInMetres;
  }

  /** And the compression undoes the expansion. */
  lemma TrueXRoundTrip(x: real, ve: real)
    requires ve != 0.0
    ensures TraditionalX(TrueXDistance(x, ve), ve) == x
  {
    assert TrueXDistance(x, ve) / FootInMetres == x * ve;
  }

  /** Farther along the line is farther right in the traditional view. */
  lemma TraditionalMonotone(m1: real, m2: real, ve: real)
    requires ve > 0.0
    ensures m1 < m2 <==> TraditionalX(m1, ve) < TraditionalX(m2, ve)
  {
    var d := TraditionalX(m2, ve) - TraditionalX(m1, ve);
    assert d * ve * FootInMetres == m2 - m1;
  }
}

=== FILE: truex.dfy ===
/** The true-X converters: a cross-section drawn in the true-Y system
    (traditional x along the line) or in the stacked system is redrawn with
    its map x and an exaggerated elevation. The newer converter takes the
    input system and two exaggerations; the older one only true-Y input and
    one exaggeration. */
module TrueXConversion {
  import opened Wrappers
  import opened PyStrings
  import opened Transforms
  import opened XsecFeatures

  /** The two input systems the converter understands. */
  datatype InputSystem = TrueY | Stacked

  /** The tool parameter text naming each system. */
  function SystemName(s: InputSystem): string
  {
    match s
    case TrueY => "true Y"
    case Stacked => "stacked"
  }

  /** Exactly one of the two flags is set, for "true Y" or "stacked"; any
      other text leaves the cursor fields undefined and the run fails. */
  function ParseSystem(text: string): (r: Result<InputSystem, string>)
    ensures r.Success? <==> text == "true Y" || text == "stacked"
    ensures r.Success? ==> SystemName(r.value) == text
  {
    if text == "true Y" then Success(TrueY)
    else if text == "stacked" then Success(Stacked)
    else Failure("Input file is already in True X system")
  }

  /** Naming a system and reading the name back gives the same system. */
  lemma ParseSystemName(s: InputSystem)
    ensures ParseSystem(SystemName(s)) == Success(s)
  {
  }

  /** True-Y input: x is expanded from the traditional view and moved to the
      line's western end; y is exaggerated by the output factor. */
  function TrueYToTrueX(p: Point, minX: real, inVE: real, outVE: real): (q: Point)
    ensures inVE != 0.0 ==> TraditionalX(q.x - minX, inVE) == p.x
    ensures outVE != 0.0 ==> q.y / (FootInMetres * outVE) == p.y
    ensures inVE == 0.0 ==> q.x == minX
    ensures outVE == 0.0 ==> q.y == 0.0
  {
    var q := Point(TrueXDistance(p.x, inVE) + minX, p.y * FootInMetres * outVE);
    assert inVE != 0.0 ==> TraditionalX(q.x - minX, inVE) == p.x by {
      if inVE != 0.0 { TrueXRoundTrip(p.x, inVE); }
    }
    q
  }

  /** A point at distance `m` along a line, drawn traditionally with `inVE`,
      is put back at map distance `m` from the western end. */
  lemma TrueYToTrueXDistance(m: real, y: real, minX: real, inVE: real, outVE: real)
    requires inVE != 0.0
    ensures TrueYToTrueX(Point(TraditionalX(m, inVE), y), minX, inVE, outVE).x == minX + m
  {
    TraditionalRoundTrip(m, inVE);
  }

  /** Stacked input: x is kept; y is the elevation read from band `id` with
      `inVE`, converted to metres and exaggerated by `outVE`. */
  function StackedToTrueX(p: Point, id: int, inVE: real, outVE: real): (q: Point)
    requires inVE != 0.0
    ensures q.x == p.x
    ensures q.y == (p.y - StackOffset) * outVE / inVE + CountyRelief * (id as real) * outVE
  {
    var z := FromStacked(p.y, id, CountyRelief, inVE);
    var d := (p.y - StackOffset) / (inVE * FootInMetres);
    assert d * FootInMetres == (p.y - StackOffset) / inVE;
    assert z * FootInMetres * outVE == (d * FootInMetres + CountyRelief * (id as real)) * outVE;
    Point(p.x, z * FootInMetres * outVE)
  }

  /** A stacked point at elevation `z` becomes `z` metres times `outVE`:
      converting with the same exaggeration rescales nothing but units. */
  lemma StackedToTrueXElevation(x: real, z: real, id: int, inVE: real, outVE: real)
    requires inVE != 0.0
    ensures StackedToTrueX(Point(x, ToStacked(z, id, CountyRelief, inVE)), id, inVE, outVE).y
            == z * FootInMetres * outVE
  {
    StackedRoundTrip(z, id, CountyRelief, inVE);
  }

  /** The vertex conversion the newer converter applies along line `x`
      (band `id` in the stacked system); None when the stacked arithmetic
      divides by a zero input exaggeration. True-Y input never divides. */
  function TrueXVertex(sys: InputSystem, x: Xsln, id: int, inVE: real, outVE: real): (conv: Option<Point -> Point>)
    requires |x.vertices| > 0
    ensures conv.None? <==> sys == Stacked && inVE == 0.0
    ensures conv.Some? && sys == TrueY ==> forall p :: conv.value(p) == TrueYToTrueX(p, MinX(x.vertices), inVE, outVE)
    ensures conv.Some? && sys == Stacked ==> forall p :: conv.value(p) == StackedToTrueX(p, id, inVE, outVE)
  {
    match sys
    case TrueY =>
      var minX := MinX(x.vertices);
      Some(p => TrueYToTrueX(p, minX, inVE, outVE))
    case Stacked =>
      if inVE == 0.0 then None else Some(p => StackedToTrueX(p, id, inVE, outVE))
  }

  /** The band a line's features are read in: `int(mn_et_id)` in the stacked
      system, which raises on a null or non-integer text; the true-Y system
      reads no id. */
  function LineBand(sys: InputSystem, x: Xsln): (r: Result<int, string>)
    ensures sys == TrueY ==> r.Success?
    ensures sys == Stacked ==> r == IntOfField(x.mnEtId)
  {
    match sys
    case TrueY => Success(0)
    case Stacked => IntOfField(x.mnEtId)
  }

  /** The `mn_et_id` an output row carries: the line's text in the stacked
      system, none in the true-Y system. */
  function OutputTag(sys: InputSystem, x: Xsln): Option<string>
  {
    match sys
    case TrueY => None
    case Stacked => x.mnEtId
  }

  /** When converting the features of one line raises: in the stacked
      system its `mn_et_id` is null or not an integer; in either system it
      has no vertices (IndexError on the first one); for points, one of its
      rows has a null geometry or the stacked input exaggeration is zero. */
  predicate TrueXLineRaises(sys: InputSystem, kind: ShapeType, x: Xsln, feats: seq<Feature>, inVE: real)
  {
    || (sys == Stacked && IntOfField(x.mnEtId).Failure?)
    || |x.vertices| == 0
    || (kind == PointShape && exists i :: 0 <= i < |feats| && PointRaises(feats[i], x.etId, sys == Stacked && inVE == 0.0))
  }

  /** The features along one line, in the newer converter. */
  function ConvertXslnToTrueX(sys: InputSystem, kind: ShapeType, x: Xsln, feats: seq<Feature>, inVE: real, outVE: real)
    : (r: Result<seq<Output>, string>)
    ensures r.Failure? <==> TrueXLineRaises(sys, kind, x, feats, inVE)
    ensures r.Success? ==> forall k :: 0 <= k < |r.value| ==> r.value[k].etId == x.etId && r.value[k].mnEtId == OutputTag(sys, x)
  {
    match LineBand(sys, x)
    case Failure(e) => Failure(e)
    case Success(id) =>
      if |x.vertices| == 0 then Failure("list index out of range")
      else ConvertSelected(kind, feats, x.etId, OutputTag(sys, x), TrueXVertex(sys, x, id, inVE, outVE))
  }

  /** The newer converter over all lines. It raises exactly when one line
      does; stacked output carries each line's `mn_et_id`, true-Y output
      none. */
  function ConvertToTrueX(sys: InputSystem, kind: ShapeType, xs: seq<Xsln>, feats: seq<Feature>, inVE: real, outVE: real)
    : (r: Result<seq<Output>, string>)
    ensures r.Failure? <==> exists j :: 0 <= j < |xs| && TrueXLineRaises(sys, kind, xs[j], feats, inVE)
    ensures r.Success? ==> forall o :: o in r.value ==> (o.mnEtId.Some? <==> sys == Stacked)
  {
    var perLine := (x: Xsln) => ConvertXslnToTrueX(sys, kind, x, feats, inVE, outVE);
    var r := ConvertLines(xs, perLine);
    assert r.Success? ==> forall o :: o in r.value ==> (o.mnEtId.Some? <==> sys == Stacked) by {
      if r.Success? {
        forall o | o in r.value ensures o.mnEtId.Some? <==> sys == Stacked {
          var j :| 0 <= j < |xs| && perLine(xs[j]).Success? && o in perLine(xs[j]).value;
          assert !TrueXLineRaises(sys, kind, xs[j], feats, inVE);
        }
      }
    }
    r
  }

  /** The rows written are exactly the selected features of every line,
      each converted with that line's western end or band, whose conversion
      goes through. */
  lemma ConvertToTrueXOutputs(sys: InputSystem, kind: ShapeType, xs: seq<Xsln>, feats: seq<Feature>, inVE: real, outVE: real, o: Output)
    requires ConvertToTrueX(sys, kind, xs, feats, inVE, outVE).Success?
    ensures o in ConvertToTrueX(sys, kind, xs, feats, inVE, outVE).value
            <==> exists j, i :: (&& 0 <= j < |xs| && 0 <= i < |feats| && |xs[j].vertices| > 0 && LineBand(sys, xs[j]).Success?
                                 && Selected(xs[j].etId, feats[i])
                                 && Converted(feats[i], xs[j].etId, OutputTag(sys, xs[j]),
                                              TrueXVertex(sys, xs[j], LineBand(sys, xs[j]).value, inVE, outVE)) == Some(o))
  {
    var perLine := (x: Xsln) => ConvertXslnToTrueX(sys, kind, x, feats, inVE, outVE);
    forall j | 0 <= j < |xs|
      ensures perLine(xs[j]).Success? && |xs[j].vertices| > 0 && LineBand(sys, xs[j]).Success?
      ensures o in perLine(xs[j]).value
              <==> exists i :: (&& 0 <= i < |feats| && Selected(xs[j].etId, feats[i])
                                && Converted(feats[i], xs[j].etId, OutputTag(sys, xs[j]),
                                             TrueXVertex(sys, xs[j], LineBand(sys, xs[j]).value, inVE, outVE)) == Some(o))
    {
      assert !TrueXLineRaises(sys, kind, xs[j], feats, inVE);
      ConvertSelectedOutputs(kind, feats, xs[j].etId, OutputTag(sys, xs[j]),
                             TrueXVertex(sys, xs[j], LineBand(sys, xs[j]).value, inVE, outVE), o);
    }
  }

  /** Stacked input with a zero input exaggeration: every line or polygon
      feature that has vertices is dropped by the loop's `try` /
      `except: continue`. */
  lemma ConvertToTrueXZeroVE(kind: ShapeType, xs: seq<Xsln>, feats: seq<Feature>, outVE: real, o: Output)
    requires kind != PointShape
    requires ConvertToTrueX(Stacked, kind, xs, feats, 0.0, outVE).Success?
    requires o in ConvertToTrueX(Stacked, kind, xs, feats, 0.0, outVE).value
    ensures o.shape == []
  {
    ConvertToTrueXOutputs(Stacked, kind, xs, feats, 0.0, outVE, o);
  }

  /** The older converter: true-Y input only, one exaggeration for x and y. */
  function ArchiveTrueXPoint(p: Point, minX: real, ve: real): (q: Point)
    ensures ve != 0.0 ==> TraditionalX(q.x - minX, ve) == p.x
  {
    var q := Point(p.x * FootInMetres * ve + minX, p.y * FootInMetres * ve);
    assert ve != 0.0 ==> TraditionalX(q.x - minX, ve) == p.x by {
      if ve != 0.0 { TrueXRoundTrip(p.x, ve); }
    }
    q
  }

  /** The older converter is the newer one's true-Y mode with equal
      exaggerations. */
  lemma ArchiveIsTrueYMode(p: Point, minX: real, ve: real)
    ensures ArchiveTrueXPoint(p, minX, ve) == TrueYToTrueX(p, minX, ve, ve)
  {
  }

  /** The features along one line, in the older converter: it reads no
      `mn_et_id`, multiplies only, and has no `try` around the line loop. */
  function ArchiveXslnToTrueX(kind: ShapeType, x: Xsln, feats: seq<Feature>, ve: real): (r: Result<seq<Output>, string>)
    ensures r.Failure? <==> |x.vertices| == 0 || (kind == PointShape && exists i :: 0 <= i < |feats| && PointRaises(feats[i], x.etId, false))
    ensures r.Success? ==> forall k :: 0 <= k < |r.value| ==> r.value[k].etId == x.etId && r.value[k].mnEtId.None?
  {
    if |x.vertices| == 0 then Failure("list index out of range")
    else
      var minX := MinX(x.vertices);
      ConvertSelected(kind, feats, x.etId, None, Some(p => ArchiveTrueXPoint(p, minX, ve)))
  }

  /** The older converter over all lines: it raises exactly when a line has
      no vertices or, for points, a selected row has a null geometry. */
  function ArchiveConvertToTrueX(kind: ShapeType, xs: seq<Xsln>, feats: seq<Feature>, ve: real): (r: Result<seq<Output>, string>)
    ensures r.Failure? <==> exists j :: (&& 0 <= j < |xs|
                                         && (|| |xs[j].vertices| == 0
                                             || (kind == PointShape && exists i :: 0 <= i < |feats| && PointRaises(feats[i], xs[j].etId, false))))
    ensures r.Success? ==> forall o :: o in r.value ==> o.mnEtId.None? && exists j :: 0 <= j < |xs| && xs[j].etId == o.etId
  {
    var perLine := (x: Xsln) => ArchiveXslnToTrueX(kind, x, feats, ve);
    var r := ConvertLines(xs, perLine);
    assert r.Success? ==> forall o :: o in r.value ==> o.mnEtId.None? && exists j :: 0 <= j < |xs| && xs[j].etId == o.etId by {
      if r.Success? {
        forall o | o in r.value ensures o.mnEtId.None? && exists j :: 0 <= j < |xs| && xs[j].etId == o.etId {
          var j :| 0 <= j < |xs| && perLine(xs[j]).Success? && o in perLine(xs[j]).value;
        }
      }
    }
    r
  }

  /** Converting one line's features with two vertex conversions that agree
      on every point gives the same rows. */
  lemma {:induction false} ConvertSelectedAgree(kind: ShapeType, feats: seq<Feature>, etId: string, mnEtId: Option<string>,
                                                f: Point -> Point, g: Point -> Point)
    requires forall p :: f(p) == g(p)
    ensures ConvertSelected(kind, feats, etId, mnEtId, Some(f)) == ConvertSelected(kind, feats, etId, mnEtId, Some(g))
    decreases |feats|
  {
    if |feats| > 0 {
      ConvertSelectedAgree(kind, feats[1..], etId, mnEtId, f, g);
      if feats[0].shape.Some? {
        assert MapPoints(feats[0].shape.value, f) == MapPoints(feats[0].shape.value, g);
      }
    }
  }

  /** The whole older converter is the newer one run on true-Y input with
      the same exaggeration in and out: same rows, same failures. */
  lemma {:induction false} ArchiveIsTrueYConversion(kind: ShapeType, xs: seq<Xsln>, feats: seq<Feature>, ve: real)
    ensures ArchiveConvertToTrueX(kind, xs, feats, ve) == ConvertToTrueX(TrueY, kind, xs, feats, ve, ve)
  {
    var older := (x: Xsln) => ArchiveXslnToTrueX(kind, x, feats, ve);
    var newer := (x: Xsln) => ConvertXslnToTrueX(TrueY, kind, x, feats, ve, ve);
    forall x: Xsln ensures older(x) == newer(x) {
      if |x.vertices| > 0 {
        var minX := MinX(x.vertices);
        ConvertSelectedAgree(kind, feats, x.etId, None, p => ArchiveTrueXPoint(p, minX, ve), TrueXVertex(TrueY, x, 0, ve, ve).value);
      }
    }
    MapAllAgree(xs, older, newer);
  }
}

=== FILE: units.dfy ===
/** The unit lists of the stratigraphy QC tools: the unit names read from a
    text file (one per line), the units found on the stratlines and in the
    surficial geology polygons (sgpg), and the comparisons between them. */
module UnitLists {
  import opened Wrappers
  import opened PyLists
  import opened PyStrings

  // ---------------------------------------------------------------------------
  // the unit list text file

  /** `while v in l: l.remove(v)`. */
  function RemoveAll<T(==,!new)>(l: seq<T>, v: T): (r: seq<T>)
    ensures v !in r
    decreases |l|
  {
    if v in l then RemoveAll(RemoveFirst(l, v), v) else l
  }

  lemma {:induction false} WithoutAppend<T(!new)>(a: seq<T>, b: seq<T>, drop: seq<T>)
    ensures Without(a + b, drop) == Without(a, drop) + Without(b, drop)
    decreases |a|
  {
    if |a| > 0 {
      var ab := a + b;
      assert ab[0] == a[0] && ab[1..] == a[1..] + b;
      WithoutAppend(a[1..], b, drop);
      if a[0] in drop {
        assert Without(ab, drop) == Without(a[1..] + b, drop);
      } else {
        assert Without(ab, drop) == [a[0]] + Without(a[1..] + b, drop);
      }
    } else {
      assert a + b == b;
    }
  }

  lemma {:induction false} WithoutNothingDropped<T(!new)>(a: seq<T>, drop: seq<T>)
    requires forall i :: 0 <= i < |a| ==> a[i] !in drop
    ensures Without(a, drop) == a
    decreases |a|
  {
    if |a| > 0 {
      WithoutNothingDropped(a[1..], drop);
      assert a == [a[0]] + a[1..];
    }
  }

  /** Removing one occurrence at a time until none is left removes every
      occurrence and keeps the rest in order. */
  lemma {:induction false} RemoveAllIsWithout<T(!new)>(l: seq<T>, v: T)
    ensures RemoveAll(l, v) == Without(l, [v])
    decreases |l|
  {
    if v in l {
      var k := IndexOf(l, v);
      var a, c := l[..k], l[k + 1..];
      assert l == a + [v] + c;
      assert RemoveFirst(l, v) == a + c;
      calc {
        RemoveAll(l, v);
        RemoveAll(a + c, v);
        { RemoveAllIsWithout(a + c, v); }
        Without(a + c, [v]);
        { WithoutAppend(a, c, [v]); }
        Without(a, [v]) + Without(c, [v]);
        { assert Without([v], [v]) == []; }
        Without(a, [v]) + Without([v], [v]) + Without(c, [v]);
        { WithoutAppend(a, [v], [v]); }
        Without(a + [v], [v]) + Without(c, [v]);
        { WithoutAppend(a + [v], c, [v]); }
        Without(l, [v]);
      }
    } else {
      WithoutNothingDropped(l, [v]);
    }
  }

  /** One line of the file as the tools clean it: line break removed, then
      surrounding whitespace. */
  function CleanLine(line: string): (u: string)
    ensures '\n' !in u
  {
    var t := ReplaceAll(line, "\n", "");
    assert '\n' !in t by { ReplaceCharByNothing(line, '\n'); }
    assert '\n' !in Strip(t) by {
      if '\n' in Strip(t) { StripKeepsChars(t, '\n'); }
    }
    Strip(t)
  }

  /** Every line of the file cleaned, in file order. */
  function CleanedLines(lines: seq<string>): (c: seq<string>)
    ensures |c| == |lines|
    ensures forall i :: 0 <= i < |lines| ==> c[i] == CleanLine(lines[i])
  {
    seq(|lines|, i requires 0 <= i < |lines| => CleanLine(lines[i]))
  }

  /** The unit list: every line cleaned, in file order, blank ones removed. */
  function CleanUnitList(lines: seq<string>): (r: seq<string>)
    ensures r == Without(CleanedLines(lines), [""])
    ensures forall u :: u in r <==> u != "" && exists i :: 0 <= i < |lines| && CleanLine(lines[i]) == u
  {
    var cleaned := CleanedLines(lines);
    var r := RemoveAll(cleaned, "");
    assert r == Without(cleaned, [""]) by { RemoveAllIsWithout(cleaned, ""); }
    assert forall u :: u in r <==> u in cleaned && u != "";
    assert forall u :: u in cleaned <==> exists i :: 0 <= i < |lines| && CleanLine(lines[i]) == u by {
      forall u | u in cleaned ensures exists i :: 0 <= i < |lines| && CleanLine(lines[i]) == u {
        var i :| 0 <= i < |cleaned| && cleaned[i] == u;
      }
      forall u | exists i :: 0 <= i < |lines| && CleanLine(lines[i]) == u ensures u in cleaned {
        var i :| 0 <= i < |lines| && CleanLine(lines[i]) == u;
        assert cleaned[i] == u;
      }
    }
    r
  }

  lemma {:induction false} FilterKeepsAll<T(!new)>(l: seq<T>, keep: T -> bool)
    requires forall i :: 0 <= i < |l| ==> keep(l[i])
    ensures Filter(l, keep) == l
    decreases |l|
  {
    if |l| > 0 {
      FilterKeepsAll(l[1..], keep);
      assert l == [l[0]] + l[1..];
    }
  }

  /** A cleaned line is clean already. */
  lemma CleanLineIdempotent(line: string)
    ensures CleanLine(CleanLine(line)) == CleanLine(line)
  {
    var u := CleanLine(line);
    ReplaceCharByNothing(u, '\n');
    FilterKeepsAll(u, x => x != '\n');
    StripFixedPoint(ReplaceAll(line, "\n", ""));
  }

  /** Cleaning the cleaned list changes nothing: its entries are already
      stripped, without line breaks, and not blank. */
  lemma CleanUnitListIdempotent(lines: seq<string>)
    ensures CleanUnitList(CleanUnitList(lines)) == CleanUnitList(lines)
  {
    var r := CleanUnitList(lines);
    var cleaned := seq(|r|, i requires 0 <= i < |r| => CleanLine(r[i]));
    forall i | 0 <= i < |r| ensures cleaned[i] == r[i] && r[i] != "" {
      assert r[i] in r;
      var j :| 0 <= j < |lines| && CleanLine(lines[j]) == r[i];
      CleanLineIdempotent(lines[j]);
    }
    assert cleaned == r;
    RemoveAllIsWithout(r, "");
    WithoutNothingDropped(r, [""]);
  }

  /** The elements of a list as a set (`set(list)`). */
  function ElemSet<T>(l: seq<T>): set<T>
  {
    set x | x in l
  }

  /** The duplicate check: `len(set(list)) != len(list)`. */
  predicate HasDuplicates<T(==)>(l: seq<T>)
  {
    |ElemSet(l)| != |l|
  }

  /** The set is never larger than the list, and is as large exactly when
      the list has no repeats: the check reports precisely the lists with a
      repeated entry. */
  lemma {:induction false} DuplicateCheckIff<T(!new)>(l: seq<T>)
    ensures |ElemSet(l)| <= |l|
    ensures !HasDuplicates(l) <==> Distinct(l)
    decreases |l|
  {
    if |l| > 0 {
      var n := |l| - 1;
      var front := l[..n];
      DuplicateCheckIff(front);
      assert l == front + [l[n]];
      assert ElemSet(l) == ElemSet(front) + {l[n]};
      if l[n] in front {
        assert ElemSet(l) == ElemSet(front);
        var j :| 0 <= j < n && front[j] == l[n];
        assert !Distinct(l) by { assert l[j] == l[n]; }
      } else {
        assert l[n] !in ElemSet(front);
        assert Distinct(l) <==> Distinct(front) by {
          if Distinct(front) {
            forall i, j | 0 <= i < j < |l| ensures l[i] != l[j] {
              if j < n { assert l[i] == front[i] && l[j] == front[j]; }
              else { assert l[i] in front; }
            }
          }
          if Distinct(l) {
            forall i, j | 0 <= i < j < |front| ensures front[i] != front[j] {
              assert front[i] == l[i] && front[j] == l[j];
            }
          }
        }
      }
    }
  }

  /** `unitlist.reverse()`. */
  function Reverse<T>(l: seq<T>): (r: seq<T>)
    ensures |r| == |l|
    ensures forall i :: 0 <= i < |l| ==> r[i] == l[|l| - 1 - i]
  {
    seq(|l|, i requires 0 <= i < |l| => l[|l| - 1 - i])
  }

  lemma ReverseReverse<T>(l: seq<T>)
    ensures Reverse(Reverse(l)) == l
    ensures multiset(Reverse(l)) == multiset(l)
  {
    var r := Reverse(l);
    assert Reverse(r) == l;
    ReverseMultiset(l);
  }

  lemma {:induction false} ReverseMultiset<T>(l: seq<T>)
    ensures multiset(Reverse(l)) == multiset(l)
    decreases |l|
  {
    if |l| > 0 {
      var n := |l| - 1;
      ReverseMultiset(l[..n]);
      assert Reverse(l) == [l[n]] + Reverse(l[..n]);
      assert l == l[..n] + [l[n]];
    }
  }

  // ---------------------------------------------------------------------------
  // units on the stratlines

  /** What the stratline scan gathers: the distinct non-blank units in
      first-seen order, the number of rows without one, and each row's
      value after the update (stripped when it had a unit). */
  datatype UnitScan = UnitScan(units: seq<string>, blanks: nat, rows: seq<Option<string>>)

  /** The unit a row contributes: its stripped text, when not blank. A
      null row contributes none. */
  function RowUnit(row: Option<string>): Option<string>
  {
    match row
    case None => None
    case Some(t) => if Strip(t) == "" then None else Some(Strip(t))
  }

  /** The row's value after the update: stripped when it had a unit. */
  function Rewritten(row: Option<string>): Option<string>
  {
    if RowUnit(row).Some? then RowUnit(row) else row
  }

  /** The values present in a list of optional values, in order. */
  function Somes<T(!new)>(l: seq<Option<T>>): (p: seq<T>)
    ensures |p| <= |l|
    ensures forall x :: x in p <==> Some(x) in l
    decreases |l|
  {
    if |l| == 0 then []
    else
      var n := |l| - 1;
      var front := Somes(l[..n]);
      assert l == l[..n] + [l[n]];
      match l[n]
      case None => front
      case Some(x) => front + [x]
  }

  /** What the scan gathers from a list of per-row units: the distinct
      units in first-seen order (`if unit not in list: append`), and the
      number of rows without one. */
  function Gather<T(==,!new)>(us: seq<Option<T>>): (g: (seq<T>, nat))
    ensures g.0 == Dedup(Somes(us))
    ensures g.1 + |Somes(us)| == |us|
    decreases |us|
  {
    if |us| == 0 then ([], 0)
    else
      var n := |us| - 1;
      var g := Gather(us[..n]);
      assert us == us[..n] + [us[n]];
      match us[n]
      case None => (g.0, g.1 + 1)
      case Some(u) =>
        DedupSnoc(Somes(us[..n]), u);
        (if u in g.0 then g.0 else g.0 + [u], g.1)
  }

  /** A list of optional values splits into its values and its empty
      positions. */
  lemma {:induction false} SomesCount<T(!new)>(l: seq<Option<T>>)
    ensures |Somes(l)| + |set i | 0 <= i < |l| && l[i].None?| == |l|
    decreases |l|
  {
    if |l| > 0 {
      var n := |l| - 1;
      SomesCount(l[..n]);
      var front := set i | 0 <= i < n && l[..n][i].None?;
      var all := set i | 0 <= i < |l| && l[i].None?;
      assert front == set i | 0 <= i < n && l[i].None?;
      if l[n].None? {
        assert all == front + {n};
      } else {
        assert all == front;
      }
    }
  }

  /** The scan with a null unit counted as a line without a unit, as the
      tool's null test intends. */
  function ScanStratUnitsCorrected(rows: seq<Option<string>>): (s: UnitScan)
    ensures s.units == Dedup(Somes(RowUnits(rows)))
    ensures s.blanks == |set i | 0 <= i < |rows| && RowUnit(rows[i]).None?|
    ensures forall u :: u in s.units <==> exists i :: 0 <= i < |rows| && RowUnit(rows[i]) == Some(u)
    ensures |s.rows| == |rows| && forall i :: 0 <= i < |rows| ==> s.rows[i] == Rewritten(rows[i])
  {
    var us := RowUnits(rows);
    var g := Gather(us);
    assert forall u :: Some(u) in us <==> exists i :: 0 <= i < |rows| && RowUnit(rows[i]) == Some(u) by {
      forall u | Some(u) in us ensures exists i :: 0 <= i < |rows| && RowUnit(rows[i]) == Some(u) {
        var i :| 0 <= i < |us| && us[i] == Some(u);
      }
    }
    assert g.1 == |set i | 0 <= i < |rows| && RowUnit(rows[i]).None?| by {
      SomesCount(us);
      assert (set i | 0 <= i < |us| && us[i].None?) == set i | 0 <= i < |rows| && RowUnit(rows[i]).None?;
    }
    UnitScan(g.0, g.1, seq(|rows|, i requires 0 <= i < |rows| => Rewritten(rows[i])))
  }

  /** The unit of every row, in row order. */
  function RowUnits(rows: seq<Option<string>>): (us: seq<Option<string>>)
    ensures |us| == |rows| && forall i :: 0 <= i < |rows| ==> us[i] == RowUnit(rows[i])
  {
    seq(|rows|, i requires 0 <= i < |rows| => RowUnit(rows[i]))
  }

  /** `row[0].strip()` on a null unit raises AttributeError. */
  function StripRow(row: Option<string>): Result<string, string>
  {
    match row
    case None => Failure("'NoneType' object has no attribute 'strip'")
    case Some(t) => Success(Strip(t))
  }

  /** The scan as the tool runs it: `row[0].strip()` comes before the null
      test, so the first null unit stops the run; without null units it
      is the corrected scan. */
  function ScanStratUnits(rows: seq<Option<string>>): (r: Result<UnitScan, string>)
    ensures r.Failure? <==> exists i :: 0 <= i < |rows| && rows[i].None?
    ensures r.Success? ==> r.value == ScanStratUnitsCorrected(rows)
  {
    assert forall i :: 0 <= i < |rows| ==> (StripRow(rows[i]).Failure? <==> rows[i].None?);
    match MapAll(StripRow, rows)
    case Failure(e) => Failure(e)
    case Success(_) => Success(ScanStratUnitsCorrected(rows))
  }

  /** One null unit is enough to stop the tool, where the null test was
      meant to count it as a line without a unit. */
  lemma NullUnitCrashes()
    ensures ScanStratUnits([None]).Failure?
    ensures ScanStratUnitsCorrected([None]).blanks == 1
  {
    var rows: seq<Option<string>> := [None];
    assert StripRow(rows[0]).Failure?;
    assert (set i | 0 <= i < |rows| && RowUnit(rows[i]).None?) == {0};
  }

  // ---------------------------------------------------------------------------
  // comparisons with the unit list

  /** The sgpg unit list: the raw unit values, null included, in the order
      first seen. */
  function SgpgUnitList(rows: seq<Option<string>>): (r: seq<Option<string>>)
    ensures Distinct(r)
    ensures forall u :: u in r <==> u in rows
  {
    Dedup(rows)
  }

  /** Text values as the optional values a table column holds. */
  function Lift(l: seq<string>): (r: seq<Option<string>>)
    ensures |r| == |l| && forall i :: 0 <= i < |l| ==> r[i] == Some(l[i])
    ensures forall u :: Some(u) in r <==> u in l
    ensures None !in r
  {
    seq(|l|, i requires 0 <= i < |l| => Some(l[i]))
  }

  /** The stratline units warned about: those the unit list lacks, in the
      order found. */
  function StratlineWarnings(found: seq<string>, unitlist: seq<string>): (w: seq<string>)
    ensures forall u :: u in w <==> u in found && u !in unitlist
    ensures Distinct(found) ==> Distinct(w)
  {
    assert Distinct(found) ==> Distinct(Without(found, unitlist)) by {
      if Distinct(found) { WithoutDistinct(found, unitlist); }
    }
    Without(found, unitlist)
  }

  /** The sgpg units warned about: those the unit list lacks, a null unit
      always among them. */
  function SgpgWarnings(sgpgUnits: seq<Option<string>>, unitlist: seq<string>): (w: seq<Option<string>>)
    ensures forall u :: u in w <==> u in sgpgUnits && (u.None? || u.value !in unitlist)
    ensures Distinct(sgpgUnits) ==> Distinct(w)
  {
    var drop := Lift(unitlist);
    assert Distinct(sgpgUnits) ==> Distinct(Without(sgpgUnits, drop)) by {
      if Distinct(sgpgUnits) { WithoutDistinct(sgpgUnits, drop); }
    }
    Without(sgpgUnits, drop)
  }

  /** The surface units (those the sgpg has) and the subsurface units (the
      rest), each in unit-list order. */
  function SurfaceUnits(unitlist: seq<string>, sgpgUnits: seq<Option<string>>): (r: seq<string>)
    ensures forall u :: u in r <==> u in unitlist && Some(u) in sgpgUnits
  {
    Filter(unitlist, u => Some(u) in sgpgUnits)
  }

  function SubsurfaceUnits(unitlist: seq<string>, sgpgUnits: seq<Option<string>>): (r: seq<string>)
    ensures forall u :: u in r <==> u in unitlist && Some(u) !in sgpgUnits
  {
    Filter(unitlist, u => Some(u) !in sgpgUnits)
  }

  /** Together the two lists hold every unit-list entry exactly as often as
      the unit list does, and no unit is in both. */
  lemma {:induction false} UnitsPartition(unitlist: seq<string>, sgpgUnits: seq<Option<string>>)
    ensures multiset(SurfaceUnits(unitlist, sgpgUnits)) + multiset(SubsurfaceUnits(unitlist, sgpgUnits)) == multiset(unitlist)
    ensures forall u :: !(u in SurfaceUnits(unitlist, sgpgUnits) && u in SubsurfaceUnits(unitlist, sgpgUnits))
    decreases |unitlist|
  {
    if |unitlist| > 0 {
      UnitsPartition(unitlist[1..], sgpgUnits);
      assert unitlist == [unitlist[0]] + unitlist[1..];
    }
  }

  /** The sgpg polygons left in the temporary copy while surface unit `k`
      is corrected: those of units `0..k` have been deleted. */
  function ErasingPolygons(sgpgRows: seq<Option<string>>, surface: seq<string>, k: nat): (r: seq<Option<string>>)
    requires k < |surface|
    ensures forall u :: u in r <==> u in sgpgRows && (u.None? || u.value !in surface[..k + 1])
  {
    Without(sgpgRows, Lift(surface[..k + 1]))
  }

  /** A unit's mask is never erased by its own polygons, and is erased by
      those of every surface unit below it in the list. */
  lemma ErasingPolygonsBelow(sgpgRows: seq<Option<string>>, surface: seq<string>, k: nat, j: nat)
    requires Distinct(surface) && k < |surface| && j < |surface|
    ensures Some(surface[k]) !in ErasingPolygons(sgpgRows, surface, k)
    ensures Some(surface[j]) in ErasingPolygons(sgpgRows, surface, k) <==> Some(surface[j]) in sgpgRows && j > k
  {
    assert surface[k] == surface[..k + 1][k];
    if j <= k {
      assert surface[j] == surface[..k + 1][j];
    } else {
      assert surface[j] !in surface[..k + 1];
    }
  }

  /** The stratline units left in the working layer when the `k`-th unit of
      the reversed list is exported as its "above" file: the lines of the
      last `k + 1` units of the list have been deleted. */
  function AboveLines(lineUnits: seq<string>, unitlist: seq<string>, k: nat): (r: seq<string>)
    requires k < |unitlist|
    ensures forall u :: u in r <==> u in lineUnits && u !in Reverse(unitlist)[..k + 1]
  {
    Without(lineUnits, Reverse(unitlist)[..k + 1])
  }

  /** The "above" file of a unit holds the lines of exactly the units listed
      before it, besides lines of units the list does not name. */
  lemma AboveLinesAreAbove(lineUnits: seq<string>, unitlist: seq<string>, k: nat, j: nat)
    requires Distinct(unitlist) && k < |unitlist| && j < |unitlist|
    ensures unitlist[j] in AboveLines(lineUnits, unitlist, k) <==> unitlist[j] in lineUnits && j < |unitlist| - 1 - k
    ensures forall u :: u in lineUnits && u !in unitlist ==> u in AboveLines(lineUnits, unitlist, k)
  {
    var n := |unitlist|;
    var rev := Reverse(unitlist)[..k + 1];
    if j >= n - 1 - k {
      assert rev[n - 1 - j] == unitlist[j];
    } else {
      forall i | 0 <= i < |rev| ensures rev[i] != unitlist[j] {
        assert rev[i] == unitlist[n - 1 - i];
      }
    }
    forall i | 0 <= i < |rev| ensures rev[i] in unitlist {
      assert rev[i] == unitlist[n - 1 - i];
    }
  }
}

=== FILE: wrappers.dfy ===
/** Option and Result, the two failure-carrying datatypes the model uses for
    Python's `None` values and for the exceptions a script raises. */
module Wrappers {

  /** A value that may be missing, as a nullable attribute of a table row is. */
  datatype Option<+T> = None | Some(value: T) {

    /** The wrapped value, or `default` when there is none. */
    function GetOr(default: T): T {
      match this
      case Some(v) => v
      case None => default
    }
  }

  /** The outcome of a step that can raise: the value it returns, or the error it raises. */
  datatype Result<+R, +E> = Success(value: R) | Failure(error: E)

  /** A loop that applies a raising step to every element in turn: the
      values in order, or the error of the first element whose step raises. */
  function MapAll<A, B(==), E(==)>(f: A -> Result<B, E>, l: seq<A>): (r: Result<seq<B>, E>)
    ensures r.Failure? <==> exists i :: 0 <= i < |l| && f(l[i]).Failure?
    ensures r.Success? ==> |r.value| == |l| && forall i :: 0 <= i < |l| ==> f(l[i]) == Success(r.value[i])
    ensures r.Failure? ==> exists i :: 0 <= i < |l| && f(l[i]) == Failure(r.error)
    ensures r.Failure? ==> exists i :: FirstFailure(f, l, i, r.error)
  {
    if |l| == 0 then Success([])
    else
      var rest := MapAll(f, l[1..]);
      assert forall i :: 0 < i < |l| ==> l[i] == l[1..][i - 1];
      match f(l[0])
      case Failure(e) =>
        assert FirstFailure(f, l, 0, e);
        Failure(e)
      case Success(v) =>
        if rest.Failure? then
          var i :| FirstFailure(f, l[1..], i, rest.error);
          assert FirstFailure(f, l, i + 1, rest.error);
          rest
        else
          Success([v] + rest.value)
  }

  /** Element `i` is the first whose step raises, and it raises `e`. */
  predicate FirstFailure<A, B(==), E(==)>(f: A -> Result<B, E>, l: seq<A>, i: int, e: E) {
    0 <= i < |l| && f(l[i]) == Failure(e) && forall j :: 0 <= j < i ==> f(l[j]).Success?
  }

  /** Two steps that agree on every element give the same run. */
  lemma {:induction false} MapAllAgree<A, B, E>(l: seq<A>, f: A -> Result<B, E>, g: A -> Result<B, E>)
    requires forall x :: f(x) == g(x)
    ensures MapAll(f, l) == MapAll(g, l)
    decreases |l|
  {
    if |l| > 0 {
      MapAllAgree(l[1..], f, g);
    }
  }

  /** Mapping a list with one more element that maps successfully gives
      the old results and then the new one. */
  lemma MapAllSnoc<A, B, E>(f: A -> Result<B, E>, l: seq<A>, x: A)
    requires MapAll(f, l).Success? && f(x).Success?
    ensures MapAll(f, l + [x]) == Success(MapAll(f, l).value + [f(x).value])
  {
    var lx := l + [x];
    assert forall i :: 0 <= i < |lx| ==> f(lx[i]).Success? by {
      forall i | 0 <= i < |lx| ensures f(lx[i]).Success? {
        if i < |l| { assert lx[i] == l[i]; }
      }
    }
    var r := MapAll(f, lx).value;
    var want := MapAll(f, l).value + [f(x).value];
    forall i | 0 <= i < |r| ensures r[i] == want[i] {
      if i < |l| {
        assert lx[i] == l[i] && f(l[i]) == Success(want[i]);
      } else {
        assert lx[i] == x;
      }
    }
    assert r == want;
  }

  /** The values that are there, in order (the rows a loop writes when it
      `continue`s past some of its inputs). */
  function Present<T(==,!new)>(l: seq<Option<T>>): (r: seq<T>)
    ensures |r| <= |l|
    ensures forall x :: x in r <==> Some(x) in l
    ensures forall x :: multiset(r)[x] == multiset(l)[Some(x)]
  {
    if |l| == 0 then []
    else
      var rest := Present(l[1..]);
      assert l == [l[0]] + l[1..];
      assert forall o :: o in l <==> o == l[0] || o in l[1..];
      assert multiset(l) == multiset([l[0]]) + multiset(l[1..]);
      match l[0]
      case None => rest
      case Some(x) => [x] + rest
  }
}
